=== FILE: README.md ===
# canary core in Dafny

This project models the pure-logic core of the canary static-analysis toolkit and proves properties about it. It has three parts.

**The z_solver benchmark pipeline.** It covers:
- `csvDealer.cpp`: the CSV line serialiser the solvers use to append their results.
- `extract_safe.py`: the degenerate-bound row filter.
- `extract_good.py`: the bad-solve row filter.
- `analysis.py`: the numeric coercion, the bit-difference comparison of bounds, the cactus curve and the cumulative solved-count curve.
- `stat.py`: per-method aggregation.
- `exp.py`: the outcome policy of the experiment runners.
- The small helpers `shift_count_lt32` and the SyGuS tokenizer.

**The analysis infrastructure.** It covers:
- the array and pointer memory layouts;
- the WPDS gen/kill transformer semiring and its sorted fact sets;
- union-find and the bit-matrix transitive closure;
- selective k-CFA limits and context pushing;
- the introspective refinement heuristics;
- the null-flow context truncation;
- the liveness and reaching-definition lattices;
- the seadsa worklist, the struct cast-map closure and the insertion-ordered set.

Conventions:
- Each source component is one module.
- LLVM values, types, functions and instructions are opaque identities.
- The metrics and types the code reads from LLVM objects are maps or function parameters.
- Results tables are rows of type `map<string, string>`, as `csv.DictReader` and pandas read them.
- Times are integers in microseconds. `std::to_string(double)` prints exactly six decimals, so a logged time reads back exactly.
- Numbers that pandas coerces are `Number = Fixed(millionths) | NaN`.
- Fixed-width arithmetic is written out where the source relies on it: a 64-bit `size_t` in the array layouts and the 32-bit `unsigned` product of introspective heuristic B. `applyHeuristics` and `printMetricsStats` both compute that product; a flag chooses it or the exact product.

Shared helper modules:
- `Wrappers`: `Option` and `Result`.
- `Strings`: split, join, replace, strip and digit conversion.
- `Seqs`: an order-preserving filter and counting.
- `Sorting`: insertion sort and running sums.
- `Table`: CSV rows and `DictReader`.
- `Numeric`: `pd.to_numeric` and fixed-point printing.
- `Interning`: the unique-layout tables.
- `Cardinality`: a subset is no larger than its superset, and one of equal size is equal to it.
- `Powers`: powers of two.

## Model

| member | source | states |
|---|---|---|
| SafeFilter.ThresholdAsymmetry | tools/z_solver/script/extract_safe.py:23-38 | At exactly half the cleaned characters, the zero test holds (threshold `>=`) while the f test fails (strict `>`); "0f" is all-zeros but not all-fs |
| SafeFilter.WordExamples | tools/z_solver/script/extract_safe.py:64 | A lower word counts only if it is `#x0…0` with at least two zeros; an upper word counts only if it is `#x` followed by lowercase `f`s (so `#xFFFFFFFF` does not count) |
| SafeFilter.MatchCountIsCardinality | tools/z_solver/script/extract_safe.py:61-65 | The counting loop yields the number of positions whose lower word is a zero word and whose upper word is an f word |
| SafeFilter.DetectCharacterisation | tools/z_solver/script/extract_safe.py:40-68 | A pair is degenerate iff both bracketed lists split into the same number of words and more than half of the positions match |
| SafeFilter.EmptyBoundsNotDegenerate | tools/z_solver/script/extract_safe.py:53-68 | Splitting always yields at least one word, so `[]` gives `[""]`, the `len(s1) == 0` branch is never taken, and `[]`/`[]` is not degenerate |
| SafeFilter.HalfIsNotDegenerate | tools/z_solver/script/extract_safe.py:68 | When exactly half of the positions match, or fewer, the row is not degenerate |
| SafeFilter.WordsOfList | tools/z_solver/script/extract_safe.py:53-54 | A bracketed comma-joined list of clean words splits back into exactly those words |
| SafeFilter.DetectExampleDegenerate | tools/z_solver/script/extract_safe.py:40-68 | The one-word bound pair `[#x00000000]`/`[#xffffffff]` is degenerate |
| SafeFilter.DetectExampleHalf | tools/z_solver/script/extract_safe.py:61-68 | Two words with one match (exactly half) are not degenerate |
| SafeFilter.DetectExampleLengths | tools/z_solver/script/extract_safe.py:56-58 | Lists of different lengths are never degenerate, even if every compared word matches |
| SafeFilter.FilterBoundaries | tools/z_solver/script/extract_safe.py:71-83 | Fails with a KeyError exactly when some row lacks a bound column; otherwise returns the non-degenerate rows in their original order |
| SafeFilter.FilterBoundariesMembership | tools/z_solver/script/extract_safe.py:71-83 | A row is in the output iff it is in the input and not degenerate |
| SafeFilter.FilterBoundariesIdempotent | tools/z_solver/script/extract_safe.py:71-83 | Filtering the output again succeeds and changes nothing |
| SafeFilter.MainWritesIffDropped | tools/z_solver/script/extract_safe.py:98-106 | A file is written iff some row was degenerate; it goes to `<path>_new.csv` and holds the kept rows |
| GoodFilter.FilterBadSolves | tools/z_solver/script/extract_good.py:22-29 | Fails with a `Bad Solve` KeyError exactly when some row lacks the column; otherwise keeps the rows whose `Bad Solve` is not "1", in order |
| GoodFilter.FilterBadSolvesMembership | tools/z_solver/script/extract_good.py:22-29 | A row is kept iff it is in the input and not marked "1"; rows marked with the timeout code "2" are kept |
| GoodFilter.FilterBadSolvesOrder | tools/z_solver/script/extract_good.py:22-29 | The output is a subsequence of the input |
| GoodFilter.FilterBadSolvesIdempotent | tools/z_solver/script/extract_good.py:22-29 | Filtering the output again changes nothing |
| GoodFilter.MainWritesIffDropped | tools/z_solver/script/extract_good.py:44-52 | The `_new.csv` file is written iff some row was bad, and it holds the kept rows |
| Analysis.PrepareData | tools/z_solver/script/analysis.py:24-34 | Fails with a KeyError naming `Time Cost` when no row has that column, and otherwise naming `Calls` when no row has that one. Otherwise it gives one record per row, in order. The time and calls are the row's cells as `to_numeric` coerces them, or NaN when the row lacks the cell. The file and method are the row's cells, or absent when the row lacks them |
| Analysis.PrepareReadsPrinted | tools/z_solver/script/analysis.py:31-32 | A time printed with six decimals and a printed call count read back through `prepare_data_for_plotting` as exactly those numbers |
| Analysis.PrepareKeepsNaN | tools/z_solver/script/analysis.py:31-32 | An unparseable time stays NaN; it is not turned into 0 |
| Analysis.Cactus | tools/z_solver/script/analysis.py:163-174 | The cactus curve has one point per time |
| Analysis.CactusSpec | tools/z_solver/script/analysis.py:163-174 | Point i is the sum of the i+1 smallest numeric times; positions past the numeric count are NaN |
| Analysis.CactusTotal | tools/z_solver/script/analysis.py:163-174 | The last numeric point is the total of all numeric times |
| Analysis.CactusMonotone | tools/z_solver/script/analysis.py:163-174 | For non-negative times the curve never decreases |
| Analysis.CactusExample | tools/z_solver/script/analysis.py:163-174 | Times (2 s, NaN, 1 s) give the curve (1 s, 3 s, NaN) |
| Analysis.CactusSortsFirst | tools/z_solver/script/analysis.py:163-174 | Times (3 s, 1 s, 2 s) give the curve (1 s, 3 s, 6 s): the times are sorted before they are summed |
| Analysis.MethodTimes | tools/z_solver/script/analysis.py:164-167 | A method's time column has one entry per row of that method, and a time is in it iff some row of that method has it. Each time occurs exactly as often as the method's rows carry it |
| Analysis.Bin | tools/z_solver/script/analysis.py:220 | The bin is the least multiple of half a second that is at least the time |
| Analysis.PositiveBins | tools/z_solver/script/analysis.py:217-224 | After non-positive times are dropped and the zero bin is fixed, every bin is at least 1 |
| Analysis.PositiveBinsCount | tools/z_solver/script/analysis.py:217-227 | The number of bins at most k equals the number of positive numeric times solved within k half-seconds |
| Analysis.SmallTimeInFirstBin | tools/z_solver/script/analysis.py:217-224 | 0.1 s falls in the 0.5 s bin and is counted as solved at the first grid point |
| Analysis.SolvedCurveAt | tools/z_solver/script/analysis.py:237-255 | The curve starts at (0, 0), and grid point k holds the forward-filled cumulative count |
| Analysis.SolvedCurveSpec | tools/z_solver/script/analysis.py:237-255 | Grid point k holds the number of times solved within k half-seconds, or is empty before the first solved bin |
| Analysis.FfillCounts | tools/z_solver/script/analysis.py:241-250 | Forward-filling the cumulative group counts of sorted bins gives the count of bins at most k |
| Analysis.FfillSortedCounts | tools/z_solver/script/analysis.py:241-250 | The same holds after sorting arbitrary bins |
| Analysis.SolvedCurveMonotone | tools/z_solver/script/analysis.py:241-250 | Once defined, the solved curve is defined at every later grid point and never decreases |
| Analysis.ScatterCoordinate | tools/z_solver/script/analysis.py:53-54 | A missing or NaN time becomes 30 s. Every coordinate is clipped to [0, 30 s]: a negative time becomes 0, a time above 30 s becomes 30 s, and an in-range time is unchanged |
| Analysis.MethodRows | tools/z_solver/script/analysis.py:43-44 | One method's rows number exactly the rows whose `Method` is that method |
| Analysis.Partners | tools/z_solver/script/analysis.py:47-50 | Pairing one row with the other method's rows gives only pairs with the same file, the row's own time on its side, and a time of the other method on the other side |
| Analysis.Matched | tools/z_solver/script/analysis.py:47-50 | Every matched pair has both times, each taken from a row of that method with the pair's file |
| Analysis.LeftOnly | tools/z_solver/script/analysis.py:47-50 | A row of the first method gets a pair with no second time only when the second method has no row for its file |
| Analysis.RightOnly | tools/z_solver/script/analysis.py:47-50 | A row of the second method gets a pair with no first time only when the first method has no row for its file |
| Analysis.OuterMerge | tools/z_solver/script/analysis.py:47-50 | Every merged row has a time on at least one side, and each time comes from that method's rows for the row's file |
| Analysis.MergeCount | tools/z_solver/script/analysis.py:47-50 | A file with n1 rows under one method and n2 under the other gives n1 × n2 merged rows when both are present, and n1 + n2 otherwise: duplicates pair up with every partner |
| Analysis.ScatterPoints | tools/z_solver/script/analysis.py:43-54 | There is one point per row of the outer merge. Both coordinates lie in [0, 30 s]. Each side is that row's time under its method, filled and clipped: no row or NaN gives 30 s, a negative time gives 0, a time above 30 s gives 30 s, and any other time is kept |
| Bounds.HexTokensEmpty | tools/z_solver/script/analysis.py:348-353 | There are no hex tokens iff the text has no hex digit |
| Bounds.CompareBounds | tools/z_solver/script/analysis.py:348-353 | The result is None exactly when either bound has no hex token |
| Bounds.CompareTokensSpec | tools/z_solver/script/analysis.py:356-371 | The result is 0 iff every compared pair is equal in value; otherwise it is the bit length of the XOR of the first differing pair |
| Bounds.CompareTokensIgnoresExtra | tools/z_solver/script/analysis.py:356 | The pairing stops at the shorter list: extra tokens on either side change nothing |
| Bounds.HighestDifferingBit | tools/z_solver/script/analysis.py:362-368 | For differing words, the reported bit length points at the highest bit where the two words differ, and no higher bit differs |
| Bounds.XorZero | tools/z_solver/script/analysis.py:362-365 | The XOR is zero iff the two values are equal |
| Bounds.CompareBoundsExample | tools/z_solver/script/analysis.py:348-368 | `#x0F` against `#x1F` gives 5 |
| Numeric.ToNumeric | tools/z_solver/script/analysis.py:31-32 | A cell becomes a number iff, after an optional sign, it is digits with at most one point, at least one digit and at most six decimals. The number is then that signed decimal value. Every other cell, the empty one included, becomes NaN |
| Numeric.ToNumericNegative | tools/z_solver/script/analysis.py:31-32 | A leading minus negates the value read from the rest of the cell |
| Numeric.FormatParseRoundTrip | tools/z_solver/script/analysis.py:31 | A time printed with six decimals, as `std::to_string` prints it, is read back by `to_numeric` as exactly the same value |
| Numeric.IntRoundTrip | tools/z_solver/script/analysis.py:32 | A printed integer reads back as that integer |
| Numeric.CoerceToNaN | tools/z_solver/script/analysis.py:31-32 | "", "abc" and "-" all coerce to NaN |
| Numeric.CoerceDecimal | tools/z_solver/script/analysis.py:31-32 | "1.5" coerces to 1.5 |
| Stat.NormalizeRemovesWidth | tools/z_solver/script/stat.py:7-13 | A listed width marker spliced into an unmarked name is removed and the rest is kept |
| Stat.NormalizeUnmarkedPath | tools/z_solver/script/stat.py:7-13 | A name without any marker is unchanged |
| Stat.SubstringsPatterns | tools/z_solver/script/stat.py:7 | The removal list is every width combined with every kind |
| Stat.SubstringsDiverge | tools/z_solver/script/stat.py:7-13 | No listed pattern can start inside another one, so removals in sequence do not interfere |
| Stat.SelectedMembership | tools/z_solver/script/stat.py:15-32 | A row feeds the statistics iff its time is at most 60 s, at least 6 rows within a minute, over all methods, share its normalised name, and its `Bad Solve` is 0 |
| Stat.SelectedOrder | tools/z_solver/script/stat.py:28-32 | The selected rows keep their order |
| Stat.Divide | tools/z_solver/script/stat.py:42 | Division gives a ratio iff the divisor is nonzero |
| Stat.Mean | tools/z_solver/script/stat.py:37-40 | The mean is NaN iff there is no numeric value; otherwise it is the sum over the count of the numeric values |
| Stat.Group | tools/z_solver/script/stat.py:35-41 | A method's group holds exactly the rows of that method, each as many times as the table has it, in table order |
| Stat.Stats | tools/z_solver/script/stat.py:35-43 | The table built with the corrected time per check has one entry per method among the selected rows |
| Stat.StatsAsWritten | tools/z_solver/script/stat.py:35-43 | The table as written has one entry per method among the selected rows |
| Stat.StatsAsWrittenDiffers | tools/z_solver/script/stat.py:35-43 | The written and corrected tables agree on every method and every column except the time per check. That column differs exactly when a method has nonzero total time and no checks, where the written table holds +inf or -inf by the time's sign |
| Stat.AggregateSpec | tools/z_solver/script/stat.py:35-41 | For each method: the count, the time sum and mean, and the call sum and mean, over the numeric values |
| Stat.StatsOfMethod | tools/z_solver/script/stat.py:35-43 | A method's entry aggregates exactly its selected rows |
| Stat.AvgTimePerCheck | tools/z_solver/script/stat.py:42-43 | The average is always a finite ratio: time over checks, or 0 when there were no checks |
| Stat.AvgTimePerCheckInfinite | tools/z_solver/script/stat.py:42-43 | As written, 1 s over 0 checks gives +inf, while the corrected version gives 0 |
| Stat.AvgTimePerCheckAgrees | tools/z_solver/script/stat.py:42-43 | As written, the result is finite iff there are checks or the time is 0, and where it is finite it agrees with the corrected version |
| Exp.DirRunDispatches | tools/z_solver/script/exp.py:12-26 | Exactly the `.smt2` files are run, in walk order, each with the program, file, solver, output, domain and timeout arguments |
| Exp.DirRun | tools/z_solver/script/exp.py:12-39 | One command per `.smt2` file, each with the given program, solver, output, domain and timeout |
| Exp.DirRunIgnoresOutcomes | tools/z_solver/script/exp.py:28-39 | The commands issued do not depend on earlier outcomes: a failing or timed-out run does not stop the loop |
| Exp.DirRunLog | tools/z_solver/script/exp.py:32-39 | Each run that times out appends exactly one row, `[file, solver, timeout]`, to the log; a nonzero exit logs nothing |
| Exp.DirRunNoDeadline | tools/z_solver/script/exp.py:29-30 | With a timeout of -1 nothing ever times out, so nothing is logged |
| Exp.NoDeadlineNoRows | tools/z_solver/script/exp.py:29-30 | Without a deadline no command produces a timeout row |
| Exp.TimeoutRowsShape | tools/z_solver/script/exp.py:35-37 | Every logged row is `[file, solver, timeout]` of a command that timed out; without commas in names, each row has three cells |
| Exp.ListRunSpec | tools/z_solver/script/exp.py:50-73 | The corrected list runner issues one command per row, in order, taking each row's File and Method, and stops only at a row missing those columns |
| Exp.ListRun | tools/z_solver/script/exp.py:50-73 | The corrected list runner issues at most one command per row and can only fail on a missing column |
| Exp.ListRunAsWritten | tools/z_solver/script/exp.py:50-73 | As written, nothing is ever logged, and at most one command is issued per row |
| Exp.ListRunAsWrittenStops | tools/z_solver/script/exp.py:66-71 | As written, the list runner stops with a NameError right after the first timeout and runs no further rows |
| Exp.ListRunTimeoutExample | tools/z_solver/script/exp.py:66-71 | A one-row list whose run times out raises the NameError |
| Exp.HeaderlessLogAsWritten | tools/z_solver/script/exp.py:35-48 | The timeout log has no header, so reading it with `DictReader` loses its first row and keys the rest by that row's cells |
| Exp.HeadedLogRows | tools/z_solver/script/exp.py:44-57 | A log written with its `File,Method,Timeout` header reads back with one row per entry, carrying its file and solver |
| Exp.HeadedLogRerun | tools/z_solver/script/exp.py:44-57 | Rerunning a headed log issues one command per logged entry |
| Exp.LoggedRowReadsBack | tools/z_solver/script/exp.py:44-51 | A logged row without commas reads back column by column |
| Exp.DirRunRerun | tools/z_solver/script/exp.py:9-73 | Rerunning the (headed) timeout log of a directory run retries exactly the timed-out files with the same solver |
| CsvDealer.BestInvTextJoin | tools/z_solver/csvDealer.cpp:10-12 | The line is the file, method, bad flag, time, calls and info fields joined by commas, in that order (time before calls) |
| CsvDealer.BestInvSplit | tools/z_solver/csvDealer.cpp:10-12 | Without commas in the text fields, the line splits back into its six cells |
| CsvDealer.BestInvCommas | tools/z_solver/csvDealer.cpp:10-12 | The line has exactly 5 commas iff file name, method and info contain no comma |
| CsvDealer.BestInvHeaderColumns | tools/z_solver/csvDealer.cpp:21 | The header splits into the six column names, in the same order as the line |
| CsvDealer.BestInvReadBack | tools/z_solver/csvDealer.cpp:6-12 | Read with its header, the line gives each column its own field |
| CsvDealer.BestInvNumbersReadBack | tools/z_solver/csvDealer.cpp:6-12 | The `Time Cost` column reads back as the time and `Calls` as the call count, not swapped, even though the constructor takes calls before time |
| CsvDealer.BoolText | tools/z_solver/csvDealer.cpp:34 | A flag prints as 1 or 0 |
| CsvDealer.KInductionReadBack | tools/z_solver/csvDealer.cpp:33-35 | The k-induction line read with its header gives each column its field |
| CsvDealer.KInductionNumbersReadBack | tools/z_solver/csvDealer.cpp:33-35 | `Time Cost` and `K_needed` read back as the time and the k reached |
| CsvDealer.KInductionHeaderColumns | tools/z_solver/csvDealer.cpp:44 | The k-induction header splits into its six column names |
| CsvDealer.SessionsAppend | tools/z_solver/csvDealer.cpp:48-50 | Sessions on an existing file only append their lines; no header is repeated |
| CsvDealer.SessionsFromMissing | tools/z_solver/csvDealer.cpp:14-22 | On a missing file, the first session writes the header once, then every line |
| CsvDealer.BestInvRowColumns | tools/z_solver/csvDealer.cpp:21 | A logged row has only the header's columns, so it has no `Lower Bound` or `Upper Bound` |
| CsvDealer.SafeFilterRejectsLog | tools/z_solver/csvDealer.cpp:21 | The degenerate-bound filter fails with a `Lower Bound` KeyError on any non-empty log written by the solver |
| CsvDealer.GoodFilterOnLog | tools/z_solver/csvDealer.cpp:10-21 | The bad-solve filter accepts such a log and keeps exactly the entries whose bad flag is not 1 |
| CsvDealer.IntTextIsOne | tools/z_solver/csvDealer.cpp:11 | A printed integer is "1" iff it is 1 |
| ArrayLayout.TripleCheckAgrees | lib/Alias/FSCS/MemoryModel/ArrayLayout.cpp:20-26 | When start + size does not overflow 64 bits, the wrapping triple check holds iff start + size <= end and size divides end - start |
| ArrayLayout.TripleCheckWraps | lib/Alias/FSCS/MemoryModel/ArrayLayout.cpp:22-23 | The triple (SIZE_MAX, 0, 1) passes the wrapping check although start + size exceeds end |
| ArrayLayout.AdjacentSortedPairwise | lib/Alias/FSCS/MemoryModel/ArrayLayout.cpp:28-37 | Checking adjacent pairs orders the whole list: start ascending, and on equal start size descending |
| ArrayLayout.SetSizeNoDuplicates | lib/Alias/FSCS/MemoryModel/ArrayLayout.cpp:42 | The set of triples has the list's size iff no triple repeats |
| ArrayLayout.ValidListProperties | lib/Alias/FSCS/MemoryModel/ArrayLayout.cpp:18-43 | A validated list is pairwise ordered and duplicate-free, and each of its non-overflowing triples is well formed |
| ArrayLayout.GetLayout | lib/Alias/FSCS/MemoryModel/ArrayLayout.cpp:59-64 | Interning returns a table entry equal to the list; a known list leaves the table unchanged |
| ArrayLayout.OffsetInto | lib/Alias/FSCS/MemoryModel/ArrayLayout.cpp:120-135 | The result never exceeds the offset, and a miss returns the offset itself |
| ArrayLayout.OffsetIntoHit | lib/Alias/FSCS/MemoryModel/ArrayLayout.cpp:120-135 | The flag is true iff some triple covers the offset |
| ArrayLayout.OffsetIntoLands | lib/Alias/FSCS/MemoryModel/ArrayLayout.cpp:128-132 | On a hit, the result is the fold `start + (o - start) mod size` of the running offset o into the last triple that covered it. The walk reaches that triple with o, no later triple it reaches covers the running offset, and the result lies in the triple's first element |
| ArrayLayout.NoHitNoCover | lib/Alias/FSCS/MemoryModel/ArrayLayout.cpp:120-135 | A walk that reports no hit met no triple covering its running offset |
| ArrayLayout.NestedFold | lib/Alias/FSCS/MemoryModel/ArrayLayout.cpp:120-135 | Triples (0, 100, 10) then (2, 8, 2) map offset 55 to (3, true): 55 folds to 5, then 5 folds to 3 |
| ArrayLayout.FoldIdempotent | lib/Alias/FSCS/MemoryModel/ArrayLayout.cpp:131 | Folding an offset lands in the triple, and folding again changes nothing |
| ArrayLayout.ByteArrayLayout | lib/Alias/FSCS/MemoryModel/ArrayLayout.cpp:90-93 | The byte-array layout {0, max, 1} is valid and maps every offset below max to (0, true) |
| PointerLayout.InitialTableValid | lib/Alias/FSCS/MemoryModel/PointerLayout.cpp:14-30 | The pre-interned empty and single-zero layouts form a valid table |
| PointerLayout.GetLayout | lib/Alias/FSCS/MemoryModel/PointerLayout.cpp:41-45 | Equal offset sets give the same layout: the table only grows, and a known set is found in place |
| PointerLayout.Merge | lib/Alias/FSCS/MemoryModel/PointerLayout.cpp:73-87 | The merged layout's offsets are the union of both sides' offsets |
| PointerLayout.MergeIsUnion | lib/Alias/FSCS/MemoryModel/PointerLayout.cpp:73-87 | Every merge interns the union of both sides, shortcuts included |
| PointerLayout.MergeCommutes | lib/Alias/FSCS/MemoryModel/PointerLayout.cpp:84-86 | Merge is commutative |
| PointerLayout.MergeIdentities | lib/Alias/FSCS/MemoryModel/PointerLayout.cpp:77-82 | Merging a layout with itself, or with the empty layout on either side, returns that layout and leaves the table unchanged |
| Interning.Intern | lib/Alias/FSCS/MemoryModel/PointerLayout.cpp:41-45 | The returned id names an entry equal to the value; the table stays duplicate-free and only grows, by one entry when the value is new |
| Interning.InternIdempotent | lib/Alias/FSCS/MemoryModel/PointerLayout.cpp:41-45 | Interning the same value again returns the same id and table |
| DataFlowFacts.Union | lib/Dataflow/WPDS/DataFlowFacts.cpp:38-42 | The result is sorted and holds the set union |
| DataFlowFacts.Intersect | lib/Dataflow/WPDS/DataFlowFacts.cpp:44-52 | The result is sorted and holds the set intersection |
| DataFlowFacts.Diff | lib/Dataflow/WPDS/DataFlowFacts.cpp:54-62 | The result is sorted and holds the set difference |
| DataFlowFacts.InsertSpec | lib/Dataflow/WPDS/DataFlowFacts.cpp:40 | Inserting into a sorted fact set keeps it sorted and adds exactly the value |
| DataFlowFacts.EqIsSetEquality | lib/Dataflow/WPDS/DataFlowFacts.cpp:64-66 | Two sorted fact sets are equal iff they hold the same facts |
| DataFlowFacts.SizeIsCardinality | lib/Dataflow/WPDS/DataFlowFacts.cpp:86-88 | The size is the number of distinct facts |
| DataFlowFacts.AddFact | lib/Dataflow/WPDS/DataFlowFacts.cpp:72-76 | The fact is added to both the set and the universe, and both stay sorted |
| DataFlowFacts.RemoveFact | lib/Dataflow/WPDS/DataFlowFacts.cpp:78-80 | Exactly that fact is removed |
| DataFlowFacts.ContainsAfterUpdate | lib/Dataflow/WPDS/DataFlowFacts.cpp:72-84 | After removal the fact is absent and other facts are unaffected; after addition it is present in the set and the universe |
| GenKill.Make | lib/Dataflow/WPDS/GenKillTransformer.cpp:17-34 | The factory normalises kill to kill \ gen and returns bottom iff gen is the universe and kill is inside gen, and one iff both are empty; in every case applying it gives (x \ kill) ∪ gen |
| GenKill.OperationsNormal | lib/Dataflow/WPDS/GenKillTransformer.cpp:9-11 | extend and combine keep every transformer normalised (kill and gen disjoint, canonical constants) |
| GenKill.ZeroYieldsNothing | lib/Dataflow/WPDS/GenKillTransformer.cpp:42-46 | Zero, and anything equal to it, maps every fact set to the empty set |
| GenKill.ZeroLaws | lib/Dataflow/WPDS/GenKillTransformer.cpp:54-58 | Zero absorbs extend on both sides and is the identity of combine |
| GenKill.OneLaws | lib/Dataflow/WPDS/GenKillTransformer.cpp:60-66 | One is the identity of apply and, for non-zero operands, of extend |
| GenKill.ExtendComposes | lib/Dataflow/WPDS/GenKillTransformer.cpp:68-75 | For non-zero operands, applying t.extend(y) is applying t and then y |
| GenKill.CombineJoins | lib/Dataflow/WPDS/GenKillTransformer.cpp:88-92 | Applying t.combine(y) gives the union of both applications |
| GenKill.EqualAsymmetric | lib/Dataflow/WPDS/GenKillTransformer.cpp:125-139 | `equal` is not symmetric: a plain transformer that kills the whole universe equals zero from its own side, but zero does not equal it |
| DisjointSet.Root | include/Support/ADT/DisjointSet.h:59-64 | Following parents ends at a self-parented root whose rank is above every non-root on the way |
| DisjointSet.Find | include/Support/ADT/DisjointSet.h:59-64 | Find returns the root, and path compression keeps the forest valid, keeps every root and points the element at its root |
| DisjointSet.FindKeepsRoots | include/Support/ADT/DisjointSet.h:59-64 | Compression changes no element's root or rank |
| DisjointSet.CompressedRoot | include/Support/ADT/DisjointSet.h:59-64 | A compressed forest has the same roots as the original |
| DisjointSet.FindSet | include/Support/ADT/DisjointSet.h:47-49 | Looking up an absent element is an error; otherwise it gives the root and keeps the elements |
| DisjointSet.MakeSet | include/Support/ADT/DisjointSet.h:25-30 | makeSet does nothing for a present element; otherwise it adds a self-rooted singleton of rank 0 without moving other roots |
| DisjointSet.Union | include/Support/ADT/DisjointSet.h:32-45 | Union fails iff either element is absent; otherwise it keeps the forest valid over the same elements |
| DisjointSet.UnionRoot | include/Support/ADT/DisjointSet.h:32-45 | After union, elements of the two joined classes share one root and every other element keeps its root |
| DisjointSet.UnionJoins | include/Support/ADT/DisjointSet.h:32-45 | After doUnion(a, b), findSet(a) == findSet(b) |
| DisjointSet.UnionRanks | include/Support/ADT/DisjointSet.h:40-42 | A rank grows by one only when the two roots had equal rank, and only for the surviving root |
| DisjointSet.Link | include/Support/ADT/DisjointSet.h:40-44 | Linking two roots keeps the forest valid over the same elements |
| DisjointSet.LinkRoot | include/Support/ADT/DisjointSet.h:40-44 | After linking, members of either class have the surviving root and others keep theirs |
| DisjointSet.SizeCounts | include/Support/ADT/DisjointSet.h:51-53 | makeSet of a new element adds one to the size, and union leaves it unchanged |
| BitMatrix.Create | include/Support/ADT/BitMatrix.h:12 | A new N×N matrix has no bit set |
| BitMatrix.Set | include/Support/ADT/BitMatrix.h:20-36 | After set(r, c, v), test(r, c) == v and every other bit is unchanged |
| BitMatrix.SetCount | include/Support/ADT/BitMatrix.h:15-28 | Setting a bit changes the count by exactly one when its value flips, and not otherwise |
| BitMatrix.Resize | include/Support/ADT/BitMatrix.h:39-43 | Resize sets N and clears every bit |
| BitMatrix.OrRow | include/Support/ADT/BitMatrix.h:65-77 | OR-ing row j into row i adds only pairs (i, x) reachable through j, never clears a bit, and covers row j |
| BitMatrix.Pass | include/Support/ADT/BitMatrix.h:58-89 | One pass over row i only adds reachable pairs, reports a change iff the matrix changed, and leaves row i settled |
| BitMatrix.TransitiveClosure | include/Support/ADT/BitMatrix.h:45-90 | The closure never clears a bit, and (a, b) ends up set iff a path of length at least 1 leads from a to b |
| SelectiveKCFA.Initial | lib/Alias/FSCS/Context/SelectiveKCFA.cpp:57-73 | A fresh configuration has no per-site limit, so every getter answers the default limit |
| SelectiveKCFA.SetCallSiteLimit | lib/Alias/FSCS/Context/SelectiveKCFA.cpp:32-35 | Setting a call-site limit records only that site and leaves the default and the alloc-site limits unchanged |
| SelectiveKCFA.SetAllocSiteLimit | lib/Alias/FSCS/Context/SelectiveKCFA.cpp:46-49 | Setting an alloc-site limit records only that site and leaves the rest unchanged |
| SelectiveKCFA.SetDefaultLimit | include/Alias/FSCS/Context/SelectiveKCFA.h:41 | Changing the default leaves the per-site tables unchanged |
| SelectiveKCFA.GetAfterSet | lib/Alias/FSCS/Context/SelectiveKCFA.cpp:32-73 | A getter returns the stored limit or the default; setting one site's limit changes the answer for that site only and never for the other kind |
| SelectiveKCFA.DefaultOnlyMovesUnset | lib/Alias/FSCS/Context/SelectiveKCFA.cpp:57-61 | A new default changes the limit only of sites without their own limit |
| SelectiveKCFA.Push | include/Alias/FSCS/Context/Context.h:42 | Pushing puts the instruction on top of the context and keeps the rest |
| SelectiveKCFA.PushContext | lib/Alias/FSCS/Context/SelectiveKCFA.cpp:99-110 | With the size at most k, the context is unchanged at size k and grows by the instruction below k; the result never exceeds k |
| SelectiveKCFA.UniformLimitKeepsAssertion | lib/Alias/FSCS/Context/SelectiveKCFA.cpp:105 | When every site has the same limit, the size assertion holds for every push in a run |
| SelectiveKCFA.MixedLimitsBreakAssertion | lib/Alias/FSCS/Context/SelectiveKCFA.cpp:105-109 | With limit 1 at one site and 0 at another, pushing at the first and then at the second violates the assertion |
| SelectiveKCFA.PushContextClamped | lib/Alias/FSCS/Context/SelectiveKCFA.cpp:105-109 | The corrected push returns a context at or above the limit unchanged, pushes below it, and agrees with the original wherever the assertion holds |
| SelectiveKCFA.MaxLimit | lib/Alias/FSCS/Context/SelectiveKCFA.cpp:57-61 | The maximum is at least the limit of every site in the run |
| SelectiveKCFA.ClampedRunBounded | lib/Alias/FSCS/Context/SelectiveKCFA.cpp:105-109 | A run of corrected pushes never grows the context past the largest limit involved or its starting size |
| SelectiveKCFA.MaxLimitLeast | lib/Alias/FSCS/Context/SelectiveKCFA.cpp:57-61 | The maximum is the least bound on the run's limits |
| SelectiveKCFA.SetCallSites | lib/Alias/FSCS/Context/SelectiveKCFA.cpp:121-129 | Exactly the chosen call sites of the body get the limit; all other limits are unchanged |
| SelectiveKCFA.SetKLimitForFunctionCallSites | lib/Alias/FSCS/Context/SelectiveKCFA.cpp:121-129 | Every call site in the function gets limit k; no other limit changes |
| SelectiveKCFA.SetKLimitForFunctionAllocSites | lib/Alias/FSCS/Context/SelectiveKCFA.cpp:140-156 | Every allocation site in the function gets limit k; no other limit changes |
| SelectiveKCFA.SetKLimitForCallSitesByName | lib/Alias/FSCS/Context/SelectiveKCFA.cpp:168-198 | Exactly the call sites, in defined functions, whose callee name matches get limit k |
| SelectiveKCFA.SetKLimitForFunctionsList | lib/Alias/FSCS/Context/SelectiveKCFA.cpp:209-214 | Every call site of every listed function gets limit k |
| SelectiveKCFA.Distribution | lib/Alias/FSCS/Context/SelectiveKCFA.cpp:233-236 | The distribution lists exactly the limit values in use, each with a count of at least one |
| SelectiveKCFA.CountWith | lib/Alias/FSCS/Context/SelectiveKCFA.cpp:233-236 | The count is at most the number of customised sites. It is positive iff some site uses the limit, and it equals the number of sites iff every site uses that limit |
| SelectiveKCFA.CountWithInsert | lib/Alias/FSCS/Context/SelectiveKCFA.cpp:233-236 | Customising one more site adds one to the count of its limit and leaves every other count unchanged |
| SelectiveKCFA.CountsBelowSites | lib/Alias/FSCS/Context/SelectiveKCFA.cpp:233-236 | The counts printed for the limits below n add up to the number of sites whose limit is below n |
| SelectiveKCFA.DistributionTotal | lib/Alias/FSCS/Context/SelectiveKCFA.cpp:233-236 | The printed counts add up to the number of customised call sites |
| SelectiveKCFA.SitesWithCountBound | lib/Alias/FSCS/Context/SelectiveKCFA.cpp:233-236 | At most every site has limit k, and all of them do iff every site's limit is k |
| SelectiveKCFA.SitesWithCount | lib/Alias/FSCS/Context/SelectiveKCFA.cpp:233-236 | Some site has limit k iff k is among the limit values |
| Introspective.U32Mul | lib/Alias/FSCS/Context/IntrospectiveSelectiveKCFA.cpp:439 | The 32-bit product stays below 2^32 and is the true product when that fits |
| Introspective.CallsStep | lib/Alias/FSCS/Context/IntrospectiveSelectiveKCFA.cpp:372-396 | Handling one call site sets its limit as the heuristic decides and keeps the work done on earlier sites |
| Introspective.SetCallSiteLimits | lib/Alias/FSCS/Context/IntrospectiveSelectiveKCFA.cpp:372-396 | After the loop, every processed call site has the heuristic's limit and every other site is unchanged |
| Introspective.AllocsStep | lib/Alias/FSCS/Context/IntrospectiveSelectiveKCFA.cpp:358-369 | Handling one allocation site sets its limit as the heuristic decides and keeps earlier work |
| Introspective.SetAllocSiteLimits | lib/Alias/FSCS/Context/IntrospectiveSelectiveKCFA.cpp:358-369 | After the loop, every processed allocation site has the heuristic's limit and every other site is unchanged |
| Introspective.ApplyHeuristics | lib/Alias/FSCS/Context/IntrospectiveSelectiveKCFA.cpp:350-450 | A processed site gets limit 0 iff the chosen heuristic filters it, and 1 otherwise. Heuristic B's product is taken in 32 bits as written, or exactly as corrected. Unprocessed sites, including those with unknown or declaration-only callees, are untouched. The default is unchanged. The zeroed sites are exactly the filtered ones |
| Introspective.CountFilteredCallSites | lib/Alias/FSCS/Context/IntrospectiveSelectiveKCFA.cpp:468-505 | The printed call-site count is the number of call sites the heuristic filters |
| Introspective.CountFilteredAllocSites | lib/Alias/FSCS/Context/IntrospectiveSelectiveKCFA.cpp:511-540 | The printed allocation-site count is the number of allocation sites the heuristic filters, with heuristic B's product in 32 bits as written or exact as corrected |
| Introspective.CallsCountedAll | lib/Alias/FSCS/Context/IntrospectiveSelectiveKCFA.cpp:468-505 | Once every call site has been visited, the counter equals the number of filtered call sites |
| Introspective.CallsCountStep | lib/Alias/FSCS/Context/IntrospectiveSelectiveKCFA.cpp:468-505 | Visiting one call site adds one to the counter iff it is filtered |
| Introspective.AllocsCountStep | lib/Alias/FSCS/Context/IntrospectiveSelectiveKCFA.cpp:511-540 | Visiting one allocation site adds one iff it is filtered |
| Introspective.MetricsStats | lib/Alias/FSCS/Context/IntrospectiveSelectiveKCFA.cpp:452-545 | The statistics report the site totals and the filtered counts, under the 32-bit or the exact product; the filtered call sites never exceed the total |
| Introspective.ApplyAndReport | lib/Alias/FSCS/Context/IntrospectiveSelectiveKCFA.cpp:350-540 | Under the 32-bit product in both passes as written, and under the exact product in both as corrected, the filtered counts printed equal the number of sites applyHeuristics set to 0 |
| Introspective.WrappedProductRefinesHugeSite | lib/Alias/FSCS/Context/IntrospectiveSelectiveKCFA.cpp:439-441 | As written, 65536 × 65536 wraps to 0 in 32 bits, so that site escapes heuristic B although its true product exceeds the threshold |
| Introspective.WrapMattersOnlyPast32Bits | lib/Alias/FSCS/Context/IntrospectiveSelectiveKCFA.cpp:439-441 | When the product fits in 32 bits, the wrapping and the exact tests agree |
| Introspective.FilteredAllocsWrapAgree | lib/Alias/FSCS/Context/IntrospectiveSelectiveKCFA.cpp:439-441 | The filtered allocation sites are the same with and without the wrap-around under heuristic A, and under heuristic B when no product reaches 2^32 |
| NullFlowContext.Truncate | lib/NullPointer/ContextSensitiveNullFlowAnalysis.cpp:221-224 | Only the last MaxContextDepth entries are kept, in order |
| NullFlowContext.TruncateTwice | lib/NullPointer/ContextSensitiveNullFlowAnalysis.cpp:221-224 | Truncation does nothing to a short context, and two truncations equal one to the smaller depth |
| NullFlowContext.ExtendContext | lib/NullPointer/ContextSensitiveNullFlowAnalysis.cpp:295-306 | The result is a suffix of Ctx ++ [CI] of length min(\|Ctx\| + 1, depth), ending in CI when depth ≥ 1 |
| NullFlowContext.ExtendAfterTruncate | lib/NullPointer/ContextSensitiveNullFlowAnalysis.cpp:295-306 | Extending a truncated context equals extending the full one |
| NullFlowContext.ExtendFull | lib/NullPointer/ContextSensitiveNullFlowAnalysis.cpp:295-306 | At full depth the oldest entry is dropped and CI goes on top |
| NullFlowContext.Record | lib/NullPointer/ContextSensitiveNullFlowAnalysis.cpp:226 | Recording adds the edges to that function and context only, creating the entry if needed |
| NullFlowContext.AddEdge | lib/NullPointer/ContextSensitiveNullFlowAnalysis.cpp:215-227 | A missing node adds nothing; otherwise the edge is recorded under the truncated context |
| NullFlowContext.AddReturn | lib/NullPointer/ContextSensitiveNullFlowAnalysis.cpp:265-279 | A missing return node adds nothing; otherwise an edge to each target is recorded under the truncated context |
| NullFlowContext.AddArgumentRecords | lib/NullPointer/ContextSensitiveNullFlowAnalysis.cpp:229-263 | A call with a known actual records an edge to the k-th formal of each callee under the truncated context |
| NullFlowContext.AddsKeepBounded | lib/NullPointer/ContextSensitiveNullFlowAnalysis.cpp:215-279 | No recorded context is ever longer than the depth |
| Liveness.Meet | include/Dataflow/LivenessAnalysis.h:32-50 | Meet is the union of live variables, and meeting with an empty domain returns the other side |
| Liveness.MeetLaws | include/Dataflow/LivenessAnalysis.h:32-50 | Meet is commutative, associative and idempotent, has the empty domain as identity and is an upper bound |
| Liveness.Equals | include/Dataflow/LivenessAnalysis.h:53-65 | The size-and-membership check holds iff the two live sets are equal |
| Liveness.AddLiveVar | include/Dataflow/LivenessAnalysis.h:68-70 | After adding v, v is live and no other variable changes |
| Liveness.RemoveLiveVar | include/Dataflow/LivenessAnalysis.h:68-70 | After removing v, v is not live and no other variable changes |
| Liveness.AddRemoveInverse | include/Dataflow/LivenessAnalysis.h:68-70 | Adding then removing a dead variable, or removing then adding a live one, restores the domain |
| ReachingDefs.Meet | include/Dataflow/ReachingDefinitions.h:35-86 | Keys are the union of keys, each key gets the union of definitions, and an empty side returns the other |
| ReachingDefs.MergeInto | include/Dataflow/ReachingDefinitions.h:46-61 | Merging one map into another unions keys and definitions per key |
| ReachingDefs.MergeEntry | include/Dataflow/ReachingDefinitions.h:51-60 | Merging one entry adds its definitions to that variable only |
| ReachingDefs.Equals | include/Dataflow/ReachingDefinitions.h:89-115 | The key-by-key check holds iff the two maps are equal |
| ReachingDefs.SetEquals | include/Dataflow/ReachingDefinitions.h:104-111 | The per-key size-and-membership check holds iff the two sets are equal |
| ReachingDefs.EqualsIsSameDefinitions | include/Dataflow/ReachingDefinitions.h:89-115 | For maps without empty entries, equality is having the same definitions for every variable |
| ReachingDefs.AddDefinition | include/Dataflow/ReachingDefinitions.h:118-120 | The definition is added to that variable only |
| ReachingDefs.RemoveDefinition | include/Dataflow/ReachingDefinitions.h:122-129 | The definition is removed from that variable, whose key goes once its set is empty; others are unchanged |
| ReachingDefs.RemoveAllDefinitions | include/Dataflow/ReachingDefinitions.h:131-133 | The variable loses every definition and its key; others are unchanged |
| ReachingDefs.OperationsKeepNoEmptyEntries | include/Dataflow/ReachingDefinitions.h:118-133 | Every operation keeps the invariant that no key maps to an empty set |
| ReachingDefs.EmptyEntryDistinguished | include/Dataflow/ReachingDefinitions.h:122-139 | An entry with an empty set reads as no definitions, yet makes the map unequal to the empty map |
| WorkList.Create | lib/Alias/seadsa/DsaGlobal.cc:263 | A new worklist is empty |
| WorkList.Enqueue | lib/Alias/seadsa/DsaGlobal.cc:270-273 | An element already pending is ignored; otherwise it goes to the back and becomes pending |
| WorkList.Dequeue | lib/Alias/seadsa/DsaGlobal.cc:274-279 | The front element is returned and is no longer pending |
| WorkList.SizeIsPendingCount | lib/Alias/seadsa/DsaGlobal.cc:267-269 | The size is the number of distinct pending elements |
| WorkList.FirstInFirstOut | lib/Alias/seadsa/DsaGlobal.cc:270-276 | Enqueueing does not change which element comes out next, unless the list was empty |
| WorkList.Requeue | lib/Alias/seadsa/DsaGlobal.cc:274-277 | A dequeued element may be enqueued again, and it goes to the back |
| WorkList.EnqueueAll | lib/Alias/seadsa/DsaGlobal.cc:270-273 | Enqueueing a sequence keeps the old queue as a prefix and makes pending exactly the old plus the new elements |
| ZUtils.ShiftCountLt32 | tools/z_solver/utils/zUtils.cpp:4-21 | The result lies in [0, 5]: it is 0 for x ≤ 1 and 5 for x > 16 |
| ZUtils.ShiftCountIsCappedLog | tools/z_solver/utils/zUtils.cpp:8-19 | The result is the ceiling of log2 x capped at 5; for 2 ≤ x ≤ 16 it is the least s with x ≤ 2^s |
| ZUtils.CeilLog2Least | tools/z_solver/utils/zUtils.cpp:8-19 | The reference logarithm is the least exponent whose power of two reaches x |
| ZUtils.ShiftCountMonotone | tools/z_solver/utils/zUtils.cpp:4-21 | The result never decreases as x grows |
| SyGuS.FeedTracks | tools/z_solver/frontend/SyGuSParser.cpp:28-68 | Each character step keeps the tokenizer state in step with the reference scan of the input read so far |
| SyGuS.FeedAllTracks | tools/z_solver/frontend/SyGuSParser.cpp:28-68 | After the whole input the tokenizer state matches the reference scan |
| SyGuS.TokenizeKeeps | tools/z_solver/frontend/SyGuSParser.cpp:22-75 | No token is empty, and the tokens concatenate to the input minus depth-0 whitespace outside strings |
| SyGuS.SeparatedByBlank | tools/z_solver/frontend/SyGuSParser.cpp:58-61 | Whitespace at depth 0 outside a string splits the input into independently tokenized halves |
| SyGuS.ScanStep | tools/z_solver/frontend/SyGuSParser.cpp:32-64 | The reference scan drops a character exactly when it is depth-0 whitespace outside a string |
| SyGuS.Search | tools/z_solver/frontend/SyGuSParser.cpp:83 | The regex search finds a match iff one exists from the start point on. The match it returns is the leftmost one: no earlier position matches |
| SyGuS.FirstMatch | tools/z_solver/frontend/SyGuSParser.cpp:79-87 | The answer is the match of the first token that has the command prefix and in which the pattern is found. The result is empty iff no token qualifies |
| SyGuS.RunLength | tools/z_solver/frontend/SyGuSParser.cpp:83 | The run is the longest stretch of matching characters from the position |
| SyGuS.InvNameAt | tools/z_solver/frontend/SyGuSParser.cpp:95 | A name found after `synth-inv` is a non-empty run of name characters |
| SyGuS.ExtractLogic | tools/z_solver/frontend/SyGuSParser.cpp:78-89 | The logic is the capture of the first `set-logic` token the pattern fits. When no token fits, and in particular when there is no `set-logic` command, it is "LIA" |
| SyGuS.LogicOfCommand | tools/z_solver/frontend/SyGuSParser.cpp:78-89 | A leading `(set-logic L)` command with an upper-case L yields L |
| SyGuS.FirstLogicWins | tools/z_solver/frontend/SyGuSParser.cpp:78-89 | For the tokens `(set-logic ALL)` then `(set-logic LIA)`, the logic is "ALL" |
| SyGuS.LowerCaseLogic | tools/z_solver/frontend/SyGuSParser.cpp:78-89 | A `set-logic` command with a lower-case logic does not fit the pattern, so the logic is "LIA" |
| SyGuS.ExtractInvName | tools/z_solver/frontend/SyGuSParser.cpp:92-103 | An error is raised iff no `synth-inv` token fits the pattern. Otherwise the name is the capture of the first token that fits, and it is well formed |
| SyGuS.InvNameOfCommand | tools/z_solver/frontend/SyGuSParser.cpp:92-103 | A leading `(synth-inv N ...` with a well-formed N that is not followed by a name character yields N |
| SyGuS.InvNameExample | tools/z_solver/frontend/SyGuSParser.cpp:92-103 | For the tokens `(synth-inv f x)` then `(synth-inv g y)`, the name is "f" |
| SyGuS.SearchSkips | tools/z_solver/frontend/SyGuSParser.cpp:83 | Positions where the pattern does not match do not change the search result |
| SyGuS.InvNameWellFormed | tools/z_solver/frontend/SyGuSParser.cpp:95 | Every extracted invariant name is well formed |
| StructCast.ProcessEntry | lib/Alias/FSCS/FrontEnd/StructCastAnalysis.cpp:199-215 | One entry gains the targets of its targets, never itself, never loses a mapping and stays within any closed bound |
| StructCast.Round | lib/Alias/FSCS/FrontEnd/StructCastAnalysis.cpp:196-217 | A round only adds mappings; it reports no change only when the map is already closed |
| StructCast.ComputeTransitiveClosure | lib/Alias/FSCS/FrontEnd/StructCastAnalysis.cpp:193-218 | The keys are unchanged and no mapping is removed. A self-mapping appears only if it was there before. A→B, B→C and C ≠ A imply A→C. The result stays within any closed map that contains the input |
| StructCast.ExtractStructs | lib/Alias/FSCS/FrontEnd/StructCastAnalysis.cpp:227-244 | Exactly the struct pointees of the keys get an entry, and each entry holds exactly the struct pointees of the targets |
| StructCast.BuildCastMap | lib/Alias/FSCS/FrontEnd/StructCastAnalysis.cpp:193-259 | The final map relates only struct types. Its keys are the structs that cast sources point to. It holds the struct pair of every chain of casts that does not return to its start. Every pair comes from a pair of any closed map holding the casts, so nothing lies beyond the closure |
| StructCast.ChainInClosure | lib/Alias/FSCS/FrontEnd/StructCastAnalysis.cpp:193-218 | A closed map holding the casts relates the start of every chain of casts to its end, unless the chain returns to its start |
| OrderedSet.Empty | include/Support/ADT/OrderedSet.h:16 | A new set holds nothing |
| OrderedSet.Find | include/Support/ADT/OrderedSet.h:45-52 | find gives the first position holding v, or the end iff v is absent |
| OrderedSet.Count | include/Support/ADT/OrderedSet.h:54-62 | count is the number of occurrences |
| OrderedSet.Insert | include/Support/ADT/OrderedSet.h:35-43 | insert answers false and changes nothing iff v is present; otherwise it appends v |
| OrderedSet.EraseAt | include/Support/ADT/OrderedSet.h:31-33 | Erasing a position removes that element and closes up the rest in order |
| OrderedSet.Erase | include/Support/ADT/OrderedSet.h:22-29 | Erasing an absent value changes nothing; erasing a present one removes one element |
| OrderedSet.EraseIsRemoveFirst | include/Support/ADT/OrderedSet.h:22-33 | Erasing a value removes exactly its first occurrence and keeps the order of the rest |
| OrderedSet.RemoveFirstOfDistinct | include/Support/ADT/OrderedSet.h:22-29 | In a duplicate-free set, erasing v removes every v |
| OrderedSet.InsertsKeepDistinct | include/Support/ADT/OrderedSet.h:35-62 | A set built only by inserts has no duplicates, counts at most 1 and holds exactly the inserted values |
| OrderedSet.PopBack | include/Support/ADT/OrderedSet.h:64 | pop_back removes the last element |
| OrderedSet.InsertThenPop | include/Support/ADT/OrderedSet.h:35-64 | A new value is found at the end after insert, popping it restores the set, and a second insert is refused |
| Table.ReadDict | tools/z_solver/script/exp.py:44-48 | With no lines there are no rows. Otherwise the first line is the header, and each later line gives one row. A row holds exactly the header names that have a field on its line, each name with that field; under a repeated name the later field wins |
| Table.RowOf | tools/z_solver/script/exp.py:44-48 | Zipping the header with a line's fields keys the fields by the names up to the shorter of the two |
| Table.ZippedUnique | tools/z_solver/script/exp.py:44-48 | The row `dict(zip(keys, fields))` is determined by the two lists: two rows that both zip them are equal |

## Left out

- File and process I/O: opening, reading and writing files, `os.walk`, `subprocess`, argument parsing and printing are left out. File contents are sequences of lines, a directory walk is a sequence of entries, and a solver run is a function from argument lists to outcomes (`Exp.Run`).
- Plotting in `analysis.py` (matplotlib and seaborn rendering) is left out; only the data each plot is drawn from is modelled.
- CSV quoting, blank lines and floating-point syntax beyond plain decimals are left out. Cells are split on every comma, and `to_numeric` reads optionally signed decimals with at most six fractional digits.
- Times are microsecond integers rather than floats, so rounding in float sums and means is left out.
- LLVM IR traversal is left out. That covers `collectAllCasts`, the pointee-type and struct tests, `getCalledFunction`, the metric computations of the introspective analysis, instruction kinds and callee names. They are parameters: metric maps, `Ty -> Ty` and `Ty -> bool` functions, and instruction lists.
- `SyGuSParser` `extractInvParams` and `extractFunction` are left out; only `tokenize`, `extractLogic` and `extractInvName` are modelled.
- SyGuS: `std::isspace` is modelled as the six ASCII blank characters of the C locale.
- GenKill: `diff` is left out. The static `ZERO` and `BOTTOM` transformers capture the universe at their first use; the model fixes the universe as a parameter of every operation.
- BitMatrix: the flat bit-vector storage, the 32-bit index arithmetic (`idx = r * N + c`) and its overflow are left out; the matrix is a set of index pairs below N.
- OrderedSet: the copy constructor (which moves from a const source) and iterator access are left out.
- NullFlowContext: the callee context that `add` computes but never uses is left out.
- SelectiveKCFA: `printStats` is modelled only as the distribution of limit values it prints.
- StructCast: the inner `insert` loop of one entry is modelled as one set union, and the order in which map entries are visited is arbitrary; the result does not depend on it.
- Table.Rewrite: `write_csv` writes the header in the order of `data[0].keys()`, which is the input header's order. The model's rows are maps, so `Written` carries the column names as a set and does not keep that order.
- DisjointSet: the node storage (pointers held in a `std::unordered_map`) is a map from element to parent and rank.
- ArrayLayout.TripleCheckAgrees: states agreement only when start + size does not overflow 64 bits; TripleCheckWraps shows the wrapped case.
- SafeFilter: the `len(s1) == 0` branch at `extract_safe.py:68` cannot be taken, because splitting always yields at least one word; SafeFilter.EmptyBoundsNotDegenerate records it.
- CsvDealer: the solver writes one `Info` column where the filters of `extract_safe.py` read `Lower Bound` and `Upper Bound`; CsvDealer.SafeFilterRejectsLog records that the filter fails on such a log.
- ReachingDefs: a variable mapped to an empty set reads as no definitions but still makes two maps unequal; ReachingDefs.EmptyEntryDistinguished records it, and the operations never create such an entry.
- GenKill: `equal` is not symmetric; GenKill.EqualAsymmetric records it.
- Table.ReadDict: Python's `DictReader` gives a short line every header name and fills the missing ones with `None`. It gathers the extra fields of a long line in a list under the key `None`. The model drops the missing names of a short line and the extra fields of a long one. So a short row that lacks its `Bad Solve` field is kept by `extract_good.py:26`, because `None` is not `'1'`, while GoodFilter.FilterBadSolves reports a `Bad Solve` KeyError for it.
- Stat.Selected: `pd.read_csv` types a column as a whole. One `Time Cost` cell that is not a number makes the whole column text, and the comparison `<= 60` at `stat.py:15` then raises a TypeError. The model coerces each cell on its own (`StatRow` holds numbers), reads such a cell as NaN and drops its row. The same per-cell reading departs from pandas in three more cases, none of which the model follows:
  - an empty `File` cell is NaN in pandas, and `filename.replace` at `stat.py:12` (called through `stat.py:17`) then raises an AttributeError; the model normalises the empty name;
  - an empty `Method` cell is NaN in pandas, and `groupby('Method')` at `stat.py:35` drops its row; the model makes a group for the empty method in `Stats`;
  - one `Bad Solve` cell that is not a number makes the whole column text, so `df['Bad Solve'] == 0` at `stat.py:31` is false for every row and every row is dropped; the model drops only that row.
- Numeric.ToNumeric: exponents, `inf`, `nan`, surrounding blanks and more than six decimals read as NaN, where pandas reads them as floats.
- Analysis.OuterMerge: pandas orders the rows of an outer merge by file name. The model lists the matched pairs first, then the first method's unmatched rows, then the second's. The scatter plot drawn from them does not depend on the order.

## Findings

| source | as written | input that shows it | evidently intended | confidence | as-written member | corrected member |
|---|---|---|---|---|---|---|
| tools/z_solver/script/stat.py:42-43 | `total_time / total_checks` with only NaN replaced by 0 | a method with time 1 s and 0 calls gives +inf (Stat.AvgTimePerCheckInfinite, Stat.StatsAsWrittenDiffers) | an average of 0 when there were no checks | not executed | Stat.StatsAsWritten | Stat.Stats |
| tools/z_solver/script/exp.py:71 | the timeout row logs the undefined name `method` | any list row whose run times out raises NameError and ends the run | log the row's Method and go on with the next row | not executed | Exp.ListRunAsWrittenStops | Exp.ListRunSpec |
| tools/z_solver/script/exp.py:35-37 | `timeout.csv` is appended without a header, but `list_run` reads it with `DictReader` | a log of timed-out runs read back loses its first entry and lacks the `File` and `Method` keys | write the `File,Method,Timeout` header when creating the log | not executed | Exp.HeaderlessLogAsWritten | Exp.HeadedLogRerun |
| lib/Alias/FSCS/Context/SelectiveKCFA.cpp:105-109 | `pushContext` asserts the size is at most the current site's limit | limit 1 at site a, 0 at site b: push at a, then at b | return the context unchanged at or above the limit | not executed | SelectiveKCFA.MixedLimitsBreakAssertion | SelectiveKCFA.PushContextClamped |
| lib/Alias/FSCS/Context/IntrospectiveSelectiveKCFA.cpp:439-441 | heuristic B compares a 32-bit `unsigned` product with the threshold | 65536 field points-to times 65536 pointing variables wraps to 0 | compare the exact product | not executed | Introspective.WrappedProductRefinesHugeSite | Introspective.ApplyHeuristics |
| lib/Alias/FSCS/Context/IntrospectiveSelectiveKCFA.cpp:534-536 | `printMetricsStats` counts heuristic B's filtered sites with the same 32-bit product | 65536 field points-to times 65536 pointing variables wraps to 0, so the site is not counted | count with the exact product | not executed | Introspective.WrappedProductRefinesHugeSite | Introspective.MetricsStats |

=== FILE: analysis.dfy ===
/** The numeric side of `analysis.py`: coercing the result table to numbers,
    the cactus (cumulative time) curve, the accumulated-solved curve on the
    half-second grid, and the time coordinates of the pairwise scatter plot.
    Times are microseconds (see `Numeric`). */
module Analysis {
  import opened Wrappers
  import opened Table
  import opened Numeric
  import Seqs
  import opened Sorting
  import opened Strings

  /** One row of the data frame after `prepare_data_for_plotting`. */
  datatype Record = Record(file: Option<string>, solver: Option<string>, time: Number, calls: Number)

  const TimeKey: string := "Time Cost"
  const CallsKey: string := "Calls"

  function Cell(row: Row, key: string): Option<string>
  {
    if key in row then Some(row[key]) else None
  }

  /** A cell through `pd.to_numeric(errors='coerce')`; a cell the frame lacks
      is already NaN. */
  function NumericCell(row: Row, key: string): Number
  {
    if key in row then ToNumeric(row[key]) else NaN
  }

  function ToRecord(row: Row): Record
  {
    Record(Cell(row, "File"), Cell(row, "Method"), NumericCell(row, TimeKey), NumericCell(row, CallsKey))
  }

  function ToRecords(rows: seq<Row>): (rs: seq<Record>)
    ensures |rs| == |rows|
    ensures forall i :: 0 <= i < |rows| ==> rs[i] == ToRecord(rows[i])
  {
    if |rows| == 0 then [] else [ToRecord(rows[0])] + ToRecords(rows[1..])
  }

  /** `prepare_data_for_plotting` after reading: the frame has a column only if
      some row has that key, so a table with no `Time Cost` (or no `Calls`)
      column anywhere, an empty one included, raises `KeyError`. Otherwise
      each row keeps its file and method, a cell missing from a row is NaN,
      and the two numeric columns are coerced cell by cell. */
  function PrepareData(rows: seq<Row>): (r: Result<seq<Record>, KeyError>)
    ensures r.Ok? <==> (exists i :: 0 <= i < |rows| && TimeKey in rows[i]) &&
                       (exists i :: 0 <= i < |rows| && CallsKey in rows[i])
    ensures r.Err? ==> r.error == KeyError(if exists i :: 0 <= i < |rows| && TimeKey in rows[i] then CallsKey else TimeKey)
    ensures r.Ok? ==> |r.value| == |rows|
    ensures r.Ok? ==> forall i :: 0 <= i < |rows| ==>
      && r.value[i].time == (if TimeKey in rows[i] then ToNumeric(rows[i][TimeKey]) else NaN)
      && r.value[i].calls == (if CallsKey in rows[i] then ToNumeric(rows[i][CallsKey]) else NaN)
      && r.value[i].file == (if "File" in rows[i] then Some(rows[i]["File"]) else None)
      && r.value[i].solver == (if "Method" in rows[i] then Some(rows[i]["Method"]) else None)
  {
    if !exists i :: 0 <= i < |rows| && TimeKey in rows[i] then Err(KeyError(TimeKey))
    else if !exists i :: 0 <= i < |rows| && CallsKey in rows[i] then Err(KeyError(CallsKey))
    else Ok(ToRecords(rows))
  }

  /** The numbers a solver printed into the two columns come back exactly. */
  lemma PrepareReadsPrinted(rows: seq<Row>, i: nat, time: int, calls: int)
    requires i < |rows|
    requires TimeKey in rows[i] && rows[i][TimeKey] == FormatFixed(time)
    requires CallsKey in rows[i] && rows[i][CallsKey] == IntToString(calls)
    ensures PrepareData(rows).Ok?
    ensures PrepareData(rows).value[i].time == Fixed(time)
    ensures PrepareData(rows).value[i].calls == FromInt(calls)
  {
    FormatParseRoundTrip(time);
    IntRoundTrip(calls);
  }

  /** Unparseable text becomes NaN, never zero. */
  lemma PrepareKeepsNaN(rows: seq<Row>, i: nat)
    requires PrepareData(rows).Ok? && i < |rows|
    requires TimeKey in rows[i] && rows[i][TimeKey] == "n/a"
    ensures PrepareData(rows).value[i].time == NaN
  {
    assert IndexOf("n/a", '.') == None;
  }

  // ---------------------------------------------------------------------------
  // Cactus plot
  // ---------------------------------------------------------------------------

  /** The rows of method `solver`: `df[df['Method'] == solver]`. */
  function OfSolver(solver: string): Record -> bool
  {
    (r: Record) => r.solver == Some(solver)
  }

  /** The rows of method `solver` whose `Time Cost` is `t`. */
  function OfSolverAt(solver: string, t: Number): Record -> bool
  {
    (r: Record) => r.solver == Some(solver) && r.time == t
  }

  /** The `Time Cost` values of the rows whose `Method` is `solver`, in table
      order: one per such row, and nothing from other methods. */
  function MethodTimes(rs: seq<Record>, solver: string): (ts: seq<Number>)
    ensures |ts| == Seqs.Count(rs, OfSolver(solver))
    ensures forall t :: t in ts <==> exists i :: 0 <= i < |rs| && rs[i].solver == Some(solver) && rs[i].time == t
    ensures forall t :: multiset(ts)[t] == Seqs.Count(rs, OfSolverAt(solver, t))
  {
    if |rs| == 0 then []
    else
      var rest := MethodTimes(rs[1..], solver);
      assert forall i :: 1 <= i < |rs| ==> rs[i] == rs[1..][i - 1];
      (if rs[0].solver == Some(solver) then [rs[0].time] else []) + rest
  }

  function Repeat<T>(x: T, n: nat): (s: seq<T>)
    ensures |s| == n && forall i :: 0 <= i < n ==> s[i] == x
  {
    if n == 0 then [] else [x] + Repeat(x, n - 1)
  }

  function AsNumbers(vs: seq<int>): (ns: seq<Number>)
    ensures |ns| == |vs| && forall i :: 0 <= i < |vs| ==> ns[i] == Fixed(vs[i])
  {
    if |vs| == 0 then [] else [Fixed(vs[0])] + AsNumbers(vs[1..])
  }

  /** The y values of one method's cactus line: `sort_values` puts the numbers
      in ascending order with the NaNs last, and `cumsum` adds up the numbers
      while leaving NaN where the time was NaN. The x values are `1..n`. */
  function Cactus(ts: seq<Number>): (ys: seq<Number>)
    ensures |ys| == |ts|
  {
    AsNumbers(RunningSums(Sort(Numbers(ts)), 0)) + Repeat(NaN, |ts| - CountNumbers(ts))
  }

  /** Point `i` of the line is the sum of the `i + 1` smallest times, for as
      many points as there are numeric times; the rest are NaN. The sorted
      order is an ascending permutation of the numeric times. */
  lemma CactusSpec(ts: seq<Number>, i: nat)
    requires i < |ts|
    ensures i < CountNumbers(ts) ==> Cactus(ts)[i] == Fixed(Sum(Sort(Numbers(ts))[..i + 1]))
    ensures i >= CountNumbers(ts) ==> Cactus(ts)[i] == NaN
  {
    if i < CountNumbers(ts) {
      CactusPrefix(ts, i);
    } else {
      CactusNaNTail(ts, i);
    }
  }

  lemma CactusPrefix(ts: seq<Number>, i: nat)
    requires i < CountNumbers(ts)
    ensures Cactus(ts)[i] == Fixed(Sum(Sort(Numbers(ts))[..i + 1]))
  {
    PaddedSumsAt(Sort(Numbers(ts)), |ts| - CountNumbers(ts), i);
  }

  lemma CactusNaNTail(ts: seq<Number>, i: nat)
    requires CountNumbers(ts) <= i < |ts|
    ensures Cactus(ts)[i] == NaN
  {
    PaddedSumsAt(Sort(Numbers(ts)), |ts| - CountNumbers(ts), i);
  }

  /** Running sums of `s` followed by `n` NaNs, read at one index. */
  lemma PaddedSumsAt(s: seq<int>, n: nat, i: nat)
    requires i < |s| + n
    ensures i < |s| ==> (AsNumbers(RunningSums(s, 0)) + Repeat(NaN, n))[i] == Fixed(Sum(s[..i + 1]))
    ensures i >= |s| ==> (AsNumbers(RunningSums(s, 0)) + Repeat(NaN, n))[i] == NaN
  {
    if i < |s| {
      RunningSumsPrefix(s, 0, i);
    }
  }

  /** The last numeric point is the total of all numeric times. */
  lemma CactusTotal(ts: seq<Number>)
    requires CountNumbers(ts) > 0
    ensures Cactus(ts)[CountNumbers(ts) - 1] == Fixed(Sum(Numbers(ts)))
  {
    var s := Sort(Numbers(ts));
    CactusSpec(ts, CountNumbers(ts) - 1);
    assert s[..|s|] == s;
    SumSort(Numbers(ts));
  }

  /** With non-negative times the curve never decreases. */
  lemma CactusMonotone(ts: seq<Number>, i: nat, j: nat)
    requires forall k :: 0 <= k < |ts| && ts[k].Fixed? ==> ts[k].millionths >= 0
    requires i <= j < CountNumbers(ts)
    ensures Cactus(ts)[i].millionths <= Cactus(ts)[j].millionths
  {
    var s := Sort(Numbers(ts));
    CactusSpec(ts, i);
    CactusSpec(ts, j);
    NumbersNonNegative(ts);
    forall k | 0 <= k < |s| ensures s[k] >= 0 {
      assert s[k] in multiset(s);
      assert s[k] in multiset(Numbers(ts));
    }
    SumPrefixMonotone(s, i + 1, j + 1);
  }

  lemma {:induction false} NumbersNonNegative(ts: seq<Number>)
    requires forall k :: 0 <= k < |ts| && ts[k].Fixed? ==> ts[k].millionths >= 0
    ensures forall k :: 0 <= k < |Numbers(ts)| ==> Numbers(ts)[k] >= 0
  {
    if |ts| > 0 {
      NumbersNonNegative(ts[1..]);
    }
  }

  lemma {:induction false} SumPrefixMonotone(s: seq<int>, a: nat, b: nat)
    requires a <= b <= |s|
    requires forall k :: 0 <= k < |s| ==> s[k] >= 0
    ensures Sum(s[..a]) <= Sum(s[..b])
    decreases b - a
  {
    if a < b {
      SumPrefixMonotone(s, a, b - 1);
      SumSnoc(s[..b - 1], s[b - 1]);
      assert s[..b] == s[..b - 1] + [s[b - 1]];
    }
  }

  lemma {:induction false} SumSnoc(s: seq<int>, x: int)
    ensures Sum(s + [x]) == Sum(s) + x
  {
    if |s| > 0 {
      SumSnoc(s[1..], x);
      assert (s + [x])[1..] == s[1..] + [x];
    }
  }

  /** Times of 2 s, NaN and 1 s give the curve `[1, 3, NaN]`. */
  lemma CactusExample()
    ensures Cactus([Fixed(2000000), NaN, Fixed(1000000)]) == [Fixed(1000000), Fixed(3000000), NaN]
  {
    var ts := [Fixed(2000000), NaN, Fixed(1000000)];
    ExampleNumbers();
    var s := [1000000, 2000000];
    ExampleSort();
    assert RunningSums(s, 0) == [1000000, 3000000] by {
      assert s[1..] == [2000000];
      assert RunningSums([2000000], 1000000) == [3000000];
    }
    assert Cactus(ts) == AsNumbers([1000000, 3000000]) + Repeat(NaN, 1);
  }

  /** Times of 3 s, 1 s and 2 s give the curve `[1, 3, 6]`: sorted first,
      then summed. */
  lemma CactusSortsFirst()
    ensures Cactus([Fixed(3000000), Fixed(1000000), Fixed(2000000)]) ==
            [Fixed(1000000), Fixed(3000000), Fixed(6000000)]
  {
    var ts := [Fixed(3000000), Fixed(1000000), Fixed(2000000)];
    ThreeNumbers();
    var ns := Numbers(ts);
    assert ns == [3000000, 1000000, 2000000];
    ThreeSort();
    var srt := Sort(ns);
    assert srt == [1000000, 2000000, 3000000];
    ThreeSums();
    var sums := RunningSums(srt, 0);
    assert sums == [1000000, 3000000, 6000000];
    ThreeFixed();
    assert Cactus(ts) == AsNumbers(sums) + Repeat(NaN, 0);
  }

  lemma ThreeFixed()
    ensures AsNumbers([1000000, 3000000, 6000000]) == [Fixed(1000000), Fixed(3000000), Fixed(6000000)]
  {
    var ys := AsNumbers([1000000, 3000000, 6000000]);
    assert ys[0] == Fixed(1000000) && ys[1] == Fixed(3000000) && ys[2] == Fixed(6000000);
  }

  lemma ThreeNumbers()
    ensures Numbers([Fixed(3000000), Fixed(1000000), Fixed(2000000)]) == [3000000, 1000000, 2000000]
    ensures CountNumbers([Fixed(3000000), Fixed(1000000), Fixed(2000000)]) == 3
  {
    var ts := [Fixed(3000000), Fixed(1000000), Fixed(2000000)];
    assert ts[1..] == [Fixed(1000000), Fixed(2000000)];
    assert ts[1..][1..] == [Fixed(2000000)];
    assert Numbers([Fixed(2000000)]) == [2000000];
  }

  lemma ThreeSums()
    ensures RunningSums([1000000, 2000000, 3000000], 0) == [1000000, 3000000, 6000000]
  {
    var s := [1000000, 2000000, 3000000];
    assert s[1..] == [2000000, 3000000];
    assert s[1..][1..] == [3000000];
    assert RunningSums([3000000], 3000000) == [6000000];
  }

  lemma ThreeSort()
    ensures Sort([3000000, 1000000, 2000000]) == [1000000, 2000000, 3000000]
  {
    var s := [3000000, 1000000, 2000000];
    assert s[1..] == [1000000, 2000000];
    TwoSorted();
    InsertThird();
  }

  lemma TwoSorted()
    ensures Sort([1000000, 2000000]) == [1000000, 2000000]
  {
    var s := [1000000, 2000000];
    assert s[1..] == [2000000];
    assert Sort([2000000]) == [2000000];
  }

  lemma InsertThird()
    ensures Insert(3000000, [1000000, 2000000]) == [1000000, 2000000, 3000000]
  {
    assert [1000000, 2000000][1..] == [2000000];
    assert Insert(3000000, [2000000]) == [2000000, 3000000] by {
      assert [2000000][1..] == [];
    }
  }

  lemma ExampleNumbers()
    ensures Numbers([Fixed(2000000), NaN, Fixed(1000000)]) == [2000000, 1000000]
    ensures CountNumbers([Fixed(2000000), NaN, Fixed(1000000)]) == 2
  {
    var ts := [Fixed(2000000), NaN, Fixed(1000000)];
    assert ts[1..][1..] == [Fixed(1000000)];
    assert Numbers(ts[1..]) == [1000000];
  }

  lemma ExampleSort()
    ensures Sort([2000000, 1000000]) == [1000000, 2000000]
  {
    var s := [2000000, 1000000];
    assert s[1..] == [1000000];
    assert Sort([1000000]) == [1000000];
    assert Insert(2000000, [1000000]) == [1000000, 2000000] by {
      assert [1000000][1..] == [];
    }
  }

  // ---------------------------------------------------------------------------
  // Accumulated solved instances per half-second bin
  // ---------------------------------------------------------------------------

  /** Microseconds in one bin. */
  const HalfSecond: nat := 500000

  /** Bins on the plotted grid: `0.5, 1.0, ..., 60.0` seconds. */
  const GridBins: nat := 120

  /** `np.ceil(t * 2) / 2` in half-second units: the smallest `b` with
      `t <= b / 2` seconds. */
  function Bin(t: nat): (b: nat)
    ensures b * HalfSecond >= t && (b == 0 || (b - 1) * HalfSecond < t)
  {
    (t + HalfSecond - 1) / HalfSecond
  }

  /** The rows `df[df['Time Cost'] > 0]` keeps: a NaN comparison is false. */
  predicate Positive(t: Number)
  {
    t.Fixed? && t.millionths > 0
  }

  /** The special case `Time Bin == 0` → `0.5`, which no positive time reaches. */
  function FixZeroBin(b: nat): nat
  {
    if b == 0 then 1 else b
  }

  /** The time bins of the kept rows, in table order. */
  function PositiveBins(ts: seq<Number>): (bs: seq<int>)
    ensures forall i :: 0 <= i < |bs| ==> bs[i] >= 1
  {
    if |ts| == 0 then []
    else (if Positive(ts[0]) then [FixZeroBin(Bin(ts[0].millionths))] else []) + PositiveBins(ts[1..])
  }

  /** One row of `groupby(['Method', 'Time Bin']).count()` for one method. */
  datatype Group = Group(bin: int, solved: nat)

  /** Groups of equal bins in a sorted sequence, with their sizes. */
  function GroupRuns(s: seq<int>): (gs: seq<Group>)
    ensures |s| > 0 <==> |gs| > 0
    ensures |s| > 0 ==> gs[0].bin == s[0]
  {
    if |s| == 0 then []
    else
      var rest := GroupRuns(s[1..]);
      if |rest| > 0 && rest[0].bin == s[0] then [Group(s[0], rest[0].solved + 1)] + rest[1..]
      else [Group(s[0], 1)] + rest
  }

  /** `cumsum` of the solved counts, starting from `acc`. */
  function Cumulate(gs: seq<Group>, acc: nat): (cs: seq<Group>)
    ensures |cs| == |gs|
  {
    if |gs| == 0 then [] else [Group(gs[0].bin, acc + gs[0].solved)] + Cumulate(gs[1..], acc + gs[0].solved)
  }

  /** `reindex(..., method='ffill')` at one grid label: the value of the last
      row whose bin is at most `k`, or NaN (`None`) when there is none. */
  function Ffill(cs: seq<Group>, k: int): Option<nat>
  {
    if |cs| == 0 then None
    else match Ffill(cs[1..], k)
      case Some(v) => Some(v)
      case None => if cs[0].bin <= k then Some(cs[0].solved) else None
  }

  /** The curve for one method: `(0, 0)` first, then, for each grid bin
      `k = 1..120`, the forward-filled cumulative count. */
  function SolvedCurve(ts: seq<Number>): (curve: seq<(nat, Option<nat>)>)
    ensures |curve| == GridBins + 1
  {
    var cs := CumulativeGroups(ts);
    [(0, Some(0))] + seq(GridBins, i requires 0 <= i < GridBins => (i + 1, Ffill(cs, i + 1)))
  }

  /** The sorted, grouped and accumulated bins of one method. */
  function CumulativeGroups(ts: seq<Number>): seq<Group>
  {
    Cumulate(GroupRuns(Sort(PositiveBins(ts))), 0)
  }

  lemma SolvedCurveAt(ts: seq<Number>, k: nat)
    requires 1 <= k <= GridBins
    ensures SolvedCurve(ts)[0] == (0, Some(0))
    ensures SolvedCurve(ts)[k] == (k, Ffill(CumulativeGroups(ts), k))
  {
    var cs := CumulativeGroups(ts);
    var tail := seq(GridBins, i requires 0 <= i < GridBins => (i + 1, Ffill(cs, i + 1)));
    assert SolvedCurve(ts) == [(0, Some(0))] + tail;
    assert (([(0, Some(0))] + tail))[k] == tail[k - 1];
  }

  function AtMost(k: int): int -> bool
  {
    x => x <= k
  }

  /** A row solved within `k` half-seconds. */
  function SolvedWithin(k: nat): Number -> bool
  {
    t => Positive(t) && t.millionths <= k * HalfSecond
  }

  lemma {:induction false} SortedTailAbove(t: seq<int>, k: int)
    requires Sorted(t) && |t| > 0 && t[0] > k
    ensures Seqs.Count(t, AtMost(k)) == 0
  {
    if |t| > 1 {
      SortedTailAbove(t[1..], k);
    }
  }

  /** On a sorted sequence, grouping, accumulating and forward filling gives
      the number of elements at most `k`, or NaN when there is none. */
  lemma {:induction false} FfillCounts(s: seq<int>, acc: nat, k: int)
    requires Sorted(s)
    ensures Ffill(Cumulate(GroupRuns(s), acc), k) ==
      (if Seqs.Count(s, AtMost(k)) > 0 then Some(acc + Seqs.Count(s, AtMost(k))) else None)
  {
    if |s| > 0 {
      var x, t := s[0], s[1..];
      FfillCounts(t, acc + 1, k);
      var rest := GroupRuns(t);
      if |rest| > 0 && rest[0].bin == x {
        assert Cumulate(GroupRuns(s), acc) == Cumulate(rest, acc + 1);
        if x > k {
          SortedTailAbove(t, k);
        }
      } else {
        assert Cumulate(GroupRuns(s), acc) == [Group(x, acc + 1)] + Cumulate(rest, acc + 1);
        if x > k && |t| > 0 {
          SortedTailAbove(t, k);
        }
      }
    }
  }

  /** A positive time lands in a bin at most `k` exactly when it is at most
      `k` half-seconds. */
  lemma {:induction false} PositiveBinsCount(ts: seq<Number>, k: nat)
    ensures Seqs.Count(PositiveBins(ts), AtMost(k)) == Seqs.Count(ts, SolvedWithin(k))
  {
    if |ts| > 0 {
      PositiveBinsCount(ts[1..], k);
      var head := if Positive(ts[0]) then [FixZeroBin(Bin(ts[0].millionths))] else [];
      Seqs.CountAppend(head, PositiveBins(ts[1..]), AtMost(k));
      if Positive(ts[0]) {
        var t := ts[0].millionths;
        assert Bin(t) <= k <==> t <= k * HalfSecond by {
          if Bin(t) <= k {
            assert Bin(t) * HalfSecond <= k * HalfSecond;
          } else {
            assert (Bin(t) - 1) * HalfSecond >= k * HalfSecond;
          }
        }
      }
    }
  }

  /** Grid point `k` holds the number of rows solved within `k` half-seconds,
      or NaN while no row has been solved yet; the first point is `(0, 0)`. */
  lemma SolvedCurveSpec(ts: seq<Number>, k: nat)
    requires 1 <= k <= GridBins
    ensures SolvedCurve(ts)[0] == (0, Some(0))
    ensures SolvedCurve(ts)[k].0 == k
    ensures SolvedCurve(ts)[k].1 ==
      (if Seqs.Count(ts, SolvedWithin(k)) > 0 then Some(Seqs.Count(ts, SolvedWithin(k))) else None)
  {
    SolvedCurveAt(ts, k);
    FfillSortedCounts(PositiveBins(ts), k);
    PositiveBinsCount(ts, k);
  }

  /** Sorting first does not change how many elements are at most `k`. */
  lemma {:induction false} FfillSortedCounts(bins: seq<int>, k: int)
    ensures Ffill(Cumulate(GroupRuns(Sort(bins)), 0), k) ==
      (if Seqs.Count(bins, AtMost(k)) > 0 then Some(Seqs.Count(bins, AtMost(k))) else None)
  {
    var s := Sort(bins);
    FfillCounts(s, 0, k);
    Seqs.CountPermutation(s, bins, AtMost(k));
    var n := Seqs.Count(s, AtMost(k));
    assert Ffill(Cumulate(GroupRuns(s), 0), k) == if n > 0 then Some(n) else None;
  }

  /** The forward-filled counts never decrease along the grid. */
  lemma SolvedCurveMonotone(ts: seq<Number>, j: nat, k: nat)
    requires 1 <= j <= k <= GridBins
    requires SolvedCurve(ts)[j].1.Some?
    ensures SolvedCurve(ts)[k].1.Some?
    ensures SolvedCurve(ts)[j].1.value <= SolvedCurve(ts)[k].1.value
  {
    SolvedCurveSpec(ts, j);
    SolvedCurveSpec(ts, k);
    SolvedWithinMonotone(ts, j, k);
  }

  lemma {:induction false} SolvedWithinMonotone(ts: seq<Number>, j: nat, k: nat)
    requires j <= k
    ensures Seqs.Count(ts, SolvedWithin(j)) <= Seqs.Count(ts, SolvedWithin(k))
  {
    if |ts| > 0 {
      SolvedWithinMonotone(ts[1..], j, k);
      if SolvedWithin(j)(ts[0]) {
        assert j * HalfSecond <= k * HalfSecond;
      }
    }
  }

  /** A 0.1 second run is counted from the 0.5 second bin on. */
  lemma SmallTimeInFirstBin()
    ensures Bin(100000) == 1
    ensures SolvedCurve([Fixed(100000)])[1].1 == Some(1)
  {
    SolvedCurveSpec([Fixed(100000)], 1);
    assert Seqs.Count([Fixed(100000)], SolvedWithin(1)) == 1;
  }

  // ---------------------------------------------------------------------------
  // Pairwise scatter plot of times
  // ---------------------------------------------------------------------------

  /** Thirty seconds, the ceiling of the scatter plot. */
  const ScatterCap: nat := 30 * Scale

  /** `c` is the time `t` with a missing or NaN value filled with thirty
      seconds and the result clipped to the interval from zero to thirty
      seconds. */
  predicate FilledAndClipped(t: Option<Number>, c: int)
  {
    match t
    case None => c == ScatterCap
    case Some(NaN) => c == ScatterCap
    case Some(Fixed(v)) =>
      (v < 0 ==> c == 0) && (v > ScatterCap ==> c == ScatterCap) && (0 <= v <= ScatterCap ==> c == v)
  }

  /** `np.clip(t.fillna(30), 0, 30)` for one file's time under one method;
      `None` is a file the outer merge found only under the other method. */
  function ScatterCoordinate(t: Option<Number>): (c: int)
    ensures 0 <= c <= ScatterCap
    ensures (t.None? || t.value.NaN?) ==> c == ScatterCap
    ensures t.Some? && t.value.Fixed? && 0 <= t.value.millionths <= ScatterCap ==> c == t.value.millionths
    ensures t.Some? && t.value.Fixed? && t.value.millionths > ScatterCap ==> c == ScatterCap
    ensures t.Some? && t.value.Fixed? && t.value.millionths < 0 ==> c == 0
    ensures FilledAndClipped(t, c)
  {
    match t
    case None => ScatterCap
    case Some(NaN) => ScatterCap
    case Some(Fixed(v)) => if v < 0 then 0 else if v > ScatterCap then ScatterCap else v
  }

  /** One method's side of the merge: `df_method[['File', 'Time Cost']]`. */
  datatype Timed = Timed(file: Option<string>, time: Number)

  /** One row of `pd.merge(..., how='outer', on='File')`: the file and its
      time under each method, `None` where that method has no row for it. */
  datatype Merged = Merged(file: Option<string>, time1: Option<Number>, time2: Option<Number>)

  /** The rows of one method, as the merge sees them. */
  function MethodRows(rs: seq<Record>, solver: string): (ts: seq<Timed>)
    ensures |ts| == Seqs.Count(rs, OfSolver(solver))
  {
    if |rs| == 0 then []
    else (if rs[0].solver == Some(solver) then [Timed(rs[0].file, rs[0].time)] else []) + MethodRows(rs[1..], solver)
  }

  function TimedFile(f: Option<string>): Timed -> bool
  {
    (x: Timed) => x.file == f
  }

  function MergedFile(f: Option<string>): Merged -> bool
  {
    (m: Merged) => m.file == f
  }

  /** The rows of `b` with `x`'s file, each paired with `x`. */
  function Partners(x: Timed, b: seq<Timed>): (ms: seq<Merged>)
    ensures forall m :: m in ms ==> m.file == x.file && m.time1 == Some(x.time) && m.time2.Some? &&
                                    Timed(x.file, m.time2.value) in b
  {
    if |b| == 0 then []
    else (if b[0].file == x.file then [Merged(x.file, Some(x.time), Some(b[0].time))] else []) + Partners(x, b[1..])
  }

  /** Every pairing of a row of `a` with a row of `b` for the same file. */
  function Matched(a: seq<Timed>, b: seq<Timed>): (ms: seq<Merged>)
    ensures forall m :: m in ms ==> m.time1.Some? && m.time2.Some? &&
                                    Timed(m.file, m.time1.value) in a && Timed(m.file, m.time2.value) in b
  {
    if |a| == 0 then [] else Partners(a[0], b) + Matched(a[1..], b)
  }

  /** The rows of `a` whose file `b` lacks, with no time on `b`'s side. */
  function LeftOnly(a: seq<Timed>, b: seq<Timed>): (ms: seq<Merged>)
    ensures forall m :: m in ms ==> m.time1.Some? && m.time2.None? && Timed(m.file, m.time1.value) in a &&
                                    Seqs.Count(b, TimedFile(m.file)) == 0
  {
    if |a| == 0 then []
    else (if Seqs.Count(b, TimedFile(a[0].file)) == 0 then [Merged(a[0].file, Some(a[0].time), None)] else [])
         + LeftOnly(a[1..], b)
  }

  /** The rows of `b` whose file `a` lacks, with no time on `a`'s side. */
  function RightOnly(a: seq<Timed>, b: seq<Timed>): (ms: seq<Merged>)
    ensures forall m :: m in ms ==> m.time1.None? && m.time2.Some? && Timed(m.file, m.time2.value) in b &&
                                    Seqs.Count(a, TimedFile(m.file)) == 0
  {
    if |b| == 0 then []
    else (if Seqs.Count(a, TimedFile(b[0].file)) == 0 then [Merged(b[0].file, None, Some(b[0].time))] else [])
         + RightOnly(a, b[1..])
  }

  /** The outer merge on `File`: every pairing of rows of the two methods
      for the same file, then the rows of a file only one method has. Each
      merged row has a time on at least one side, and each time comes from
      that method's rows for the row's file. */
  function OuterMerge(a: seq<Timed>, b: seq<Timed>): (ms: seq<Merged>)
    ensures forall m :: m in ms ==> m.time1.Some? || m.time2.Some?
    ensures forall m :: m in ms && m.time1.Some? ==> Timed(m.file, m.time1.value) in a
    ensures forall m :: m in ms && m.time2.Some? ==> Timed(m.file, m.time2.value) in b
  {
    Matched(a, b) + LeftOnly(a, b) + RightOnly(a, b)
  }

  lemma {:induction false} PartnersCount(x: Timed, b: seq<Timed>, f: Option<string>)
    ensures Seqs.Count(Partners(x, b), MergedFile(f)) == if x.file == f then Seqs.Count(b, TimedFile(f)) else 0
  {
    if |b| > 0 {
      PartnersCount(x, b[1..], f);
      var head := if b[0].file == x.file then [Merged(x.file, Some(x.time), Some(b[0].time))] else [];
      Seqs.CountAppend(head, Partners(x, b[1..]), MergedFile(f));
    }
  }

  lemma {:induction false} MatchedCount(a: seq<Timed>, b: seq<Timed>, f: Option<string>)
    ensures Seqs.Count(Matched(a, b), MergedFile(f)) == Seqs.Count(a, TimedFile(f)) * Seqs.Count(b, TimedFile(f))
  {
    if |a| > 0 {
      var rest := Matched(a[1..], b);
      MatchedCount(a[1..], b, f);
      PartnersCount(a[0], b, f);
      assert Matched(a, b) == Partners(a[0], b) + rest;
      Seqs.CountAppend(Partners(a[0], b), rest, MergedFile(f));
      CountStep(a, TimedFile(f));
      Distribute(Seqs.Count(Matched(a, b), MergedFile(f)), Seqs.Count(a, TimedFile(f)), a[0].file == f,
                 Seqs.Count(a[1..], TimedFile(f)), Seqs.Count(b, TimedFile(f)),
                 Seqs.Count(Partners(a[0], b), MergedFile(f)), Seqs.Count(rest, MergedFile(f)));
    }
  }

  /** Counting a non-empty sequence: its head, then its tail. */
  lemma CountStep<T>(s: seq<T>, p: T -> bool)
    requires |s| > 0
    ensures Seqs.Count(s, p) == (if p(s[0]) then 1 else 0) + Seqs.Count(s[1..], p)
  {
  }

  /** One more row of the first method adds its partners to the pairings. */
  lemma Distribute(total: int, count: int, head: bool, n1: int, n2: int, partners: int, rest: int)
    requires total == partners + rest && rest == n1 * n2
    requires partners == (if head then n2 else 0) && count == (if head then 1 else 0) + n1
    ensures total == count * n2
  {
  }

  lemma {:induction false} LeftOnlyCount(a: seq<Timed>, b: seq<Timed>, f: Option<string>)
    ensures Seqs.Count(LeftOnly(a, b), MergedFile(f)) ==
      if Seqs.Count(b, TimedFile(f)) == 0 then Seqs.Count(a, TimedFile(f)) else 0
  {
    if |a| > 0 {
      LeftOnlyCount(a[1..], b, f);
      var head := if Seqs.Count(b, TimedFile(a[0].file)) == 0 then [Merged(a[0].file, Some(a[0].time), None)] else [];
      Seqs.CountAppend(head, LeftOnly(a[1..], b), MergedFile(f));
    }
  }

  lemma {:induction false} RightOnlyCount(a: seq<Timed>, b: seq<Timed>, f: Option<string>)
    ensures Seqs.Count(RightOnly(a, b), MergedFile(f)) ==
      if Seqs.Count(a, TimedFile(f)) == 0 then Seqs.Count(b, TimedFile(f)) else 0
  {
    if |b| > 0 {
      RightOnlyCount(a, b[1..], f);
      var head := if Seqs.Count(a, TimedFile(b[0].file)) == 0 then [Merged(b[0].file, None, Some(b[0].time))] else [];
      Seqs.CountAppend(head, RightOnly(a, b[1..]), MergedFile(f));
    }
  }

  /** How many merged rows a file gets: with `n1` rows under one method and
      `n2` under the other, every pairing when both are present (`n1 * n2`),
      otherwise each row of the method that has it (`n1 + n2`). */
  lemma MergeCount(a: seq<Timed>, b: seq<Timed>, f: Option<string>)
    ensures var n1, n2 := Seqs.Count(a, TimedFile(f)), Seqs.Count(b, TimedFile(f));
      Seqs.Count(OuterMerge(a, b), MergedFile(f)) == if n1 > 0 && n2 > 0 then n1 * n2 else n1 + n2
  {
    MatchedCount(a, b, f);
    LeftOnlyCount(a, b, f);
    RightOnlyCount(a, b, f);
    Seqs.CountAppend(Matched(a, b), LeftOnly(a, b), MergedFile(f));
    Seqs.CountAppend(Matched(a, b) + LeftOnly(a, b), RightOnly(a, b), MergedFile(f));
  }

  /** The scatter points of two methods: the outer merge of their rows on
      `File`, each time filled and clipped. Every point lies in the
      30-second square, one per merged row. */
  function ScatterPoints(rs: seq<Record>, m1: string, m2: string): (pts: seq<(int, int)>)
    ensures |pts| == |OuterMerge(MethodRows(rs, m1), MethodRows(rs, m2))|
    ensures forall i :: 0 <= i < |pts| ==> 0 <= pts[i].0 <= ScatterCap && 0 <= pts[i].1 <= ScatterCap
    ensures forall i :: 0 <= i < |pts| ==> var m := OuterMerge(MethodRows(rs, m1), MethodRows(rs, m2))[i];
      (m.time1.None? ==> pts[i].0 == ScatterCap) && (m.time2.None? ==> pts[i].1 == ScatterCap)
    ensures forall i :: 0 <= i < |pts| ==> var m := OuterMerge(MethodRows(rs, m1), MethodRows(rs, m2))[i];
      FilledAndClipped(m.time1, pts[i].0) && FilledAndClipped(m.time2, pts[i].1)
  {
    var ms := OuterMerge(MethodRows(rs, m1), MethodRows(rs, m2));
    seq(|ms|, i requires 0 <= i < |ms| => (ScatterCoordinate(ms[i].time1), ScatterCoordinate(ms[i].time2)))
  }
}

=== FILE: arraylayout.dfy ===
/** `ArrayLayout`: where the arrays of a type lie, as (start, end, size)
    triples over byte offsets, and the normalisation that folds an offset into
    an array onto the array's first element. Offsets are `size_t`. */
module ArrayLayout {
  import opened Interning

  /** 2^64, the modulus of `size_t` arithmetic. */
  const SizeModulus: int := 0x1_0000_0000_0000_0000

  /** `std::numeric_limits<size_t>::max()`. */
  const SizeMax: int := SizeModulus - 1

  type SizeT = x: int | 0 <= x < SizeModulus

  /** An array region: elements of `size` bytes from `start` up to `end`. */
  datatype Triple = Triple(start: SizeT, end: SizeT, size: SizeT)

  /** `size_t` addition and subtraction, wrapping modulo 2^64. */
  function AddWrap(a: SizeT, b: SizeT): SizeT
  {
    (a + b) % SizeModulus
  }

  function SubWrap(a: SizeT, b: SizeT): SizeT
  {
    (a - b) % SizeModulus
  }

  /** The per-triple test of `validateTripleList` as written: the sum and the
      difference are `size_t`, so both may wrap. The remainder by `size` is
      undefined for a zero size. */
  predicate TripleCheckAsWritten(t: Triple)
    requires t.size > 0
  {
    !(AddWrap(t.start, t.size) > t.end) && SubWrap(t.end, t.start) % t.size == 0
  }

  /** The per-triple condition the code states it checks: the range holds at
      least one element and a whole number of them. */
  predicate ValidTriple(t: Triple)
    requires t.size > 0
  {
    t.start + t.size <= t.end && (t.end - t.start) % t.size == 0
  }

  /** Without overflow the two agree. */
  lemma TripleCheckAgrees(t: Triple)
    requires t.size > 0 && t.start + t.size < SizeModulus
    ensures TripleCheckAsWritten(t) <==> ValidTriple(t)
  {
    if t.start + t.size <= t.end {
      assert SubWrap(t.end, t.start) == t.end - t.start;
    }
  }

  /** A triple that starts at the top of the address range passes the check
      as written although it ends before it starts. */
  lemma TripleCheckWraps()
    ensures TripleCheckAsWritten(Triple(SizeMax, 0, 1)) && !ValidTriple(Triple(SizeMax, 0, 1))
  {
    assert AddWrap(SizeMax, 1) == 0;
  }

  /** Every size positive: the code divides by each. */
  predicate PositiveSizes(list: seq<Triple>)
  {
    forall i :: 0 <= i < |list| ==> list[i].size > 0
  }

  /** The comparator handed to `std::is_sorted`: by start, and by descending
      size at equal starts. */
  predicate Before(a: Triple, b: Triple)
  {
    a.start < b.start || (a.start == b.start && a.size > b.size)
  }

  /** `std::is_sorted`: no element is `Before` its predecessor. */
  predicate AdjacentSorted(list: seq<Triple>)
  {
    forall i :: 0 < i < |list| ==> !Before(list[i], list[i - 1])
  }

  /** Ascending starts and, at equal starts, non-increasing sizes. */
  predicate InOrder(a: Triple, b: Triple)
  {
    a.start < b.start || (a.start == b.start && a.size >= b.size)
  }

  /** Checking neighbours is enough: the order holds between every pair. */
  lemma {:induction false} AdjacentSortedPairwise(list: seq<Triple>)
    requires AdjacentSorted(list)
    ensures forall i, j :: 0 <= i < j < |list| ==> InOrder(list[i], list[j])
    decreases |list|
  {
    if |list| > 1 {
      var init := list[..|list| - 1];
      assert AdjacentSorted(init) by {
        forall i | 0 < i < |init| ensures !Before(init[i], init[i - 1]) {
          assert init[i] == list[i] && init[i - 1] == list[i - 1];
        }
      }
      AdjacentSortedPairwise(init);
      forall i, j | 0 <= i < j < |list| ensures InOrder(list[i], list[j]) {
        if j < |list| - 1 {
          assert InOrder(init[i], init[j]);
        } else if i < j - 1 {
          assert InOrder(init[i], init[j - 1]);
        }
      }
    }
  }

  /** No triple occurs twice. */
  predicate NoDuplicates(list: seq<Triple>)
  {
    forall i, j :: 0 <= i < j < |list| ==> list[i] != list[j]
  }

  function SetOf(list: seq<Triple>): set<Triple>
  {
    set t | t in list
  }

  /** `unordered_set(list).size() == list.size()` says exactly that no triple
      occurs twice. */
  lemma {:induction false} SetSizeNoDuplicates(list: seq<Triple>)
    ensures |SetOf(list)| == |list| <==> NoDuplicates(list)
    decreases |list|
  {
    if |list| > 0 {
      var rest := list[1..];
      SetSizeNoDuplicates(rest);
      assert SetOf(list) == {list[0]} + SetOf(rest);
      SetBound(rest);
      if list[0] in rest {
        assert SetOf(list) == SetOf(rest);
        var k :| 0 <= k < |rest| && rest[k] == list[0];
        assert list[0] == list[k + 1];
      } else {
        assert |SetOf(list)| == 1 + |SetOf(rest)|;
        if NoDuplicates(rest) {
          forall i, j | 0 <= i < j < |list| ensures list[i] != list[j] {
            if i > 0 {
              assert list[i] == rest[i - 1] && list[j] == rest[j - 1];
            } else {
              assert list[j] in rest;
            }
          }
        }
        if NoDuplicates(list) {
          forall i, j | 0 <= i < j < |rest| ensures rest[i] != rest[j] {
            assert rest[i] == list[i + 1] && rest[j] == list[j + 1];
          }
        }
      }
    }
  }

  lemma {:induction false} SetBound(list: seq<Triple>)
    ensures |SetOf(list)| <= |list|
  {
    if |list| > 0 {
      SetBound(list[1..]);
      assert SetOf(list) == {list[0]} + SetOf(list[1..]);
    }
  }

  /** `validateTripleList`, as written. */
  predicate ValidateTripleList(list: seq<Triple>)
    requires PositiveSizes(list)
  {
    (forall i :: 0 <= i < |list| ==> TripleCheckAsWritten(list[i])) &&
    AdjacentSorted(list) &&
    |SetOf(list)| == |list|
  }

  /** A list that passes is ordered between every pair and has no duplicate;
      every triple below the top of the address range is a proper region. */
  lemma ValidListProperties(list: seq<Triple>)
    requires PositiveSizes(list) && ValidateTripleList(list)
    ensures forall i, j :: 0 <= i < j < |list| ==> InOrder(list[i], list[j]) && list[i] != list[j]
    ensures forall i :: 0 <= i < |list| && list[i].start + list[i].size < SizeModulus ==> ValidTriple(list[i])
  {
    AdjacentSortedPairwise(list);
    SetSizeNoDuplicates(list);
    forall i | 0 <= i < |list| && list[i].start + list[i].size < SizeModulus ensures ValidTriple(list[i]) {
      TripleCheckAgrees(list[i]);
    }
  }

  /** `getLayout`: the list must pass validation; equal lists share one layout. */
  function GetLayout(table: seq<seq<Triple>>, list: seq<Triple>): (r: Interned<seq<Triple>>)
    requires Distinct(table)
    requires PositiveSizes(list) && ValidateTripleList(list)
    ensures r.id < |r.table| && r.table[r.id] == list && Distinct(r.table)
    ensures list in table ==> r.table == table
  {
    Intern(table, list)
  }

  // ---------------------------------------------------------------------------
  // offsetInto
  // ---------------------------------------------------------------------------

  predicate Covers(t: Triple, offset: int)
  {
    t.start <= offset < t.end
  }

  /** The offset of the matching position in the first element. */
  function Fold(t: Triple, offset: int): (r: int)
    requires t.size > 0 && Covers(t, offset)
    ensures t.start <= r < t.start + t.size && r <= offset
  {
    t.start + (offset - t.start) % t.size
  }

  /** One step of the walk: fold the running offset into `t` when `t`
      covers it, else leave it. */
  function Step(t: Triple, offset: SizeT): (r: SizeT)
    requires t.size > 0
  {
    if Covers(t, offset) then Fold(t, offset) else offset
  }

  /** `offsetInto`: walk the triples in order, stop at the first one that
      starts past the current offset, and fold the offset into every triple
      that covers it; report whether any did. */
  function OffsetInto(list: seq<Triple>, offset: SizeT): (r: (SizeT, bool))
    requires PositiveSizes(list)
    ensures r.0 <= offset
    ensures !r.1 ==> r.0 == offset
  {
    if |list| == 0 || list[0].start > offset then (offset, false)
    else
      var t := list[0];
      var rest := OffsetInto(list[1..], Step(t, offset));
      (rest.0, Covers(t, offset) || rest.1)
  }

  /** With starts in ascending order, the offset meets an array exactly when
      some triple covers it. */
  lemma {:induction false} OffsetIntoHit(list: seq<Triple>, offset: SizeT)
    requires PositiveSizes(list)
    requires forall i, j :: 0 <= i < j < |list| ==> list[i].start <= list[j].start
    ensures OffsetInto(list, offset).1 <==> exists i :: 0 <= i < |list| && Covers(list[i], offset)
  {
    if |list| > 0 {
      if list[0].start > offset {
        forall i | 0 <= i < |list| ensures !Covers(list[i], offset) {
        }
      } else if !Covers(list[0], offset) {
        OffsetIntoHit(list[1..], offset);
        if exists i :: 0 <= i < |list| && Covers(list[i], offset) {
          var i :| 0 <= i < |list| && Covers(list[i], offset);
          assert Covers(list[1..][i - 1], offset);
        }
      }
    }
  }

  /** The walk from `offset` gets as far as triple `i`, arriving there with
      running offset `o`: no earlier triple started past the running offset,
      and each earlier one that covered it folded it. */
  ghost predicate Reaches(list: seq<Triple>, offset: SizeT, i: nat, o: SizeT)
    requires PositiveSizes(list)
    decreases i
  {
    if i == 0 then i < |list| && o == offset
    else
      |list| > 0 && list[0].start <= offset
      && Reaches(list[1..], Step(list[0], offset), i - 1, o)
  }

  /** On a hit, the result is the fold of the running offset into the last
      triple that covered it: that triple is reached with some running
      offset `o`, the result is `start + (o - start) mod size` for it, and
      no later triple the walk reaches covers the running offset. The
      result thus lies in the first element of that triple. */
  lemma {:induction false} OffsetIntoLands(list: seq<Triple>, offset: SizeT)
    requires PositiveSizes(list)
    ensures OffsetInto(list, offset).1 ==>
      exists i, o: SizeT :: 0 <= i < |list| && Reaches(list, offset, i, o) && Covers(list[i], o)
        && OffsetInto(list, offset).0 == Fold(list[i], o)
        && (forall j, o': SizeT :: i < j < |list| && Reaches(list, offset, j, o') ==> !Covers(list[j], o'))
    ensures OffsetInto(list, offset).1 ==>
      exists i :: 0 <= i < |list| && list[i].start <= OffsetInto(list, offset).0 < list[i].start + list[i].size
  {
    var r := OffsetInto(list, offset);
    if |list| > 0 && list[0].start <= offset {
      var t := list[0];
      var next := Step(t, offset);
      var tail := list[1..];
      assert PositiveSizes(tail);
      OffsetIntoLands(tail, next);
      var rest := OffsetInto(tail, next);
      if rest.1 {
        var i, o: SizeT :| 0 <= i < |tail| && Reaches(tail, next, i, o) && Covers(tail[i], o)
          && rest.0 == Fold(tail[i], o)
          && (forall j, o': SizeT :: i < j < |tail| && Reaches(tail, next, j, o') ==> !Covers(tail[j], o'));
        assert list[i + 1] == tail[i];
        assert Reaches(list, offset, i + 1, o);
        forall j, o': SizeT | i + 1 < j < |list| && Reaches(list, offset, j, o') ensures !Covers(list[j], o') {
          assert Reaches(tail, next, j - 1, o');
          assert list[j] == tail[j - 1];
        }
      } else if Covers(t, offset) {
        NoHitNoCover(tail, next);
        assert rest.0 == next;
        assert Reaches(list, offset, 0, offset);
        forall j, o': SizeT | 0 < j < |list| && Reaches(list, offset, j, o') ensures !Covers(list[j], o') {
          assert Reaches(tail, next, j - 1, o');
          assert list[j] == tail[j - 1];
        }
      }
    }
  }

  /** A walk that reports no hit met no triple covering its running offset. */
  lemma {:induction false} NoHitNoCover(list: seq<Triple>, offset: SizeT)
    requires PositiveSizes(list) && !OffsetInto(list, offset).1
    ensures forall j, o: SizeT :: 0 <= j < |list| && Reaches(list, offset, j, o) ==> !Covers(list[j], o)
  {
    forall j, o: SizeT | 0 <= j < |list| && Reaches(list, offset, j, o) ensures !Covers(list[j], o) {
      if j > 0 {
        var tail := list[1..];
        assert PositiveSizes(tail);
        assert !Covers(list[0], offset);
        NoHitNoCover(tail, offset);
        assert Reaches(tail, offset, j - 1, o);
        assert list[j] == tail[j - 1];
      }
    }
  }

  /** Nested arrays fold in turn: 55 folds into the outer array to 5, and
      5 then folds into the inner one to 3, an offset no triple maps 55 to
      on its own. */
  lemma NestedFold()
    ensures OffsetInto([Triple(0, 100, 10), Triple(2, 8, 2)], 55) == (3, true)
  {
    var list := [Triple(0, 100, 10), Triple(2, 8, 2)];
    assert Step(list[0], 55) == 5;
    assert list[1..] == [Triple(2, 8, 2)];
    assert Step(list[1], 5) == 3;
    assert OffsetInto(list[1..][1..], 3) == (3, false);
  }

  /** Folding into a single array is idempotent. */
  lemma FoldIdempotent(t: Triple, offset: SizeT)
    requires t.size > 0 && ValidTriple(t) && Covers(t, offset)
    ensures Covers(t, Fold(t, offset)) && Fold(t, Fold(t, offset)) == Fold(t, offset)
  {
    var f := Fold(t, offset);
    ModOfRemainder(offset - t.start, t.size);
  }

  lemma ModOfRemainder(x: nat, z: nat)
    requires z > 0
    ensures (x % z) % z == x % z
  {
    var r := x % z;
    assert r < z;
  }

  /** `getByteArrayLayout`: one array of bytes from 0 with no upper bound. */
  const ByteArray: seq<Triple> := [Triple(0, SizeMax, 1)]

  /** The byte array passes validation, and folds every offset below the
      maximum onto 0; the maximum itself lies past its end. */
  lemma ByteArrayLayout(offset: SizeT)
    ensures PositiveSizes(ByteArray) && ValidateTripleList(ByteArray)
    ensures offset < SizeMax ==> OffsetInto(ByteArray, offset) == (0, true)
    ensures offset == SizeMax ==> OffsetInto(ByteArray, offset) == (SizeMax, false)
  {
    assert SetOf(ByteArray) == {Triple(0, SizeMax, 1)};
    assert ByteArray[1..] == [];
  }
}

=== FILE: bitmatrix.dfy ===
/** `BitMatrix`: an N×N relation over `0..N-1` stored as bits, with the
    worklist transitive closure. The bit vector is modelled as the set of
    pairs whose bit is set. */
module BitMatrix {

  type Bits = set<(nat, nat)>

  datatype Matrix = Matrix(n: nat, bits: Bits)

  /** Every set bit lies inside the N×N square. */
  predicate InRange(b: Bits, n: nat)
  {
    forall q :: q in b ==> q.0 < n && q.1 < n
  }

  predicate WellFormed(m: Matrix)
  {
    InRange(m.bits, m.n)
  }

  /** The constructor `BitMatrix(n = 1)`: every bit clear. */
  function Create(n: nat): (r: Matrix)
    ensures WellFormed(r) && r.n == n && Count(r) == 0
  {
    Matrix(n, {})
  }

  /** `count`: the number of set bits. */
  function Count(m: Matrix): nat
  {
    |m.bits|
  }

  /** `test`: both indices must be below N (`idx` asserts it). */
  predicate Test(m: Matrix, row: nat, col: nat)
    requires row < m.n && col < m.n
  {
    (row, col) in m.bits
  }

  /** `set(row, col, v)`: afterwards the bit reads `v`; no other bit and not
      the size changes. */
  function Set(m: Matrix, row: nat, col: nat, v: bool := true): (r: Matrix)
    requires WellFormed(m) && row < m.n && col < m.n
    ensures WellFormed(r) && r.n == m.n
    ensures Test(r, row, col) == v
    ensures forall a: nat, b: nat :: a < m.n && b < m.n && (a, b) != (row, col) ==> (Test(r, a, b) <==> Test(m, a, b))
  {
    if v then Matrix(m.n, m.bits + {(row, col)}) else Matrix(m.n, m.bits - {(row, col)})
  }

  /** Setting a clear bit adds one to `count`, clearing a set bit takes one
      away, anything else leaves it. */
  lemma SetCount(m: Matrix, row: nat, col: nat, v: bool)
    requires WellFormed(m) && row < m.n && col < m.n
    ensures Count(Set(m, row, col, v)) ==
      if v == Test(m, row, col) then Count(m) else if v then Count(m) + 1 else Count(m) - 1
  {
    var r := Set(m, row, col, v);
    if v == Test(m, row, col) {
      assert r.bits == m.bits;
    }
  }

  /** `resize(n)`: the new size, with every bit clear. */
  function Resize(m: Matrix, n: nat): (r: Matrix)
    ensures WellFormed(r) && r.n == n
    ensures forall a: nat, b: nat :: a < n && b < n ==> !Test(r, a, b)
  {
    Matrix(n, {})
  }

  // ---------------------------------------------------------------------------
  // Paths: the relation the closure is meant to compute
  // ---------------------------------------------------------------------------

  /** A walk of at least one step along set bits. */
  predicate IsPath(r: Bits, p: seq<nat>)
  {
    |p| >= 2 && forall t :: 0 <= t < |p| - 1 ==> (p[t], p[t + 1]) in r
  }

  ghost predicate Reach(r: Bits, a: nat, b: nat)
  {
    exists p :: IsPath(r, p) && p[0] == a && p[|p| - 1] == b
  }

  lemma ReachEdge(r: Bits, a: nat, b: nat)
    requires (a, b) in r
    ensures Reach(r, a, b)
  {
    assert IsPath(r, [a, b]);
  }

  lemma ReachTrans(r: Bits, a: nat, b: nat, c: nat)
    requires Reach(r, a, b) && Reach(r, b, c)
    ensures Reach(r, a, c)
  {
    var p :| IsPath(r, p) && p[0] == a && p[|p| - 1] == b;
    var q :| IsPath(r, q) && q[0] == b && q[|q| - 1] == c;
    var w := p + q[1..];
    forall t | 0 <= t < |w| - 1 ensures (w[t], w[t + 1]) in r {
      if t < |p| - 1 {
        assert w[t] == p[t] && w[t + 1] == p[t + 1];
      } else {
        assert w[t] == q[t - |p| + 1] && w[t + 1] == q[t - |p| + 2];
      }
    }
    assert IsPath(r, w) && w[0] == a && w[|w| - 1] == c;
  }

  /** Every set bit is reachable in the original relation. */
  ghost predicate Sound(orig: Bits, b: Bits)
  {
    forall q :: q in b ==> Reach(orig, q.0, q.1)
  }

  /** Closed under composition. */
  ghost predicate Transitive(b: Bits)
  {
    forall x, y, z :: (x, y) in b && (y, z) in b ==> (x, z) in b
  }

  /** A transitive relation holding the original holds every path of it. */
  lemma {:induction false} PathInClosed(orig: Bits, b: Bits, p: seq<nat>)
    requires orig <= b && Transitive(b) && IsPath(orig, p)
    ensures (p[0], p[|p| - 1]) in b
    decreases |p|
  {
    if |p| > 2 {
      var rest := p[1..];
      assert IsPath(orig, rest) by {
        forall t | 0 <= t < |rest| - 1 ensures (rest[t], rest[t + 1]) in orig {
          assert rest[t] == p[t + 1] && rest[t + 1] == p[t + 2];
        }
      }
      PathInClosed(orig, b, rest);
      assert (p[0], p[1]) in b;
    }
  }

  // ---------------------------------------------------------------------------
  // Rows, and the worklist invariant
  // ---------------------------------------------------------------------------

  /** Row `m` of `b` is contained in row `p` of `c`. */
  ghost predicate CoveredIn(b: Bits, m: nat, c: Bits, p: nat)
  {
    forall k :: (m, k) in b ==> (p, k) in c
  }

  /** Row `p` need not be revisited: each successor `m` of `p` has its row
      inside `p`'s, or got into `p`'s row through a pending `j` whose row is
      inside `p`'s, so that `p` is pushed again should `j`'s row grow. */
  ghost predicate Settled(b: Bits, w: seq<nat>, p: nat)
  {
    forall m :: (p, m) in b ==>
      CoveredIn(b, m, b, p) ||
      exists j :: j in w && (p, j) in b && (j, m) in b && CoveredIn(b, j, b, p)
  }

  /** Every row not on the worklist is settled. */
  ghost predicate Pending(b: Bits, w: seq<nat>, n: nat)
  {
    forall p :: 0 <= p < n && p !in w ==> Settled(b, w, p)
  }

  /** What one pass over row `i` does: only row `i` grows; the visited
      columns `v` are set in the new row and include the whole old row; the
      row of every visited column other than `i` is copied in; and every new
      bit comes from the row of a visited column other than `i`. */
  ghost predicate PassDone(b: Bits, c: Bits, i: nat, v: set<nat>)
  {
    b <= c && (forall q :: q in c && q !in b ==> q.0 == i) &&
    (forall j :: j in v ==> (i, j) in c) &&
    (forall m :: (i, m) in b ==> m in v) &&
    (forall j :: j in v && j != i ==> CoveredIn(b, j, c, i)) &&
    (forall m :: (i, m) in c && (i, m) !in b ==> exists j :: j in v && j != i && (j, m) in b)
  }

  /** The inner loop of a pass: OR row `j` into row `i`, bit by bit, setting
      each bit of row `i` that is still clear. Only row `i` gains bits, each
      from row `j`; row `i` ends up covering row `j`. */
  method OrRow(b: Bits, c0: Bits, n: nat, i: nat, j: nat, ghost orig: Bits) returns (c: Bits)
    requires InRange(c0, n) && Sound(orig, c0) && i < n && (i, j) in c0
    requires b <= c0 && forall q :: q in c0 && q !in b ==> q.0 == i
    ensures InRange(c, n) && Sound(orig, c) && c0 <= c
    ensures forall q :: q in c && q !in c0 ==> q.0 == i && j != i && (j, q.1) in b
    ensures j != i ==> CoveredIn(b, j, c, i)
  {
    c := c0;
    var k := 0;
    while k < n
      invariant 0 <= k <= n
      invariant InRange(c, n) && Sound(orig, c) && c0 <= c
      invariant forall q :: q in c && q !in c0 ==> q.0 == i && j != i && (j, q.1) in b
      invariant j != i ==> forall x :: 0 <= x < k && (j, x) in b ==> (i, x) in c
    {
      if (j, k) in c && (i, k) !in c {
        ReachTrans(orig, i, j, k);
        c := c + {(i, k)};
      }
      k := k + 1;
    }
  }

  /** The body of the worklist loop for row `i`: walk the successors `j` of
      `i` in increasing order, reading the row as it grows (a column set
      behind the current one is not visited), and OR row `j` into row `i`.
      `changed` is `changedI`. */
  method Pass(b: Bits, n: nat, i: nat, ghost orig: Bits) returns (c: Bits, changed: bool, ghost v: set<nat>)
    requires InRange(b, n) && i < n && Sound(orig, b)
    ensures InRange(c, n) && Sound(orig, c)
    ensures changed <==> c != b
    ensures PassDone(b, c, i, v)
  {
    c, changed, v := b, false, {};
    var col := 0;
    while col < n
      invariant 0 <= col <= n
      invariant InRange(c, n) && Sound(orig, c)
      invariant changed <==> c != b
      invariant b <= c && forall q :: q in c && q !in b ==> q.0 == i
      invariant forall j :: j in v ==> (i, j) in c && j < col
      invariant forall m :: 0 <= m < col && (i, m) in b ==> m in v
      invariant forall j :: j in v && j != i ==> CoveredIn(b, j, c, i)
      invariant forall m :: (i, m) in c && (i, m) !in b ==> exists j :: j in v && j != i && (j, m) in b
    {
      if (i, col) in c {
        var next := OrRow(b, c, n, i, col, orig);
        if next != c {
          changed := true;
        }
        c := next;
        v := v + {col};
      }
      col := col + 1;
    }
  }

  /** A worklist that has `i` at its front: the rest is what is left once `i`
      is popped. */
  lemma PopFront(w: seq<nat>, x: nat)
    requires |w| > 0 && x in w && x != w[0]
    ensures x in w[1..]
  {
    assert w == [w[0]] + w[1..];
  }

  /** The invariant holds again for the rows other than `i`. */
  lemma SettledOther(b: Bits, c: Bits, w: seq<nat>, w2: seq<nat>, i: nat, v: set<nat>, changed: bool, n: nat, p: nat)
    requires |w| > 0 && w[0] == i && Pending(b, w, n)
    requires PassDone(b, c, i, v) && (changed <==> c != b)
    requires forall x :: x in w[1..] ==> x in w2
    requires changed ==> forall q :: 0 <= q < n && (q, i) in c ==> q in w2
    requires 0 <= p < n && p != i && p !in w2
    ensures Settled(c, w2, p)
  {
    assert p !in w;
    assert Settled(b, w, p);
    forall m | (p, m) in c
      ensures CoveredIn(c, m, c, p) || exists j :: j in w2 && (p, j) in c && (j, m) in c && CoveredIn(c, j, c, p)
    {
      assert (p, m) in b;
      if CoveredIn(b, m, b, p) {
        if m == i {
          assert c == b;
        } else {
          assert CoveredIn(c, m, c, p);
        }
      } else {
        var j :| j in w && (p, j) in b && (j, m) in b && CoveredIn(b, j, b, p);
        if j != i {
          PopFront(w, j);
          assert CoveredIn(c, j, c, p);
        } else {
          assert false;
        }
      }
    }
  }

  /** The invariant holds again for row `i` itself when it is not pushed
      back. */
  lemma SettledSelf(b: Bits, c: Bits, w: seq<nat>, w2: seq<nat>, i: nat, v: set<nat>, changed: bool, n: nat)
    requires InRange(c, n) && |w| > 0 && w[0] == i && i < n && Pending(b, w, n)
    requires PassDone(b, c, i, v) && (changed <==> c != b)
    requires forall x :: x in w[1..] ==> x in w2
    requires changed ==> forall q :: 0 <= q < n && (q, i) in c ==> q in w2
    requires i !in w2
    ensures Settled(c, w2, i)
  {
    forall m | (i, m) in c
      ensures CoveredIn(c, m, c, i) || exists j :: j in w2 && (i, j) in c && (j, m) in c && CoveredIn(c, j, c, i)
    {
      if !changed {
        if m != i {
          assert m in v && CoveredIn(b, m, c, i);
        }
      } else {
        assert m != i;
        if m in v {
          assert CoveredIn(c, m, c, i);
        } else {
          var j :| j in v && j != i && (j, m) in b;
          if j in w {
            PopFront(w, j);
            assert CoveredIn(c, j, c, i);
          } else {
            assert j < n && Settled(b, w, j);
            if CoveredIn(b, m, b, j) {
              assert CoveredIn(c, m, c, i);
            } else {
              var h :| h in w && (j, h) in b && (h, m) in b && CoveredIn(b, h, b, j);
              assert h != i;
              PopFront(w, h);
              assert (i, h) in c && CoveredIn(c, h, c, i);
            }
          }
        }
      }
    }
  }

  lemma PendingStep(b: Bits, c: Bits, w: seq<nat>, w2: seq<nat>, i: nat, v: set<nat>, changed: bool, n: nat)
    requires InRange(c, n) && |w| > 0 && w[0] == i && i < n && Pending(b, w, n)
    requires PassDone(b, c, i, v) && (changed <==> c != b)
    requires forall x :: x in w[1..] ==> x in w2
    requires changed ==> forall q :: 0 <= q < n && (q, i) in c ==> q in w2
    ensures Pending(c, w2, n)
  {
    forall p | 0 <= p < n && p !in w2 ensures Settled(c, w2, p) {
      if p == i {
        SettledSelf(b, c, w, w2, i, v, changed, n);
      } else {
        SettledOther(b, c, w, w2, i, v, changed, n, p);
      }
    }
  }

  /** With nothing pending every row is settled, so the relation is closed. */
  lemma EmptyWorklistClosed(b: Bits, n: nat)
    requires InRange(b, n) && Pending(b, [], n)
    ensures Transitive(b)
  {
    forall x, y, z | (x, y) in b && (y, z) in b ensures (x, z) in b {
      assert Settled(b, [], x);
    }
  }

  function AllPairs(n: nat): Bits
  {
    set a, b | 0 <= a < n && 0 <= b < n :: (a, b)
  }

  lemma InRangeAllPairs(b: Bits, n: nat)
    requires InRange(b, n)
    ensures b <= AllPairs(n)
  {
    forall q | q in b ensures q in AllPairs(n) {
      assert q == (q.0, q.1);
    }
  }

  /** `transitiveClosure`: start with every row on the worklist; pop a row,
      run the pass over it, and when it grew push every row that points at it
      and is not already waiting. Bits are only ever set, and the result holds
      a bit (i, j) exactly when the original relation has a path of at least
      one step from i to j, as the header comment promises. */
  method TransitiveClosure(m: Matrix) returns (r: Matrix)
    requires WellFormed(m)
    ensures WellFormed(r) && r.n == m.n && m.bits <= r.bits
    ensures forall a: nat, b: nat :: (a, b) in r.bits <==> Reach(m.bits, a, b)
  {
    var n := m.n;
    var w: seq<nat> := [];
    var x := 0;
    while x < n
      invariant 0 <= x <= n
      invariant forall y :: y in w <==> 0 <= y < x
    {
      w := w + [x];
      x := x + 1;
    }
    var b := m.bits;
    forall q | q in b ensures Reach(m.bits, q.0, q.1) {
      ReachEdge(m.bits, q.0, q.1);
    }
    while |w| > 0
      invariant InRange(b, n) && m.bits <= b && Sound(m.bits, b)
      invariant forall y :: y in w ==> y < n
      invariant Pending(b, w, n)
      decreases AllPairs(n) - b, |w|
    {
      var i := w[0];
      var rest := w[1..];
      assert i in w && forall y :: y in rest ==> y in w;
      var c, changed, v := Pass(b, n, i, m.bits);
      var w2 := rest;
      if changed {
        var p := 0;
        while p < n
          invariant 0 <= p <= n
          invariant forall y :: y in rest ==> y in w2
          invariant forall y :: y in w2 ==> y < n
          invariant |w2| >= |rest|
          invariant forall q :: 0 <= q < p && (q, i) in c ==> q in w2
        {
          if (p, i) in c && p !in w2 {
            w2 := w2 + [p];
          }
          p := p + 1;
        }
      }
      PendingStep(b, c, w, w2, i, v, changed, n);
      InRangeAllPairs(c, n);
      b, w := c, w2;
    }
    EmptyWorklistClosed(b, n);
    forall a: nat, z: nat | Reach(m.bits, a, z) ensures (a, z) in b {
      var p :| IsPath(m.bits, p) && p[0] == a && p[|p| - 1] == z;
      PathInClosed(m.bits, b, p);
    }
    r := Matrix(n, b);
  }
}

=== FILE: bounds.dfy ===
/** `compare_bounds` of `analysis.py`: where the bit-vector lower and upper
    bounds of a result row first differ. */
module Bounds {
  import opened Wrappers
  import opened Strings
  import opened Powers

  predicate AllHex(s: string)
  {
    forall i :: 0 <= i < |s| ==> IsHexDigit(s[i])
  }

  /** The longest prefix of `s` made of hexadecimal digits. */
  function HexRun(s: string): (r: string)
    ensures |r| <= |s| && r == s[..|r|]
    ensures AllHex(r)
    ensures |r| < |s| ==> !IsHexDigit(s[|r|])
  {
    if |s| > 0 && IsHexDigit(s[0]) then [s[0]] + HexRun(s[1..]) else ""
  }

  /** `re.findall(r'[0-9a-fA-F]+', s)`: the maximal runs of hexadecimal
      digits, left to right. */
  function HexTokens(s: string): (ts: seq<string>)
    ensures forall i :: 0 <= i < |ts| ==> |ts[i]| > 0 && AllHex(ts[i])
    decreases |s|
  {
    if |s| == 0 then []
    else if !IsHexDigit(s[0]) then HexTokens(s[1..])
    else
      var r := HexRun(s);
      [r] + HexTokens(s[|r|..])
  }

  /** There are no tokens exactly when there is no hexadecimal digit. */
  lemma {:induction false} HexTokensEmpty(s: string)
    ensures HexTokens(s) == [] <==> forall i :: 0 <= i < |s| ==> !IsHexDigit(s[i])
    decreases |s|
  {
    if |s| > 0 && !IsHexDigit(s[0]) {
      HexTokensEmpty(s[1..]);
      assert forall i :: 1 <= i < |s| ==> s[i] == s[1..][i - 1];
    }
  }

  function HexDigitValue(c: char): (d: nat)
    requires IsHexDigit(c)
    ensures d < 16
  {
    if '0' <= c <= '9' then (c as int) - ('0' as int)
    else if 'a' <= c <= 'f' then (c as int) - ('a' as int) + 10
    else (c as int) - ('A' as int) + 10
  }

  /** `int(t, 16)`. */
  function HexValue(t: string): nat
    requires AllHex(t)
  {
    if |t| == 0 then 0 else 16 * HexValue(t[..|t| - 1]) + HexDigitValue(t[|t| - 1])
  }

  /** Bit `i` of `n`. */
  predicate Bit(n: nat, i: nat)
  {
    if i == 0 then n % 2 == 1 else Bit(n / 2, i - 1)
  }

  /** Python's `a ^ b` on non-negative integers. */
  function Xor(a: nat, b: nat): nat
    decreases a + b
  {
    if a == 0 && b == 0 then 0
    else 2 * Xor(a / 2, b / 2) + (if a % 2 == b % 2 then 0 else 1)
  }

  /** Python's `int.bit_length`: bits needed to write `n`. */
  function BitLength(n: nat): nat
  {
    if n == 0 then 0 else 1 + BitLength(n / 2)
  }

  /** Bit `i` of `a ^ b` is set exactly where `a` and `b` disagree. */
  lemma {:induction false} XorBit(a: nat, b: nat, i: nat)
    ensures Bit(Xor(a, b), i) <==> Bit(a, i) != Bit(b, i)
    decreases a + b
  {
    if a == 0 && b == 0 {
      ZeroHasNoBits(i);
    } else if i > 0 {
      XorBit(a / 2, b / 2, i - 1);
    }
  }

  lemma {:induction false} ZeroHasNoBits(i: nat)
    ensures !Bit(0, i)
  {
    if i > 0 {
      ZeroHasNoBits(i - 1);
    }
  }

  /** The exclusive or is zero exactly for equal operands. */
  lemma {:induction false} XorZero(a: nat, b: nat)
    ensures Xor(a, b) == 0 <==> a == b
    decreases a + b
  {
    if !(a == 0 && b == 0) {
      XorZero(a / 2, b / 2);
    }
  }

  /** `bit_length(a ^ b)` is one past the highest bit where `a` and `b`
      differ: that bit differs and every bit above it agrees. */
  lemma {:induction false} HighestDifferingBit(a: nat, b: nat)
    requires a != b
    ensures BitLength(Xor(a, b)) >= 1
    ensures Bit(a, BitLength(Xor(a, b)) - 1) != Bit(b, BitLength(Xor(a, b)) - 1)
    ensures forall j :: j >= BitLength(Xor(a, b)) ==> Bit(a, j) == Bit(b, j)
    decreases a + b
  {
    var x := Xor(a, b);
    XorZero(a, b);
    if a / 2 == b / 2 {
      assert a % 2 != b % 2;
      XorZero(a / 2, b / 2);
      assert x == 1;
      assert BitLength(x) == 1;
      forall j | j >= 1 ensures Bit(a, j) == Bit(b, j) {
        assert Bit(a, j) == Bit(a / 2, j - 1);
      }
    } else {
      HighestDifferingBit(a / 2, b / 2);
      var y := Xor(a / 2, b / 2);
      assert x / 2 == y;
      assert BitLength(x) == 1 + BitLength(y);
      forall j | j >= BitLength(x) ensures Bit(a, j) == Bit(b, j) {
        assert Bit(a, j) == Bit(a / 2, j - 1);
        assert Bit(b, j) == Bit(b / 2, j - 1);
      }
    }
  }

  /** The loop of `compare_bounds` over `zip(lower, upper)`: the bit length of
      the first non-zero exclusive or, or 0 when every pair is equal. */
  function CompareTokens(ls: seq<string>, hs: seq<string>): nat
    requires forall i :: 0 <= i < |ls| ==> AllHex(ls[i])
    requires forall i :: 0 <= i < |hs| ==> AllHex(hs[i])
  {
    if |ls| == 0 || |hs| == 0 then 0
    else
      var x := Xor(HexValue(ls[0]), HexValue(hs[0]));
      if x != 0 then BitLength(x) else CompareTokens(ls[1..], hs[1..])
  }

  /** `compare_bounds` on the two bound texts: `None` when either has no
      hexadecimal token. */
  function CompareBounds(lower: string, upper: string): (r: Option<nat>)
    ensures r.None? <==> HexTokens(lower) == [] || HexTokens(upper) == []
  {
    var ls := HexTokens(lower);
    var hs := HexTokens(upper);
    if |ls| == 0 || |hs| == 0 then None else Some(CompareTokens(ls, hs))
  }

  predicate ValuesEqualAt(ls: seq<string>, hs: seq<string>, i: nat)
    requires i < |ls| && i < |hs|
    requires AllHex(ls[i]) && AllHex(hs[i])
  {
    HexValue(ls[i]) == HexValue(hs[i])
  }

  /** The result is 0 exactly when the pairs up to the shorter length are
      equal as numbers; otherwise it is the bit length of the exclusive or of
      the first unequal pair, which is positive. */
  lemma {:induction false} CompareTokensSpec(ls: seq<string>, hs: seq<string>)
    requires forall i :: 0 <= i < |ls| ==> AllHex(ls[i])
    requires forall i :: 0 <= i < |hs| ==> AllHex(hs[i])
    ensures CompareTokens(ls, hs) == 0 <==>
      forall i :: 0 <= i < |ls| && i < |hs| ==> ValuesEqualAt(ls, hs, i)
    ensures CompareTokens(ls, hs) != 0 ==>
      exists i :: 0 <= i < |ls| && i < |hs| && !ValuesEqualAt(ls, hs, i) &&
                  (forall j :: 0 <= j < i ==> ValuesEqualAt(ls, hs, j)) &&
                  CompareTokens(ls, hs) == BitLength(Xor(HexValue(ls[i]), HexValue(hs[i])))
  {
    if |ls| > 0 && |hs| > 0 {
      var x := Xor(HexValue(ls[0]), HexValue(hs[0]));
      XorZero(HexValue(ls[0]), HexValue(hs[0]));
      if x != 0 {
        assert BitLength(x) != 0;
        assert !ValuesEqualAt(ls, hs, 0);
      } else {
        CompareTokensSpec(ls[1..], hs[1..]);
        assert ValuesEqualAt(ls, hs, 0);
        forall i | 1 <= i < |ls| && i < |hs|
          ensures ValuesEqualAt(ls, hs, i) == ValuesEqualAt(ls[1..], hs[1..], i - 1)
        {
        }
        if CompareTokens(ls, hs) != 0 {
          var k :| 0 <= k < |ls[1..]| && k < |hs[1..]| && !ValuesEqualAt(ls[1..], hs[1..], k) &&
                   (forall j :: 0 <= j < k ==> ValuesEqualAt(ls[1..], hs[1..], j)) &&
                   CompareTokens(ls[1..], hs[1..]) ==
                     BitLength(Xor(HexValue(ls[1..][k]), HexValue(hs[1..][k])));
          assert !ValuesEqualAt(ls, hs, k + 1);
          forall j | 0 <= j < k + 1 ensures ValuesEqualAt(ls, hs, j) {
            if j > 0 {
              assert ValuesEqualAt(ls[1..], hs[1..], j - 1);
            }
          }
        }
      }
    }
  }

  /** `zip` stops at the shorter list: tokens past it are never looked at. */
  lemma {:induction false} CompareTokensIgnoresExtra(ls: seq<string>, hs: seq<string>, extra: seq<string>)
    requires |ls| >= |hs|
    requires forall i :: 0 <= i < |ls| ==> AllHex(ls[i])
    requires forall i :: 0 <= i < |hs| ==> AllHex(hs[i])
    requires forall i :: 0 <= i < |extra| ==> AllHex(extra[i])
    ensures CompareTokens(ls + extra, hs) == CompareTokens(ls, hs)
    ensures CompareTokens(hs, ls + extra) == CompareTokens(hs, ls)
  {
    if |hs| > 0 {
      assert (ls + extra)[0] == ls[0];
      assert (ls + extra)[1..] == ls[1..] + extra;
      CompareTokensIgnoresExtra(ls[1..], hs[1..], extra);
    }
  }

  /** `0x0F` and `0x1F` first differ in bit 4, so the answer is 5. */
  lemma CompareBoundsExample()
    ensures CompareBounds("#x0F", "#x1F") == Some(5)
  {
    assert HexRun("0F") == "0F" by {
      assert HexRun("F") == "F" by { assert "F"[1..] == ""; }
      assert "0F"[1..] == "F";
    }
    assert HexTokens("#x0F") == ["0F"] by {
      assert "#x0F"[1..] == "x0F";
      assert "x0F"[1..] == "0F";
      assert "0F"[2..] == "";
    }
    assert HexRun("1F") == "1F" by {
      assert HexRun("F") == "F" by { assert "F"[1..] == ""; }
      assert "1F"[1..] == "F";
    }
    assert HexTokens("#x1F") == ["1F"] by {
      assert "#x1F"[1..] == "x1F";
      assert "x1F"[1..] == "1F";
      assert "1F"[2..] == "";
    }
    assert HexValue("0F") == 15 by {
      assert "0F"[..1] == "0";
      assert "0"[..0] == "";
    }
    assert HexValue("1F") == 31 by {
      assert "1F"[..1] == "1";
      assert "1"[..0] == "";
    }
    assert Xor(15, 31) == 16 by {
      assert Xor(0, 1) == 1;
      assert Xor(1, 3) == 2;
      assert Xor(3, 7) == 4;
      assert Xor(7, 15) == 8;
    }
    assert BitLength(16) == 5 by {
      assert BitLength(1) == 1;
      assert BitLength(2) == 2;
      assert BitLength(4) == 3;
      assert BitLength(8) == 4;
    }
  }
}

=== FILE: cardinality.dfy ===
/** Facts about the sizes of finite sets, used by the size-then-membership
    equality checks of the dataflow domains and by the filtered-site counts. */
module Cardinality {

  /** A subset is no larger than its superset. */
  lemma {:induction false} SubsetSmaller<T>(a: set<T>, b: set<T>)
    requires a <= b
    ensures |a| <= |b|
    decreases |a|
  {
    if a != {} {
      var x :| x in a;
      SubsetSmaller(a - {x}, b - {x});
    }
  }

  /** A subset as large as its superset is the superset. */
  lemma {:induction false} SubsetOfSameSize<T>(a: set<T>, b: set<T>)
    requires a <= b && |a| == |b|
    ensures a == b
  {
    if a != b {
      var x :| x in b && x !in a;
      SubsetSmaller(a, b - {x});
    }
  }
}

=== FILE: csvdealer.dfy ===
/** `csvDealer.cpp`: the lines the solvers append to their CSV result logs,
    and what the analysis scripts read back from such a log. Times are kept
    in millionths of a second (see `Numeric`). */
module CsvDealer {
  import opened Strings
  import opened Numeric
  import opened Table
  import opened Wrappers
  import SafeFilter
  import GoodFilter

  // ---------------------------------------------------------------------------
  // bestInv lines
  // ---------------------------------------------------------------------------

  /** `bestInv::csvLine`, its fields in the constructor's order: the bad-solve
      code, then the number of checks, then the time. */
  datatype BestInvLine = BestInvLine(filename: string, solver: string, bad: int, calls: int, time: int, info: string)

  const BestInvColumns: seq<string> := ["File", "Method", "Bad Solve", "Time Cost", "Calls", "Info"]

  /** The first line of a new bestInv log, `File,Method,Bad Solve,Time Cost,Calls,Info`. */
  const BestInvHeader: string := Join(BestInvColumns, ',')

  /** `bestInv::csvLine::to_string`: the time is printed before the calls,
      the reverse of the constructor's order, which is the header's order. */
  function BestInvText(l: BestInvLine): string
  {
    l.filename + "," + l.solver + "," + IntToString(l.bad) + "," + FormatFixed(l.time) + "," +
    IntToString(l.calls) + "," + l.info
  }

  /** The six cells of a line, in column order. */
  function BestInvCells(l: BestInvLine): (cells: seq<string>)
    ensures |cells| == |BestInvColumns|
  {
    [l.filename, l.solver, IntToString(l.bad), FormatFixed(l.time), IntToString(l.calls), l.info]
  }

  /** No commas inside the free-text cells. */
  predicate CommaFree(l: BestInvLine)
  {
    ',' !in l.filename && ',' !in l.solver && ',' !in l.info
  }

  /** The printed line is the cells joined by commas. */
  lemma BestInvTextJoin(l: BestInvLine)
    ensures BestInvText(l) == Join(BestInvCells(l), ',')
  {
    JoinSix(l.filename, l.solver, IntToString(l.bad), FormatFixed(l.time), IntToString(l.calls), l.info);
  }

  lemma JoinSix(a: string, b: string, c: string, d: string, e: string, f: string)
    ensures Join([a, b, c, d, e, f], ',') == a + "," + b + "," + c + "," + d + "," + e + "," + f
  {
    assert Join([f], ',') == f;
    assert [e, f][1..] == [f];
    assert Join([e, f], ',') == e + "," + f;
    assert [d, e, f][1..] == [e, f];
    assert Join([d, e, f], ',') == d + "," + (e + "," + f);
    assert [c, d, e, f][1..] == [d, e, f];
    assert Join([c, d, e, f], ',') == c + "," + (d + "," + (e + "," + f));
    assert [b, c, d, e, f][1..] == [c, d, e, f];
    assert Join([b, c, d, e, f], ',') == b + "," + (c + "," + (d + "," + (e + "," + f)));
    assert [a, b, c, d, e, f][1..] == [b, c, d, e, f];
  }

  /** Splitting a line whose free-text cells have no comma gives back the six
      cells in column order. */
  lemma BestInvSplit(l: BestInvLine)
    requires CommaFree(l)
    ensures Split(BestInvText(l), ',') == BestInvCells(l)
  {
    BestInvTextJoin(l);
    SplitJoin(BestInvCells(l), ',');
  }

  /** A line has exactly five commas exactly when its free-text cells have none. */
  lemma BestInvCommas(l: BestInvLine)
    ensures CountChar(BestInvText(l), ',') == 5 <==> CommaFree(l)
  {
    var cells := BestInvCells(l);
    BestInvTextJoin(l);
    JoinCount(cells, ',');
    CountCharZero(IntToString(l.bad), ',');
    CountCharZero(FormatFixed(l.time), ',');
    CountCharZero(IntToString(l.calls), ',');
    CountCharZero(l.filename, ',');
    CountCharZero(l.solver, ',');
    CountCharZero(l.info, ',');
    SumCountSix(cells, ',');
  }

  lemma SumCountSix(cells: seq<string>, c: char)
    requires |cells| == 6
    ensures SumCount(cells, c) == CountChar(cells[0], c) + CountChar(cells[1], c) + CountChar(cells[2], c) +
                                  CountChar(cells[3], c) + CountChar(cells[4], c) + CountChar(cells[5], c)
  {
    var t1 := cells[1..];
    var t2 := t1[1..];
    var t3 := t2[1..];
    var t4 := t3[1..];
    var t5 := t4[1..];
    assert SumCount(t5[1..], c) == 0;
    assert SumCount(t5, c) == CountChar(cells[5], c);
    assert SumCount(t4, c) == CountChar(cells[4], c) + SumCount(t5, c);
    assert SumCount(t3, c) == CountChar(cells[3], c) + SumCount(t4, c);
    assert SumCount(t2, c) == CountChar(cells[2], c) + SumCount(t3, c);
    assert SumCount(t1, c) == CountChar(cells[1], c) + SumCount(t2, c);
  }

  /** The header line names the columns in order. */
  lemma BestInvHeaderColumns()
    ensures Split(BestInvHeader, ',') == BestInvColumns
  {
    ColumnsCommaFree(BestInvColumns);
    SplitJoin(BestInvColumns, ',');
  }


  /** Column names made of letters, spaces and underscores hold no comma. */
  lemma ColumnsCommaFree(cols: seq<string>)
    requires forall i, j :: 0 <= i < |cols| && 0 <= j < |cols[i]| ==> cols[i][j] != ','
    ensures forall i :: 0 <= i < |cols| ==> ',' !in cols[i]
  {
  }

  /** `csv.DictReader`'s view of one bestInv line under the bestInv header. */
  function BestInvRow(l: BestInvLine): Row
  {
    RowOf(BestInvColumns, Split(BestInvText(l), ','))
  }

  /** A line whose free-text cells have no comma reads back with every cell
      under its own column. */
  lemma BestInvReadBack(l: BestInvLine)
    requires CommaFree(l)
    ensures forall i :: 0 <= i < |BestInvColumns| ==>
      BestInvColumns[i] in BestInvRow(l) && BestInvRow(l)[BestInvColumns[i]] == BestInvCells(l)[i]
  {
    BestInvSplit(l);
    BestInvColumnsDistinct();
    SixColumns(BestInvColumns, BestInvCells(l));
  }

  lemma BestInvColumnsDistinct()
    ensures forall a, b :: 0 <= a < b < |BestInvColumns| ==> BestInvColumns[a] != BestInvColumns[b]
  {
  }

  /** The numeric columns of a line read back read as the values printed: the
      time is not swapped with the number of checks. */
  lemma {:induction false} BestInvNumbersReadBack(l: BestInvLine)
    requires CommaFree(l)
    ensures "Time Cost" in BestInvRow(l) && ToNumeric(BestInvRow(l)["Time Cost"]) == Fixed(l.time)
    ensures "Calls" in BestInvRow(l) && ToNumeric(BestInvRow(l)["Calls"]) == FromInt(l.calls)
    ensures "Bad Solve" in BestInvRow(l) && BestInvRow(l)["Bad Solve"] == IntToString(l.bad)
  {
    BestInvNumberCells(l);
    FormatParseRoundTrip(l.time);
    IntRoundTrip(l.calls);
  }

  /** The three numeric cells of a line read back as printed. */
  lemma BestInvNumberCells(l: BestInvLine)
    requires CommaFree(l)
    ensures var row := BestInvRow(l);
      "Bad Solve" in row && "Time Cost" in row && "Calls" in row &&
      row["Bad Solve"] == IntToString(l.bad) && row["Time Cost"] == FormatFixed(l.time) &&
      row["Calls"] == IntToString(l.calls)
  {
    BestInvReadBack(l);
    NumberColumnsOf(BestInvRow(l), BestInvCells(l));
  }

  /** A row keyed by the bestInv columns holds the third to fifth cells
      under the numeric column names. */
  lemma NumberColumnsOf(row: Row, cells: seq<string>)
    requires |cells| == |BestInvColumns|
    requires forall i :: 0 <= i < |BestInvColumns| ==> BestInvColumns[i] in row && row[BestInvColumns[i]] == cells[i]
    ensures "Bad Solve" in row && "Time Cost" in row && "Calls" in row
    ensures row["Bad Solve"] == cells[2] && row["Time Cost"] == cells[3] && row["Calls"] == cells[4]
  {
    assert BestInvColumns[2] == "Bad Solve" && BestInvColumns[3] == "Time Cost" && BestInvColumns[4] == "Calls";
  }

  /** Six distinct column names keying six cells: each name maps to its cell. */
  lemma SixColumns(cols: seq<string>, cells: seq<string>)
    requires |cols| == 6 && |cells| == 6
    requires forall a, b :: 0 <= a < b < 6 ==> cols[a] != cols[b]
    ensures forall i :: 0 <= i < 6 ==> cols[i] in RowOf(cols, cells) && RowOf(cols, cells)[cols[i]] == cells[i]
  {
    forall i | 0 <= i < 6 ensures cols[i] in RowOf(cols, cells) && RowOf(cols, cells)[cols[i]] == cells[i] {
      RowOfDistinct(cols, cells, i);
    }
  }

  // ---------------------------------------------------------------------------
  // kInduction lines
  // ---------------------------------------------------------------------------

  /** `kInduction::csvLine`. */
  datatype KInductionLine = KInductionLine(filename: string, solver: string, proved: bool, result: bool, kreach: int, time: int)

  const KInductionColumns: seq<string> := ["File", "Method", "Proved", "Result", "K_needed", "Time Cost"]

  /** The first line of a new kInduction log, `File,Method,Proved,Result,K_needed,Time Cost`. */
  const KInductionHeader: string := Join(KInductionColumns, ',')

  /** `std::to_string` of a `bool`, which is promoted to `int`. */
  function BoolText(b: bool): (s: string)
    ensures s == IntToString(if b then 1 else 0)
  {
    if b then "1" else "0"
  }

  /** `kInduction::csvLine::to_string`: the fields in declaration order. */
  function KInductionText(l: KInductionLine): string
  {
    l.filename + "," + l.solver + "," + BoolText(l.proved) + "," + BoolText(l.result) + "," +
    IntToString(l.kreach) + "," + FormatFixed(l.time)
  }

  function KInductionCells(l: KInductionLine): seq<string>
  {
    [l.filename, l.solver, BoolText(l.proved), BoolText(l.result), IntToString(l.kreach), FormatFixed(l.time)]
  }

  /** `csv.DictReader`'s view of one kInduction line under the kInduction header. */
  function KInductionRow(l: KInductionLine): Row
  {
    RowOf(KInductionColumns, Split(KInductionText(l), ','))
  }

  /** A line whose name cells have no comma reads back with every value under
      its own column. */
  lemma KInductionReadBack(l: KInductionLine)
    requires ',' !in l.filename && ',' !in l.solver
    ensures forall i :: 0 <= i < |KInductionColumns| ==>
      KInductionColumns[i] in KInductionRow(l) && KInductionRow(l)[KInductionColumns[i]] == KInductionCells(l)[i]
  {
    var cells := KInductionCells(l);
    JoinSix(l.filename, l.solver, BoolText(l.proved), BoolText(l.result), IntToString(l.kreach), FormatFixed(l.time));
    SplitJoin(cells, ',');
    KInductionColumnsDistinct();
    SixColumns(KInductionColumns, cells);
  }

  lemma KInductionColumnsDistinct()
    ensures forall a, b :: 0 <= a < b < |KInductionColumns| ==> KInductionColumns[a] != KInductionColumns[b]
  {
  }

  /** The time and depth columns read back as the values printed. */
  lemma KInductionNumbersReadBack(l: KInductionLine)
    requires ',' !in l.filename && ',' !in l.solver
    ensures "Time Cost" in KInductionRow(l) && ToNumeric(KInductionRow(l)["Time Cost"]) == Fixed(l.time)
    ensures "K_needed" in KInductionRow(l) && ToNumeric(KInductionRow(l)["K_needed"]) == FromInt(l.kreach)
  {
    KInductionReadBack(l);
    assert KInductionColumns[4] == "K_needed" && KInductionColumns[5] == "Time Cost";
    FormatParseRoundTrip(l.time);
    IntRoundTrip(l.kreach);
  }

  lemma KInductionHeaderColumns()
    ensures Split(KInductionHeader, ',') == KInductionColumns
  {
    ColumnsCommaFree(KInductionColumns);
    SplitJoin(KInductionColumns, ',');
  }


  // ---------------------------------------------------------------------------
  // The log file
  // ---------------------------------------------------------------------------

  /** The log before a `csvDealer` is constructed: absent (or unreadable), or
      present with its lines. */
  datatype LogFile = Missing | Present(lines: seq<string>)

  /** The `csvDealer` constructor: the file is opened for appending, and the
      header goes in first only when the file could not be read beforehand. */
  function Open(f: LogFile, header: string): (lines: seq<string>)
  {
    match f
    case Missing => [header]
    case Present(ls) => ls
  }

  /** One solver run: construct the dealer, then `write_append` each line. */
  function Session(f: LogFile, header: string, entries: seq<string>): LogFile
  {
    Present(Open(f, header) + entries)
  }

  /** Several runs against the same log, one batch of lines each. */
  function Sessions(f: LogFile, header: string, batches: seq<seq<string>>): LogFile
    decreases |batches|
  {
    if |batches| == 0 then f else Sessions(Session(f, header, batches[0]), header, batches[1..])
  }

  function Flatten(batches: seq<seq<string>>): seq<string>
  {
    if |batches| == 0 then [] else batches[0] + Flatten(batches[1..])
  }

  /** Runs on an existing log only append: nothing already there changes and
      no second header is written. */
  lemma {:induction false} SessionsAppend(ls: seq<string>, header: string, batches: seq<seq<string>>)
    ensures Sessions(Present(ls), header, batches) == Present(ls + Flatten(batches))
    decreases |batches|
  {
    if |batches| > 0 {
      SessionsAppend(ls + batches[0], header, batches[1..]);
      assert ls + batches[0] + Flatten(batches[1..]) == ls + Flatten(batches);
    }
  }

  /** A log started from nothing holds the header exactly once, on top,
      followed by every run's lines in order. */
  lemma SessionsFromMissing(header: string, batches: seq<seq<string>>)
    requires |batches| > 0
    ensures Sessions(Missing, header, batches) == Present([header] + Flatten(batches))
  {
    SessionsAppend([header] + batches[0], header, batches[1..]);
    assert [header] + batches[0] + Flatten(batches[1..]) == [header] + Flatten(batches);
  }

  function BestInvTexts(entries: seq<BestInvLine>): (ts: seq<string>)
    ensures |ts| == |entries| && forall i :: 0 <= i < |entries| ==> ts[i] == BestInvText(entries[i])
  {
    seq(|entries|, i requires 0 <= i < |entries| => BestInvText(entries[i]))
  }

  /** The rows `csv.DictReader` yields from a fresh bestInv log. */
  function BestInvRows(entries: seq<BestInvLine>): (rows: seq<Row>)
    ensures |rows| == |entries|
  {
    ReadDict(Session(Missing, BestInvHeader, BestInvTexts(entries)).lines)
  }

  lemma BestInvRowAt(entries: seq<BestInvLine>, i: nat)
    requires i < |entries|
    ensures BestInvRows(entries)[i] == BestInvRow(entries[i])
  {
    var lines := [BestInvHeader] + BestInvTexts(entries);
    BestInvHeaderColumns();
    assert lines[i + 1] == BestInvText(entries[i]);
    ReadDictRow(lines, i);
  }

  /** The log has no `Lower Bound` column, so `extract_safe.py` fails on the
      first row of any non-empty bestInv log. */
  lemma SafeFilterRejectsLog(entries: seq<BestInvLine>)
    requires |entries| > 0
    ensures SafeFilter.FilterBoundaries(BestInvRows(entries)) == Err(KeyError("Lower Bound"))
  {
    var rows := BestInvRows(entries);
    assert rows[0] == BestInvRow(entries[0]) by {
      BestInvRowAt(entries, 0);
    }
    BestInvRowColumns(entries[0]);
    FirstRowWithoutLowerBound(rows);
  }

  /** A row read under the bestInv header has only the header's columns. */
  lemma BestInvRowColumns(l: BestInvLine)
    ensures forall k :: k in BestInvRow(l) ==> k in BestInvColumns
    ensures "Lower Bound" !in BestInvRow(l) && "Upper Bound" !in BestInvRow(l)
  {
    assert "Lower Bound" !in BestInvColumns && "Upper Bound" !in BestInvColumns;
  }

  lemma FirstRowWithoutLowerBound(rows: seq<Row>)
    requires |rows| > 0 && SafeFilter.LowerKey !in rows[0]
    ensures SafeFilter.FilterBoundaries(rows) == Err(KeyError(SafeFilter.LowerKey))
  {
  }

  /** `extract_good.py` does read a bestInv log whose free-text cells have no
      comma, and keeps exactly the entries whose bad-solve code is not 1. */
  lemma GoodFilterOnLog(entries: seq<BestInvLine>)
    requires forall i :: 0 <= i < |entries| ==> CommaFree(entries[i])
    ensures GoodFilter.FilterBadSolves(BestInvRows(entries)).Ok?
    ensures forall i :: 0 <= i < |entries| ==>
      (GoodFilter.Kept(BestInvRows(entries)[i]) <==> entries[i].bad != 1)
  {
    var rows := BestInvRows(entries);
    forall i | 0 <= i < |entries|
      ensures GoodFilter.HasBadSolve(rows[i])
      ensures GoodFilter.Kept(rows[i]) <==> entries[i].bad != 1
    {
      BestInvRowAt(entries, i);
      BestInvNumbersReadBack(entries[i]);
      IntTextIsOne(entries[i].bad);
    }
  }

  /** The printed integer is the text `1` exactly for 1. */
  lemma IntTextIsOne(n: int)
    ensures IntToString(n) == "1" <==> n == 1
  {
    if n < 0 {
      assert IntToString(n)[0] == '-';
    } else if n >= 10 {
      assert |NatToString(n)| >= 2 by {
        assert NatToString(n) == NatToString(n / 10) + [DigitChar(n % 10)];
      }
    }
  }
}

=== FILE: dataflowfacts.dfy ===
/** `DataFlowFacts`: a set of IR values kept as a `std::set`, that is, a
    strictly increasing sequence of value identities. The set operations are
    the merge algorithms of `std::set_intersection` and `std::set_difference`;
    each is proved to compute the set operation it is named after. The global
    `universe` every added fact joins is passed and returned explicitly. */
module DataFlowFacts {

  /** An IR value, by identity. */
  type Value = nat

  /** `std::set` order: strictly increasing, hence no duplicates. */
  predicate Strict(s: seq<Value>)
  {
    forall i, j :: 0 <= i < j < |s| ==> s[i] < s[j]
  }

  /** The set a sorted sequence represents. */
  function Elems(s: seq<Value>): set<Value>
  {
    set x | x in s
  }

  /** Every element after the head is larger than it. */
  lemma StrictTail(s: seq<Value>)
    requires Strict(s) && |s| > 0
    ensures Strict(s[1..]) && forall v :: v in Elems(s[1..]) ==> s[0] < v
  {
  }

  /** A value below the head of a strictly increasing sequence is below all
      of it. */
  lemma Below(x: Value, s: seq<Value>)
    requires Strict(s) && |s| > 0 && x < s[0]
    ensures forall v :: v in Elems(s) ==> x < v
  {
  }

  /** A head below every element of a strictly increasing rest keeps the
      sequence strictly increasing. */
  lemma StrictCons(x: Value, s: seq<Value>)
    requires Strict(s) && forall v :: v in Elems(s) ==> x < v
    ensures Strict([x] + s)
  {
    forall i, j | 0 <= i < j < |[x] + s| ensures ([x] + s)[i] < ([x] + s)[j] {
      if i > 0 {
        assert ([x] + s)[i] == s[i - 1] && ([x] + s)[j] == s[j - 1];
      } else {
        assert ([x] + s)[j] in Elems(s);
      }
    }
  }

  lemma ElemsCons(x: Value, s: seq<Value>)
    ensures Elems([x] + s) == {x} + Elems(s)
  {
    assert forall v :: v in [x] + s <==> v == x || v in s;
  }

  const EmptySet: seq<Value> := []

  /** The set of a non-empty sequence is its head and the set of its tail. */
  lemma ElemsHead(s: seq<Value>)
    requires |s| > 0
    ensures Elems(s) == {s[0]} + Elems(s[1..])
  {
    ElemsCons(s[0], s[1..]);
    assert s == [s[0]] + s[1..];
  }

  /** Putting a smaller head in front of a merged rest. */
  lemma MergeStep(h: Value, rest: seq<Value>, a: set<Value>)
    requires Strict(rest) && Elems(rest) == a && forall v :: v in a ==> h < v
    ensures Strict([h] + rest) && Elems([h] + rest) == {h} + a
  {
    StrictCons(h, rest);
    ElemsCons(h, rest);
  }

  /** `std::set::insert`: the value goes in at its place in the order. */
  function Insert(x: seq<Value>, v: Value): seq<Value>
  {
    if |x| == 0 || v < x[0] then [v] + x
    else if v == x[0] then x
    else [x[0]] + Insert(x[1..], v)
  }

  /** Insertion keeps the order and adds exactly the value. */
  lemma {:induction false} InsertSpec(x: seq<Value>, v: Value)
    requires Strict(x)
    ensures Strict(Insert(x, v)) && Elems(Insert(x, v)) == Elems(x) + {v}
  {
    var r := Insert(x, v);
    if |x| == 0 || v < x[0] {
      assert r == [v] + x;
      assert Strict(r) && Elems(r) == Elems(x) + {v} by {
        if |x| > 0 {
          Below(v, x);
        }
        MergeStep(v, x, Elems(x));
      }
    } else if v == x[0] {
      assert r == x;
      assert v in Elems(x);
    } else {
      var rest := Insert(x[1..], v);
      assert r == [x[0]] + rest;
      assert Strict(r) && Elems(r) == Elems(x) + {v} by {
        StrictTail(x);
        InsertSpec(x[1..], v);
        MergeStep(x[0], rest, Elems(x[1..]) + {v});
        ElemsHead(x);
      }
    }
  }

  /** `Union`: `insert(y.begin(), y.end())` into a copy of `x`. */
  function Union(x: seq<Value>, y: seq<Value>): (r: seq<Value>)
    requires Strict(x) && Strict(y)
    ensures Strict(r) && Elems(r) == Elems(x) + Elems(y)
    decreases |y|
  {
    if |y| == 0 then x
    else
      StrictTail(y);
      ElemsHead(y);
      InsertSpec(x, y[0]);
      Union(Insert(x, y[0]), y[1..])
  }

  /** `Intersect`: `std::set_intersection`, stepping past the smaller head. */
  function Intersect(x: seq<Value>, y: seq<Value>): (r: seq<Value>)
    requires Strict(x) && Strict(y)
    ensures Strict(r) && Elems(r) == Elems(x) * Elems(y)
    decreases |x| + |y|
  {
    if |x| == 0 || |y| == 0 then []
    else if x[0] < y[0] then
      StrictTail(x);
      assert Elems(x) == {x[0]} + Elems(x[1..]);
      Intersect(x[1..], y)
    else if y[0] < x[0] then
      StrictTail(y);
      assert Elems(y) == {y[0]} + Elems(y[1..]);
      Intersect(x, y[1..])
    else
      var rest := Intersect(x[1..], y[1..]);
      StrictTail(x);
      StrictTail(y);
      assert Elems(x) == {x[0]} + Elems(x[1..]);
      assert Elems(y) == {y[0]} + Elems(y[1..]);
      StrictCons(x[0], rest);
      ElemsCons(x[0], rest);
      [x[0]] + rest
  }

  /** `Diff`: `std::set_difference`, the elements of `x` not in `y`. */
  function Diff(x: seq<Value>, y: seq<Value>): (r: seq<Value>)
    requires Strict(x) && Strict(y)
    ensures Strict(r) && Elems(r) == Elems(x) - Elems(y)
    decreases |x| + |y|
  {
    if |x| == 0 then []
    else if |y| == 0 then x
    else if x[0] < y[0] then
      var rest := Diff(x[1..], y);
      StrictTail(x);
      assert Elems(x) == {x[0]} + Elems(x[1..]);
      StrictCons(x[0], rest);
      ElemsCons(x[0], rest);
      [x[0]] + rest
    else if y[0] < x[0] then
      StrictTail(y);
      assert Elems(y) == {y[0]} + Elems(y[1..]);
      Diff(x, y[1..])
    else
      StrictTail(x);
      StrictTail(y);
      assert Elems(x) == {x[0]} + Elems(x[1..]);
      assert Elems(y) == {y[0]} + Elems(y[1..]);
      Diff(x[1..], y[1..])
  }

  /** `Eq` compares the containers; for sorted sequences that is set
      equality, since each set has exactly one sorted form. */
  lemma {:induction false} EqIsSetEquality(x: seq<Value>, y: seq<Value>)
    requires Strict(x) && Strict(y)
    ensures x == y <==> Elems(x) == Elems(y)
    decreases |x| + |y|
  {
    if Elems(x) == Elems(y) && |x| > 0 && |y| > 0 {
      StrictTail(x);
      StrictTail(y);
      assert x[0] == y[0] by {
        assert x[0] in Elems(y) && y[0] in Elems(x);
        var k :| 0 <= k < |y| && y[k] == x[0];
        var m :| 0 <= m < |x| && x[m] == y[0];
        assert y[0] <= y[k] && x[0] <= x[m];
      }
      assert Elems(x[1..]) == Elems(y[1..]) by {
        assert Elems(x) == {x[0]} + Elems(x[1..]);
        assert Elems(y) == {y[0]} + Elems(y[1..]);
        assert x[0] !in Elems(x[1..]) && y[0] !in Elems(y[1..]);
      }
      EqIsSetEquality(x[1..], y[1..]);
      assert x == [x[0]] + x[1..] && y == [y[0]] + y[1..];
    } else if |x| > 0 && |y| == 0 {
      assert x[0] in Elems(x);
    } else if |y| > 0 && |x| == 0 {
      assert y[0] in Elems(y);
    }
  }

  /** `size()` counts distinct facts. */
  lemma {:induction false} SizeIsCardinality(x: seq<Value>)
    requires Strict(x)
    ensures |Elems(x)| == |x|
  {
    if |x| > 0 {
      StrictTail(x);
      SizeIsCardinality(x[1..]);
      assert Elems(x) == {x[0]} + Elems(x[1..]);
      assert x[0] !in Elems(x[1..]);
    }
  }

  /** `addFact`: the fact joins the set and the universe. */
  function AddFact(facts: seq<Value>, universe: seq<Value>, v: Value): (r: (seq<Value>, seq<Value>))
    requires Strict(facts) && Strict(universe)
    ensures Strict(r.0) && Strict(r.1)
    ensures Elems(r.0) == Elems(facts) + {v} && Elems(r.1) == Elems(universe) + {v}
  {
    InsertSpec(facts, v);
    InsertSpec(universe, v);
    (Insert(facts, v), Insert(universe, v))
  }

  /** `removeFact`: `facts.erase(v)`. */
  function RemoveFact(facts: seq<Value>, v: Value): (r: seq<Value>)
    requires Strict(facts)
    ensures Strict(r) && Elems(r) == Elems(facts) - {v}
  {
    Diff(facts, [v])
  }

  /** After removal the fact is gone and every other fact is still there;
      after adding, it is present. */
  lemma ContainsAfterUpdate(facts: seq<Value>, universe: seq<Value>, v: Value, w: Value)
    requires Strict(facts) && Strict(universe)
    ensures v !in RemoveFact(facts, v)
    ensures w != v ==> (w in RemoveFact(facts, v) <==> w in facts)
    ensures v in AddFact(facts, universe, v).0 && v in AddFact(facts, universe, v).1
  {
    var r := RemoveFact(facts, v);
    assert v !in Elems(r);
    if w != v {
      assert w in Elems(r) <==> w in Elems(facts);
    }
    var a := AddFact(facts, universe, v);
    assert v in Elems(a.0) && v in Elems(a.1);
  }
}

=== FILE: disjointset.dfy ===
/** `DisjointSet`: union by rank with path compression. The node map is a
    finite map from element to its parent and rank; a node is a root when it
    is its own parent. `std::unordered_map::at` on an absent element throws;
    here that is `None`. */
module DisjointSet {
  import opened Wrappers

  type Elem = nat

  datatype Node = Node(parent: Elem, rank: nat)

  type Forest = map<Elem, Node>

  /** Every parent is a made element, and ranks grow strictly towards the
      root: union by rank keeps this, and it is why `findSet` terminates. */
  predicate Valid(f: Forest)
  {
    forall x {:trigger ValidAt(f, x)} :: x in f ==> ValidAt(f, x)
  }

  /** The condition at one element. Valid's quantifier fires on this alone:
      on `x in f` it would feed itself the parent's membership forever. */
  predicate ValidAt(f: Forest, x: Elem)
    requires x in f
  {
    f[x].parent in f && (f[x].parent != x ==> f[x].rank < f[f[x].parent].rank)
  }

  // ---------------------------------------------------------------------------
  // The largest rank: the measure that bounds every walk to a root
  // ---------------------------------------------------------------------------

  ghost function Ranks(f: Forest): set<nat>
  {
    set x | x in f :: f[x].rank
  }

  ghost function MaxOf(s: set<nat>): (r: nat)
    requires s != {}
    ensures r in s && forall y :: y in s ==> y <= r
  {
    var y :| y in s;
    if s == {y} then y
    else
      var rest := MaxOf(s - {y});
      assert forall z :: z in s ==> z == y || z in s - {y};
      if y > rest then y else rest
  }

  ghost function MaxRank(f: Forest): nat
  {
    if f == map[] then 0 else
      var x :| x in f;
      assert f[x].rank in Ranks(f);
      MaxOf(Ranks(f))
  }

  lemma RankBound(f: Forest, x: Elem)
    requires x in f
    ensures f[x].rank <= MaxRank(f)
  {
    assert f[x].rank in Ranks(f);
  }

  // ---------------------------------------------------------------------------
  // Representatives
  // ---------------------------------------------------------------------------

  /** The root above `x`, found without changing the forest. */
  function Root(f: Forest, x: Elem): (r: Elem)
    requires Valid(f) && x in f
    ensures r in f && f[r].parent == r
    ensures r != x ==> f[x].rank < f[r].rank
    decreases MaxRank(f) - f[x].rank
  {
    assert ValidAt(f, x);
    if f[x].parent == x then x
    else
      RankBound(f, f[x].parent);
      Root(f, f[x].parent)
  }

  /** `g` is `f` with some elements pointed straight at their roots: what
      path compression does. */
  predicate Compresses(f: Forest, g: Forest)
    requires Valid(f)
  {
    g.Keys == f.Keys &&
    forall k :: k in f ==> g[k] == f[k] || g[k] == Node(Root(f, k), f[k].rank)
  }

  lemma CompressedValid(f: Forest, g: Forest)
    requires Valid(f) && Compresses(f, g)
    ensures Valid(g)
  {
    forall k | k in g ensures ValidAt(g, k) {
      assert ValidAt(f, k);
      assert g[g[k].parent].rank == f[g[k].parent].rank;
    }
  }

  /** Compression keeps every element's root. */
  lemma {:induction false} CompressedRoot(f: Forest, g: Forest, k: Elem)
    requires Valid(f) && Compresses(f, g) && k in f
    ensures Valid(g) && Root(g, k) == Root(f, k)
    decreases MaxRank(f) - f[k].rank
  {
    CompressedValid(f, g);
    assert ValidAt(f, k);
    var root := Root(f, k);
    assert g[root].parent == root;
    if g[k] == f[k] && f[k].parent != k {
      RankBound(f, f[k].parent);
      CompressedRoot(f, g, f[k].parent);
    }
  }

  lemma CompressesTransitive(f: Forest, g: Forest, h: Forest)
    requires Valid(f) && Compresses(f, g)
    requires Valid(g) && Compresses(g, h)
    ensures Compresses(f, h)
  {
    forall k | k in f ensures h[k] == f[k] || h[k] == Node(Root(f, k), f[k].rank) {
      CompressedRoot(f, g, k);
    }
  }

  /** The private `findSet(Node*)`: the root of `x`, with every node on the
      way from `x` pointed straight at it; afterwards `x` hangs off its root
      directly. */
  function Find(f: Forest, x: Elem): (r: (Elem, Forest))
    requires Valid(f) && x in f
    ensures r.0 == Root(f, x) && Compresses(f, r.1) && Valid(r.1)
    ensures r.1[x].parent == r.0
    decreases MaxRank(f) - f[x].rank
  {
    assert ValidAt(f, x);
    if f[x].parent == x then (x, f)
    else
      RankBound(f, f[x].parent);
      var (root, f1) := Find(f, f[x].parent);
      var f2 := f1[x := Node(root, f[x].rank)];
      assert Compresses(f, f2);
      CompressedValid(f, f2);
      (root, f2)
  }

  /** Path compression changes no element's representative. */
  lemma FindKeepsRoots(f: Forest, x: Elem, k: Elem)
    requires Valid(f) && x in f && k in f
    ensures Root(Find(f, x).1, k) == Root(f, k) && Find(f, x).1[k].rank == f[k].rank
  {
    CompressedRoot(f, Find(f, x).1, k);
  }

  /** `findSet(const T&)`: the representative of a made element; an absent
      one throws. */
  function FindSet(f: Forest, x: Elem): (r: Option<(Elem, Forest)>)
    requires Valid(f)
    ensures r.None? <==> x !in f
    ensures r.Some? ==> r.value.0 == Root(f, x) && Valid(r.value.1) && r.value.1.Keys == f.Keys
  {
    if x in f then Some(Find(f, x)) else None
  }

  /** `makeSet`: nothing happens to a made element; a new one becomes the
      root of a singleton set of rank 0. */
  function MakeSet(f: Forest, x: Elem): (r: Forest)
    requires Valid(f)
    ensures Valid(r) && r.Keys == f.Keys + {x}
    ensures x in f ==> r == f
    ensures x !in f ==> r[x] == Node(x, 0) && Root(r, x) == x
    ensures forall k :: k in f ==> r[k] == f[k] && Root(r, k) == Root(f, k)
  {
    if x in f then f
    else
      var r := f[x := Node(x, 0)];
      MakeSetValid(f, x);
      forall k | k in f ensures Root(r, k) == Root(f, k) {
        MakeSetKeepsRoots(f, x, k);
      }
      r
  }

  lemma MakeSetValid(f: Forest, x: Elem)
    requires Valid(f) && x !in f
    ensures Valid(f[x := Node(x, 0)])
  {
    var g := f[x := Node(x, 0)];
    forall k | k in g ensures ValidAt(g, k) {
      if k != x {
        assert ValidAt(f, k);
      }
    }
  }

  lemma {:induction false} MakeSetKeepsRoots(f: Forest, x: Elem, k: Elem)
    requires Valid(f) && x !in f && k in f
    ensures Valid(f[x := Node(x, 0)]) && Root(f[x := Node(x, 0)], k) == Root(f, k)
    decreases MaxRank(f) - f[k].rank
  {
    MakeSetValid(f, x);
    assert ValidAt(f, k);
    if f[k].parent != k {
      RankBound(f, f[k].parent);
      MakeSetKeepsRoots(f, x, f[k].parent);
    }
  }

  /** A root hung under another root of larger rank, or of equal rank that
      then grows by one, keeps ranks growing towards the roots. */
  lemma LinkValid(f: Forest, low: Elem, high: Elem, rank: nat)
    requires Valid(f) && low in f && high in f && low != high
    requires f[low].parent == low && f[high].parent == high
    requires f[high].rank <= rank && f[low].rank < rank
    ensures Valid(f[high := Node(high, rank)][low := Node(high, f[low].rank)])
  {
    var g := f[high := Node(high, rank)][low := Node(high, f[low].rank)];
    forall k | k in g ensures ValidAt(g, k) {
      assert ValidAt(f, k);
    }
  }

  /** Hanging root `low` under root `high` moves exactly the elements of
      `low`'s set to `high`. */
  lemma {:induction false} LinkRoots(f: Forest, low: Elem, high: Elem, rank: nat, k: Elem)
    requires Valid(f) && low in f && high in f && low != high
    requires f[low].parent == low && f[high].parent == high
    requires f[high].rank <= rank && f[low].rank < rank
    requires k in f
    ensures var g := f[high := Node(high, rank)][low := Node(high, f[low].rank)];
      Valid(g) && Root(g, k) == (if Root(f, k) == low then high else Root(f, k))
    decreases MaxRank(f) - f[k].rank
  {
    var g := f[high := Node(high, rank)][low := Node(high, f[low].rank)];
    LinkValid(f, low, high, rank);
    assert ValidAt(f, k);
    if k == low {
      assert Root(g, high) == high;
    } else if k != high && f[k].parent != k {
      RankBound(f, f[k].parent);
      LinkRoots(f, low, high, rank, f[k].parent);
    }
  }

  /** The root that survives a union: the one of larger rank, the first on
      a tie. */
  function Survivor(f: Forest, p1: Elem, p2: Elem): Elem
    requires p1 in f && p2 in f
  {
    if f[p1].rank >= f[p2].rank then p1 else p2
  }

  /** The linking step of `doUnion`: the root of smaller rank goes under the
      other; on a tie the first root's rank grows by one. */
  function Link(f: Forest, p1: Elem, p2: Elem): (r: Forest)
    requires Valid(f) && p1 in f && p2 in f && p1 != p2
    requires f[p1].parent == p1 && f[p2].parent == p2
    ensures Valid(r) && r.Keys == f.Keys
  {
    var r1, r2 := f[p1].rank, f[p2].rank;
    if r1 >= r2 then
      var nr := r1 + (if r1 == r2 then 1 else 0);
      LinkValid(f, p2, p1, nr);
      f[p1 := Node(p1, nr)][p2 := Node(p1, r2)]
    else
      LinkValid(f, p1, p2, r2);
      assert f[p2 := Node(p2, r2)] == f;
      f[p1 := Node(p2, r1)]
  }

  /** A root stays a root under compression. */
  lemma CompressedKeepsRoot(f: Forest, g: Forest, p: Elem)
    requires Valid(f) && Compresses(f, g) && p in f && f[p].parent == p
    ensures g[p] == f[p]
  {
  }

  /** `doUnion`: both elements must have been made (`at` throws otherwise).
      The two roots are found with path compression; equal roots leave the
      forest as `findSet` left it, otherwise they are linked. The elements
      stay the same, so `size` does too. */
  function Union(f: Forest, a: Elem, b: Elem): (r: Option<Forest>)
    requires Valid(f)
    ensures r.None? <==> a !in f || b !in f
    ensures r.Some? ==> Valid(r.value) && r.value.Keys == f.Keys
  {
    if a !in f || b !in f then None
    else
      var (p1, f1) := Find(f, a);
      var (p2, f2) := Find(f1, b);
      CompressesTransitive(f, f1, f2);
      CompressedKeepsRoot(f, f2, p1);
      if p1 == p2 then Some(f2)
      else Some(Link(f2, p1, p2))
  }

  /** After `doUnion(a, b)` every element of the two sets has the surviving
      root as representative and every other element keeps its own; in
      particular `findSet(a) == findSet(b)`. */
  lemma {:induction false} UnionRoot(f: Forest, a: Elem, b: Elem, k: Elem)
    requires Valid(f) && a in f && b in f && k in f
    ensures var r := Union(f, a, b).value; var ra, rb := Root(f, a), Root(f, b);
      Root(r, k) == (if Root(f, k) == ra || Root(f, k) == rb then Survivor(f, ra, rb) else Root(f, k))
  {
    var (p1, f1) := Find(f, a);
    var (p2, f2) := Find(f1, b);
    CompressesTransitive(f, f1, f2);
    CompressedRoot(f, f1, b);
    CompressedRoot(f, f2, k);
    CompressedKeepsRoot(f, f2, p1);
    if p1 != p2 {
      LinkRoot(f2, p1, p2, k);
    }
  }

  /** Linking two roots sends the elements of both sets to the survivor and
      leaves every other root alone. */
  lemma LinkRoot(f: Forest, p1: Elem, p2: Elem, k: Elem)
    requires Valid(f) && p1 in f && p2 in f && p1 != p2 && k in f
    requires f[p1].parent == p1 && f[p2].parent == p2
    ensures Root(Link(f, p1, p2), k) == (if Root(f, k) == p1 || Root(f, k) == p2 then Survivor(f, p1, p2) else Root(f, k))
  {
    assert Root(f, p1) == p1 && Root(f, p2) == p2;
    if f[p1].rank >= f[p2].rank {
      LinkRootFirstSurvives(f, p1, p2, k);
    } else {
      LinkRootSecondSurvives(f, p1, p2, k);
    }
  }

  lemma LinkRootFirstSurvives(f: Forest, p1: Elem, p2: Elem, k: Elem)
    requires Valid(f) && p1 in f && p2 in f && p1 != p2 && k in f
    requires f[p1].parent == p1 && f[p2].parent == p2 && f[p1].rank >= f[p2].rank
    ensures Root(Link(f, p1, p2), k) == (if Root(f, k) == p2 then p1 else Root(f, k))
  {
    var r1, r2 := f[p1].rank, f[p2].rank;
    var nr := r1 + (if r1 == r2 then 1 else 0);
    assert Link(f, p1, p2) == f[p1 := Node(p1, nr)][p2 := Node(p1, r2)];
    LinkRoots(f, p2, p1, nr, k);
  }

  lemma LinkRootSecondSurvives(f: Forest, p1: Elem, p2: Elem, k: Elem)
    requires Valid(f) && p1 in f && p2 in f && p1 != p2 && k in f
    requires f[p1].parent == p1 && f[p2].parent == p2 && f[p1].rank < f[p2].rank
    ensures Root(Link(f, p1, p2), k) == (if Root(f, k) == p1 then p2 else Root(f, k))
  {
    var r1, r2 := f[p1].rank, f[p2].rank;
    assert Link(f, p1, p2) == f[p1 := Node(p2, r1)];
    assert f[p2 := Node(p2, r2)] == f;
    LinkRoots(f, p1, p2, r2, k);
  }

  lemma UnionJoins(f: Forest, a: Elem, b: Elem)
    requires Valid(f) && a in f && b in f
    ensures var r := Union(f, a, b).value; Root(r, a) == Root(r, b)
  {
    UnionRoot(f, a, b, a);
    UnionRoot(f, a, b, b);
  }

  /** Ranks: only the surviving root's can change, and it grows by one
      exactly when two different roots of equal rank were linked. */
  lemma UnionRanks(f: Forest, a: Elem, b: Elem, k: Elem)
    requires Valid(f) && a in f && b in f && k in f
    ensures var r := Union(f, a, b).value; var ra, rb := Root(f, a), Root(f, b);
      r[k].rank == f[k].rank + (if k == ra && ra != rb && f[ra].rank == f[rb].rank then 1 else 0)
  {
    var (p1, f1) := Find(f, a);
    var (p2, f2) := Find(f1, b);
    CompressesTransitive(f, f1, f2);
    CompressedRoot(f, f1, b);
    CompressedKeepsRoot(f, f2, p1);
    assert f2[k].rank == f[k].rank && f2[p1].rank == f[p1].rank && f2[p2].rank == f[p2].rank;
    if p1 != p2 {
      LinkRanks(f2, p1, p2, k);
    }
  }

  /** Linking raises only the surviving root's rank, and that by one when
      the ranks were equal. */
  lemma LinkRanks(f: Forest, p1: Elem, p2: Elem, k: Elem)
    requires Valid(f) && p1 in f && p2 in f && p1 != p2 && k in f
    requires f[p1].parent == p1 && f[p2].parent == p2
    ensures Link(f, p1, p2)[k].rank == f[k].rank + (if k == p1 && f[p1].rank == f[p2].rank then 1 else 0)
  {
    var r1, r2 := f[p1].rank, f[p2].rank;
    if r1 >= r2 {
      assert Link(f, p1, p2) == f[p1 := Node(p1, r1 + (if r1 == r2 then 1 else 0))][p2 := Node(p1, r2)];
    } else {
      assert Link(f, p1, p2) == f[p1 := Node(p2, r1)];
    }
  }


  /** `size`: the number of made elements. */
  function Size(f: Forest): nat
  {
    |f|
  }

  /** `makeSet` of a new element adds one to `size`, of a made one nothing;
      `doUnion` leaves it alone. */
  lemma SizeCounts(f: Forest, x: Elem, a: Elem, b: Elem)
    requires Valid(f)
    ensures Size(MakeSet(f, x)) == Size(f) + (if x in f then 0 else 1)
    ensures a in f && b in f ==> Size(Union(f, a, b).value) == Size(f)
  {
    var m := MakeSet(f, x);
    if x !in f {
      assert m.Keys == f.Keys + {x};
      assert |m.Keys| == |f.Keys| + 1;
    }
    if a in f && b in f {
      var u := Union(f, a, b).value;
      assert u.Keys == f.Keys;
      assert |u.Keys| == |f.Keys|;
    }
  }
}

=== FILE: exp.dfy ===
/** `exp.py`: the benchmark driver. `dir_run` hands every `.smt2` file under a
    directory to the solver, `list_run` every row of a results list; a run
    that overruns its deadline is recorded in `timeout.csv`, a run that fails
    is skipped. Spawning the solver is the parameter `run`, which says how a
    command line would end. */
module Exp {
  import opened Wrappers
  import opened Strings
  import opened Table
  import Seqs

  /** How a solver run ends: its exit status and its duration in seconds. */
  datatype Run = Run(exitCode: int, seconds: nat)

  /** One solver invocation `program -F file -M solver -O output -D domain -T timeout`. */
  datatype Command = Command(program: string, file: string, solver: string, output: string, domain: string, timeout: int)

  /** The argument vector handed to `subprocess.run`. */
  function Argv(c: Command): seq<string>
  {
    [c.program, "-F", c.file, "-M", c.solver, "-O", c.output, "-D", c.domain, "-T", IntToString(c.timeout)]
  }

  /** The `-T` value that means "no deadline". */
  const NoDeadline: int := -1

  /** `subprocess.run(..., timeout=timeout)` raises `TimeoutExpired`: a deadline
      was given and the run outlasts it. */
  predicate TimesOut(timeout: int, r: Run)
  {
    timeout != NoDeadline && r.seconds > timeout
  }

  /** The row `csv.writer` appends to `timeout.csv` for a command that timed out. */
  function LogRow(c: Command): seq<string>
  {
    [c.file, c.solver, IntToString(c.timeout)]
  }

  /** Reference definition of the timeout log: one row per command that timed
      out, in the order the commands were issued. */
  function TimeoutRows(cs: seq<Command>, run: seq<string> -> Run): (rows: seq<seq<string>>)
    ensures |rows| <= |cs|
  {
    if |cs| == 0 then []
    else (if TimesOut(cs[0].timeout, run(Argv(cs[0]))) then [LogRow(cs[0])] else []) + TimeoutRows(cs[1..], run)
  }

  /** Without a deadline nothing is ever logged. */
  lemma {:induction false} NoDeadlineNoRows(cs: seq<Command>, run: seq<string> -> Run)
    requires forall i :: 0 <= i < |cs| ==> cs[i].timeout == NoDeadline
    ensures TimeoutRows(cs, run) == []
  {
    if |cs| > 0 {
      NoDeadlineNoRows(cs[1..], run);
    }
  }

  // ---------------------------------------------------------------------------
  // dir_run
  // ---------------------------------------------------------------------------

  /** A file `os.walk` reports: the directory it lies in and its name. */
  datatype Entry = Entry(root: string, name: string)

  /** `os.path.join(root, name)` for a relative name. */
  function Path(e: Entry): string
  {
    if |e.root| == 0 || EndsWith(e.root, "/") then e.root + e.name else e.root + "/" + e.name
  }

  predicate IsSmt2(e: Entry)
  {
    EndsWith(e.name, ".smt2")
  }

  /** What a driver run leaves behind: the commands issued, in order, and the
      rows appended to `timeout.csv`. */
  datatype Progress = Progress(commands: seq<Command>, log: seq<seq<string>>)

  /** `dir_run` over the files of the walk, in walk order. */
  function DirRun(program: string, entries: seq<Entry>, solver: string, output: string, domain: string,
                  timeout: int, run: seq<string> -> Run): (p: Progress)
    ensures |p.commands| == Seqs.Count(entries, IsSmt2)
    ensures forall i :: 0 <= i < |p.commands| ==>
      p.commands[i].solver == solver && p.commands[i].timeout == timeout &&
      p.commands[i].program == program && p.commands[i].output == output && p.commands[i].domain == domain
  {
    if |entries| == 0 then Progress([], [])
    else
      var rest := DirRun(program, entries[1..], solver, output, domain, timeout, run);
      if !IsSmt2(entries[0]) then rest
      else
        var c := Command(program, Path(entries[0]), solver, output, domain, timeout);
        var row := if TimesOut(timeout, run(Argv(c))) then [LogRow(c)] else [];
        Progress([c] + rest.commands, row + rest.log)
  }

  /** Exactly the `.smt2` files are dispatched, in walk order, whatever the
      earlier runs did: a failing run does not stop the loop. */
  lemma {:induction false} DirRunDispatches(program: string, entries: seq<Entry>, solver: string, output: string,
                                            domain: string, timeout: int, run: seq<string> -> Run)
    ensures var p := DirRun(program, entries, solver, output, domain, timeout, run);
      var fs := Seqs.Filter(entries, IsSmt2);
      |p.commands| == |fs| &&
      forall i :: 0 <= i < |fs| ==> p.commands[i] == Command(program, Path(fs[i]), solver, output, domain, timeout)
  {
    if |entries| > 0 {
      DirRunDispatches(program, entries[1..], solver, output, domain, timeout, run);
    }
  }

  /** The commands issued do not depend on how the runs end. */
  lemma {:induction false} DirRunIgnoresOutcomes(program: string, entries: seq<Entry>, solver: string, output: string,
                                                 domain: string, timeout: int, run1: seq<string> -> Run, run2: seq<string> -> Run)
    ensures DirRun(program, entries, solver, output, domain, timeout, run1).commands ==
            DirRun(program, entries, solver, output, domain, timeout, run2).commands
  {
    if |entries| > 0 {
      DirRunIgnoresOutcomes(program, entries[1..], solver, output, domain, timeout, run1, run2);
    }
  }

  /** `timeout.csv` gets one row per run that timed out and nothing for runs
      that finished, failed or not. */
  lemma {:induction false} DirRunLog(program: string, entries: seq<Entry>, solver: string, output: string,
                                     domain: string, timeout: int, run: seq<string> -> Run)
    ensures var p := DirRun(program, entries, solver, output, domain, timeout, run);
      p.log == TimeoutRows(p.commands, run)
  {
    if |entries| > 0 {
      DirRunLog(program, entries[1..], solver, output, domain, timeout, run);
      var p := DirRun(program, entries, solver, output, domain, timeout, run);
      var rest := DirRun(program, entries[1..], solver, output, domain, timeout, run);
      if IsSmt2(entries[0]) {
        assert p.commands[1..] == rest.commands;
      }
    }
  }

  /** With `-T -1` the runs have no deadline and `timeout.csv` is never written. */
  lemma DirRunNoDeadline(program: string, entries: seq<Entry>, solver: string, output: string,
                         domain: string, run: seq<string> -> Run)
    ensures DirRun(program, entries, solver, output, domain, NoDeadline, run).log == []
  {
    DirRunLog(program, entries, solver, output, domain, NoDeadline, run);
    NoDeadlineNoRows(DirRun(program, entries, solver, output, domain, NoDeadline, run).commands, run);
  }

  // ---------------------------------------------------------------------------
  // list_run
  // ---------------------------------------------------------------------------

  /** An exception that escapes the loop and ends the script. */
  datatype Raised = MissingColumn(column: string) | UndefinedName(name: string)

  /** A `list_run` that may have been cut short by an exception. */
  datatype ListProgress = ListProgress(commands: seq<Command>, log: seq<seq<string>>, raised: Option<Raised>)

  predicate HasColumns(row: Row)
  {
    "File" in row && "Method" in row
  }

  /** The command `list_run` builds for a row that has both columns. */
  function RowCommand(program: string, row: Row, output: string, domain: string, timeout: int): Command
    requires HasColumns(row)
  {
    Command(program, row["File"], row["Method"], output, domain, timeout)
  }

  /** `list_run` as written: a timed-out run logs the name `method`, which is
      not defined in the function, so the `NameError` ends the script after
      the failed run; nothing ever reaches `timeout.csv`. */
  function ListRunAsWritten(program: string, rows: seq<Row>, output: string, domain: string,
                            timeout: int, run: seq<string> -> Run): (p: ListProgress)
    ensures p.log == []
    ensures |p.commands| <= |rows|
  {
    if |rows| == 0 then ListProgress([], [], None)
    else if "File" !in rows[0] then ListProgress([], [], Some(MissingColumn("File")))
    else if "Method" !in rows[0] then ListProgress([], [], Some(MissingColumn("Method")))
    else
      var c := RowCommand(program, rows[0], output, domain, timeout);
      if TimesOut(timeout, run(Argv(c))) then ListProgress([c], [], Some(UndefinedName("method")))
      else
        var rest := ListRunAsWritten(program, rows[1..], output, domain, timeout, run);
        ListProgress([c] + rest.commands, rest.log, rest.raised)
  }

  /** `list_run` with the row's own `Method` in the timeout row. */
  function ListRun(program: string, rows: seq<Row>, output: string, domain: string,
                   timeout: int, run: seq<string> -> Run): (p: ListProgress)
    ensures |p.commands| <= |rows|
    ensures p.raised.None? || p.raised.value.MissingColumn?
  {
    if |rows| == 0 then ListProgress([], [], None)
    else if "File" !in rows[0] then ListProgress([], [], Some(MissingColumn("File")))
    else if "Method" !in rows[0] then ListProgress([], [], Some(MissingColumn("Method")))
    else
      var c := RowCommand(program, rows[0], output, domain, timeout);
      var row := if TimesOut(timeout, run(Argv(c))) then [LogRow(c)] else [];
      var rest := ListRun(program, rows[1..], output, domain, timeout, run);
      ListProgress([c] + rest.commands, row + rest.log, rest.raised)
  }

  /** The corrected loop stops only at a row without `File` or `Method`; when
      every row has both, each row is run once, in order, and every timed-out
      run is logged with its own method. */
  lemma {:induction false} ListRunSpec(program: string, rows: seq<Row>, output: string, domain: string,
                                       timeout: int, run: seq<string> -> Run)
    ensures var p := ListRun(program, rows, output, domain, timeout, run);
      (p.raised.None? <==> forall i :: 0 <= i < |rows| ==> HasColumns(rows[i])) &&
      p.log == TimeoutRows(p.commands, run)
    ensures var p := ListRun(program, rows, output, domain, timeout, run);
      p.raised.None? ==> (|p.commands| == |rows| &&
        forall i :: 0 <= i < |rows| ==> (HasColumns(rows[i]) &&
          p.commands[i] == RowCommand(program, rows[i], output, domain, timeout)))
  {
    if |rows| > 0 && HasColumns(rows[0]) {
      ListRunSpec(program, rows[1..], output, domain, timeout, run);
      var p := ListRun(program, rows, output, domain, timeout, run);
      var rest := ListRun(program, rows[1..], output, domain, timeout, run);
      assert p.commands[1..] == rest.commands;
      assert forall i :: 1 <= i < |rows| ==> rows[i] == rows[1..][i - 1];
    }
  }

  /** Index of the first row whose run times out, if any. */
  function FirstTimeout(program: string, rows: seq<Row>, output: string, domain: string,
                        timeout: int, run: seq<string> -> Run): (k: Option<nat>)
    requires forall i :: 0 <= i < |rows| ==> HasColumns(rows[i])
    ensures k.Some? ==> (k.value < |rows| &&
      TimesOut(timeout, run(Argv(RowCommand(program, rows[k.value], output, domain, timeout)))) &&
      forall j :: 0 <= j < k.value ==> !TimesOut(timeout, run(Argv(RowCommand(program, rows[j], output, domain, timeout)))))
    ensures k.None? ==>
      forall j :: 0 <= j < |rows| ==> !TimesOut(timeout, run(Argv(RowCommand(program, rows[j], output, domain, timeout))))
  {
    if |rows| == 0 then None
    else if TimesOut(timeout, run(Argv(RowCommand(program, rows[0], output, domain, timeout)))) then Some(0)
    else
      assert forall i :: 1 <= i < |rows| ==> rows[i] == rows[1..][i - 1];
      match FirstTimeout(program, rows[1..], output, domain, timeout, run)
      case None => None
      case Some(k) => Some(k + 1)
  }

  /** As written, the first timed-out run ends the script with `NameError`:
      the rows after it are never run, and a list without time-outs runs to
      the end. */
  lemma {:induction false} ListRunAsWrittenStops(program: string, rows: seq<Row>, output: string, domain: string,
                                                 timeout: int, run: seq<string> -> Run)
    requires forall i :: 0 <= i < |rows| ==> HasColumns(rows[i])
    ensures var p := ListRunAsWritten(program, rows, output, domain, timeout, run);
      match FirstTimeout(program, rows, output, domain, timeout, run)
      case None => p.raised == None && |p.commands| == |rows|
      case Some(k) => p.raised == Some(UndefinedName("method")) && |p.commands| == k + 1
  {
    if |rows| > 0 && !TimesOut(timeout, run(Argv(RowCommand(program, rows[0], output, domain, timeout)))) {
      assert forall i :: 1 <= i < |rows| ==> rows[i] == rows[1..][i - 1];
      ListRunAsWrittenStops(program, rows[1..], output, domain, timeout, run);
    }
  }

  /** One row whose ten-second run takes twenty: as written the script dies
      with `NameError` and logs nothing; corrected, the row is logged. */
  lemma ListRunTimeoutExample()
    ensures var rows := [map["File" := "a.smt2", "Method" := "m"]];
      var run := (argv: seq<string>) => Run(0, 20);
      ListRunAsWritten("z", rows, "o.csv", "d", 10, run) ==
        ListProgress([Command("z", "a.smt2", "m", "o.csv", "d", 10)], [], Some(UndefinedName("method"))) &&
      ListRun("z", rows, "o.csv", "d", 10, run) ==
        ListProgress([Command("z", "a.smt2", "m", "o.csv", "d", 10)], [["a.smt2", "m", "10"]], None)
  {
    assert IntToString(10) == "10" by {
      assert NatToString(10) == NatToString(1) + [DigitChar(0)];
    }
  }

  // ---------------------------------------------------------------------------
  // Feeding timeout.csv back to list_run
  // ---------------------------------------------------------------------------

  /** The lines `csv.writer` leaves in `timeout.csv` for rows without commas. */
  function LogLines(log: seq<seq<string>>): (lines: seq<string>)
    ensures |lines| == |log| && forall i :: 0 <= i < |log| ==> lines[i] == Join(log[i], ',')
  {
    seq(|log|, i requires 0 <= i < |log| => Join(log[i], ','))
  }

  /** Three comma-free cells, the shape of every `timeout.csv` row. */
  predicate LogShaped(log: seq<seq<string>>)
  {
    forall i :: 0 <= i < |log| ==> |log[i]| == 3 && forall j :: 0 <= j < 3 ==> ',' !in log[i][j]
  }

  /** Every logged row is the row of one of the commands; commands whose file
      and solver have no comma give comma-free rows. */
  lemma {:induction false} TimeoutRowsShape(cs: seq<Command>, run: seq<string> -> Run)
    ensures forall r :: r in TimeoutRows(cs, run) ==>
      exists j :: 0 <= j < |cs| && r == LogRow(cs[j]) && TimesOut(cs[j].timeout, run(Argv(cs[j])))
    ensures (forall j :: 0 <= j < |cs| ==> ',' !in cs[j].file && ',' !in cs[j].solver) ==> LogShaped(TimeoutRows(cs, run))
  {
    if |cs| > 0 {
      TimeoutRowsShape(cs[1..], run);
      forall r | r in TimeoutRows(cs[1..], run)
        ensures exists j :: 0 <= j < |cs| && r == LogRow(cs[j]) && TimesOut(cs[j].timeout, run(Argv(cs[j])))
      {
        var j :| 0 <= j < |cs[1..]| && r == LogRow(cs[1..][j]) && TimesOut(cs[1..][j].timeout, run(Argv(cs[1..][j])));
        assert cs[1..][j] == cs[j + 1];
      }
      var rows := TimeoutRows(cs, run);
      if forall j :: 0 <= j < |cs| ==> ',' !in cs[j].file && ',' !in cs[j].solver {
        forall i | 0 <= i < |rows| ensures |rows[i]| == 3 && forall k :: 0 <= k < 3 ==> ',' !in rows[i][k] {
          assert rows[i] in rows;
          var j :| 0 <= j < |cs| && rows[i] == LogRow(cs[j]) && TimesOut(cs[j].timeout, run(Argv(cs[j])));
        }
      }
    }
  }

  /** `dir_run` never writes a header, so `csv.DictReader` takes the first
      logged row for one: re-running a log of two or more rows whose first row
      has no cell `File` stops at once with `KeyError`, and a log of one row
      re-runs nothing. */
  lemma HeaderlessLogAsWritten(program: string, log: seq<seq<string>>, output: string, domain: string,
                               timeout: int, run: seq<string> -> Run)
    requires |log| >= 1 && LogShaped(log) && "File" !in log[0]
    ensures var rows := ReadDict(LogLines(log));
      |rows| == |log| - 1 &&
      (|log| >= 2 ==>
        ListRunAsWritten(program, rows, output, domain, timeout, run) == ListProgress([], [], Some(MissingColumn("File"))) &&
        ListRun(program, rows, output, domain, timeout, run) == ListProgress([], [], Some(MissingColumn("File"))))
  {
    var lines := LogLines(log);
    var rows := ReadDict(lines);
    if |log| >= 2 {
      SplitJoin(log[0], ',');
      assert rows[0] == RowOf(log[0], Split(lines[1], ','));
      assert "File" !in rows[0];
    }
  }

  /** The columns a header for `timeout.csv` names: what `list_run` reads. */
  const TimeoutColumns: seq<string> := ["File", "Method", "Timeout"]

  /** `timeout.csv` as it reads back when the header goes in first, as
      `csvDealer` does for the result logs. */
  function HeadedLogLines(log: seq<seq<string>>): (lines: seq<string>)
    ensures |lines| == |log| + 1 && lines[0] == Join(TimeoutColumns, ',')
  {
    [Join(TimeoutColumns, ',')] + LogLines(log)
  }

  /** With the header, re-running the log runs each logged file once, in
      order, with its logged method. */
  lemma HeadedLogRerun(program: string, log: seq<seq<string>>, output: string, domain: string,
                       timeout: int, run: seq<string> -> Run)
    requires LogShaped(log)
    ensures var p := ListRun(program, ReadDict(HeadedLogLines(log)), output, domain, timeout, run);
      p.raised == None && |p.commands| == |log| &&
      forall i :: 0 <= i < |log| ==> p.commands[i].file == log[i][0] && p.commands[i].solver == log[i][1]
  {
    HeadedLogRows(log);
    ListRunSpec(program, ReadDict(HeadedLogLines(log)), output, domain, timeout, run);
  }

  /** Under the header, every logged row reads back with its file and method. */
  lemma HeadedLogRows(log: seq<seq<string>>)
    requires LogShaped(log)
    ensures var rows := ReadDict(HeadedLogLines(log));
      |rows| == |log| &&
      forall i :: 0 <= i < |rows| ==> HasColumns(rows[i]) && rows[i]["File"] == log[i][0] && rows[i]["Method"] == log[i][1]
  {
    var lines := HeadedLogLines(log);
    var rows := ReadDict(lines);
    assert Split(lines[0], ',') == TimeoutColumns by {
      SplitJoin(TimeoutColumns, ',');
    }
    forall i | 0 <= i < |rows|
      ensures HasColumns(rows[i]) && rows[i]["File"] == log[i][0] && rows[i]["Method"] == log[i][1]
    {
      assert lines[i + 1] == Join(log[i], ',');
      LoggedRowReadsBack(log[i]);
    }
  }

  /** One logged row, read under the header, gives back its file and method. */
  lemma {:induction false} LoggedRowReadsBack(cells: seq<string>)
    requires |cells| == 3 && forall j :: 0 <= j < 3 ==> ',' !in cells[j]
    ensures var r := RowOf(TimeoutColumns, Split(Join(cells, ','), ','));
      HasColumns(r) && r["File"] == cells[0] && r["Method"] == cells[1]
  {
    SplitJoin(cells, ',');
    TimeoutColumnsDistinct();
    RowOfDistinct(TimeoutColumns, cells, 0);
    RowOfDistinct(TimeoutColumns, cells, 1);
  }

  lemma TimeoutColumnsDistinct()
    ensures forall a, b :: 0 <= a < b < |TimeoutColumns| ==> TimeoutColumns[a] != TimeoutColumns[b]
  {
    assert TimeoutColumns[0][0] == 'F' && TimeoutColumns[1][0] == 'M' && TimeoutColumns[2][0] == 'T';
  }

  /** The round trip the `-L` option is for: the files `dir_run` logged as
      timed out, read back from a headed `timeout.csv`, are re-run in order
      with the same method. */
  lemma DirRunRerun(program: string, entries: seq<Entry>, solver: string, output: string, domain: string,
                    timeout: int, run: seq<string> -> Run, timeout2: int, run2: seq<string> -> Run)
    requires forall i :: 0 <= i < |entries| ==> ',' !in Path(entries[i])
    requires ',' !in solver
    ensures var p := DirRun(program, entries, solver, output, domain, timeout, run);
      var q := ListRun(program, ReadDict(HeadedLogLines(p.log)), output, domain, timeout2, run2);
      q.raised == None && |q.commands| == |TimeoutRows(p.commands, run)| &&
      forall i :: 0 <= i < |q.commands| ==> (q.commands[i].solver == solver &&
        exists j :: 0 <= j < |p.commands| && q.commands[i].file == p.commands[j].file &&
                    TimesOut(timeout, run(Argv(p.commands[j]))))
  {
    var p := DirRun(program, entries, solver, output, domain, timeout, run);
    DirRunLog(program, entries, solver, output, domain, timeout, run);
    DirRunDispatches(program, entries, solver, output, domain, timeout, run);
    var fs := Seqs.Filter(entries, IsSmt2);
    forall j | 0 <= j < |p.commands| ensures ',' !in p.commands[j].file {
      assert fs[j] in fs;
      Seqs.FilterMembership(entries, IsSmt2, fs[j]);
      var k :| 0 <= k < |entries| && entries[k] == fs[j];
    }
    TimeoutRowsShape(p.commands, run);
    HeadedLogRerun(program, p.log, output, domain, timeout2, run2);
    var q := ListRun(program, ReadDict(HeadedLogLines(p.log)), output, domain, timeout2, run2);
    forall i | 0 <= i < |q.commands|
      ensures q.commands[i].solver == solver &&
        exists j :: 0 <= j < |p.commands| && q.commands[i].file == p.commands[j].file &&
                    TimesOut(timeout, run(Argv(p.commands[j])))
    {
      assert p.log[i] in p.log;
      var j :| 0 <= j < |p.commands| && p.log[i] == LogRow(p.commands[j]) &&
               TimesOut(p.commands[j].timeout, run(Argv(p.commands[j])));
    }
  }
}

=== FILE: genkill.dfy ===
/** `GenKillTransformer`: the weights of the interprocedural gen/kill
    analysis. A transformer maps a fact set `x` to `(x \ kill) ∪ gen`. The
    three special transformers `one`, `zero` and `bottom` are shared
    singletons compared by address; here they are constructors of their own,
    and the universe they were built from is the parameter `u`. The fact sets
    are the sets `DataFlowFacts` represents. */
module GenKill {
  import opened DataFlowFacts

  type Facts = set<Value>

  datatype Transformer =
    | One
    | Zero
    | Bottom
    | Plain(kill: Facts, gen: Facts)

  /** `getKill` and `getGen`: the special transformers hold (∅, ∅),
      (universe, ∅) and (∅, universe). */
  function Kill(t: Transformer, u: Facts): Facts
  {
    match t
    case One => {}
    case Zero => u
    case Bottom => {}
    case Plain(k, _) => k
  }

  function Gen(t: Transformer, u: Facts): Facts
  {
    match t
    case One => {}
    case Zero => {}
    case Bottom => u
    case Plain(_, g) => g
  }

  /** `apply`. */
  function Apply(t: Transformer, x: Facts, u: Facts): Facts
  {
    (x - Kill(t, u)) + Gen(t, u)
  }

  /** `equal`: a special transformer equals only itself; any other compares
      its sets with those of `y`, special or not. */
  predicate Equal(t: Transformer, y: Transformer, u: Facts)
  {
    if t.One? || t.Zero? || t.Bottom? then t == y
    else Kill(t, u) == Kill(y, u) && Gen(t, u) == Gen(y, u)
  }

  lemma EmptyDifference(a: Facts, b: Facts)
    ensures a - b == {} <==> a <= b
  {
    if a - b == {} {
      forall v | v in a ensures v in b {
        assert v !in a - b;
      }
    }
  }

  /** `makeGenKillTransformer`: the kill set loses what gen adds back; an empty
      kill with the whole universe generated is `bottom`, an empty kill with
      nothing generated is `one`. Whatever comes back transforms like the raw
      pair, and its kill and gen never overlap. */
  function Make(kill: Facts, gen: Facts, u: Facts): (r: Transformer)
    ensures Kill(r, u) * Gen(r, u) == {}
    ensures r == Bottom <==> kill <= gen && gen == u
    ensures r == One <==> kill <= gen && gen == {} && gen != u
    ensures r.Plain? ==> r.kill == kill - gen && r.gen == gen
    ensures forall x :: Apply(r, x, u) == (x - kill) + gen
  {
    var k := kill - gen;
    EmptyDifference(kill, gen);
    if k == {} && gen == u then Bottom
    else if k == {} && gen == {} then One
    else Plain(k, gen)
  }

  /** `extend`: `zero` absorbs, `one` is passed over, anything else composes
      (first `t`, then `y`). */
  function Extend(t: Transformer, y: Transformer, u: Facts): (r: Transformer)
  {
    if Equal(t, Zero, u) || Equal(y, Zero, u) then Zero
    else if Equal(t, One, u) then y
    else if Equal(y, One, u) then t
    else Make(Kill(t, u) + Kill(y, u), (Gen(t, u) - Kill(y, u)) + Gen(y, u), u)
  }

  /** `combine`: `zero` is passed over, anything else joins: what both kill
      is killed, what either generates is generated. */
  function Combine(t: Transformer, y: Transformer, u: Facts): (r: Transformer)
  {
    if Equal(t, Zero, u) then y
    else if Equal(y, Zero, u) then t
    else Make(Kill(t, u) * Kill(y, u), Gen(t, u) + Gen(y, u), u)
  }

  /** A transformer that is not a shared singleton but holds `zero`'s sets
      counts as `zero` from its own side only. */
  predicate ZeroLike(t: Transformer, u: Facts)
  {
    Equal(t, Zero, u) && t != Zero
  }

  /** `zero` absorbs `extend` from either side, and `combine` passes over it
      from either side; from the right that hands back `t` itself unless `t`
      only looks like `zero`. */
  lemma ZeroLaws(t: Transformer, u: Facts)
    ensures Extend(Zero, t, u) == Zero && Extend(t, Zero, u) == Zero
    ensures Combine(Zero, t, u) == t
    ensures !ZeroLike(t, u) ==> Combine(t, Zero, u) == t
    ensures ZeroLike(t, u) ==> Combine(t, Zero, u) == Zero
  {
  }

  /** On facts drawn from the universe `zero` yields nothing, so it is the
      identity of `combine` also for the transformers that only look like it. */
  lemma ZeroYieldsNothing(t: Transformer, x: Facts, u: Facts)
    requires x <= u && Equal(t, Zero, u)
    ensures Apply(t, x, u) == {} && Apply(Zero, x, u) == {}
  {
  }

  /** `one` leaves facts unchanged and is the identity of `extend` on both
      sides, except against `zero` and the transformers that look like it;
      a non-shared transformer with `one`'s sets extended by `one` comes back
      as the shared `one`. */
  lemma OneLaws(t: Transformer, x: Facts, u: Facts)
    ensures Apply(One, x, u) == x
    ensures !Equal(t, Zero, u) ==> Extend(One, t, u) == t && Apply(Extend(t, One, u), x, u) == Apply(t, x, u)
    ensures !Equal(t, Zero, u) && t != Plain({}, {}) ==> Extend(t, One, u) == t
    ensures Equal(t, Zero, u) ==> Extend(One, t, u) == Zero && Extend(t, One, u) == Zero
  {
  }

  /** `extend` is composition: for transformers that are not `zero`,
      applying the extension is applying `t`, then `y`. */
  lemma ExtendComposes(t: Transformer, y: Transformer, x: Facts, u: Facts)
    requires !Equal(t, Zero, u) && !Equal(y, Zero, u)
    ensures Apply(Extend(t, y, u), x, u) == Apply(y, Apply(t, x, u), u)
  {
    if !Equal(t, One, u) && !Equal(y, One, u) {
      var kt, gt, ky, gy := Kill(t, u), Gen(t, u), Kill(y, u), Gen(y, u);
      assert ((x - kt) + gt - ky) + gy == (x - (kt + ky)) + ((gt - ky) + gy);
    }
  }

  /** `combine` is the join: on facts from the universe, applying the
      combination is the union of applying each. */
  lemma CombineJoins(t: Transformer, y: Transformer, x: Facts, u: Facts)
    requires x <= u
    ensures Apply(Combine(t, y, u), x, u) == Apply(t, x, u) + Apply(y, x, u)
  {
    if Equal(t, Zero, u) {
      ZeroYieldsNothing(t, x, u);
    } else if Equal(y, Zero, u) {
      ZeroYieldsNothing(y, x, u);
    } else {
      var kt, gt, ky, gy := Kill(t, u), Gen(t, u), Kill(y, u), Gen(y, u);
      assert (x - kt * ky) + (gt + gy) == ((x - kt) + gt) + ((x - ky) + gy);
    }
  }

  /** Every transformer `extend` or `combine` builds keeps kill and gen
      apart, given operands that do. */
  predicate Normal(t: Transformer, u: Facts)
  {
    Kill(t, u) * Gen(t, u) == {}
  }

  lemma OperationsNormal(t: Transformer, y: Transformer, u: Facts)
    requires Normal(t, u) && Normal(y, u)
    ensures Normal(Extend(t, y, u), u) && Normal(Combine(t, y, u), u)
  {
  }

  /** `equal` is not symmetric: against the shared `zero`, a transformer
      that kills the whole non-empty universe and generates nothing is equal
      from its own side and unequal from `zero`'s. */
  lemma EqualAsymmetric(v: Value)
    ensures var t := Make({v}, {}, {v}); t == Plain({v}, {}) && Equal(t, Zero, {v}) && !Equal(Zero, t, {v})
  {
  }
}

=== FILE: goodfilter.dfy ===
/** `extract_good.py`: drops result rows the solver marked as a bad solve. */
module GoodFilter {
  import opened Wrappers
  import Seqs
  import opened Table

  const BadSolveKey: string := "Bad Solve"

  /** The `Bad Solve` code the solver writes for an invalid invariant. */
  const BadCode: string := "1"

  /** The `Bad Solve` code the solver writes for a timeout. */
  const TimeoutCode: string := "2"

  predicate HasBadSolve(e: Row)
  {
    BadSolveKey in e
  }

  /** A row the filter drops: its `Bad Solve` cell is exactly the text `1`. */
  predicate IsBad(e: Row)
  {
    BadSolveKey in e && e[BadSolveKey] == BadCode
  }

  predicate Kept(e: Row)
  {
    !IsBad(e)
  }

  /** `filter_boundaries` of this script: every row whose `Bad Solve` is not
      `1`, in input order; the first row without the column raises `KeyError`. */
  function FilterBadSolves(data: seq<Row>): (r: Result<seq<Row>, KeyError>)
    ensures r.Ok? <==> forall i :: 0 <= i < |data| ==> HasBadSolve(data[i])
    ensures r.Ok? ==> r.value == Seqs.Filter(data, Kept)
    ensures r.Err? ==> r.error == KeyError(BadSolveKey)
  {
    if |data| == 0 then Ok([])
    else
      var e := data[0];
      if !HasBadSolve(e) then Err(KeyError(BadSolveKey))
      else
        var rest := FilterBadSolves(data[1..]);
        if rest.Err? then rest
        else if e[BadSolveKey] == BadCode then rest
        else Ok([e] + rest.value)
  }

  /** A row survives exactly when it was in the input and is not a bad solve;
      in particular timeouts (code `2`) and any other text are kept. */
  lemma FilterBadSolvesMembership(data: seq<Row>, out: seq<Row>, e: Row)
    requires FilterBadSolves(data) == Ok(out)
    ensures e in out <==> e in data && !IsBad(e)
    ensures e in data && e[BadSolveKey] == TimeoutCode ==> e in out
  {
    Seqs.FilterMembership(data, Kept, e);
  }

  /** The kept rows appear in the same relative order as in the input. */
  lemma FilterBadSolvesOrder(data: seq<Row>, out: seq<Row>)
    requires FilterBadSolves(data) == Ok(out)
    ensures Seqs.IsSubsequence(out, data)
  {
    Seqs.FilterIsSubsequence(data, Kept);
  }

  /** Filtering the filtered table again drops nothing. */
  lemma FilterBadSolvesIdempotent(data: seq<Row>, out: seq<Row>)
    requires FilterBadSolves(data) == Ok(out)
    ensures FilterBadSolves(out) == Ok(out)
  {
    forall i | 0 <= i < |out| ensures HasBadSolve(out[i]) {
      assert out[i] in out;
      Seqs.FilterMembership(data, Kept, out[i]);
    }
    Seqs.FilterIdempotent(data, Kept);
  }

  /** `main` after reading the table: filter, then maybe write. */
  function Main(path: string, data: seq<Row>): Result<Output, KeyError>
  {
    var f := FilterBadSolves(data);
    if f.Err? then Err(f.error) else Ok(Rewrite(path, data, f.value))
  }

  /** The script writes `<path>_new.csv`, holding the kept rows, exactly when
      some row was a bad solve. */
  lemma MainWritesIffDropped(path: string, data: seq<Row>)
    requires forall i :: 0 <= i < |data| ==> HasBadSolve(data[i])
    ensures Main(path, data).Ok?
    ensures Main(path, data).value.Written? <==> exists i :: 0 <= i < |data| && IsBad(data[i])
    ensures Main(path, data).value.Written? ==>
      Main(path, data).value.path == path + "_new.csv" &&
      Main(path, data).value.rows == Seqs.Filter(data, Kept)
  {
    Seqs.FilterDrops(data, Kept);
  }
}

=== FILE: interning.dfy ===
/** Hash-consing of immutable layouts: `layoutSet.insert(x).first` hands back
    the stored copy of `x` when an equal one exists and stores `x` otherwise,
    so layouts can be compared by address. A table is the sequence of stored
    values; an address is an index into it. */
module Interning {

  /** No value is stored twice. */
  predicate Distinct<T(==)>(table: seq<T>)
  {
    forall i, j :: 0 <= i < j < |table| ==> table[i] != table[j]
  }

  /** Index of `v` in a table that holds it. */
  function IndexOf<T(==)>(table: seq<T>, v: T): (i: nat)
    requires v in table
    ensures i < |table| && table[i] == v
    ensures forall j :: 0 <= j < i ==> table[j] != v
  {
    if table[0] == v then 0 else 1 + IndexOf(table[1..], v)
  }

  /** The table after interning, and the address of the interned value. */
  datatype Interned<T> = Interned(table: seq<T>, id: nat)

  /** `layoutSet.insert(v).first`: a stored value keeps its address and the
      table is unchanged; a new value is appended. Either way the address
      holds `v`, earlier addresses keep their values and no value comes to be
      stored twice. */
  function Intern<T(==)>(table: seq<T>, v: T): (r: Interned<T>)
    requires Distinct(table)
    ensures r.id < |r.table| && r.table[r.id] == v
    ensures |table| <= |r.table| && r.table[..|table|] == table && Distinct(r.table)
    ensures v in table ==> r.table == table && forall j :: 0 <= j < |table| && table[j] == v ==> r.id == j
    ensures v !in table ==> |r.table| == |table| + 1
  {
    if v in table then Interned(table, IndexOf(table, v)) else Interned(table + [v], |table|)
  }

  /** Interning a value a second time changes nothing. */
  lemma InternIdempotent<T>(table: seq<T>, v: T)
    requires Distinct(table)
    ensures var r := Intern(table, v); Intern(r.table, v) == r
  {
    var r := Intern(table, v);
    if v !in table {
      assert r.table[|table|] == v;
      assert forall j :: 0 <= j < |table| ==> r.table[j] == table[j];
    }
  }
}

=== FILE: introspective.dfy ===
/** The introspective variant of selective k-CFA: metrics gathered by a
    first, context-insensitive run decide which call sites and allocation
    sites get context (limit 1) and which do not (limit 0). Instructions and
    functions are identities; the metric tables are maps from them to
    counts, the counts being C++ `unsigned` values. */
module Introspective {
  import opened Wrappers
  import opened SelectiveKCFA
  import opened Cardinality

  /** A function, by identity. */
  type Func = nat

  /** What `getCalledFunction` finds for a site: the direct callee, and
      whether it is only declared. A site without an entry has no known
      callee (an indirect call, or not a call at all). */
  datatype Callee = Callee(func: Func, isDeclaration: bool)

  /** The metric tables of the first run. */
  datatype Metrics = Metrics(
    callSiteInFlow: map<Site, nat>,
    calledFunction: map<Site, Callee>,
    methodMaxVarFieldPointsTo: map<Func, nat>,
    methodTotalPointsToVolume: map<Func, nat>,
    allocSiteTotalFieldPointsTo: map<Site, nat>,
    allocSitePointedByVars: map<Site, nat>)

  /** The thresholds K, L, M, P and Q of the two heuristics. */
  datatype Thresholds = Thresholds(
    pointedByVars: nat,
    inFlow: nat,
    maxVarFieldPointsTo: nat,
    totalPointsToVolume: nat,
    fieldPtsMultipliedByVars: nat)

  /** The thresholds the analysis starts with; heuristic A is the default. */
  const DefaultThresholds: Thresholds := Thresholds(50, 100, 75, 200, 5000)
  const DefaultUseHeuristicA: bool := true

  /** A metric table read with 0 for a missing entry. */
  function Get<K>(table: map<K, nat>, key: K): nat
  {
    if key in table then table[key] else 0
  }

  const U32Modulus: nat := 0x1_0000_0000

  /** The product of two `unsigned` values as C++ computes it: modulo 2^32. */
  function U32Mul(a: nat, b: nat): (p: nat)
    ensures p < U32Modulus
    ensures a * b < U32Modulus ==> p == a * b
  {
    (a * b) % U32Modulus
  }

  /** A call site both heuristics visit: it has a metric and a defined
      direct callee. Indirect calls and calls to declarations are skipped. */
  predicate ProcessedCallSite(m: Metrics, s: Site)
  {
    s in m.callSiteInFlow && s in m.calledFunction && !m.calledFunction[s].isDeclaration
  }

  /** The allocation sites a heuristic visits: the pointed-by-vars table
      under A, the total-field-points-to table under B. */
  predicate ProcessedAllocSite(m: Metrics, useA: bool, s: Site)
  {
    if useA then s in m.allocSitePointedByVars else s in m.allocSiteTotalFieldPointsTo
  }

  /** The call sites a heuristic denies context: under A, in-flow above L or
      the callee's max var-field points-to above M; under B, the callee's
      total points-to volume above P. */
  predicate CallFiltered(m: Metrics, t: Thresholds, useA: bool, s: Site)
    requires ProcessedCallSite(m, s)
  {
    var f := m.calledFunction[s].func;
    if useA then m.callSiteInFlow[s] > t.inFlow || Get(m.methodMaxVarFieldPointsTo, f) > t.maxVarFieldPointsTo
    else Get(m.methodTotalPointsToVolume, f) > t.totalPointsToVolume
  }

  /** The product heuristic B compares with Q: modulo 2^32 when `wraps`,
      as the source's `unsigned` arithmetic computes it, and exact
      otherwise, as the threshold is meant. */
  function Product(a: nat, b: nat, wraps: bool): nat
  {
    if wraps then U32Mul(a, b) else a * b
  }

  /** The allocation sites a heuristic denies context: under A, pointed-by
      vars above K; under B, total field points-to times pointed-by vars
      (0 when missing) above Q. */
  predicate AllocFiltered(m: Metrics, t: Thresholds, useA: bool, wraps: bool, s: Site)
    requires ProcessedAllocSite(m, useA, s)
  {
    if useA then m.allocSitePointedByVars[s] > t.pointedByVars
    else Product(m.allocSiteTotalFieldPointsTo[s], Get(m.allocSitePointedByVars, s), wraps) > t.fieldPtsMultipliedByVars
  }

  /** The limit a visited call site receives. */
  function CallLimit(m: Metrics, t: Thresholds, useA: bool, s: Site): nat
    requires ProcessedCallSite(m, s)
  {
    if CallFiltered(m, t, useA, s) then 0 else 1
  }

  /** The limit a visited allocation site receives. */
  function AllocLimit(m: Metrics, t: Thresholds, useA: bool, wraps: bool, s: Site): nat
    requires ProcessedAllocSite(m, useA, s)
  {
    if AllocFiltered(m, t, useA, wraps, s) then 0 else 1
  }

  /** The visited call sites the heuristic denies context. */
  ghost function FilteredCallSites(m: Metrics, t: Thresholds, useA: bool): set<Site>
  {
    set s | s in m.callSiteInFlow && ProcessedCallSite(m, s) && CallFiltered(m, t, useA, s)
  }

  /** The visited allocation sites the heuristic denies context. */
  ghost function FilteredAllocSites(m: Metrics, t: Thresholds, useA: bool, wraps: bool): set<Site>
  {
    set s | s in AllocTable(m, useA) && AllocFiltered(m, t, useA, wraps, s)
  }

  /** The table the allocation loop of a heuristic walks. */
  function AllocTable(m: Metrics, useA: bool): map<Site, nat>
  {
    if useA then m.allocSitePointedByVars else m.allocSiteTotalFieldPointsTo
  }

  /** The visited call sites a configuration gives limit 0. */
  ghost function ZeroedCallSites(c: Config, m: Metrics): set<Site>
  {
    set s | s in m.callSiteInFlow && ProcessedCallSite(m, s) && GetCallSiteLimit(c, s) == 0
  }

  /** The visited allocation sites a configuration gives limit 0. */
  ghost function ZeroedAllocSites(c: Config, m: Metrics, useA: bool): set<Site>
  {
    set s | s in AllocTable(m, useA) && GetAllocSiteLimit(c, s) == 0
  }

  /** The loop invariant of the call-site pass: sites still to do and sites
      not visited keep their limits, visited ones have theirs. */
  ghost predicate CallsDone(c0: Config, r: Config, m: Metrics, t: Thresholds, useA: bool, todo: set<Site>)
  {
    && r.defaultLimit == c0.defaultLimit
    && r.allocSiteLimits == c0.allocSiteLimits
    && (forall s :: (s in todo || !ProcessedCallSite(m, s)) ==> GetCallSiteLimit(r, s) == GetCallSiteLimit(c0, s))
    && (forall s :: s !in todo && ProcessedCallSite(m, s) ==> GetCallSiteLimit(r, s) == CallLimit(m, t, useA, s))
  }

  lemma CallsStep(c0: Config, r: Config, m: Metrics, t: Thresholds, useA: bool, todo: set<Site>, s: Site)
    requires todo <= m.callSiteInFlow.Keys && s in todo && CallsDone(c0, r, m, t, useA, todo)
    ensures ProcessedCallSite(m, s) ==> CallsDone(c0, SetCallSiteLimit(r, s, CallLimit(m, t, useA, s)), m, t, useA, todo - {s})
    ensures !ProcessedCallSite(m, s) ==> CallsDone(c0, r, m, t, useA, todo - {s})
  {
    if ProcessedCallSite(m, s) {
      var r' := SetCallSiteLimit(r, s, CallLimit(m, t, useA, s));
      forall u ensures GetCallSiteLimit(r', u) == if u == s then CallLimit(m, t, useA, s) else GetCallSiteLimit(r, u) {
        GetAfterSet(r, s, CallLimit(m, t, useA, s), u);
      }
    }
  }

  /** The call-site loop of `applyHeuristics`: each entry of the in-flow
      table with a defined callee gets 0 or 1, the others are skipped. */
  method SetCallSiteLimits(c: Config, m: Metrics, t: Thresholds, useA: bool) returns (r: Config)
    ensures CallsDone(c, r, m, t, useA, {})
  {
    r := c;
    var todo := m.callSiteInFlow.Keys;
    while todo != {}
      invariant todo <= m.callSiteInFlow.Keys
      invariant CallsDone(c, r, m, t, useA, todo)
      decreases |todo|
    {
      var s :| s in todo;
      CallsStep(c, r, m, t, useA, todo, s);
      if ProcessedCallSite(m, s) {
        r := SetCallSiteLimit(r, s, CallLimit(m, t, useA, s));
      }
      todo := todo - {s};
    }
  }

  /** The loop invariant of the allocation-site pass. */
  ghost predicate AllocsDone(c0: Config, r: Config, m: Metrics, t: Thresholds, useA: bool, wraps: bool, todo: set<Site>)
  {
    && r.defaultLimit == c0.defaultLimit
    && r.callSiteLimits == c0.callSiteLimits
    && (forall s :: (s in todo || !ProcessedAllocSite(m, useA, s)) ==> GetAllocSiteLimit(r, s) == GetAllocSiteLimit(c0, s))
    && (forall s :: s !in todo && ProcessedAllocSite(m, useA, s) ==> GetAllocSiteLimit(r, s) == AllocLimit(m, t, useA, wraps, s))
  }

  lemma AllocsStep(c0: Config, r: Config, m: Metrics, t: Thresholds, useA: bool, wraps: bool, todo: set<Site>, s: Site)
    requires todo <= AllocTable(m, useA).Keys && s in todo && AllocsDone(c0, r, m, t, useA, wraps, todo)
    ensures AllocsDone(c0, SetAllocSiteLimit(r, s, AllocLimit(m, t, useA, wraps, s)), m, t, useA, wraps, todo - {s})
  {
    var r' := SetAllocSiteLimit(r, s, AllocLimit(m, t, useA, wraps, s));
    forall u ensures GetAllocSiteLimit(r', u) == if u == s then AllocLimit(m, t, useA, wraps, s) else GetAllocSiteLimit(r, u) {
      GetAfterSet(r, s, AllocLimit(m, t, useA, wraps, s), u);
    }
  }

  /** The allocation-site loop of `applyHeuristics`: every entry of the
      heuristic's table gets 0 or 1. */
  method SetAllocSiteLimits(c: Config, m: Metrics, t: Thresholds, useA: bool, wraps: bool) returns (r: Config)
    ensures AllocsDone(c, r, m, t, useA, wraps, {})
  {
    r := c;
    var todo := AllocTable(m, useA).Keys;
    while todo != {}
      invariant todo <= AllocTable(m, useA).Keys
      invariant AllocsDone(c, r, m, t, useA, wraps, todo)
      decreases |todo|
    {
      var s :| s in todo;
      AllocsStep(c, r, m, t, useA, wraps, todo, s);
      r := SetAllocSiteLimit(r, s, AllocLimit(m, t, useA, wraps, s));
      todo := todo - {s};
    }
  }

  /** `applyHeuristics`: the visited sites get limit 0 exactly when the
      heuristic filters them and 1 otherwise; every other site and the
      default keep their limits. */
  method ApplyHeuristics(c: Config, m: Metrics, t: Thresholds, useA: bool, wraps: bool) returns (r: Config)
    ensures r.defaultLimit == c.defaultLimit
    ensures forall s :: ProcessedCallSite(m, s) ==> (GetCallSiteLimit(r, s) == 0 <==> CallFiltered(m, t, useA, s))
    ensures forall s :: ProcessedCallSite(m, s) ==> GetCallSiteLimit(r, s) <= 1
    ensures forall s :: !ProcessedCallSite(m, s) ==> GetCallSiteLimit(r, s) == GetCallSiteLimit(c, s)
    ensures forall s :: ProcessedAllocSite(m, useA, s) ==> (GetAllocSiteLimit(r, s) == 0 <==> AllocFiltered(m, t, useA, wraps, s))
    ensures forall s :: ProcessedAllocSite(m, useA, s) ==> GetAllocSiteLimit(r, s) <= 1
    ensures forall s :: !ProcessedAllocSite(m, useA, s) ==> GetAllocSiteLimit(r, s) == GetAllocSiteLimit(c, s)
    ensures ZeroedCallSites(r, m) == FilteredCallSites(m, t, useA)
    ensures ZeroedAllocSites(r, m, useA) == FilteredAllocSites(m, t, useA, wraps)
  {
    if useA {
      var a := SetAllocSiteLimits(c, m, t, useA, wraps);
      r := SetCallSiteLimits(a, m, t, useA);
    } else {
      var a := SetCallSiteLimits(c, m, t, useA);
      r := SetAllocSiteLimits(a, m, t, useA, wraps);
    }
  }

  /** The counts `printMetricsStats` reports. */
  datatype Stats = Stats(numCallSites: nat, numFilteredCallSites: nat, numAllocSites: nat, numFilteredAllocSites: nat)

  /** The call sites among `done` the heuristic filters. */
  ghost function FilteredCallsAmong(m: Metrics, t: Thresholds, useA: bool, done: set<Site>): set<Site>
  {
    set s | s in done && ProcessedCallSite(m, s) && CallFiltered(m, t, useA, s)
  }

  /** The allocation sites among `done` the heuristic filters. */
  ghost function FilteredAllocsAmong(m: Metrics, t: Thresholds, useA: bool, wraps: bool, done: set<Site>): set<Site>
    requires done <= AllocTable(m, useA).Keys
  {
    set s | s in done && AllocFiltered(m, t, useA, wraps, s)
  }

  /** The filtered call sites of the in-flow table, counted by a walk over
      it with the same tests as `applyHeuristics`. */
  method CountFilteredCallSites(m: Metrics, t: Thresholds, useA: bool) returns (n: nat)
    ensures n == |FilteredCallSites(m, t, useA)|
  {
    n := 0;
    var todo := m.callSiteInFlow.Keys;
    ghost var done: set<Site> := {};
    while todo != {}
      invariant CallsCounted(m, t, useA, todo, done, n)
      decreases |todo|
    {
      var s :| s in todo;
      CallsCountStep(m, t, useA, todo, done, n, s);
      if ProcessedCallSite(m, s) && CallFiltered(m, t, useA, s) {
        n := n + 1;
      }
      done := done + {s};
      todo := todo - {s};
    }
    CallsCountedAll(m, t, useA, done, n);
  }

  lemma CallsCountedAll(m: Metrics, t: Thresholds, useA: bool, done: set<Site>, n: nat)
    requires CallsCounted(m, t, useA, {}, done, n)
    ensures n == |FilteredCallSites(m, t, useA)|
  {
    assert FilteredCallsAmong(m, t, useA, done) == FilteredCallSites(m, t, useA);
  }

  /** The loop invariant of the call-site count. */
  ghost predicate CallsCounted(m: Metrics, t: Thresholds, useA: bool, todo: set<Site>, done: set<Site>, n: nat)
  {
    todo !! done && todo + done == m.callSiteInFlow.Keys && n == |FilteredCallsAmong(m, t, useA, done)|
  }

  lemma CallsCountStep(m: Metrics, t: Thresholds, useA: bool, todo: set<Site>, done: set<Site>, n: nat, s: Site)
    requires CallsCounted(m, t, useA, todo, done, n) && s in todo
    ensures CallsCounted(m, t, useA, todo - {s}, done + {s},
      if ProcessedCallSite(m, s) && CallFiltered(m, t, useA, s) then n + 1 else n)
  {
    if ProcessedCallSite(m, s) && CallFiltered(m, t, useA, s) {
      assert FilteredCallsAmong(m, t, useA, done + {s}) == FilteredCallsAmong(m, t, useA, done) + {s};
    } else {
      assert FilteredCallsAmong(m, t, useA, done + {s}) == FilteredCallsAmong(m, t, useA, done);
    }
  }

  /** The filtered allocation sites of the heuristic's table, counted the
      same way. */
  method CountFilteredAllocSites(m: Metrics, t: Thresholds, useA: bool, wraps: bool) returns (n: nat)
    ensures n == |FilteredAllocSites(m, t, useA, wraps)|
  {
    n := 0;
    var todo := AllocTable(m, useA).Keys;
    ghost var done: set<Site> := {};
    while todo != {}
      invariant AllocsCounted(m, t, useA, wraps, todo, done, n)
      decreases |todo|
    {
      var s :| s in todo;
      AllocsCountStep(m, t, useA, wraps, todo, done, n, s);
      if AllocFiltered(m, t, useA, wraps, s) {
        n := n + 1;
      }
      done := done + {s};
      todo := todo - {s};
    }
    AllocsCountedAll(m, t, useA, wraps, done, n);
  }

  lemma AllocsCountedAll(m: Metrics, t: Thresholds, useA: bool, wraps: bool, done: set<Site>, n: nat)
    requires AllocsCounted(m, t, useA, wraps, {}, done, n)
    ensures n == |FilteredAllocSites(m, t, useA, wraps)|
  {
    assert FilteredAllocsAmong(m, t, useA, wraps, done) == FilteredAllocSites(m, t, useA, wraps);
  }

  /** The loop invariant of the allocation-site count. */
  ghost predicate AllocsCounted(m: Metrics, t: Thresholds, useA: bool, wraps: bool, todo: set<Site>, done: set<Site>, n: nat)
  {
    todo !! done && todo + done == AllocTable(m, useA).Keys && done <= AllocTable(m, useA).Keys
    && n == |FilteredAllocsAmong(m, t, useA, wraps, done)|
  }

  lemma AllocsCountStep(m: Metrics, t: Thresholds, useA: bool, wraps: bool, todo: set<Site>, done: set<Site>, n: nat, s: Site)
    requires AllocsCounted(m, t, useA, wraps, todo, done, n) && s in todo
    ensures s in AllocTable(m, useA)
    ensures AllocsCounted(m, t, useA, wraps, todo - {s}, done + {s}, if AllocFiltered(m, t, useA, wraps, s) then n + 1 else n)
  {
    if AllocFiltered(m, t, useA, wraps, s) {
      assert FilteredAllocsAmong(m, t, useA, wraps, done + {s}) == FilteredAllocsAmong(m, t, useA, wraps, done) + {s};
    } else {
      assert FilteredAllocsAmong(m, t, useA, wraps, done + {s}) == FilteredAllocsAmong(m, t, useA, wraps, done);
    }
  }

  /** `printMetricsStats` without the printing: the totals are the sizes of
      the in-flow and pointed-by-vars tables (the latter under either
      heuristic), and the filtered counts number the sites the heuristic
      filters. The filtered call sites never outnumber the call sites. */
  method MetricsStats(m: Metrics, t: Thresholds, useA: bool, wraps: bool) returns (st: Stats)
    ensures st.numCallSites == |m.callSiteInFlow| && st.numAllocSites == |m.allocSitePointedByVars|
    ensures st.numFilteredCallSites == |FilteredCallSites(m, t, useA)|
    ensures st.numFilteredAllocSites == |FilteredAllocSites(m, t, useA, wraps)|
    ensures st.numFilteredCallSites <= st.numCallSites
  {
    var fc := CountFilteredCallSites(m, t, useA);
    var fa := CountFilteredAllocSites(m, t, useA, wraps);
    SubsetSmaller(FilteredCallSites(m, t, useA), m.callSiteInFlow.Keys);
    st := Stats(|m.callSiteInFlow|, fc, |m.allocSitePointedByVars|, fa);
  }

  /** The metric collection fills both allocation tables for the same
      sites. */
  predicate Collected(m: Metrics)
  {
    m.allocSitePointedByVars.Keys == m.allocSiteTotalFieldPointsTo.Keys
  }

  /** Applying the heuristics and then reporting: each filtered count is
      the number of visited sites the heuristic set to 0, so the reported
      percentages describe the configuration in force; when both allocation
      tables cover the same sites the allocation percentage is at most 100
      under either heuristic. */
  method ApplyAndReport(c: Config, m: Metrics, t: Thresholds, useA: bool, wraps: bool) returns (r: Config, st: Stats)
    ensures st.numFilteredCallSites == |ZeroedCallSites(r, m)| <= st.numCallSites
    ensures st.numFilteredAllocSites == |ZeroedAllocSites(r, m, useA)|
    ensures Collected(m) ==> st.numFilteredAllocSites <= st.numAllocSites
  {
    r := ApplyHeuristics(c, m, t, useA, wraps);
    st := MetricsStats(m, t, useA, wraps);
    SubsetSmaller(FilteredAllocSites(m, t, useA, wraps), AllocTable(m, useA).Keys);
  }

  /** Heuristic B as written wraps the product at 2^32: an allocation site
      with 65536 field points-to entries pointed to by 65536 variables
      computes the product 0 and is refined, where the exact product is far
      above Q and the site is filtered. */
  lemma WrappedProductRefinesHugeSite(s: Site)
    ensures var m := Metrics(map[], map[], map[], map[], map[s := 65536], map[s := 65536]);
      && !AllocFiltered(m, DefaultThresholds, false, true, s)
      && AllocFiltered(m, DefaultThresholds, false, false, s)
  {
    assert 65536 * 65536 == U32Modulus;
  }

  /** Below 2^32 the product does not wrap, and the two tests agree. */
  lemma WrapMattersOnlyPast32Bits(m: Metrics, t: Thresholds, s: Site)
    requires s in m.allocSiteTotalFieldPointsTo
    requires m.allocSiteTotalFieldPointsTo[s] * Get(m.allocSitePointedByVars, s) < U32Modulus
    ensures AllocFiltered(m, t, false, true, s) <==> AllocFiltered(m, t, false, false, s)
  {
  }

  /** No product reaches 2^32. */
  predicate ProductsFit(m: Metrics)
  {
    forall s :: s in m.allocSiteTotalFieldPointsTo ==>
      m.allocSiteTotalFieldPointsTo[s] * Get(m.allocSitePointedByVars, s) < U32Modulus
  }

  /** The filtered allocation sites, and so the configuration and the
      reported count, are the same with and without the wrap-around under
      heuristic A, and under heuristic B whenever no product reaches 2^32. */
  lemma FilteredAllocsWrapAgree(m: Metrics, t: Thresholds, useA: bool)
    requires !useA ==> ProductsFit(m)
    ensures FilteredAllocSites(m, t, useA, true) == FilteredAllocSites(m, t, useA, false)
  {
    forall s | s in AllocTable(m, useA)
      ensures AllocFiltered(m, t, useA, true, s) <==> AllocFiltered(m, t, useA, false, s)
    {
      if !useA {
        WrapMattersOnlyPast32Bits(m, t, s);
      }
    }
  }
}

=== FILE: liveness.dfy ===
/** `LivenessDomain`: the dataflow value of the liveness analysis, the set
    of variables live at a point. Variables are value identities. */
module Liveness {
  import opened Cardinality

  type Var = nat

  datatype Domain = Domain(liveVars: set<Var>)

  /** `meet`: union, since liveness is a may-analysis. An empty side hands
      back the other one; otherwise the smaller side is inserted into a copy
      of the larger. */
  function Meet(a: Domain, b: Domain): (r: Domain)
    ensures r.liveVars == a.liveVars + b.liveVars
    ensures a.liveVars == {} ==> r == b
    ensures b.liveVars == {} ==> r == a
  {
    if a.liveVars == {} then b
    else if b.liveVars == {} then a
    else if |a.liveVars| > |b.liveVars| then Domain(a.liveVars + b.liveVars)
    else Domain(b.liveVars + a.liveVars)
  }

  /** The meet is a join-semilattice operation: commutative, associative,
      idempotent, with the empty domain as identity, and above both sides. */
  lemma MeetLaws(a: Domain, b: Domain, c: Domain)
    ensures Meet(a, b) == Meet(b, a)
    ensures Meet(Meet(a, b), c) == Meet(a, Meet(b, c))
    ensures Meet(a, a) == a
    ensures Meet(Domain({}), a) == a
    ensures a.liveVars <= Meet(a, b).liveVars && b.liveVars <= Meet(a, b).liveVars
  {
  }

  /** `equals`: sizes first, then every variable of this domain must be
      live in the other; together that is set equality. */
  method Equals(a: Domain, b: Domain) returns (r: bool)
    ensures r <==> a == b
  {
    if |a.liveVars| != |b.liveVars| {
      return false;
    }
    var rest := a.liveVars;
    while rest != {}
      invariant rest <= a.liveVars
      invariant a.liveVars - rest <= b.liveVars
      decreases |rest|
    {
      var v :| v in rest;
      if v !in b.liveVars {
        return false;
      }
      rest := rest - {v};
    }
    SubsetOfSameSize(a.liveVars, b.liveVars);
    return true;
  }

  function AddLiveVar(d: Domain, v: Var): (r: Domain)
    ensures IsLive(r, v)
    ensures forall w :: w != v ==> (IsLive(r, w) <==> IsLive(d, w))
  {
    Domain(d.liveVars + {v})
  }

  function RemoveLiveVar(d: Domain, v: Var): (r: Domain)
    ensures !IsLive(r, v)
    ensures forall w :: w != v ==> (IsLive(r, w) <==> IsLive(d, w))
  {
    Domain(d.liveVars - {v})
  }

  predicate IsLive(d: Domain, v: Var)
  {
    v in d.liveVars
  }

  /** Adding then removing a variable that was not live gives back the
      domain; removing then adding one that was live does too. */
  lemma AddRemoveInverse(d: Domain, v: Var)
    ensures !IsLive(d, v) ==> RemoveLiveVar(AddLiveVar(d, v), v) == d
    ensures IsLive(d, v) ==> AddLiveVar(RemoveLiveVar(d, v), v) == d
  {
  }
}

=== FILE: nullflowcontext.dfy ===
/** The call-string contexts of the context-sensitive null-flow analysis:
    a context is the vector of call instructions on the stack, the most
    recent last, kept to at most `MaxContextDepth` entries by dropping the
    oldest ones. Values, VFG nodes, functions and call instructions are
    identities; a value without a VFG node is `None`. */
module NullFlowContext {
  import opened Wrappers

  type CallSite = nat
  type Node = nat
  type Func = nat
  type Context = seq<CallSite>

  /** The default of the `csnfa-max-depth` option. */
  const DefaultMaxContextDepth: nat := 3

  /** Keep the last `depth` entries: erase from the front whatever exceeds
      the depth. */
  function Truncate(ctx: Context, depth: nat): (r: Context)
    ensures |r| == if |ctx| > depth then depth else |ctx|
    ensures forall i :: 0 <= i < |r| ==> r[i] == ctx[|ctx| - |r| + i]
  {
    if |ctx| > depth then ctx[|ctx| - depth..] else ctx
  }

  /** `r` is what is left of `s` after dropping some oldest entries. */
  predicate SuffixOf(r: Context, s: Context)
  {
    |r| <= |s| && r == s[|s| - |r|..]
  }

  /** `extendContext`: append the call and keep the newest `depth` entries. */
  function ExtendContext(ctx: Context, ci: CallSite, depth: nat): (r: Context)
    ensures SuffixOf(r, ctx + [ci])
    ensures |r| == if |ctx| + 1 < depth then |ctx| + 1 else depth
    ensures depth >= 1 ==> r[|r| - 1] == ci
  {
    var r := Truncate(ctx + [ci], depth);
    assert r == (ctx + [ci])[|ctx + [ci]| - |r|..];
    r
  }

  /** A context already within the depth is left alone, so truncating is
      idempotent; truncating twice keeps the smaller depth. */
  lemma TruncateTwice(ctx: Context, d1: nat, d2: nat)
    ensures |ctx| <= d1 ==> Truncate(ctx, d1) == ctx
    ensures Truncate(Truncate(ctx, d1), d2) == Truncate(ctx, if d1 < d2 then d1 else d2)
  {
    var a := Truncate(Truncate(ctx, d1), d2);
    var b := Truncate(ctx, if d1 < d2 then d1 else d2);
    assert |a| == |b|;
    forall i | 0 <= i < |a| ensures a[i] == b[i] {
    }
  }

  /** Truncating a context before extending it changes nothing: only the
      newest `depth - 1` entries of the old context survive the extension
      anyway. This is why `add` may cut the context before its callers
      extend it. */
  lemma {:induction false} ExtendAfterTruncate(ctx: Context, ci: CallSite, depth: nat)
    ensures ExtendContext(Truncate(ctx, depth), ci, depth) == ExtendContext(ctx, ci, depth)
  {
    var t := Truncate(ctx, depth);
    if |ctx| > depth && depth >= 1 {
      ExtendFull(t, ci, depth);
      assert t[1..] == ctx[|ctx| - depth + 1..];
      var b := ExtendContext(ctx, ci, depth);
      assert b == (ctx + [ci])[|ctx| + 1 - depth..];
      assert (ctx + [ci])[|ctx| + 1 - depth..] == ctx[|ctx| + 1 - depth..] + [ci];
    } else if |ctx| > depth {
      assert |ExtendContext(ctx, ci, depth)| == 0;
    }
  }

  /** Extending a full-depth context drops exactly its oldest entry. */
  lemma ExtendFull(ctx: Context, ci: CallSite, depth: nat)
    requires |ctx| == depth && depth >= 1
    ensures ExtendContext(ctx, ci, depth) == ctx[1..] + [ci]
  {
    var r := ExtendContext(ctx, ci, depth);
    assert |r| == |ctx[1..] + [ci]|;
    forall i | 0 <= i < |r| ensures r[i] == (ctx[1..] + [ci])[i] {
      assert r[i] == (ctx + [ci])[1 + i];
    }
  }

  /** `NewNonNullEdges`: per function and context, the value-flow edges
      recorded as proved non-null. */
  type Edges = map<(Func, Context), set<(Node, Node)>>

  /** `NewNonNullEdges[{F, Ctx}]` with the new edges emplaced; the entry is
      created even when no edge is added. */
  function Record(edges: Edges, f: Func, ctx: Context, added: set<(Node, Node)>): (r: Edges)
    ensures r.Keys == edges.Keys + {(f, ctx)}
    ensures r[(f, ctx)] == (if (f, ctx) in edges then edges[(f, ctx)] else {}) + added
    ensures forall key :: key in edges && key != (f, ctx) ==> r[key] == edges[key]
  {
    edges[(f, ctx) := (if (f, ctx) in edges then edges[(f, ctx)] else {}) + added]
  }

  /** `add(F, Ctx, V1, V2)`: nothing happens unless both values have VFG
      nodes; otherwise the edge is recorded under the truncated context. */
  function AddEdge(edges: Edges, f: Func, ctx: Context, v1: Option<Node>, v2: Option<Node>, depth: nat): (r: Edges)
    ensures v1.None? || v2.None? ==> r == edges
    ensures v1.Some? && v2.Some? ==> r == Record(edges, f, Truncate(ctx, depth), {(v1.value, v2.value)})
  {
    if v1.None? || v2.None? then edges
    else Record(edges, f, Truncate(ctx, depth), {(v1.value, v2.value)})
  }

  /** `add(F, Ctx, Ret)`: without a return value or its node nothing
      happens; otherwise an edge from the node to each of its targets. */
  function AddReturn(edges: Edges, f: Func, ctx: Context, ret: Option<Node>, targets: set<Node>, depth: nat): (r: Edges)
    ensures ret.None? ==> r == edges
    ensures ret.Some? ==> r == Record(edges, f, Truncate(ctx, depth), set t | t in targets :: (ret.value, t))
  {
    if ret.None? then edges
    else Record(edges, f, Truncate(ctx, depth), set t | t in targets :: (ret.value, t))
  }

  /** A possible callee of a call: the VFG nodes of its parameters, and
      whether it is variadic. A direct call has one callee. */
  datatype Callee = Callee(params: seq<Option<Node>>, isVarArg: bool)

  /** Every callee has the `k`-th parameter or is variadic. */
  predicate ArgumentExists(callees: seq<Callee>, k: nat)
  {
    forall c :: c in callees ==> k < |c.params| || c.isVarArg
  }

  /** `add(F, Ctx, CI, K)`: the actual argument flows to the `k`-th
      parameter of each callee that has one. The callee context
      `extendContext` builds is not used: the edge is recorded under the
      caller's truncated context. A call the call graph does not know is
      `None`. */
  function AddArgument(edges: Edges, f: Func, ctx: Context, call: Option<seq<Callee>>, k: nat, actual: Option<Node>, depth: nat): (r: Edges)
    requires call.Some? ==> ArgumentExists(call.value, k)
    decreases if call.Some? then |call.value| else 0
  {
    if call.None? || |call.value| == 0 then edges
    else
      var c := call.value[0];
      var next := if k < |c.params| then AddEdge(edges, f, ctx, actual, c.params[k], depth) else edges;
      AddArgument(next, f, ctx, Some(call.value[1..]), k, actual, depth)
  }

  /** The edges `AddArgument` records: one from the actual to each callee's
      parameter node that exists. */
  lemma {:induction false} AddArgumentRecords(edges: Edges, f: Func, ctx: Context, callees: seq<Callee>, k: nat, actual: Option<Node>, depth: nat, key: (Func, Context))
    requires ArgumentExists(callees, k)
    ensures var r := AddArgument(edges, f, ctx, Some(callees), k, actual, depth);
      (key != (f, Truncate(ctx, depth)) ==> (key in r <==> key in edges) && (key in r ==> r[key] == edges[key]))
      && (key == (f, Truncate(ctx, depth)) && actual.Some? ==>
            (key in r <==> key in edges || exists c :: c in callees && k < |c.params| && c.params[k].Some?)
            && (key in r ==> r[key] == (if key in edges then edges[key] else {}) + ArgumentEdges(callees, k, actual.value)))
      && (actual.None? ==> r == edges)
    decreases |callees|
  {
    if |callees| > 0 {
      var c := callees[0];
      var next := if k < |c.params| then AddEdge(edges, f, ctx, actual, c.params[k], depth) else edges;
      AddArgumentRecords(next, f, ctx, callees[1..], k, actual, depth, key);
      assert forall x :: x in callees <==> x == c || x in callees[1..] by {
        assert callees == [c] + callees[1..];
      }
      assert actual.Some? ==> (ArgumentEdges(callees, k, actual.value)
        == (if k < |c.params| && c.params[k].Some? then {(actual.value, c.params[k].value)} else {})
           + ArgumentEdges(callees[1..], k, actual.value));
    }
  }

  /** The edges from `actual` to the `k`-th parameter nodes of the callees. */
  function ArgumentEdges(callees: seq<Callee>, k: nat, actual: Node): set<(Node, Node)>
  {
    set c | c in callees && k < |c.params| && c.params[k].Some? :: (actual, c.params[k].value)
  }

  /** Every recorded context is within the depth. */
  predicate Bounded(edges: Edges, depth: nat)
  {
    forall key :: key in edges ==> |key.1| <= depth
  }

  /** The three `add` overloads keep every recorded context within the depth. */
  lemma AddsKeepBounded(edges: Edges, f: Func, ctx: Context, v1: Option<Node>, v2: Option<Node>, targets: set<Node>, call: Option<seq<Callee>>, k: nat, depth: nat)
    requires Bounded(edges, depth)
    requires call.Some? ==> ArgumentExists(call.value, k)
    ensures Bounded(AddEdge(edges, f, ctx, v1, v2, depth), depth)
    ensures Bounded(AddReturn(edges, f, ctx, v1, targets, depth), depth)
    ensures Bounded(AddArgument(edges, f, ctx, call, k, v1, depth), depth)
  {
    if call.Some? {
      forall key | key in AddArgument(edges, f, ctx, call, k, v1, depth) ensures |key.1| <= depth {
        AddArgumentRecords(edges, f, ctx, call.value, k, v1, depth, key);
      }
    }
  }
}

=== FILE: numeric.dfy ===
/** The numbers that pass between the solver's CSV output and the scripts.

    The solver prints times with `std::to_string(double)`, which always writes
    six decimals, so every number is kept exactly as an integer count of
    millionths (a time is then a count of microseconds). Parsing follows
    `pd.to_numeric(..., errors='coerce')`: text that is not a number becomes
    NaN rather than an error. */
module Numeric {
  import opened Wrappers
  import opened Strings

  /** Millionths in one unit. */
  const Scale: nat := 1000000

  /** A column value after numeric coercion. */
  datatype Number = NaN | Fixed(millionths: int)
  {
    predicate IsNumber() { Fixed? }
  }

  /** `10^k`. */
  function Pow10(k: nat): (p: nat)
    ensures p >= 1
  {
    if k == 0 then 1 else 10 * Pow10(k - 1)
  }

  predicate AllDigits(s: string)
  {
    forall i :: 0 <= i < |s| ==> IsDigit(s[i])
  }

  /** Index of the first `c` in `s`, if any. */
  function IndexOf(s: string, c: char): (r: Option<nat>)
    ensures r.Some? ==> r.value < |s| && s[r.value] == c && c !in s[..r.value]
    ensures r.None? ==> c !in s
  {
    if |s| == 0 then None
    else if s[0] == c then Some(0)
    else match IndexOf(s[1..], c)
      case None => None
      case Some(k) => assert s[..k + 1] == [s[0]] + s[1..][..k]; Some(k + 1)
  }

  /** An unsigned decimal with at most six fraction digits: `12`, `1.5`,
      `.25`, `3.`; at least one digit overall. */
  function ParseUnsigned(s: string): (r: Option<nat>)
  {
    match IndexOf(s, '.')
    case None =>
      if |s| > 0 && AllDigits(s) then Some(DigitsValue(s) * Scale) else None
    case Some(k) =>
      var ip, fp := s[..k], s[k + 1..];
      if AllDigits(ip) && AllDigits(fp) && |ip| + |fp| > 0 && |fp| <= 6
      then Some(DecimalValue(ip, fp))
      else None
  }

  /** The value, in millionths, of the decimal `ip.fp`. */
  function DecimalValue(ip: string, fp: string): nat
    requires AllDigits(ip) && AllDigits(fp) && |fp| <= 6
  {
    DigitsValue(ip) * Scale + DigitsValue(fp) * Pow10(6 - |fp|)
  }

  /** A plain decimal text: digits and at most one point, at least one
      digit, and at most six digits after the point. */
  predicate PlainDecimal(t: string)
  {
    && (forall i :: 0 <= i < |t| ==> IsDigit(t[i]) || t[i] == '.')
    && CountChar(t, '.') <= 1
    && CountChar(t, '.') < |t|
    && FractionLength(t) <= 6
  }

  /** How many characters follow the first point; 0 without a point. */
  function FractionLength(t: string): nat
  {
    if |t| == 0 then 0 else if t[0] == '.' then |t| - 1 else FractionLength(t[1..])
  }

  /** The text with its points left out. */
  function DropPoints(t: string): (d: string)
    ensures |d| <= |t|
  {
    if |t| == 0 then "" else (if t[0] == '.' then "" else [t[0]]) + DropPoints(t[1..])
  }

  /** The value in millionths of a plain decimal: its digits read as one
      number, scaled up by the fraction digits it leaves out of six. */
  function PlainValue(t: string): nat
    requires PlainDecimal(t)
  {
    DropPointsDigits(t);
    DigitsValue(DropPoints(t)) * Pow10(6 - FractionLength(t))
  }

  lemma {:induction false} DropPointsDigits(t: string)
    requires forall i :: 0 <= i < |t| ==> IsDigit(t[i]) || t[i] == '.'
    ensures AllDigits(DropPoints(t))
  {
    if |t| > 0 {
      DropPointsDigits(t[1..]);
    }
  }

  /** The text after an optional leading sign. */
  function Unsigned(s: string): string
  {
    if |s| > 0 && (s[0] == '-' || s[0] == '+') then s[1..] else s
  }

  /** -1 after a leading minus, 1 otherwise. */
  function SignOf(s: string): int
  {
    if |s| > 0 && s[0] == '-' then -1 else 1
  }

  /** `pd.to_numeric` with `errors='coerce'` on one cell, for the plain
      decimal texts the solver writes: an optional sign, then an unsigned
      decimal; anything else, the empty cell included, is NaN. */
  function ToNumeric(s: string): (n: Number)
    ensures n.Fixed? <==> PlainDecimal(Unsigned(s))
    ensures n.Fixed? ==> n.millionths == SignOf(s) * PlainValue(Unsigned(s))
    ensures s == "" ==> n == NaN
  {
    var signed := |s| > 0 && (s[0] == '-' || s[0] == '+');
    var body := if signed then s[1..] else s;
    ParseUnsignedSpec(body);
    match ParseUnsigned(body)
    case None => NaN
    case Some(v) =>
      var x: int := v;
      Fixed(if signed && s[0] == '-' then -x else x)
  }

  /** The unsigned parser accepts exactly the plain decimals, with their
      value. */
  lemma ParseUnsignedSpec(t: string)
    ensures ParseUnsigned(t).Some? <==> PlainDecimal(t)
    ensures ParseUnsigned(t).Some? ==> ParseUnsigned(t).value == PlainValue(t)
  {
    match IndexOf(t, '.')
    case None =>
      PointFree(t);
      assert Pow10(6) == Scale;
    case Some(k) =>
      assert t == t[..k] + "." + t[k + 1..];
      ParseWithPoint(t[..k], t[k + 1..]);
  }

  /** A text with a first point: plain exactly when both sides are digits,
      not both empty, with at most six after the point. */
  lemma ParseWithPoint(ip: string, fp: string)
    requires '.' !in ip
    ensures PlainDecimal(ip + "." + fp) <==> AllDigits(ip) && AllDigits(fp) && |ip| + |fp| > 0 && |fp| <= 6
    ensures PlainDecimal(ip + "." + fp) ==> PlainValue(ip + "." + fp) == DecimalValue(ip, fp)
  {
    var t := ip + "." + fp;
    PointAfter(ip, fp);
    PointFree(ip);
    if PlainDecimal(t) {
      assert AllDigits(ip) by {
        forall i | 0 <= i < |ip| ensures IsDigit(ip[i]) {
          assert ip[i] == t[i];
        }
      }
      CountCharZero(fp, '.');
      assert AllDigits(fp) by {
        forall i | 0 <= i < |fp| ensures IsDigit(fp[i]) {
          assert fp[i] == t[|ip| + 1 + i];
          assert fp[i] in fp;
        }
      }
      PlainValueSplit(ip, fp);
    } else if AllDigits(ip) && AllDigits(fp) {
      DigitsAroundPoint(ip, fp);
    }
  }

  lemma DigitsAroundPoint(ip: string, fp: string)
    requires AllDigits(ip) && AllDigits(fp)
    ensures CountChar(ip + "." + fp, '.') == 1
    ensures forall i :: 0 <= i < |ip + "." + fp| ==> IsDigit((ip + "." + fp)[i]) || (ip + "." + fp)[i] == '.'
  {
    var t := ip + "." + fp;
    NoPointInDigits(ip);
    NoPointInDigits(fp);
    PointFree(fp);
    PointAfter(ip, fp);
    forall i | 0 <= i < |t| ensures IsDigit(t[i]) || t[i] == '.' {
      if i < |ip| {
        assert t[i] == ip[i];
      } else if i > |ip| {
        assert t[i] == fp[i - |ip| - 1];
      }
    }
  }

  lemma PlainValueSplit(ip: string, fp: string)
    requires '.' !in ip && AllDigits(ip) && AllDigits(fp) && |fp| <= 6
    requires PlainDecimal(ip + "." + fp)
    ensures PlainValue(ip + "." + fp) == DecimalValue(ip, fp)
  {
    var t := ip + "." + fp;
    NoPointInDigits(fp);
    PointFree(fp);
    PointAfter(ip, fp);
    DigitsValueAppend(ip, fp);
    var d := DropPoints(t);
    assert d == ip + fp;
    Pow10Split(|fp|);
    ScaleSum(PlainValue(t), DecimalValue(ip, fp), DigitsValue(ip), Pow10(|fp|), DigitsValue(fp), Pow10(6 - |fp|));
  }

  lemma ScaleSum(v: int, w: int, x: int, p: int, y: int, q: int)
    requires v == (x * p + y) * q && w == x * Scale + y * q && p * q == Scale
    ensures v == w
  {
    assert (x * p + y) * q == x * (p * q) + y * q;
  }

  /** Without a point, the text is all that is left, with no fraction. */
  lemma {:induction false} PointFree(t: string)
    requires '.' !in t
    ensures DropPoints(t) == t && FractionLength(t) == 0 && CountChar(t, '.') == 0
  {
    CountCharZero(t, '.');
    if |t| > 0 {
      assert '.' !in t[1..];
      PointFree(t[1..]);
    }
  }

  /** The first point splits the text into integer and fraction parts. */
  lemma {:induction false} PointAfter(ip: string, fp: string)
    requires '.' !in ip
    ensures DropPoints(ip + "." + fp) == ip + DropPoints(fp)
    ensures FractionLength(ip + "." + fp) == |fp|
    ensures CountChar(ip + "." + fp, '.') == 1 + CountChar(fp, '.')
  {
    var t := ip + "." + fp;
    if |ip| == 0 {
      assert t == "." + fp && t[1..] == fp;
    } else {
      assert t[0] == ip[0] && t[1..] == ip[1..] + "." + fp;
      assert '.' !in ip[1..];
      PointAfter(ip[1..], fp);
      assert ip == [ip[0]] + ip[1..];
    }
  }

  /** Reading `a` then `b` as one number shifts `a` left by `b`'s digits. */
  lemma {:induction false} DigitsValueAppend(a: string, b: string)
    requires AllDigits(a) && AllDigits(b)
    ensures AllDigits(a + b)
    ensures DigitsValue(a + b) == DigitsValue(a) * Pow10(|b|) + DigitsValue(b)
    decreases |b|
  {
    AppendDigits(a, b);
    if |b| == 0 {
      assert a + b == a;
    } else {
      var b' := b[..|b| - 1];
      AppendDigits(a, b');
      DigitsValueAppend(a, b');
      var ab := a + b;
      assert ab[..|ab| - 1] == a + b';
      assert ab[|ab| - 1] == b[|b| - 1];
      ShiftDigit(DigitsValue(ab), DigitsValue(b), Pow10(|b|),
                 DigitsValue(a), Pow10(|b'|), DigitsValue(b'), DigitValue(b[|b| - 1]));
    }
  }

  lemma ShiftDigit(v: int, vb: int, pb: int, x: int, p: int, y: int, d: int)
    requires v == 10 * (x * p + y) + d && vb == 10 * y + d && pb == 10 * p
    ensures v == x * pb + vb
  {
  }

  lemma AppendDigits(a: string, b: string)
    requires AllDigits(a) && AllDigits(b)
    ensures AllDigits(a + b)
  {
    forall i | 0 <= i < |a + b| ensures IsDigit((a + b)[i]) {
      if i >= |a| {
        assert (a + b)[i] == b[i - |a|];
      }
    }
  }

  /** Six decimal places split between the digits present and the rest. */
  lemma Pow10Split(k: nat)
    requires k <= 6
    ensures Pow10(k) * Pow10(6 - k) == Scale
  {
    assert Pow10(0) == 1 && Pow10(1) == 10 && Pow10(2) == 100 && Pow10(3) == 1000;
    assert Pow10(4) == 10000 && Pow10(5) == 100000 && Pow10(6) == 1000000;
  }

  /** The last `w` decimal digits of `r`, with leading zeros. */
  function PadDigits(r: nat, w: nat): (s: string)
    ensures |s| == w && AllDigits(s)
  {
    if w == 0 then "" else PadDigits(r / 10, w - 1) + [DigitChar(r % 10)]
  }

  /** The numbers among `ts`, NaN dropped, in order. */
  function Numbers(ts: seq<Number>): (vs: seq<int>)
    ensures |vs| == CountNumbers(ts)
  {
    if |ts| == 0 then []
    else (if ts[0].Fixed? then [ts[0].millionths] else []) + Numbers(ts[1..])
  }

  function CountNumbers(ts: seq<Number>): (n: nat)
    ensures n <= |ts|
  {
    if |ts| == 0 then 0 else (if ts[0].Fixed? then 1 else 0) + CountNumbers(ts[1..])
  }

  /** `std::to_string(double)` (that is `%f`) of a value with at most six
      decimals: sign, integer part, a point and exactly six digits. */
  function FormatFixed(m: int): string
  {
    if m < 0 then "-" + UnsignedText(-m) else UnsignedText(m)
  }

  /** The printed number holds a decimal point and no comma, so it stays one
      CSV cell. */
  lemma FormatFixedCell(m: int)
    ensures ',' !in FormatFixed(m) && '.' in FormatFixed(m)
  {
    if m < 0 {
      assert FormatFixed(m) == "-" + UnsignedText(-m);
    }
  }

  /** Integer part, a point, and the six fraction digits of `a` millionths. */
  function UnsignedText(a: nat): (s: string)
    ensures |s| > 0 && IsDigit(s[0])
    ensures ',' !in s && '.' in s
  {
    var ip := NatToString(a / Scale);
    var fp := PadDigits(a % Scale, 6);
    assert (ip + "." + fp)[|ip|] == '.';
    assert ',' !in ip && ',' !in fp by {
      assert forall i :: 0 <= i < |ip| ==> IsDigit(ip[i]);
    }
    ip + "." + fp
  }

  /** `std::to_string(int)` read as a number. */
  function FromInt(n: int): Number
  {
    Fixed(n * Scale)
  }

  /** Digits padded to a width that holds the number read back as it. */
  lemma {:induction false} PadDigitsValue(r: nat, w: nat)
    requires r < Pow10(w)
    ensures DigitsValue(PadDigits(r, w)) == r
  {
    if w > 0 {
      assert r / 10 < Pow10(w - 1);
      PadDigitsValue(r / 10, w - 1);
      var s := PadDigits(r, w);
      assert s[..|s| - 1] == PadDigits(r / 10, w - 1);
    } else {
      assert r == 0;
    }
  }

  lemma NoPointInDigits(s: string)
    requires AllDigits(s)
    ensures '.' !in s
  {
    forall i | 0 <= i < |s| ensures s[i] != '.' {
      assert IsDigit(s[i]);
    }
  }

  /** The first point after a run of digits is the one that follows it. */
  lemma {:induction false} IndexOfAfterDigits(ip: string, fp: string)
    requires AllDigits(ip)
    ensures IndexOf(ip + "." + fp, '.') == Some(|ip|)
  {
    var body := ip + "." + fp;
    if |ip| == 0 {
      assert body[0] == '.';
    } else {
      assert IsDigit(ip[0]);
      assert body[0] == ip[0] != '.';
      assert body[1..] == ip[1..] + "." + fp;
      IndexOfAfterDigits(ip[1..], fp);
    }
  }

  /** A decimal with digits on both sides of the point parses to its value. */
  lemma ParseDecimal(ip: string, fp: string)
    requires AllDigits(ip) && AllDigits(fp) && |ip| + |fp| > 0 && |fp| <= 6
    ensures ParseUnsigned(ip + "." + fp) == Some(DecimalValue(ip, fp))
  {
    var body := ip + "." + fp;
    IndexOfAfterDigits(ip, fp);
    assert body[..|ip|] == ip;
    assert body[|ip| + 1..] == fp;
  }

  /** The unsigned part of a printed value reads back as the value. */
  lemma UnsignedRoundTrip(a: nat)
    ensures ParseUnsigned(UnsignedText(a)) == Some(a)
  {
    var ip := NatToString(a / Scale);
    var fp := PadDigits(a % Scale, 6);
    assert Pow10(6) == Scale;
    PadDigitsValue(a % Scale, 6);
    DigitsRoundTrip(a / Scale);
    ParseDecimal(ip, fp);
    assert DecimalValue(ip, fp) == (a / Scale) * Scale + a % Scale;
  }

  /** Reading back what the solver printed gives the value it printed. */
  lemma FormatParseRoundTrip(m: int)
    ensures ToNumeric(FormatFixed(m)) == Fixed(m)
  {
    if m < 0 {
      NegativeRoundTrip(m);
    } else {
      PositiveRoundTrip(m);
    }
  }

  lemma PositiveRoundTrip(m: int)
    requires m >= 0
    ensures ToNumeric(FormatFixed(m)) == Fixed(m)
  {
    var s := FormatFixed(m);
    assert s == UnsignedText(m);
    assert s[0] != '-' && s[0] != '+';
    UnsignedRoundTrip(m);
  }

  lemma NegativeRoundTrip(m: int)
    requires m < 0
    ensures ToNumeric(FormatFixed(m)) == Fixed(m)
  {
    var a: nat := -m;
    var t := FormatFixed(m);
    assert t == "-" + UnsignedText(a);
    NegativeTextRoundTrip(a);
    assert ToNumeric(t) == Fixed(-(a as int));
  }

  lemma NegativeTextRoundTrip(a: nat)
    requires a > 0
    ensures ToNumeric("-" + UnsignedText(a)) == Fixed(-(a as int))
  {
    var t := "-" + UnsignedText(a);
    assert t[1..] == UnsignedText(a);
    UnsignedRoundTrip(a);
    ToNumericNegative(t);
  }

  /** A leading minus negates the unsigned value after it. */
  lemma ToNumericNegative(s: string)
    requires |s| > 0 && s[0] == '-' && ParseUnsigned(s[1..]).Some?
    ensures ToNumeric(s) == Fixed(-(ParseUnsigned(s[1..]).value as int))
  {
  }

  /** Text that is not a number becomes NaN, not zero. */
  lemma CoerceToNaN()
    ensures ToNumeric("") == NaN && ToNumeric("abc") == NaN && ToNumeric("-") == NaN
  {
    assert IndexOf("abc", '.') == None;
    assert "-"[1..] == "";
  }

  /** A plain decimal is read exactly. */
  lemma CoerceDecimal()
    ensures ToNumeric("1.5") == Fixed(1500000)
  {
    assert "1.5" == "1" + "." + "5";
    assert DigitsValue("1") == 1 by { assert "1"[..0] == ""; }
    assert DigitsValue("5") == 5 by { assert "5"[..0] == ""; }
    ParseDecimal("1", "5");
  }

  /** `std::to_string(int)` read back by `pd.to_numeric` is the same integer. */
  lemma IntRoundTrip(n: int)
    ensures ToNumeric(IntToString(n)) == FromInt(n)
  {
    if n < 0 {
      NegativeIntRoundTrip(-n);
    } else {
      PositiveIntRoundTrip(n);
    }
  }

  lemma PositiveIntRoundTrip(a: nat)
    ensures ToNumeric(NatToString(a)) == Fixed(a * Scale)
  {
    NatParse(a);
    assert IsDigit(NatToString(a)[0]);
  }

  lemma NegativeIntRoundTrip(a: nat)
    requires a > 0
    ensures ToNumeric("-" + NatToString(a)) == Fixed(-(a * Scale))
  {
    var s := "-" + NatToString(a);
    assert s[0] == '-' && s[1..] == NatToString(a);
    NatParse(a);
  }

  lemma NatParse(a: nat)
    ensures ParseUnsigned(NatToString(a)) == Some(a * Scale)
  {
    var s := NatToString(a);
    NoPointInDigits(s);
    DigitsRoundTrip(a);
  }
}

=== FILE: orderedset.dfy ===
/** `OrderedSet`: a set kept as a vector in insertion order. Membership is
    a linear scan; `insert` refuses an element already present, so a set
    built by inserts holds each element once, in the order it first
    arrived. */
module OrderedSet {

  datatype OrderedSet<T> = OrderedSet(elems: seq<T>)

  function Empty<T>(): (o: OrderedSet<T>)
    ensures |o.elems| == 0
  {
    OrderedSet([])
  }

  /** No element occurs twice. */
  predicate Distinct<T(==)>(s: seq<T>)
  {
    forall i, j :: 0 <= i < j < |s| ==> s[i] != s[j]
  }

  /** `find`: the position of the first occurrence, scanning from the
      front; the size of the set stands for `end()`. */
  function Find<T(==)>(o: OrderedSet<T>, v: T): (i: nat)
    ensures i <= |o.elems|
    ensures i < |o.elems| ==> o.elems[i] == v
    ensures v !in o.elems[..i]
    ensures i == |o.elems| <==> v !in o.elems
  {
    IndexOf(o.elems, v)
  }

  function IndexOf<T(==)>(s: seq<T>, v: T): (i: nat)
    ensures i <= |s|
    ensures i < |s| ==> s[i] == v
    ensures v !in s[..i]
    ensures i == |s| <==> v !in s
  {
    if |s| == 0 then 0
    else if s[0] == v then 0
    else
      var i := 1 + IndexOf(s[1..], v);
      assert s[..i] == [s[0]] + s[1..][..i - 1];
      i
  }

  /** `count`: the occurrences of `v`, one scan over the vector. */
  function Count<T(==)>(o: OrderedSet<T>, v: T): (n: nat)
    ensures n == multiset(o.elems)[v]
  {
    CountOf(o.elems, v)
  }

  function CountOf<T(==)>(s: seq<T>, v: T): (n: nat)
    ensures n == multiset(s)[v]
  {
    if |s| == 0 then 0
    else
      assert s == [s[0]] + s[1..];
      (if s[0] == v then 1 else 0) + CountOf(s[1..], v)
  }

  /** `insert`: `false` and no change when `v` is already there; otherwise
      `v` goes to the end and the answer is `true`. */
  function Insert<T(==)>(o: OrderedSet<T>, v: T): (r: (OrderedSet<T>, bool))
    ensures r.1 <==> v !in o.elems
    ensures !r.1 ==> r.0 == o
    ensures r.1 ==> r.0.elems == o.elems + [v]
  {
    if Find(o, v) < |o.elems| then (o, false) else (OrderedSet(o.elems + [v]), true)
  }

  /** `erase` at a position: the element there goes, the others close up
      in order. */
  function EraseAt<T>(o: OrderedSet<T>, i: nat): (r: OrderedSet<T>)
    requires i < |o.elems|
    ensures |r.elems| == |o.elems| - 1
    ensures forall j :: 0 <= j < i ==> r.elems[j] == o.elems[j]
    ensures forall j :: i <= j < |r.elems| ==> r.elems[j] == o.elems[j + 1]
  {
    OrderedSet(o.elems[..i] + o.elems[i + 1..])
  }

  /** `erase` of a value: the first occurrence, if any, is erased. */
  function Erase<T(==)>(o: OrderedSet<T>, v: T): (r: OrderedSet<T>)
    ensures v !in o.elems ==> r == o
    ensures v in o.elems ==> |r.elems| == |o.elems| - 1
  {
    var i := Find(o, v);
    if i == |o.elems| then o else EraseAt(o, i)
  }

  /** `pop_back`: the last element goes; the vector must not be empty. */
  function PopBack<T>(o: OrderedSet<T>): (r: OrderedSet<T>)
    requires |o.elems| > 0
    ensures o.elems == r.elems + [o.elems[|o.elems| - 1]]
  {
    OrderedSet(o.elems[..|o.elems| - 1])
  }

  /** The sequence with its first `v` taken out: a reference definition. */
  function RemoveFirst<T(==)>(s: seq<T>, v: T): seq<T>
  {
    if |s| == 0 then []
    else if s[0] == v then s[1..]
    else [s[0]] + RemoveFirst(s[1..], v)
  }

  /** The sequence with every `v` taken out, the rest in order. */
  function Without<T(==)>(s: seq<T>, v: T): seq<T>
  {
    if |s| == 0 then []
    else if s[0] == v then Without(s[1..], v)
    else [s[0]] + Without(s[1..], v)
  }

  /** `erase` of a value takes out exactly its first occurrence. */
  lemma {:induction false} EraseIsRemoveFirst<T>(o: OrderedSet<T>, v: T)
    ensures Erase(o, v).elems == RemoveFirst(o.elems, v)
    decreases |o.elems|
  {
    var s := o.elems;
    if |s| > 0 && s[0] != v {
      var tail := OrderedSet(s[1..]);
      EraseIsRemoveFirst(tail, v);
      EraseSkipsHead(o, v);
    }
  }

  /** Past a head other than `v`, `erase` works on the tail. */
  lemma EraseSkipsHead<T>(o: OrderedSet<T>, v: T)
    requires |o.elems| > 0 && o.elems[0] != v
    ensures Erase(o, v).elems == [o.elems[0]] + Erase(OrderedSet(o.elems[1..]), v).elems
  {
    var s := o.elems;
    var tail := OrderedSet(s[1..]);
    var i := Find(tail, v);
    assert Find(o, v) == 1 + i;
    if i < |tail.elems| {
      assert s[..i + 1] == [s[0]] + s[1..][..i];
      assert s[i + 2..] == s[1..][i + 1..];
    } else {
      assert v !in s;
    }
  }

  /** Without `v`, there is nothing to remove. */
  lemma {:induction false} RemoveFirstAbsent<T>(s: seq<T>, v: T)
    requires v !in s
    ensures RemoveFirst(s, v) == s
    decreases |s|
  {
    if |s| > 0 {
      assert v !in s[1..];
      RemoveFirstAbsent(s[1..], v);
    }
  }

  /** In a duplicate-free set, taking out the first `v` is taking out every
      `v`: afterwards `v` is gone and the rest keep their order. */
  lemma {:induction false} RemoveFirstOfDistinct<T>(s: seq<T>, v: T)
    requires Distinct(s)
    ensures RemoveFirst(s, v) == Without(s, v)
    ensures v !in RemoveFirst(s, v)
    decreases |s|
  {
    if |s| > 0 {
      assert Distinct(s[1..]) by {
        forall i, j | 0 <= i < j < |s[1..]| ensures s[1..][i] != s[1..][j] {
          assert s[1..][i] == s[i + 1] && s[1..][j] == s[j + 1];
        }
      }
      RemoveFirstOfDistinct(s[1..], v);
      if s[0] == v {
        assert v !in s[1..] by {
          forall j | 0 <= j < |s[1..]| ensures s[1..][j] != v {
            assert s[1..][j] == s[j + 1];
          }
        }
        RemoveFirstAbsent(s[1..], v);
        WithoutAbsent(s[1..], v);
      }
    }
  }

  /** Without `v`, nothing is filtered out. */
  lemma {:induction false} WithoutAbsent<T>(s: seq<T>, v: T)
    requires v !in s
    ensures Without(s, v) == s
    decreases |s|
  {
    if |s| > 0 {
      assert v !in s[1..];
      WithoutAbsent(s[1..], v);
    }
  }

  /** The set built by inserting `xs` in order into `o`. */
  function InsertAll<T(==)>(o: OrderedSet<T>, xs: seq<T>): OrderedSet<T>
    decreases |xs|
  {
    if |xs| == 0 then o else InsertAll(Insert(o, xs[0]).0, xs[1..])
  }

  /** Built by inserts alone, the set has no duplicates, so `count` is at
      most 1, and it holds exactly the inserted elements. */
  lemma {:induction false} InsertsKeepDistinct<T>(o: OrderedSet<T>, xs: seq<T>)
    requires Distinct(o.elems)
    ensures Distinct(InsertAll(o, xs).elems)
    ensures forall v :: Count(InsertAll(o, xs), v) <= 1
    ensures forall v :: v in InsertAll(o, xs).elems <==> v in o.elems || v in xs
    decreases |xs|
  {
    if |xs| > 0 {
      var next := Insert(o, xs[0]).0;
      assert Distinct(next.elems);
      InsertsKeepDistinct(next, xs[1..]);
      assert forall v :: v in xs <==> v == xs[0] || v in xs[1..] by {
        assert xs == [xs[0]] + xs[1..];
      }
    }
    forall v ensures Count(InsertAll(o, xs), v) <= 1 {
      DistinctCountAtMostOne(InsertAll(o, xs).elems, v);
    }
  }

  /** A duplicate-free sequence holds each value at most once. */
  lemma {:induction false} DistinctCountAtMostOne<T>(s: seq<T>, v: T)
    requires Distinct(s)
    ensures multiset(s)[v] <= 1
    decreases |s|
  {
    if |s| > 0 {
      assert s == [s[0]] + s[1..];
      assert Distinct(s[1..]) by {
        forall i, j | 0 <= i < j < |s[1..]| ensures s[1..][i] != s[1..][j] {
          assert s[1..][i] == s[i + 1] && s[1..][j] == s[j + 1];
        }
      }
      DistinctCountAtMostOne(s[1..], v);
      if s[0] == v {
        assert v !in s[1..] by {
          forall j | 0 <= j < |s[1..]| ensures s[1..][j] != v {
            assert s[1..][j] == s[j + 1];
          }
        }
      }
    }
  }

  /** Inserting a new element and popping it again gives back the set; an
      element present is found where it sits, and a second insert of it is
      refused. */
  lemma InsertThenPop<T>(o: OrderedSet<T>, v: T)
    ensures v !in o.elems ==> PopBack(Insert(o, v).0) == o
    ensures v !in o.elems ==> Find(Insert(o, v).0, v) == |o.elems|
    ensures !Insert(Insert(o, v).0, v).1
  {
    if v !in o.elems {
      var r := Insert(o, v).0;
      assert r.elems[..|r.elems| - 1] == o.elems;
      assert r.elems[|o.elems|] == v;
    }
  }
}

=== FILE: pointerlayout.dfy ===
/** `PointerLayout`: the byte offsets at which a type holds pointers. Layouts
    are interned, so a layout is its address in the table of stored offset
    sets. */
module PointerLayout {
  import opened Interning

  type Offsets = set<nat>

  /** The layouts every table starts with: no pointer, and a pointer at 0. */
  const EmptyLayout: nat := 0
  const SinglePointerLayout: nat := 1

  const InitialTable: seq<Offsets> := [{}, {0}]

  /** A table that is consistent: nothing stored twice, and the two fixed
      layouts in place. */
  predicate Valid(table: seq<Offsets>)
  {
    Distinct(table) && |table| >= 2 && table[EmptyLayout] == {} && table[SinglePointerLayout] == {0}
  }

  lemma InitialTableValid()
    ensures Valid(InitialTable)
  {
  }

  /** `getLayout`: the stored layout with these offsets. */
  function GetLayout(table: seq<Offsets>, offsets: Offsets): (r: Interned<Offsets>)
    requires Valid(table)
    ensures Valid(r.table) && r.id < |r.table| && r.table[r.id] == offsets
    ensures |table| <= |r.table| && r.table[..|table|] == table
    ensures offsets in table ==> r.table == table
  {
    var r := Intern(table, offsets);
    assert r.table[0] == r.table[..|table|][0] && r.table[1] == r.table[..|table|][1];
    r
  }

  /** `merge`: the same layout when both sides are one, the other side when
      one is empty, otherwise the layout holding the offsets of both. */
  function Merge(table: seq<Offsets>, lhs: nat, rhs: nat): (r: Interned<Offsets>)
    requires Valid(table) && lhs < |table| && rhs < |table|
    ensures Valid(r.table) && r.id < |r.table|
    ensures r.table[r.id] == table[lhs] + table[rhs]
  {
    if lhs == rhs then Interned(table, lhs)
    else if table[lhs] == {} then Interned(table, rhs)
    else if table[rhs] == {} then Interned(table, lhs)
    else GetLayout(table, table[lhs] + table[rhs])
  }

  /** The shortcuts agree with the general case: `merge` always returns the
      interned union. */
  lemma MergeIsUnion(table: seq<Offsets>, lhs: nat, rhs: nat)
    requires Valid(table) && lhs < |table| && rhs < |table|
    ensures Merge(table, lhs, rhs) == GetLayout(table, table[lhs] + table[rhs])
  {
    var u := table[lhs] + table[rhs];
    if lhs == rhs {
      assert u == table[lhs];
    } else if table[lhs] == {} {
      assert u == table[rhs];
    } else if table[rhs] == {} {
      assert u == table[lhs];
    }
  }

  /** Merging is commutative, down to the table it leaves behind. */
  lemma MergeCommutes(table: seq<Offsets>, lhs: nat, rhs: nat)
    requires Valid(table) && lhs < |table| && rhs < |table|
    ensures Merge(table, lhs, rhs) == Merge(table, rhs, lhs)
  {
    MergeIsUnion(table, lhs, rhs);
    MergeIsUnion(table, rhs, lhs);
    assert table[lhs] + table[rhs] == table[rhs] + table[lhs];
  }

  /** A layout merged with itself or with the empty layout is returned as is. */
  lemma MergeIdentities(table: seq<Offsets>, l: nat)
    requires Valid(table) && l < |table|
    ensures Merge(table, l, l) == Interned(table, l)
    ensures Merge(table, l, EmptyLayout) == Interned(table, l)
    ensures Merge(table, EmptyLayout, l) == Interned(table, l)
  {
  }
}

=== FILE: powers.dfy ===
/** Powers of two, shared by the bit-length comparison of bounds and the
    shift-width helper. */
module Powers {

  function Pow2(k: nat): (p: nat)
    ensures p >= 1
  {
    if k == 0 then 1 else 2 * Pow2(k - 1)
  }

  lemma {:induction false} Pow2Monotone(a: nat, b: nat)
    requires a <= b
    ensures Pow2(a) <= Pow2(b)
    decreases b
  {
    if a < b {
      Pow2Monotone(a, b - 1);
    }
  }
}

=== FILE: reachingdefs.dfy ===
/** `ReachingDefsDomain`: for each variable, the set of definitions
    (instructions) that may reach a point. Variables and instructions are
    identities. The map may hold a variable with an empty set (the
    constructor and `meet` can put one there); `getDefinitions` reads such a
    variable and an absent one alike, while `equals` tells them apart. */
module ReachingDefs {
  import opened Cardinality

  type Var = nat
  type Inst = nat
  type Defs = map<Var, set<Inst>>

  /** `getDefinitions`: an absent variable has no definitions. */
  function GetDefinitions(d: Defs, v: Var): set<Inst>
  {
    if v in d then d[v] else {}
  }

  /** `meet`: union per variable. An empty map hands back the other one;
      otherwise the smaller map's entries are merged into a copy of the
      larger, an entry that is new or empty in the copy taking the other
      set as it is. */
  method Meet(a: Defs, b: Defs) returns (r: Defs)
    ensures forall v :: v in r <==> v in a || v in b
    ensures forall v :: GetDefinitions(r, v) == GetDefinitions(a, v) + GetDefinitions(b, v)
    ensures |a| == 0 ==> r == b
    ensures |b| == 0 ==> r == a
  {
    if |a| == 0 {
      return b;
    }
    if |b| == 0 {
      return a;
    }
    if |a| > |b| {
      r := MergeInto(a, b);
    } else {
      r := MergeInto(b, a);
    }
  }

  /** The loop of `meet`: each entry of `other` merged into a copy of
      `base`. */
  method MergeInto(base: Defs, other: Defs) returns (r: Defs)
    ensures forall v :: v in r <==> v in base || v in other
    ensures forall v :: GetDefinitions(r, v) == GetDefinitions(base, v) + GetDefinitions(other, v)
  {
    r := base;
    var todo := other.Keys;
    while todo != {}
      invariant todo <= other.Keys && Merged(base, other, r, todo)
      decreases |todo|
    {
      var v :| v in todo;
      MergeStep(base, other, r, todo, v);
      r := MergeEntry(r, v, other[v]);
      todo := todo - {v};
    }
  }

  /** The loop invariant of `meet`: the entries still to do are as in
      `base`, the others are merged. */
  ghost predicate Merged(base: Defs, other: Defs, r: Defs, todo: set<Var>)
  {
    && (forall v :: v in r <==> v in base || (v in other && v !in todo))
    && (forall v :: v in todo ==> GetDefinitions(r, v) == GetDefinitions(base, v))
    && (forall v :: v !in todo ==> GetDefinitions(r, v) == GetDefinitions(base, v) + GetDefinitions(other, v))
  }

  lemma MergeStep(base: Defs, other: Defs, r: Defs, todo: set<Var>, v: Var)
    requires todo <= other.Keys && v in todo && Merged(base, other, r, todo)
    ensures Merged(base, other, MergeEntry(r, v, other[v]), todo - {v})
  {
  }

  /** One step of the loop: an entry that is missing or empty takes the
      other set as it is, any other entry gains its members. */
  function MergeEntry(r: Defs, v: Var, s: set<Inst>): (r': Defs)
    ensures forall w :: w in r' <==> w in r || w == v
    ensures forall w :: GetDefinitions(r', w) == if w == v then GetDefinitions(r, v) + s else GetDefinitions(r, w)
  {
    var current := GetDefinitions(r, v);
    if current == {} then r[v := s] else r[v := current + s]
  }

  /** `equals`: as many variables on each side, and each variable of this
      side present on the other with a set of the same size whose members
      are all there; together that is equality of the maps. */
  method Equals(a: Defs, b: Defs) returns (r: bool)
    ensures r <==> a == b
  {
    if |a| != |b| {
      return false;
    }
    var todo := a.Keys;
    while todo != {}
      invariant todo <= a.Keys
      invariant forall v :: v in a.Keys - todo ==> v in b && a[v] == b[v]
      decreases |todo|
    {
      var v :| v in todo;
      if v !in b {
        return false;
      }
      if |b[v]| != |a[v]| {
        return false;
      }
      var same := SetEquals(a[v], b[v]);
      if !same {
        return false;
      }
      todo := todo - {v};
    }
    assert a.Keys <= b.Keys;
    SubsetOfSameSize(a.Keys, b.Keys);
    assert a == b;
    return true;
  }

  /** The inner loop of `equals`: sizes equal, every member found. */
  method SetEquals(x: set<Inst>, y: set<Inst>) returns (r: bool)
    requires |x| == |y|
    ensures r <==> x == y
  {
    var rest := x;
    while rest != {}
      invariant rest <= x
      invariant x - rest <= y
      decreases |rest|
    {
      var i :| i in rest;
      if i !in y {
        return false;
      }
      rest := rest - {i};
    }
    SubsetOfSameSize(x, y);
    return true;
  }

  /** `addDefinition`: the variable gains the definition, creating its
      entry if need be. */
  function AddDefinition(d: Defs, v: Var, i: Inst): (r: Defs)
    ensures r.Keys == d.Keys + {v}
    ensures GetDefinitions(r, v) == GetDefinitions(d, v) + {i}
    ensures forall w :: w != v ==> (w in r <==> w in d) && GetDefinitions(r, w) == GetDefinitions(d, w)
  {
    d[v := GetDefinitions(d, v) + {i}]
  }

  /** `removeDefinition`: the variable loses the definition, and its entry
      goes once nothing is left. */
  function RemoveDefinition(d: Defs, v: Var, i: Inst): (r: Defs)
    ensures GetDefinitions(r, v) == GetDefinitions(d, v) - {i}
    ensures v in r <==> GetDefinitions(d, v) - {i} != {}
    ensures forall w :: w != v ==> (w in r <==> w in d) && GetDefinitions(r, w) == GetDefinitions(d, w)
  {
    if v !in d then d
    else if d[v] - {i} == {} then map w | w in d && w != v :: d[w]
    else d[v := d[v] - {i}]
  }

  /** `removeAllDefinitions`: the entry goes. */
  function RemoveAllDefinitions(d: Defs, v: Var): (r: Defs)
    ensures v !in r && GetDefinitions(r, v) == {}
    ensures forall w :: w != v ==> (w in r <==> w in d) && GetDefinitions(r, w) == GetDefinitions(d, w)
  {
    map w | w in d && w != v :: d[w]
  }

  /** No variable is kept with an empty set. */
  predicate NoEmptyEntries(d: Defs)
  {
    forall v :: v in d ==> d[v] != {}
  }

  /** The setters and `meet` never create an empty entry. */
  lemma OperationsKeepNoEmptyEntries(a: Defs, b: Defs, v: Var, i: Inst)
    requires NoEmptyEntries(a) && NoEmptyEntries(b)
    ensures NoEmptyEntries(AddDefinition(a, v, i))
    ensures NoEmptyEntries(RemoveDefinition(a, v, i))
    ensures NoEmptyEntries(RemoveAllDefinitions(a, v))
    ensures forall r: Defs :: r.Keys == a.Keys + b.Keys && (forall w :: GetDefinitions(r, w) == GetDefinitions(a, w) + GetDefinitions(b, w)) ==> NoEmptyEntries(r)
  {
    forall r: Defs | r.Keys == a.Keys + b.Keys && (forall w :: GetDefinitions(r, w) == GetDefinitions(a, w) + GetDefinitions(b, w))
      ensures NoEmptyEntries(r)
    {
      forall w | w in r ensures r[w] != {} {
        assert GetDefinitions(r, w) == GetDefinitions(a, w) + GetDefinitions(b, w);
        if w in a {
          assert a[w] <= r[w];
        } else {
          assert w in b && b[w] <= r[w];
        }
      }
    }
    var ra := RemoveDefinition(a, v, i);
    forall w | w in ra ensures ra[w] != {} {
      if w == v {
        assert GetDefinitions(ra, v) == GetDefinitions(a, v) - {i};
      } else {
        assert GetDefinitions(ra, w) == GetDefinitions(a, w);
      }
    }
  }

  /** Without empty entries, `equals` is exactly agreement of
      `getDefinitions` on every variable. */
  lemma {:induction false} EqualsIsSameDefinitions(a: Defs, b: Defs)
    requires NoEmptyEntries(a) && NoEmptyEntries(b)
    ensures a == b <==> forall v :: GetDefinitions(a, v) == GetDefinitions(b, v)
  {
    if forall v :: GetDefinitions(a, v) == GetDefinitions(b, v) {
      forall v | v in a ensures v in b && a[v] == b[v] {
        assert GetDefinitions(a, v) == GetDefinitions(b, v);
      }
      forall v | v in b ensures v in a {
        assert GetDefinitions(a, v) == GetDefinitions(b, v);
      }
      assert a.Keys == b.Keys;
    }
  }

  /** With an empty entry the two readings part: `{v: ∅}` and the empty map
      have the same definitions everywhere, yet are not equal. */
  lemma EmptyEntryDistinguished(v: Var)
    ensures forall w :: GetDefinitions(NoDefinitions[v := {}], w) == GetDefinitions(NoDefinitions, w)
    ensures NoDefinitions[v := {}] != NoDefinitions
  {
    assert v in NoDefinitions[v := {}];
  }

  const NoDefinitions: Defs := map[]
}

=== FILE: safefilter.dfy ===
/** `extract_safe.py`: drops result rows whose bounds are degenerate, that is
    whose lower bound words are mostly all-zero exactly where the upper bound
    words are all-`f`. */
module SafeFilter {
  import opened Wrappers
  import opened Strings
  import Seqs
  import opened Table

  const LowerKey: string := "Lower Bound"
  const UpperKey: string := "Upper Bound"

  // ---------------------------------------------------------------------------
  // The two unused cleaners `is_all_zeros` and `is_all_fs`
  // ---------------------------------------------------------------------------

  /** Deletes `[`, `]`, `#x` and `,` in that order, then strips whitespace. */
  function Clean(value: string): (c: string)
    ensures '[' !in c && ']' !in c && ',' !in c
  {
    var a := Remove(value, "[");
    var b := Remove(a, "]");
    var d := Remove(b, "#x");
    var e := Remove(d, ",");
    RemoveDropsChar(value, '[');
    RemoveDropsChar(a, ']');
    RemoveKeepsAbsent(a, "]", '[');
    RemoveKeepsAbsent(b, "#x", '[');
    RemoveKeepsAbsent(b, "#x", ']');
    RemoveDropsChar(d, ',');
    RemoveKeepsAbsent(d, ",", '[');
    RemoveKeepsAbsent(d, ",", ']');
    StripKeepsAbsent(e, '[');
    StripKeepsAbsent(e, ']');
    StripKeepsAbsent(e, ',');
    Strip(e)
  }

  /** `is_all_zeros`: at least half of the cleaned characters are `0`
      (Python's true division, so `count >= len / 2` is `2 * count >= len`). */
  predicate IsAllZeros(value: string)
  {
    2 * CountChar(Clean(value), '0') >= |Clean(value)|
  }

  /** `is_all_fs`: strictly more than half of the cleaned characters are `f`. */
  predicate IsAllFs(value: string)
  {
    2 * CountChar(Clean(value), 'f') > |Clean(value)|
  }

  /** The two cleaners disagree on a tie: exactly half zeros passes, exactly
      half `f`s does not; `"0f"` is "all zeros" but not "all f". */
  lemma ThresholdAsymmetry(value: string)
    ensures 2 * CountChar(Clean(value), '0') == |Clean(value)| ==> IsAllZeros(value)
    ensures 2 * CountChar(Clean(value), 'f') == |Clean(value)| ==> !IsAllFs(value)
    ensures IsAllZeros("0f") && !IsAllFs("0f")
  {
    CleanZeroF();
    assert CountChar("0f", '0') == 1 && CountChar("0f", 'f') == 1;
  }

  /** `"0f"` has nothing to clean. */
  lemma CleanZeroF()
    ensures Clean("0f") == "0f"
  {
    CleanKeepsPlain("0f");
  }

  /** A value without brackets, commas, `#` or surrounding blanks comes
      through cleaning unchanged. */
  lemma CleanKeepsPlain(s: string)
    requires '[' !in s && ']' !in s && ',' !in s && '#' !in s
    requires |s| > 0 ==> !IsPySpace(s[0]) && !IsPySpace(s[|s| - 1])
    ensures Clean(s) == s
  {
    RemoveAbsentChar(s, '[');
    RemoveAbsentChar(s, ']');
    RemoveWithoutFirst(s, "#x");
    RemoveAbsentChar(s, ',');
    assert StripLeft(s) == s;
    assert StripRight(s) == s;
  }

  /** Removing a character that does not occur changes nothing. */
  lemma {:induction false} RemoveAbsentChar(s: string, c: char)
    requires c !in s
    ensures Remove(s, [c]) == s
  {
    if |s| >= 1 {
      RemoveAbsentChar(s[1..], c);
      assert s[0] != c by { assert s[0] in s; }
      assert s[..1] == [s[0]];
      assert [s[0]] + s[1..] == s;
    }
  }

  /** Removing a pattern whose first character does not occur changes nothing. */
  lemma {:induction false} RemoveWithoutFirst(s: string, pat: string)
    requires |pat| > 0 && pat[0] !in s
    ensures Remove(s, pat) == s
    decreases |s|
  {
    if |s| >= |pat| {
      assert s[..|pat|][0] == s[0] != pat[0];
      RemoveWithoutFirst(s[1..], pat);
      assert [s[0]] + s[1..] == s;
    }
  }

  // ---------------------------------------------------------------------------
  // Word patterns
  // ---------------------------------------------------------------------------

  /** What `$` lets through at the end of a `re.match`: the whole text, or the
      text before one final newline. */
  function BeforeEnd(t: string): string
  {
    if |t| > 0 && t[|t| - 1] == '\n' then t[..|t| - 1] else t
  }

  predicate AllChar(s: string, c: char)
  {
    forall i :: 0 <= i < |s| ==> s[i] == c
  }

  /** `re.match(r'#x0+0$', w)`: `#x` then two or more zeros and nothing else. */
  predicate IsZeroWord(w: string)
  {
    StartsWith(w, "#x") && |BeforeEnd(w[2..])| >= 2 && AllChar(BeforeEnd(w[2..]), '0')
  }

  /** `re.match(r'#x[f]+$', w)`: `#x` then one or more lower-case `f`. */
  predicate IsFWord(w: string)
  {
    StartsWith(w, "#x") && |BeforeEnd(w[2..])| >= 1 && AllChar(BeforeEnd(w[2..]), 'f')
  }

  /** The patterns as they read: one zero is not enough, case matters, and
      the full 32-bit words match. */
  lemma WordExamples()
    ensures !IsZeroWord("#x0") && IsZeroWord("#x00") && IsZeroWord("#x00000000")
    ensures IsFWord("#xf") && IsFWord("#xffffffff") && !IsFWord("#xFFFFFFFF")
    ensures !IsZeroWord("#x01") && !IsFWord("#xfe") && !IsZeroWord("0x00")
  {
    assert "0x00"[..2] == "0x";
    assert "#x00000000"[2..] == "00000000";
    assert "#xffffffff"[2..] == "ffffffff";
    assert "#x01"[2..] == "01";
    assert "#xfe"[2..] == "fe";
    assert "#xFFFFFFFF"[2..] == "FFFFFFFF";
    assert "#x00"[2..] == "00";
    assert "#xf"[2..] == "f";
    assert "#x0"[2..] == "0";
  }

  // ---------------------------------------------------------------------------
  // detect_corresponding_pairs
  // ---------------------------------------------------------------------------

  /** The word lists paired position by position. */
  function Zip(lo: seq<string>, hi: seq<string>): (z: seq<(string, string)>)
    requires |lo| == |hi|
    ensures |z| == |lo| && forall i :: 0 <= i < |z| ==> z[i] == (lo[i], hi[i])
  {
    if |lo| == 0 then [] else [(lo[0], hi[0])] + Zip(lo[1..], hi[1..])
  }

  /** The test in the loop body of `detect_corresponding_pairs`. */
  predicate MatchPair(p: (string, string))
  {
    IsZeroWord(p.0) && IsFWord(p.1)
  }

  /** `num`: positions where the lower word is all zeros and the upper all `f`. */
  function MatchCount(lo: seq<string>, hi: seq<string>): nat
    requires |lo| == |hi|
  {
    Seqs.Count(Zip(lo, hi), MatchPair)
  }

  /** The same count as the size of the set of matching positions. */
  lemma MatchCountIsCardinality(lo: seq<string>, hi: seq<string>)
    requires |lo| == |hi|
    ensures MatchCount(lo, hi) == |set i | 0 <= i < |lo| && IsZeroWord(lo[i]) && IsFWord(hi[i])|
  {
    var z := Zip(lo, hi);
    var f: ((string, string)) -> bool := MatchPair;
    Seqs.CountIsCardinality(z, f);
    var A := Seqs.Positions(z, f);
    var B := set i | 0 <= i < |lo| && IsZeroWord(lo[i]) && IsFWord(hi[i]);
    assert A == B by {
      forall i | 0 <= i < |z|
        ensures f(z[i]) == (IsZeroWord(lo[i]) && IsFWord(hi[i]))
      {
        assert z[i] == (lo[i], hi[i]);
      }
    }
    assert MatchCount(lo, hi) == Seqs.Count(z, f) == |A|;
  }

  /** The bound strings as the script splits them: `[` and `]` stripped from
      both ends, then cut at every comma. */
  function Words(bound: string): (ws: seq<string>)
    ensures |ws| >= 1
  {
    Split(StripChars(bound, {'[', ']'}), ',')
  }

  /** `detect_corresponding_pairs` as written, including the `len(s1) == 0`
      disjunct; the division in `len(s1) * 1 / 2` is true division. */
  predicate DetectCorrespondingPairs(s1: string, s2: string)
  {
    var lo := Words(s1);
    var hi := Words(s2);
    if |lo| != |hi| then false
    else |lo| == 0 || 2 * MatchCount(lo, hi) > |lo|
  }

  /** Degeneracy is a strict majority of matching positions among word lists
      of equal length; lists of different lengths are never degenerate, and
      the `len(s1) == 0` disjunct never decides the answer. */
  lemma DetectCharacterisation(s1: string, s2: string)
    ensures DetectCorrespondingPairs(s1, s2) <==>
      |Words(s1)| == |Words(s2)| &&
      2 * |set i | 0 <= i < |Words(s1)| && IsZeroWord(Words(s1)[i]) && IsFWord(Words(s2)[i])| > |Words(s1)|
  {
    if |Words(s1)| == |Words(s2)| {
      MatchCountIsCardinality(Words(s1), Words(s2));
    }
  }

  /** The `len(s1) == 0` disjunct was evidently meant for empty bound lists,
      but `[]` splits into one empty word, which matches neither pattern, so
      a row with empty bounds is kept. */
  lemma EmptyBoundsNotDegenerate()
    ensures Words("[]") == [""]
    ensures !DetectCorrespondingPairs("[]", "[]")
  {
    assert "[]"[1..] == "]";
    assert "]"[..0] == "";
    assert StripChars("[]", {'[', ']'}) == "";
  }

  /** Exactly half of the positions matching is not degenerate. */
  lemma HalfIsNotDegenerate(s1: string, s2: string)
    requires |Words(s1)| == |Words(s2)|
    requires 2 * MatchCount(Words(s1), Words(s2)) == |Words(s1)|
    ensures !DetectCorrespondingPairs(s1, s2)
  {
  }

  /** A bracketed comma-separated list of non-empty, bracket-free and
      comma-free words splits back into those words. */
  lemma WordsOfList(ws: seq<string>)
    requires |ws| >= 1
    requires forall i :: 0 <= i < |ws| ==> |ws[i]| > 0 && ',' !in ws[i] && '[' !in ws[i] && ']' !in ws[i]
    ensures Words("[" + Join(ws, ',') + "]") == ws
  {
    var t := Join(ws, ',');
    JoinEnds(ws);
    var first, last := t[0], t[|t| - 1];
    assert first in ws[0] && last in ws[|ws| - 1];
    var b := "[" + t + "]";
    var chars := {'[', ']'};
    assert b[0] in chars && b[1..] == t + "]";
    assert StripChars(b, chars) == StripChars(t + "]", chars);
    var u := t + "]";
    assert u[0] == first && u[|u| - 1] in chars && u[..|u| - 1] == t;
    assert StripChars(u, chars) == StripChars(t, chars);
    assert StripChars(t, chars) == t;
    SplitJoin(ws, ',');
  }

  lemma {:induction false} JoinEnds(ws: seq<string>)
    requires |ws| >= 1
    requires forall i :: 0 <= i < |ws| ==> |ws[i]| > 0
    ensures |Join(ws, ',')| > 0
    ensures Join(ws, ',')[0] == ws[0][0]
    ensures Join(ws, ',')[|Join(ws, ',')| - 1] == ws[|ws| - 1][|ws[|ws| - 1]| - 1]
  {
    if |ws| > 1 {
      JoinEnds(ws[1..]);
    }
  }

  /** A typical degenerate pair. */
  lemma DetectExampleDegenerate()
    ensures DetectCorrespondingPairs("[#x00000000]", "[#xffffffff]")
  {
    DegenerateExampleWords();
    WordExamples();
    assert MatchPair(("#x00000000", "#xffffffff"));
    assert MatchCount(["#x00000000"], ["#xffffffff"]) == 1;
  }

  lemma DegenerateExampleWords()
    ensures Words("[#x00000000]") == ["#x00000000"]
    ensures Words("[#xffffffff]") == ["#xffffffff"]
  {
    WordsOfSingle("#x00000000");
    WordsOfSingle("#xffffffff");
    assert "[#x00000000]" == "[" + "#x00000000" + "]";
    assert "[#xffffffff]" == "[" + "#xffffffff" + "]";
  }

  /** A bracketed single word splits into that word. */
  lemma WordsOfSingle(w: string)
    requires |w| > 0 && ',' !in w && '[' !in w && ']' !in w
    ensures Words("[" + w + "]") == [w]
  {
    WordsOfList([w]);
    assert Join([w], ',') == w;
  }

  /** One matching position out of two is not a strict majority. */
  lemma DetectExampleHalf()
    ensures !DetectCorrespondingPairs("[#x00,#x01]", "[#xff,#xff]")
  {
    HalfExampleWords();
    HalfExampleCount();
  }

  lemma HalfExampleWords()
    ensures Words("[#x00,#x01]") == ["#x00", "#x01"]
    ensures Words("[#xff,#xff]") == ["#xff", "#xff"]
  {
    WordsOfPair("#x00", "#x01");
    assert "[#x00,#x01]" == "[" + "#x00" + "," + "#x01" + "]";
    WordsOfPair("#xff", "#xff");
    assert "[#xff,#xff]" == "[" + "#xff" + "," + "#xff" + "]";
  }

  lemma HalfExampleCount()
    ensures MatchCount(["#x00", "#x01"], ["#xff", "#xff"]) <= 1
  {
    assert "#x01"[2..] == "01";
    assert !MatchPair(("#x01", "#xff"));
    var z := Zip(["#x00", "#x01"], ["#xff", "#xff"]);
    assert z == [("#x00", "#xff"), ("#x01", "#xff")];
    assert z[1..] == [("#x01", "#xff")];
  }

  /** `[a,b]` splits into the words `a` and `b`. */
  lemma WordsOfPair(a: string, b: string)
    requires |a| > 0 && ',' !in a && '[' !in a && ']' !in a
    requires |b| > 0 && ',' !in b && '[' !in b && ']' !in b
    ensures Words("[" + a + "," + b + "]") == [a, b]
  {
    WordsOfList([a, b]);
    assert [a, b][1..] == [b];
    assert Join([a, b], ',') == a + "," + b;
    assert "[" + a + "," + b + "]" == "[" + Join([a, b], ',') + "]";
  }

  /** Lists of different lengths are never degenerate. */
  lemma DetectExampleLengths()
    ensures !DetectCorrespondingPairs("[#x00,#x00]", "[#xff]")
  {
    WordsOfList(["#x00", "#x00"]);
    WordsOfList(["#xff"]);
    assert "[#x00,#x00]" == "[" + Join(["#x00", "#x00"], ',') + "]";
    assert "[#xff]" == "[" + Join(["#xff"], ',') + "]";
  }

  // ---------------------------------------------------------------------------
  // filter_boundaries and main
  // ---------------------------------------------------------------------------

  predicate HasBounds(e: Row)
  {
    LowerKey in e && UpperKey in e
  }

  /** A row the filter drops. */
  predicate Degenerate(e: Row)
  {
    HasBounds(e) && DetectCorrespondingPairs(e[LowerKey], e[UpperKey])
  }

  predicate Kept(e: Row)
  {
    !Degenerate(e)
  }

  /** The error `entry['Lower Bound']` or `entry['Upper Bound']` raises. */
  function MissingBound(e: Row): KeyError
  {
    if LowerKey !in e then KeyError(LowerKey) else KeyError(UpperKey)
  }

  /** `filter_boundaries`: the rows that are not degenerate, in input order;
      the first row lacking a bound column raises `KeyError`. */
  function FilterBoundaries(data: seq<Row>): (r: Result<seq<Row>, KeyError>)
    ensures r.Ok? <==> forall i :: 0 <= i < |data| ==> HasBounds(data[i])
    ensures r.Ok? ==> r.value == Seqs.Filter(data, Kept)
    ensures r.Err? ==> exists i :: 0 <= i < |data| && !HasBounds(data[i]) &&
                                  (forall j :: 0 <= j < i ==> HasBounds(data[j])) &&
                                  r.error == MissingBound(data[i])
  {
    if |data| == 0 then Ok([])
    else
      var e := data[0];
      if !HasBounds(e) then Err(MissingBound(e))
      else
        var rest := FilterBoundaries(data[1..]);
        if rest.Err? then rest
        else if DetectCorrespondingPairs(e[LowerKey], e[UpperKey]) then rest
        else Ok([e] + rest.value)
  }

  /** A kept row is exactly a row of the input that is not degenerate. */
  lemma FilterBoundariesMembership(data: seq<Row>, out: seq<Row>, e: Row)
    requires FilterBoundaries(data) == Ok(out)
    ensures e in out <==> e in data && !Degenerate(e)
  {
    Seqs.FilterMembership(data, Kept, e);
  }

  /** Filtering the filtered table again drops nothing. */
  lemma FilterBoundariesIdempotent(data: seq<Row>, out: seq<Row>)
    requires FilterBoundaries(data) == Ok(out)
    ensures FilterBoundaries(out) == Ok(out)
  {
    forall i | 0 <= i < |out| ensures HasBounds(out[i]) {
      assert out[i] in out;
      Seqs.FilterMembership(data, Kept, out[i]);
    }
    Seqs.FilterIdempotent(data, Kept);
  }

  /** `main` after reading the table: filter, then maybe write. */
  function Main(path: string, data: seq<Row>): Result<Output, KeyError>
  {
    var f := FilterBoundaries(data);
    if f.Err? then Err(f.error) else Ok(Rewrite(path, data, f.value))
  }

  /** The script writes `<path>_new.csv`, holding the kept rows, exactly when
      some row was degenerate. */
  lemma MainWritesIffDropped(path: string, data: seq<Row>)
    requires forall i :: 0 <= i < |data| ==> HasBounds(data[i])
    ensures Main(path, data).Ok?
    ensures Main(path, data).value.Written? <==> exists i :: 0 <= i < |data| && Degenerate(data[i])
    ensures Main(path, data).value.Written? ==>
      Main(path, data).value.path == path + "_new.csv" &&
      Main(path, data).value.rows == Seqs.Filter(data, Kept)
  {
    Seqs.FilterDrops(data, Kept);
  }

  // ---------------------------------------------------------------------------
  // Helpers about Remove and Strip
  // ---------------------------------------------------------------------------

  lemma RemoveUnfold(s: string, pat: string)
    requires |pat| > 0
    ensures Remove(s, pat) ==
      if |s| < |pat| then s
      else if s[..|pat|] == pat then Remove(s[|pat|..], pat)
      else [s[0]] + Remove(s[1..], pat)
  {
  }

  /** Removing a one-character pattern leaves no occurrence of it. */
  lemma {:induction false} RemoveDropsChar(s: string, c: char)
    ensures c !in Remove(s, [c])
    decreases |s|
  {
    if |s| >= 1 {
      RemoveDropsChar(s[1..], c);
      if s[..1] != [c] {
        assert s[0] != c;
      }
    }
  }

  /** Removal never introduces a character that was absent. */
  lemma {:induction false} RemoveKeepsAbsent(s: string, pat: string, c: char)
    requires |pat| > 0
    requires c !in s
    ensures c !in Remove(s, pat)
    decreases |s|
  {
    if |s| >= |pat| {
      if s[..|pat|] == pat {
        RemoveKeepsAbsent(s[|pat|..], pat, c);
      } else {
        RemoveKeepsAbsent(s[1..], pat, c);
      }
    }
  }

  /** Stripping never introduces a character that was absent. */
  lemma StripKeepsAbsent(s: string, c: char)
    requires c !in s
    ensures c !in Strip(s)
  {
    StripLeftSuffix(s);
    StripRightPrefix(StripLeft(s));
  }

  lemma {:induction false} StripLeftSuffix(s: string)
    ensures exists k :: 0 <= k <= |s| && StripLeft(s) == s[k..]
  {
    if |s| > 0 && IsPySpace(s[0]) {
      StripLeftSuffix(s[1..]);
      var k :| 0 <= k <= |s[1..]| && StripLeft(s[1..]) == s[1..][k..];
      assert s[1..][k..] == s[k + 1..];
    } else {
      assert s == s[0..];
    }
  }

  lemma {:induction false} StripRightPrefix(s: string)
    ensures exists k :: 0 <= k <= |s| && StripRight(s) == s[..k]
  {
    if |s| > 0 && IsPySpace(s[|s| - 1]) {
      StripRightPrefix(s[..|s| - 1]);
      var k :| 0 <= k <= |s| - 1 && StripRight(s[..|s| - 1]) == s[..|s| - 1][..k];
      assert s[..|s| - 1][..k] == s[..k];
    } else {
      assert s == s[..|s|];
    }
  }
}

=== FILE: selectivekcfa.dfy ===
/** `SelectiveKCFA`: k-limited call-string contexts where each call site and
    each allocation site may carry its own limit `k`, falling back to a
    default. Instructions and functions are abstracted to identities; a
    context is the call string it stands for, oldest call site first, so the
    site pushed last is the last element. */
module SelectiveKCFA {
  import opened Wrappers
  import Cardinality

  /** An instruction, by identity. */
  type Site = nat

  /** A context: the call sites on the stack, the most recent last. The
      interned chain of `Context` objects (call site plus predecessor) is
      this sequence read from its end. */
  type Context = seq<Site>

  /** The static configuration: default limit and the per-site limits. */
  datatype Config = Config(defaultLimit: nat, callSiteLimits: map<Site, nat>, allocSiteLimits: map<Site, nat>)

  /** The configuration before any site is customised. */
  function Initial(defaultLimit: nat): (c: Config)
    ensures c.defaultLimit == defaultLimit && c.callSiteLimits == map[] && c.allocSiteLimits == map[]
  {
    Config(defaultLimit, map[], map[])
  }

  /** A stored limit, or the default when the site has none. */
  function Lookup(limits: map<Site, nat>, default: nat, s: Site): nat
  {
    if s in limits then limits[s] else default
  }

  function GetCallSiteLimit(c: Config, s: Site): nat
  {
    Lookup(c.callSiteLimits, c.defaultLimit, s)
  }

  function GetAllocSiteLimit(c: Config, s: Site): nat
  {
    Lookup(c.allocSiteLimits, c.defaultLimit, s)
  }

  function SetCallSiteLimit(c: Config, s: Site, k: nat): (r: Config)
    ensures r.defaultLimit == c.defaultLimit && r.allocSiteLimits == c.allocSiteLimits
    ensures r.callSiteLimits.Keys == c.callSiteLimits.Keys + {s}
  {
    c.(callSiteLimits := c.callSiteLimits[s := k])
  }

  function SetAllocSiteLimit(c: Config, s: Site, k: nat): (r: Config)
    ensures r.defaultLimit == c.defaultLimit && r.callSiteLimits == c.callSiteLimits
    ensures r.allocSiteLimits.Keys == c.allocSiteLimits.Keys + {s}
  {
    c.(allocSiteLimits := c.allocSiteLimits[s := k])
  }

  function SetDefaultLimit(c: Config, k: nat): (r: Config)
    ensures r.callSiteLimits == c.callSiteLimits && r.allocSiteLimits == c.allocSiteLimits
  {
    c.(defaultLimit := k)
  }

  /** A site with no stored limit reads the default; setting a site's limit
      makes the getter return it for that site and changes no other site, of
      either kind. */
  lemma GetAfterSet(c: Config, s: Site, k: nat, t: Site)
    ensures t !in c.callSiteLimits ==> GetCallSiteLimit(c, t) == c.defaultLimit
    ensures t !in c.allocSiteLimits ==> GetAllocSiteLimit(c, t) == c.defaultLimit
    ensures GetCallSiteLimit(SetCallSiteLimit(c, s, k), t) == if t == s then k else GetCallSiteLimit(c, t)
    ensures GetAllocSiteLimit(SetCallSiteLimit(c, s, k), t) == GetAllocSiteLimit(c, t)
    ensures GetAllocSiteLimit(SetAllocSiteLimit(c, s, k), t) == if t == s then k else GetAllocSiteLimit(c, t)
    ensures GetCallSiteLimit(SetAllocSiteLimit(c, s, k), t) == GetCallSiteLimit(c, t)
  {
  }

  /** Changing the default moves exactly the sites without a stored limit. */
  lemma DefaultOnlyMovesUnset(c: Config, k: nat, t: Site)
    ensures t in c.callSiteLimits ==> GetCallSiteLimit(SetDefaultLimit(c, k), t) == GetCallSiteLimit(c, t)
    ensures t !in c.callSiteLimits ==> GetCallSiteLimit(SetDefaultLimit(c, k), t) == k
  {
  }

  /** `Context::pushContext`: a new context one longer, the site on top. */
  function Push(ctx: Context, inst: Site): (r: Context)
    ensures |r| == |ctx| + 1 && r[|ctx|] == inst && r[..|ctx|] == ctx
  {
    ctx + [inst]
  }

  /** `SelectiveKCFA::pushContext`: the caller guarantees the context is no
      longer than the site's limit; at the limit the context is kept, which
      merges the paths, and below it the site is pushed. */
  function PushContext(c: Config, ctx: Context, inst: Site): (r: Context)
    requires |ctx| <= GetCallSiteLimit(c, inst)
    ensures |r| <= GetCallSiteLimit(c, inst)
    ensures |ctx| == GetCallSiteLimit(c, inst) ==> r == ctx
    ensures |ctx| < GetCallSiteLimit(c, inst) ==> |r| == |ctx| + 1 && r[|ctx|] == inst && r[..|ctx|] == ctx
  {
    if |ctx| == GetCallSiteLimit(c, inst) then ctx else Push(ctx, inst)
  }

  /** With a single limit for every call site the guarantee holds along any
      run of pushes from the global context: a context never outgrows `k`. */
  lemma {:induction false} UniformLimitKeepsAssertion(c: Config, ctx: Context, insts: seq<Site>)
    requires c.callSiteLimits == map[] && |ctx| <= c.defaultLimit
    ensures PushesAllowed(c, ctx, insts)
    decreases |insts|
  {
    if |insts| > 0 {
      UniformLimitKeepsAssertion(c, PushContext(c, ctx, insts[0]), insts[1..]);
    }
  }

  /** Every push of the run meets `pushContext`'s guarantee. */
  predicate PushesAllowed(c: Config, ctx: Context, insts: seq<Site>)
    decreases |insts|
  {
    |insts| == 0
    || (|ctx| <= GetCallSiteLimit(c, insts[0]) && PushesAllowed(c, PushContext(c, ctx, insts[0]), insts[1..]))
  }

  /** With limits that differ between sites the guarantee breaks on an
      ordinary run: under the default 1, one call pushes a context of size 1,
      and a call at a site whose limit was set to 0 then finds it too long. */
  lemma MixedLimitsBreakAssertion(a: Site, b: Site)
    requires a != b
    ensures var c := SetCallSiteLimit(Initial(1), b, 0);
      PushContext(c, [], a) == [a] && !PushesAllowed(c, [], [a, b])
  {
    var c := SetCallSiteLimit(Initial(1), b, 0);
    assert GetCallSiteLimit(c, a) == 1;
    assert PushContext(c, [], a) == [a];
    assert GetCallSiteLimit(c, b) == 0;
    assert [a, b][1..] == [b];
  }

  /** The push the guarantee was evidently meant for: at or above the
      site's limit the context is kept. It needs no guarantee from its
      callers and agrees with `pushContext` whenever that guarantee holds. */
  function PushContextClamped(c: Config, ctx: Context, inst: Site): (r: Context)
    ensures |ctx| >= GetCallSiteLimit(c, inst) ==> r == ctx
    ensures |ctx| < GetCallSiteLimit(c, inst) ==> r == Push(ctx, inst)
    ensures |ctx| <= GetCallSiteLimit(c, inst) ==> r == PushContext(c, ctx, inst)
  {
    if |ctx| >= GetCallSiteLimit(c, inst) then ctx else Push(ctx, inst)
  }

  /** The largest limit a run can meet. */
  function MaxLimit(c: Config, insts: seq<Site>): (m: nat)
    ensures forall i :: 0 <= i < |insts| ==> GetCallSiteLimit(c, insts[i]) <= m
  {
    if |insts| == 0 then 0
    else
      var rest := MaxLimit(c, insts[1..]);
      assert forall i :: 1 <= i < |insts| ==> insts[i] == insts[1..][i - 1];
      if GetCallSiteLimit(c, insts[0]) > rest then GetCallSiteLimit(c, insts[0]) else rest
  }

  function PushAllClamped(c: Config, ctx: Context, insts: seq<Site>): Context
    decreases |insts|
  {
    if |insts| == 0 then ctx else PushAllClamped(c, PushContextClamped(c, ctx, insts[0]), insts[1..])
  }

  /** Along any run the clamped push keeps the context within the larger of
      its starting size and the largest limit met, and only ever extends it. */
  lemma {:induction false} ClampedRunBounded(c: Config, ctx: Context, insts: seq<Site>)
    ensures var r := PushAllClamped(c, ctx, insts);
      |r| <= (if |ctx| > MaxLimit(c, insts) then |ctx| else MaxLimit(c, insts)) && ctx <= r
    decreases |insts|
  {
    if |insts| > 0 {
      var next := PushContextClamped(c, ctx, insts[0]);
      ClampedRunBounded(c, next, insts[1..]);
      assert MaxLimit(c, insts[1..]) <= MaxLimit(c, insts) by {
        forall i | 0 <= i < |insts[1..]| ensures GetCallSiteLimit(c, insts[1..][i]) <= MaxLimit(c, insts) {
          assert insts[1..][i] == insts[i + 1];
        }
        MaxLimitLeast(c, insts[1..], MaxLimit(c, insts));
      }
    }
  }

  /** `MaxLimit` is the least bound of the limits met. */
  lemma {:induction false} MaxLimitLeast(c: Config, insts: seq<Site>, m: nat)
    requires forall i :: 0 <= i < |insts| ==> GetCallSiteLimit(c, insts[i]) <= m
    ensures MaxLimit(c, insts) <= m
    decreases |insts|
  {
    if |insts| > 0 {
      assert forall i :: 0 <= i < |insts[1..]| ==> insts[1..][i] == insts[i + 1];
      MaxLimitLeast(c, insts[1..], m);
    }
  }

  /** An instruction as the configuration helpers see it. */
  datatype InstKind =
    | Call(callee: Option<string>)
    | Invoke(callee: Option<string>)
    | OtherInst

  datatype Inst = Inst(site: Site, kind: InstKind)

  /** A function: whether it is only declared, and its instructions. */
  datatype Function = Function(isDeclaration: bool, body: seq<Inst>)

  /** The allocator names whose call sites are allocation sites: `malloc`,
      `calloc`, `realloc` and the mangled `operator new` / `new[]` for 64-
      and 32-bit sizes. */
  const AllocFunctions: seq<string> := ["malloc", "calloc", "realloc", "_Znwm", "_Znam", "_Znwj", "_Znaj"]

  predicate IsCallSite(i: Inst)
  {
    i.kind.Call? || i.kind.Invoke?
  }

  /** Only a direct `call` of an allocator counts; an `invoke` does not. */
  predicate IsAllocSite(i: Inst)
  {
    i.kind.Call? && i.kind.callee.Some? && i.kind.callee.value in AllocFunctions
  }

  /** Call or invoke whose direct callee's name the pattern matches. */
  predicate MatchesName(i: Inst, matches: string -> bool)
  {
    IsCallSite(i) && i.kind.callee.Some? && matches(i.kind.callee.value)
  }

  /** Sets the call-site limit of every instruction that `chosen` selects;
      other sites keep theirs. */
  function SetCallSites(c: Config, body: seq<Inst>, chosen: Inst -> bool, k: nat): (r: Config)
    ensures r.defaultLimit == c.defaultLimit && r.allocSiteLimits == c.allocSiteLimits
    ensures forall t :: (GetCallSiteLimit(r, t) ==
      if exists i :: 0 <= i < |body| && body[i].site == t && chosen(body[i]) then k else GetCallSiteLimit(c, t))
    decreases |body|
  {
    if |body| == 0 then c
    else
      var next := if chosen(body[0]) then SetCallSiteLimit(c, body[0].site, k) else c;
      var r := SetCallSites(next, body[1..], chosen, k);
      assert forall i :: 1 <= i < |body| ==> body[i] == body[1..][i - 1];
      assert forall i :: 0 <= i < |body[1..]| ==> body[1..][i] == body[i + 1];
      r
  }

  /** `setKLimitForFunctionCallSites`: every call or invoke in the function. */
  function SetKLimitForFunctionCallSites(c: Config, f: Function, k: nat): (r: Config)
    ensures r.defaultLimit == c.defaultLimit && r.allocSiteLimits == c.allocSiteLimits
    ensures forall t :: (GetCallSiteLimit(r, t) ==
      if exists i :: 0 <= i < |f.body| && f.body[i].site == t && IsCallSite(f.body[i]) then k else GetCallSiteLimit(c, t))
  {
    SetCallSites(c, f.body, IsCallSite, k)
  }

  /** `setKLimitForFunctionAllocSites`: every direct call of an allocator. */
  function SetKLimitForFunctionAllocSites(c: Config, f: Function, k: nat): (r: Config)
    ensures r.defaultLimit == c.defaultLimit && r.callSiteLimits == c.callSiteLimits
    ensures forall t :: (GetAllocSiteLimit(r, t) ==
      if exists i :: 0 <= i < |f.body| && f.body[i].site == t && IsAllocSite(f.body[i]) then k else GetAllocSiteLimit(c, t))
    decreases |f.body|
  {
    if |f.body| == 0 then c
    else
      var i0 := f.body[0];
      var next := if IsAllocSite(i0) then SetAllocSiteLimit(c, i0.site, k) else c;
      var r := SetKLimitForFunctionAllocSites(next, Function(f.isDeclaration, f.body[1..]), k);
      assert forall i :: 1 <= i < |f.body| ==> f.body[i] == f.body[1..][i - 1];
      assert forall i :: 0 <= i < |f.body[1..]| ==> f.body[1..][i] == f.body[i + 1];
      r
  }

  /** A call site of some defined function in `fs` that `chosen` selects. */
  predicate InDefined(fs: seq<Function>, t: Site, chosen: Inst -> bool)
  {
    exists j, i :: 0 <= j < |fs| && !fs[j].isDeclaration && 0 <= i < |fs[j].body|
      && fs[j].body[i].site == t && chosen(fs[j].body[i])
  }

  /** `setKLimitForCallSitesByName`: over the defined functions of the module,
      every call or invoke whose direct callee's name the pattern matches;
      the regular expression is the predicate `matches`. */
  function SetKLimitForCallSitesByName(c: Config, module_: seq<Function>, matches: string -> bool, k: nat): (r: Config)
    ensures r.defaultLimit == c.defaultLimit && r.allocSiteLimits == c.allocSiteLimits
    ensures forall t :: (GetCallSiteLimit(r, t) ==
      if InDefined(module_, t, i => MatchesName(i, matches)) then k else GetCallSiteLimit(c, t))
    decreases |module_|
  {
    if |module_| == 0 then c
    else
      var f := module_[0];
      var next := if f.isDeclaration then c else SetCallSites(c, f.body, i => MatchesName(i, matches), k);
      var r := SetKLimitForCallSitesByName(next, module_[1..], matches, k);
      assert forall j :: 1 <= j < |module_| ==> module_[j] == module_[1..][j - 1];
      assert forall j :: 0 <= j < |module_[1..]| ==> module_[1..][j] == module_[j + 1];
      r
  }

  /** `setKLimitForFunctionsList`: every call or invoke of every listed
      function, declarations included (their bodies are empty). */
  function SetKLimitForFunctionsList(c: Config, funcs: seq<Function>, k: nat): (r: Config)
    ensures r.defaultLimit == c.defaultLimit && r.allocSiteLimits == c.allocSiteLimits
    ensures forall t :: (GetCallSiteLimit(r, t) ==
      if exists j, i :: 0 <= j < |funcs| && 0 <= i < |funcs[j].body| && funcs[j].body[i].site == t && IsCallSite(funcs[j].body[i])
      then k else GetCallSiteLimit(c, t))
    decreases |funcs|
  {
    if |funcs| == 0 then c
    else
      var r := SetKLimitForFunctionsList(SetKLimitForFunctionCallSites(c, funcs[0], k), funcs[1..], k);
      assert forall j :: 1 <= j < |funcs| ==> funcs[j] == funcs[1..][j - 1];
      assert forall j :: 0 <= j < |funcs[1..]| ==> funcs[1..][j] == funcs[j + 1];
      r
  }

  /** `printStats`' distribution: for each limit in use, how many sites
      carry it. */
  function Distribution(limits: map<Site, nat>): (d: map<nat, nat>)
    ensures d.Keys == limits.Values
    ensures forall k :: k in d ==> d[k] >= 1
  {
    map k | k in limits.Values :: CountWith(limits, k)
  }

  /** The customised call sites whose limit is `k`. */
  function SitesWith(limits: map<Site, nat>, k: nat): (r: set<Site>)
    ensures forall s :: s in r <==> s in limits && limits[s] == k
  {
    set s | s in limits && limits[s] == k
  }

  /** The number of customised call sites whose limit is `k`. */
  function CountWith(limits: map<Site, nat>, k: nat): (n: nat)
    ensures (n >= 1) == (k in limits.Values)
    ensures n <= |limits|
    ensures (n == |limits|) == (forall s :: s in limits ==> limits[s] == k)
  {
    SitesWithCount(limits, k);
    SitesWithCountBound(limits, k);
    |SitesWith(limits, k)|
  }

  lemma SitesWithCount(limits: map<Site, nat>, k: nat)
    ensures (|SitesWith(limits, k)| >= 1) == (k in limits.Values)
  {
    if k in limits.Values {
      var s :| s in limits && limits[s] == k;
      assert s in SitesWith(limits, k);
    }
  }

  lemma SitesWithCountBound(limits: map<Site, nat>, k: nat)
    ensures |SitesWith(limits, k)| <= |limits|
    ensures (|SitesWith(limits, k)| == |limits|) == (forall s :: s in limits ==> limits[s] == k)
  {
    var sites := SitesWith(limits, k);
    assert sites <= limits.Keys;
    assert |limits.Keys| == |limits|;
    Cardinality.SubsetSmaller(sites, limits.Keys);
    if |sites| == |limits| {
      Cardinality.SubsetOfSameSize(sites, limits.Keys);
      assert forall s :: s in limits ==> s in sites;
    }
    if forall s :: s in limits ==> limits[s] == k {
      assert sites == limits.Keys;
    }
  }

  /** Counting is incremental: customising one more site adds one to the
      count of its limit and leaves every other count alone. */
  lemma CountWithInsert(limits: map<Site, nat>, t: Site, v: nat, k: nat)
    requires t !in limits
    ensures CountWith(limits[t := v], k) == CountWith(limits, k) + (if v == k then 1 else 0)
  {
    var before := SitesWith(limits, k);
    var after := SitesWith(limits[t := v], k);
    if v == k {
      assert after == before + {t};
    } else {
      assert after == before;
    }
  }

  /** The sum of the distribution's counts for the limits below `n`. */
  function CountsBelow(d: map<nat, nat>, n: nat): nat
  {
    if n == 0 then 0 else CountsBelow(d, n - 1) + (if n - 1 in d then d[n - 1] else 0)
  }

  /** The customised call sites whose limit is below `n`. */
  function SitesBelow(limits: map<Site, nat>, n: nat): (r: set<Site>)
    ensures forall s :: s in r <==> s in limits && limits[s] < n
  {
    set s | s in limits && limits[s] < n
  }

  /** The counts for the limits below `n` add up to the number of sites
      whose limit is below `n`. */
  lemma {:induction false} CountsBelowSites(limits: map<Site, nat>, n: nat)
    ensures CountsBelow(Distribution(limits), n) == |SitesBelow(limits, n)|
  {
    if n > 0 {
      CountsBelowSites(limits, n - 1);
      var below := SitesBelow(limits, n - 1);
      var at := SitesWith(limits, n - 1);
      assert SitesBelow(limits, n) == below + at;
      assert below !! at;
      SitesWithCount(limits, n - 1);
      if n - 1 !in limits.Values {
        assert at == {};
      }
    }
  }

  /** The printed counts add up to the number of customised call sites. */
  lemma DistributionTotal(limits: map<Site, nat>, n: nat)
    requires forall s :: s in limits ==> limits[s] < n
    ensures CountsBelow(Distribution(limits), n) == |limits|
  {
    CountsBelowSites(limits, n);
    assert SitesBelow(limits, n) == limits.Keys;
    assert |limits.Keys| == |limits|;
  }
}

=== FILE: seqs.dfy ===
/** Order-preserving filtering and counting over sequences: the list
    comprehensions and `for ... if ...: append` loops of the scripts. */
module Seqs {

  /** The elements of `s` that satisfy `p`, in their original order. */
  function Filter<T>(s: seq<T>, p: T -> bool): (r: seq<T>)
    ensures |r| <= |s|
    ensures forall x :: x in r ==> x in s && p(x)
  {
    if |s| == 0 then []
    else if p(s[0]) then [s[0]] + Filter(s[1..], p)
    else Filter(s[1..], p)
  }

  /** Number of elements of `s` that satisfy `p`. */
  function Count<T>(s: seq<T>, p: T -> bool): (n: nat)
    ensures n <= |s|
  {
    if |s| == 0 then 0 else (if p(s[0]) then 1 else 0) + Count(s[1..], p)
  }

  /** `a` can be obtained from `b` by deleting elements (order is kept). */
  ghost predicate IsSubsequence<T>(a: seq<T>, b: seq<T>)
    decreases |b|
  {
    if |a| == 0 then true
    else if |b| == 0 then false
    else (a[0] == b[0] && IsSubsequence(a[1..], b[1..])) || IsSubsequence(a, b[1..])
  }

  /** A subsequence of a subsequence is a subsequence. */
  lemma {:induction false} SubsequenceTransitive<T>(a: seq<T>, b: seq<T>, c: seq<T>)
    requires IsSubsequence(a, b) && IsSubsequence(b, c)
    ensures IsSubsequence(a, c)
    decreases |c|
  {
    if |a| > 0 {
      assert |b| > 0 && |c| > 0;
      if IsSubsequence(b, c[1..]) {
        SubsequenceTransitive(a, b, c[1..]);
      } else if a[0] == b[0] && IsSubsequence(a[1..], b[1..]) {
        SubsequenceTransitive(a[1..], b[1..], c[1..]);
      } else {
        SubsequenceTransitive(a, b[1..], c[1..]);
      }
    }
  }

  /** Filtering keeps exactly the elements satisfying `p`. */
  lemma {:induction false} FilterMembership<T>(s: seq<T>, p: T -> bool, x: T)
    ensures x in Filter(s, p) <==> x in s && p(x)
  {
    if |s| > 0 {
      FilterMembership(s[1..], p, x);
      assert s == [s[0]] + s[1..];
    }
  }

  /** The result of a filter is an order-preserving subsequence of its input. */
  lemma {:induction false} FilterIsSubsequence<T>(s: seq<T>, p: T -> bool)
    ensures IsSubsequence(Filter(s, p), s)
  {
    if |s| > 0 {
      FilterIsSubsequence(s[1..], p);
      var f := Filter(s[1..], p);
      if p(s[0]) {
        assert Filter(s, p) == [s[0]] + f;
        assert (Filter(s, p))[1..] == f;
      } else {
        assert Filter(s, p) == f;
        if |f| > 0 {
          assert IsSubsequence(f, s[1..]);
        }
      }
    }
  }

  /** Filtering keeps every copy of an element satisfying `p` and no copy
      of any other. */
  lemma {:induction false} FilterMultiplicity<T>(s: seq<T>, p: T -> bool, x: T)
    ensures multiset(Filter(s, p))[x] == if p(x) then multiset(s)[x] else 0
  {
    if |s| > 0 {
      FilterMultiplicity(s[1..], p, x);
      assert s == [s[0]] + s[1..];
      if p(s[0]) {
        assert Filter(s, p) == [s[0]] + Filter(s[1..], p);
      }
    }
  }

  /** The filter's length is the number of elements satisfying `p`. */
  lemma {:induction false} FilterLength<T>(s: seq<T>, p: T -> bool)
    ensures |Filter(s, p)| == Count(s, p)
  {
    if |s| > 0 {
      FilterLength(s[1..], p);
    }
  }

  /** Filtering twice with the same predicate changes nothing the second time. */
  lemma {:induction false} FilterIdempotent<T>(s: seq<T>, p: T -> bool)
    ensures Filter(Filter(s, p), p) == Filter(s, p)
  {
    if |s| > 0 {
      FilterIdempotent(s[1..], p);
      if p(s[0]) {
        var f := Filter(s[1..], p);
        assert Filter(s, p) == [s[0]] + f;
        assert ([s[0]] + f)[1..] == f;
      }
    }
  }

  /** A filter drops nothing exactly when every element satisfies `p`. */
  lemma {:induction false} FilterKeepsAll<T>(s: seq<T>, p: T -> bool)
    ensures Filter(s, p) == s <==> forall i :: 0 <= i < |s| ==> p(s[i])
  {
    if |s| > 0 {
      FilterKeepsAll(s[1..], p);
      if !p(s[0]) {
        assert |Filter(s, p)| <= |s[1..]| < |s|;
      } else {
        var f := Filter(s[1..], p);
        assert Filter(s, p) == [s[0]] + f;
        if Filter(s, p) == s {
          assert f == s[1..];
        }
        assert (forall i :: 0 <= i < |s| ==> p(s[i])) <==> (forall i :: 0 <= i < |s[1..]| ==> p(s[1..][i]));
      }
    }
  }

  /** A filter is shorter than its input exactly when some element fails `p`. */
  lemma FilterDrops<T>(s: seq<T>, p: T -> bool)
    ensures |Filter(s, p)| < |s| <==> exists i :: 0 <= i < |s| && !p(s[i])
  {
    FilterKeepsAll(s, p);
    if |Filter(s, p)| == |s| {
      FilterEqualLength(s, p);
    }
  }

  /** A filter as long as its input is the input itself. */
  lemma {:induction false} FilterEqualLength<T>(s: seq<T>, p: T -> bool)
    requires |Filter(s, p)| == |s|
    ensures Filter(s, p) == s
  {
    if |s| > 0 {
      if p(s[0]) {
        FilterEqualLength(s[1..], p);
        assert s == [s[0]] + s[1..];
      } else {
        assert false;
      }
    }
  }

  /** Counting distributes over concatenation. */
  lemma {:induction false} CountAppend<T>(a: seq<T>, b: seq<T>, p: T -> bool)
    ensures Count(a + b, p) == Count(a, p) + Count(b, p)
  {
    if |a| == 0 {
      assert a + b == b;
    } else {
      CountAppend(a[1..], b, p);
      assert (a + b)[1..] == a[1..] + b;
    }
  }

  /** Removing the element at `k` removes its contribution to the count. */
  lemma {:induction false} CountRemove<T>(b: seq<T>, k: nat, p: T -> bool)
    requires k < |b|
    ensures Count(b, p) == Count(b[..k] + b[k+1..], p) + (if p(b[k]) then 1 else 0)
  {
    var pre, post := b[..k], b[k+1..];
    var mid := [b[k]] + post;
    assert b == pre + mid;
    CountAppend(pre, mid, p);
    CountAppend(pre, post, p);
    assert mid[0] == b[k] && mid[1..] == post;
    assert Count(mid, p) == (if p(b[k]) then 1 else 0) + Count(post, p);
  }

  /** Counting depends only on the multiset of elements. */
  lemma {:induction false} CountPermutation<T>(a: seq<T>, b: seq<T>, p: T -> bool)
    requires multiset(a) == multiset(b)
    ensures Count(a, p) == Count(b, p)
    decreases |a|
  {
    if |a| == 0 {
      assert |b| == |multiset(b)| == 0;
    } else {
      var x := a[0];
      assert x in multiset(b);
      var k :| 0 <= k < |b| && b[k] == x;
      var b' := b[..k] + b[k+1..];
      MultisetRemove(b, k);
      assert a == [x] + a[1..];
      assert multiset(a[1..]) == multiset(a) - multiset{x};
      CountPermutation(a[1..], b', p);
      CountRemove(b, k, p);
    }
  }

  lemma MultisetRemove<T>(b: seq<T>, k: nat)
    requires k < |b|
    ensures multiset(b[..k] + b[k+1..]) == multiset(b) - multiset{b[k]}
  {
    assert b == b[..k] + [b[k]] + b[k+1..];
  }

  /** The positions of `s` whose element satisfies `p`. */
  ghost function Positions<T>(s: seq<T>, p: T -> bool): set<int>
  {
    set i | 0 <= i < |s| && p(s[i])
  }

  /** The count is the number of positions whose element satisfies `p`. */
  lemma {:induction false} CountIsCardinality<T>(s: seq<T>, p: T -> bool)
    ensures Count(s, p) == |Positions(s, p)|
    decreases |s|
  {
    if |s| > 0 {
      var n := |s| - 1;
      CountIsCardinality(s[..n], p);
      CountAppend(s[..n], [s[n]], p);
      assert s[..n] + [s[n]] == s;
      var A := Positions(s[..n], p);
      var B := Positions(s, p);
      if p(s[n]) {
        assert B == A + {n};
      } else {
        assert B == A;
      }
    }
  }
}

=== FILE: sorting.dfy ===
/** Ascending sort and sums of integer sequences, the `sort_values` and
    `sum`/`cumsum` steps of the scripts' data frames. */
module Sorting {

  predicate Sorted(s: seq<int>)
  {
    forall i, j :: 0 <= i < j < |s| ==> s[i] <= s[j]
  }

  /** Places `x` before the first element not smaller than it. */
  function Insert(x: int, s: seq<int>): (r: seq<int>)
    requires Sorted(s)
    ensures Sorted(r)
    ensures multiset(r) == multiset(s) + multiset{x}
    ensures |r| == |s| + 1
  {
    if |s| == 0 then [x]
    else if x <= s[0] then [x] + s
    else
      var t := Insert(x, s[1..]);
      InsertBehindHead(x, s, t);
      [s[0]] + t
  }

  /** The head of `s` stays first when `x` goes into the rest. */
  lemma InsertBehindHead(x: int, s: seq<int>, t: seq<int>)
    requires |s| > 0 && Sorted(s) && s[0] < x
    requires Sorted(t) && multiset(t) == multiset(s[1..]) + multiset{x}
    ensures Sorted([s[0]] + t)
    ensures multiset([s[0]] + t) == multiset(s) + multiset{x}
  {
    assert s == [s[0]] + s[1..];
    forall k | 0 <= k < |t| ensures s[0] <= t[k] {
      assert t[k] in multiset(t);
    }
  }

  /** Insertion sort: an ascending permutation of the input. */
  function Sort(s: seq<int>): (r: seq<int>)
    ensures Sorted(r)
    ensures multiset(r) == multiset(s)
    ensures |r| == |s|
  {
    if |s| == 0 then []
    else
      assert s == [s[0]] + s[1..];
      Insert(s[0], Sort(s[1..]))
  }

  function Sum(s: seq<int>): int
  {
    if |s| == 0 then 0 else s[0] + Sum(s[1..])
  }

  lemma {:induction false} SumInsert(x: int, s: seq<int>)
    requires Sorted(s)
    ensures Sum(Insert(x, s)) == x + Sum(s)
  {
    if |s| > 0 && x > s[0] {
      SumInsert(x, s[1..]);
    }
  }

  /** Sorting does not change the total. */
  lemma {:induction false} SumSort(s: seq<int>)
    ensures Sum(Sort(s)) == Sum(s)
  {
    if |s| > 0 {
      SumSort(s[1..]);
      SumInsert(s[0], Sort(s[1..]));
    }
  }

  /** `cumsum` starting from `acc`: entry `i` adds up the first `i + 1` elements. */
  function RunningSums(s: seq<int>, acc: int): (r: seq<int>)
    ensures |r| == |s|
  {
    if |s| == 0 then [] else [acc + s[0]] + RunningSums(s[1..], acc + s[0])
  }

  lemma {:induction false} RunningSumsPrefix(s: seq<int>, acc: int, i: nat)
    requires i < |s|
    ensures RunningSums(s, acc)[i] == acc + Sum(s[..i + 1])
  {
    if i > 0 {
      RunningSumsPrefix(s[1..], acc + s[0], i - 1);
      assert s[..i + 1] == [s[0]] + s[1..][..i];
    } else {
      assert s[..1] == [s[0]];
    }
  }
}

=== FILE: stat.dfy ===
/** `stat.py`: per-method statistics over the runs that finished within a
    minute, were solved correctly, and whose benchmark exists in at least six
    bit-width variants. Times are millionths of a second (see `Numeric`). */
module Stat {
  import opened Strings
  import opened Numeric
  import Seqs
  import opened Sorting

  // ---------------------------------------------------------------------------
  // File-name normalisation
  // ---------------------------------------------------------------------------

  /** The bit widths and theories a benchmark directory name can carry. */
  const Widths: seq<string> := ["16", "64", "32", "128", "256"]
  const Kinds: seq<string> := ["lia", "nia", "bits"]

  /** `substrings_to_remove`, in the order the loop applies them. */
  const SubstringsToRemove: seq<string> := [
    "/16lia", "/16nia", "/16bits", "/64lia", "/64nia", "/64bits", "/32lia", "/32nia", "/32bits",
    "/128lia", "/128nia", "/128bits", "/256lia", "/256nia", "/256bits"]

  /** A `/` followed by a digit at position `i`: where a width directory starts. */
  predicate Mark(s: string, i: int)
  {
    0 <= i && i + 1 < |s| && s[i] == '/' && IsDigit(s[i + 1])
  }

  predicate NoMark(s: string)
  {
    forall i :: 0 <= i < |s| ==> !Mark(s, i)
  }

  /** A pattern that starts with a mark and has no other `/`. */
  predicate WidthPattern(w: string)
  {
    |w| >= 2 && w[0] == '/' && IsDigit(w[1]) && forall i :: 1 <= i < |w| ==> w[i] != '/'
  }

  /** Neither string is a prefix of the other. */
  predicate Diverge(p: string, q: string)
  {
    exists k :: 0 <= k < |p| && k < |q| && p[k] != q[k]
  }

  /** The loop of `normalize_filename`: each pattern in turn removed by
      `str.replace`. */
  function NormalizeWith(s: string, pats: seq<string>): (r: string)
    ensures |r| <= |s|
    decreases |pats|
  {
    if |pats| == 0 then s else NormalizeWith(Remove(s, pats[0]), pats[1..])
  }

  function Normalize(s: string): string
  {
    NormalizeWith(s, SubstringsToRemove)
  }

  /** Removing a pattern that starts with a mark from text without marks
      changes nothing. */
  lemma {:induction false} RemoveUnmarked(s: string, p: string)
    requires WidthPattern(p) && NoMark(s)
    ensures Remove(s, p) == s
    decreases |s|
  {
    if |s| >= |p| {
      NotAtStart(s, p);
      assert NoMark(s[1..]) by {
        forall i | 0 <= i < |s[1..]| ensures !Mark(s[1..], i) {
          assert !Mark(s, i + 1);
        }
      }
      RemoveUnmarked(s[1..], p);
    }
  }

  /** Dropping the first character moves every mark one place left. */
  lemma MarkShift(s: string, i: nat)
    requires |s| > 0
    ensures Mark(s, i + 1) == Mark(s[1..], i)
  {
    if i + 2 < |s| {
      assert s[1..][i] == s[i + 1] && s[1..][i + 1] == s[i + 2];
    }
  }

  /** A pattern that starts with a mark does not start where there is none. */
  lemma NotAtStart(s: string, p: string)
    requires WidthPattern(p) && |s| >= |p| && !Mark(s, 0)
    ensures s[..|p|] != p
  {
    assert s[..|p|][0] == s[0] && s[..|p|][1] == s[1];
  }

  /** A prefix holding no mark is passed over unchanged. */
  lemma {:induction false} RemoveSkip(x: string, y: string, p: string)
    requires WidthPattern(p)
    requires forall i :: 0 <= i < |x| ==> !Mark(x + y, i)
    ensures Remove(x + y, p) == x + Remove(y, p)
    decreases |x|
  {
    if |x| > 0 {
      var s := x + y;
      assert !Mark(s, 0);
      assert s[1..] == x[1..] + y;
      forall i | 0 <= i < |x[1..]| ensures !Mark(x[1..] + y, i) {
        assert !Mark(s, i + 1);
        MarkShift(s, i);
      }
      RemoveSkip(x[1..], y, p);
      RemoveUnmarkedFront(s, p);
      assert x == [x[0]] + x[1..];
    } else {
      assert x + y == y && x + Remove(y, p) == Remove(y, p);
    }
  }

  /** Without a mark at the front, the first character is kept and removal
      goes on from the second. */
  lemma RemoveUnmarkedFront(s: string, p: string)
    requires WidthPattern(p) && |s| > 0 && !Mark(s, 0)
    ensures Remove(s, p) == [s[0]] + Remove(s[1..], p)
  {
    if |s| >= |p| {
      NotAtStart(s, p);
    } else {
      assert Remove(s[1..], p) == s[1..];
      assert s == [s[0]] + s[1..];
    }
  }

  /** In `a + w + b` with no mark in `a + b`, the only mark is where `w` starts. */
  lemma OnlyMarkAtSplice(a: string, w: string, b: string)
    requires NoMark(a + b) && WidthPattern(w)
    ensures forall i :: 0 <= i < |a| ==> !Mark(a + w + b, i)
    ensures NoMark(a) && NoMark(b)
    ensures NoMark(w[1..] + b)
  {
    var s := a + w + b;
    forall i | 0 <= i < |a| ensures !Mark(s, i) {
      if i + 1 < |a| {
        assert !Mark(a + b, i);
      }
    }
    forall i | 0 <= i < |a| ensures !Mark(a, i) {
      assert !Mark(a + b, i);
    }
    forall i | 0 <= i < |b| ensures !Mark(b, i) {
      assert !Mark(a + b, |a| + i);
    }
    var t := w[1..] + b;
    forall i | 0 <= i < |t| ensures !Mark(t, i) {
      if i < |w| - 1 {
        assert t[i] == w[i + 1] != '/';
      } else {
        assert !Mark(b, i - (|w| - 1));
      }
    }
  }

  /** Removing `w` itself from `a + w + b` leaves `a + b`. */
  lemma RemoveSpliced(a: string, w: string, b: string)
    requires NoMark(a + b) && WidthPattern(w)
    ensures Remove(a + w + b, w) == a + b
  {
    OnlyMarkAtSplice(a, w, b);
    assert a + w + b == a + (w + b);
    RemoveSkip(a, w + b, w);
    assert (w + b)[..|w|] == w && (w + b)[|w|..] == b;
    RemoveUnmarked(b, w);
  }

  /** Removing a pattern that diverges from `w` leaves `a + w + b` as it is. */
  lemma {:induction false} RemoveOther(a: string, w: string, b: string, p: string)
    requires NoMark(a + b) && WidthPattern(w) && WidthPattern(p) && Diverge(p, w)
    ensures Remove(a + w + b, p) == a + w + b
  {
    OnlyMarkAtSplice(a, w, b);
    assert a + w + b == a + (w + b);
    RemoveSkip(a, w + b, p);
    RemoveOtherAtFront(w, b, p);
  }

  /** A different width pattern does not match at the front of `w + b`, and
      nothing after the front is a mark. */
  lemma RemoveOtherAtFront(w: string, b: string, p: string)
    requires WidthPattern(w) && WidthPattern(p) && Diverge(p, w) && NoMark(w[1..] + b)
    ensures Remove(w + b, p) == w + b
  {
    var t := w + b;
    if |t| >= |p| {
      var k :| 0 <= k < |p| && k < |w| && p[k] != w[k];
      assert t[..|p|][k] == w[k];
      assert t[..|p|] != p;
    }
    assert t[1..] == w[1..] + b;
    RemoveUnmarked(w[1..] + b, p);
    assert t == [t[0]] + t[1..];
  }

  /** Text without marks goes through the whole loop unchanged. */
  lemma {:induction false} NormalizeUnmarked(s: string, pats: seq<string>)
    requires NoMark(s) && forall i :: 0 <= i < |pats| ==> WidthPattern(pats[i])
    ensures NormalizeWith(s, pats) == s
  {
    if |pats| > 0 {
      RemoveUnmarked(s, pats[0]);
      NormalizeUnmarked(s, pats[1..]);
    }
  }

  /** The loop deletes one listed pattern spliced into mark-free text, when
      the patterns diverge pairwise. */
  lemma {:induction false} NormalizeSplice(a: string, w: string, b: string, pats: seq<string>)
    requires NoMark(a + b) && w in pats
    requires forall i :: 0 <= i < |pats| ==> WidthPattern(pats[i])
    requires forall i :: 0 <= i < |pats| ==> pats[i] == w || Diverge(pats[i], w)
    ensures NormalizeWith(a + w + b, pats) == a + b
  {
    if pats[0] == w {
      RemoveSpliced(a, w, b);
      NormalizeUnmarked(a + b, pats[1..]);
    } else {
      RemoveOther(a, w, b, pats[0]);
      assert w in pats[1..];
      NormalizeSplice(a, w, b, pats[1..]);
    }
  }

  /** The listed substrings are each width directory name under each theory. */
  lemma SubstringsPatterns()
    ensures |SubstringsToRemove| == |Widths| * |Kinds|
    ensures forall i :: 0 <= i < |SubstringsToRemove| ==>
      SubstringsToRemove[i] == "/" + Widths[i / 3] + Kinds[i % 3]
  {
  }

  lemma WidthsAreDigits()
    ensures forall i, j :: 0 <= i < |Widths| && 0 <= j < |Widths[i]| ==> IsDigit(Widths[i][j])
    ensures forall i :: 0 <= i < |Widths| ==> |Widths[i]| >= 2
  {
  }

  lemma KindsAreLetters()
    ensures forall i, j :: 0 <= i < |Kinds| && 0 <= j < |Kinds[i]| ==> Kinds[i][j] != '/'
    ensures forall i :: 0 <= i < |Kinds| ==> |Kinds[i]| >= 1
    ensures forall i :: 0 <= i < |Kinds| ==> !IsDigit(Kinds[i][0])
    ensures forall i, j :: 0 <= i < j < |Kinds| ==> Kinds[i][0] != Kinds[j][0]
  {
  }

  /** Two different widths differ within the shorter one. */
  lemma WidthsDiverge()
    ensures forall i, j :: 0 <= i < |Widths| && 0 <= j < |Widths| && i != j ==>
      (Widths[i][0] != Widths[j][0] || Widths[i][1] != Widths[j][1])
  {
  }

  /** Every listed substring is a width pattern, and two different ones
      diverge. */
  lemma SubstringsDiverge()
    ensures forall i :: 0 <= i < |SubstringsToRemove| ==> WidthPattern(SubstringsToRemove[i])
    ensures forall i, j :: 0 <= i < |SubstringsToRemove| && 0 <= j < |SubstringsToRemove| ==>
      SubstringsToRemove[i] == SubstringsToRemove[j] || Diverge(SubstringsToRemove[i], SubstringsToRemove[j])
  {
    SubstringsPatterns();
    WidthsAreDigits();
    KindsAreLetters();
    WidthsDiverge();
    var ps := SubstringsToRemove;
    forall i | 0 <= i < |ps| ensures WidthPattern(ps[i]) {
      var w, k := Widths[i / 3], Kinds[i % 3];
      assert ps[i] == "/" + w + k;
      forall m | 1 <= m < |ps[i]| ensures ps[i][m] != '/' {
        if m < 1 + |w| {
          assert ps[i][m] == w[m - 1];
        } else {
          assert ps[i][m] == k[m - 1 - |w|];
        }
      }
    }
    forall i, j | 0 <= i < |ps| && 0 <= j < |ps| && ps[i] != ps[j] ensures Diverge(ps[i], ps[j]) {
      PatternsDiverge(i, j);
    }
  }

  lemma PatternsDiverge(i: nat, j: nat)
    requires i < 15 && j < 15 && SubstringsToRemove[i] != SubstringsToRemove[j]
    ensures Diverge(SubstringsToRemove[i], SubstringsToRemove[j])
  {
    SubstringsPatterns();
    WidthsAreDigits();
    KindsAreLetters();
    WidthsDiverge();
    var p, q := SubstringsToRemove[i], SubstringsToRemove[j];
    var wi, wj, ki, kj := Widths[i / 3], Widths[j / 3], Kinds[i % 3], Kinds[j % 3];
    assert p == "/" + wi + ki && q == "/" + wj + kj;
    if i / 3 != j / 3 {
      if wi[0] != wj[0] {
        assert p[1] == wi[0] && q[1] == wj[0];
      } else {
        assert p[2] == wi[1] && q[2] == wj[1];
      }
    } else {
      assert i % 3 != j % 3;
      var m := 1 + |wi|;
      assert p[m] == ki[0] && q[m] == kj[0];
    }
  }

  /** `normalize_filename` deletes a listed width directory from a path whose
      other parts have no `/` followed by a digit. */
  lemma NormalizeRemovesWidth(a: string, w: string, b: string)
    requires w in SubstringsToRemove && NoMark(a + b)
    ensures Normalize(a + w + b) == a + b
  {
    SubstringsDiverge();
    NormalizeSplice(a, w, b, SubstringsToRemove);
  }

  /** A path with no `/` followed by a digit is already normal. */
  lemma NormalizeUnmarkedPath(s: string)
    requires NoMark(s)
    ensures Normalize(s) == s
  {
    SubstringsDiverge();
    NormalizeUnmarked(s, SubstringsToRemove);
  }

  // ---------------------------------------------------------------------------
  // Row filters
  // ---------------------------------------------------------------------------

  /** One row of the results table, with the numeric columns coerced. */
  datatype StatRow = StatRow(file: string, solver: string, time: Number, bad: Number, calls: Number)

  /** One minute. */
  const TimeLimit: int := 60 * Scale

  /** Rows, over all methods, that a normalised name needs to be counted. */
  const MinVariants: nat := 6

  /** `df['Time Cost'] <= 60`: a NaN time compares false. */
  predicate WithinMinute(r: StatRow)
  {
    r.time.Fixed? && r.time.millionths <= TimeLimit
  }

  /** `df['Bad Solve'] == 0`, compared as a number. */
  predicate CorrectSolve(r: StatRow)
  {
    r.bad == Fixed(0)
  }

  /** `value_counts()` of the normalised names, read at one name. */
  function VariantCount(df: seq<StatRow>, name: string): nat
  {
    Seqs.Count(df, (r: StatRow) => Normalize(r.file) == name)
  }

  /** `filtered_df`: the rows within a minute whose normalised name occurs at
      least six times among the rows within a minute, and that solved
      correctly, in table order. */
  function Selected(rows: seq<StatRow>): seq<StatRow>
  {
    var df := Seqs.Filter(rows, WithinMinute);
    Seqs.Filter(df, (r: StatRow) => VariantCount(df, Normalize(r.file)) >= MinVariants && CorrectSolve(r))
  }

  /** A row feeds the statistics exactly when it ran within a minute, solved
      correctly, and at least six rows within a minute, over all methods,
      share its normalised name (slower rows do not count towards the six). */
  lemma SelectedMembership(rows: seq<StatRow>, r: StatRow)
    ensures r in Selected(rows) <==>
      r in rows && WithinMinute(r) && CorrectSolve(r) &&
      VariantCount(Seqs.Filter(rows, WithinMinute), Normalize(r.file)) >= MinVariants
  {
    var df := Seqs.Filter(rows, WithinMinute);
    var keep := (r: StatRow) => VariantCount(df, Normalize(r.file)) >= MinVariants && CorrectSolve(r);
    Seqs.FilterMembership(rows, WithinMinute, r);
    Seqs.FilterMembership(df, keep, r);
  }

  /** The selected rows keep their table order. */
  lemma SelectedOrder(rows: seq<StatRow>)
    ensures Seqs.IsSubsequence(Selected(rows), rows)
  {
    var df := Seqs.Filter(rows, WithinMinute);
    var keep := (r: StatRow) => VariantCount(df, Normalize(r.file)) >= MinVariants && CorrectSolve(r);
    Seqs.FilterIsSubsequence(rows, WithinMinute);
    Seqs.FilterIsSubsequence(df, keep);
    Seqs.SubsequenceTransitive(Selected(rows), df, rows);
  }

  // ---------------------------------------------------------------------------
  // Per-method aggregation
  // ---------------------------------------------------------------------------

  /** The value of a floating-point division of two exact numbers. */
  datatype Quotient = Ratio(num: int, den: int) | PosInf | NegInf | NotANumber

  /** `a / b` in floating point: a ratio, or an infinity or NaN for `b == 0`. */
  function Divide(a: int, b: int): (q: Quotient)
    ensures q.Ratio? <==> b != 0
    ensures q.Ratio? ==> q.num == a && q.den == b
  {
    if b != 0 then Ratio(a, b) else if a > 0 then PosInf else if a < 0 then NegInf else NotANumber
  }

  /** pandas' `mean`: NaN values skipped, NaN when nothing is left. */
  function Mean(col: seq<Number>): (q: Quotient)
    ensures q.NotANumber? <==> CountNumbers(col) == 0
    ensures q.Ratio? ==> q.num == Sum(Numbers(col)) && q.den == CountNumbers(col)
  {
    if CountNumbers(col) == 0 then NotANumber else Ratio(Sum(Numbers(col)), CountNumbers(col))
  }

  /** One row of `stats`. */
  datatype MethodStats = MethodStats(
    numFiles: nat, avgTime: Quotient, totalTime: int, totalChecks: int, avgChecks: Quotient,
    avgTimePerCheck: Quotient)

  function Times(rs: seq<StatRow>): (col: seq<Number>)
    ensures |col| == |rs| && forall i :: 0 <= i < |rs| ==> col[i] == rs[i].time
  {
    seq(|rs|, i requires 0 <= i < |rs| => rs[i].time)
  }

  function Calls(rs: seq<StatRow>): (col: seq<Number>)
    ensures |col| == |rs| && forall i :: 0 <= i < |rs| ==> col[i] == rs[i].calls
  {
    seq(|rs|, i requires 0 <= i < |rs| => rs[i].calls)
  }

  /** `stats['total_time'] / stats['total_checks']` followed by `fillna(0)`,
      as written: only `0 / 0` is replaced, so a positive total time over no
      checks is infinite. */
  function AvgTimePerCheckAsWritten(totalTime: int, totalChecks: int): Quotient
  {
    var q := Divide(totalTime, totalChecks);
    if q.NotANumber? then Ratio(0, 1) else q
  }

  /** The quotient with every division by zero read as 0, as the comment on
      the `fillna` line says is meant. */
  function AvgTimePerCheck(totalTime: int, totalChecks: int): (q: Quotient)
    ensures q.Ratio? && q.den != 0
    ensures totalChecks != 0 ==> q == Ratio(totalTime, totalChecks)
    ensures totalChecks == 0 ==> q == Ratio(0, 1)
  {
    if totalChecks == 0 then Ratio(0, 1) else Ratio(totalTime, totalChecks)
  }

  /** As written, a method with one second of solving and no checks gets an
      infinite time per check instead of 0. */
  lemma AvgTimePerCheckInfinite()
    ensures AvgTimePerCheckAsWritten(1000000, 0) == PosInf
    ensures AvgTimePerCheck(1000000, 0) == Ratio(0, 1)
  {
  }

  /** The corrected quotient agrees with the written one wherever the written
      one is finite, and is always finite. */
  lemma AvgTimePerCheckAgrees(totalTime: int, totalChecks: int)
    ensures AvgTimePerCheckAsWritten(totalTime, totalChecks).Ratio? <==> totalChecks != 0 || totalTime == 0
    ensures AvgTimePerCheckAsWritten(totalTime, totalChecks).Ratio? ==>
      AvgTimePerCheckAsWritten(totalTime, totalChecks) == AvgTimePerCheck(totalTime, totalChecks)
  {
  }

  /** The time per check, as written or as corrected. */
  function PerCheck(asWritten: bool, totalTime: int, totalChecks: int): Quotient
  {
    if asWritten then AvgTimePerCheckAsWritten(totalTime, totalChecks) else AvgTimePerCheck(totalTime, totalChecks)
  }

  /** The aggregates of one method's selected rows, with the time per check
      as written or as corrected. */
  function AggregateWith(rs: seq<StatRow>, asWritten: bool): (st: MethodStats)
    requires |rs| > 0
  {
    var totalTime := Sum(Numbers(Times(rs)));
    var totalChecks := Sum(Numbers(Calls(rs)));
    MethodStats(|rs|, Mean(Times(rs)), totalTime, totalChecks, Mean(Calls(rs)),
                PerCheck(asWritten, totalTime, totalChecks))
  }

  /** The aggregates with the corrected time per check. */
  function Aggregate(rs: seq<StatRow>): MethodStats
    requires |rs| > 0
  {
    AggregateWith(rs, false)
  }

  function MethodsOf(rs: seq<StatRow>): set<string>
  {
    set r | r in rs :: r.solver
  }

  /** The rows of one method, in table order. */
  function Group(rs: seq<StatRow>, m: string): (g: seq<StatRow>)
    requires m in MethodsOf(rs)
    ensures |g| > 0
    ensures forall r :: r in g <==> r in rs && r.solver == m
    ensures forall r :: multiset(g)[r] == if r.solver == m then multiset(rs)[r] else 0
    ensures Seqs.IsSubsequence(g, rs)
  {
    var p := (r: StatRow) => r.solver == m;
    var w :| w in rs && w.solver == m;
    Seqs.FilterMembership(rs, p, w);
    forall r ensures r in Seqs.Filter(rs, p) <==> r in rs && r.solver == m {
      Seqs.FilterMembership(rs, p, r);
    }
    forall r ensures multiset(Seqs.Filter(rs, p))[r] == if r.solver == m then multiset(rs)[r] else 0 {
      Seqs.FilterMultiplicity(rs, p, r);
    }
    Seqs.FilterIsSubsequence(rs, p);
    Seqs.Filter(rs, p)
  }

  /** `stats`: one row per method of the selected rows. */
  function StatsWith(rows: seq<StatRow>, asWritten: bool): (st: map<string, MethodStats>)
    ensures forall m :: m in st <==> m in MethodsOf(Selected(rows))
  {
    var sel := Selected(rows);
    map m | m in MethodsOf(sel) :: AggregateWith(Group(sel, m), asWritten)
  }

  /** `stats` with the time per check corrected: the table the rest of the
      model reads. */
  function Stats(rows: seq<StatRow>): (st: map<string, MethodStats>)
    ensures forall m :: m in st <==> m in MethodsOf(Selected(rows))
  {
    StatsWith(rows, false)
  }

  /** `stats` as written, with `inf` where a method has time but no checks. */
  function StatsAsWritten(rows: seq<StatRow>): (st: map<string, MethodStats>)
    ensures forall m :: m in st <==> m in MethodsOf(Selected(rows))
  {
    StatsWith(rows, true)
  }

  /** The written and the corrected tables have the same methods and agree
      on every column but the time per check; that one differs exactly when
      the method has a nonzero total time and no checks, where the written
      table holds an infinity of the time's sign. */
  lemma StatsAsWrittenDiffers(rows: seq<StatRow>, m: string)
    requires m in Stats(rows)
    ensures m in StatsAsWritten(rows)
    ensures var w, c := StatsAsWritten(rows)[m], Stats(rows)[m];
      w.numFiles == c.numFiles && w.avgTime == c.avgTime && w.totalTime == c.totalTime &&
      w.totalChecks == c.totalChecks && w.avgChecks == c.avgChecks &&
      (w.avgTimePerCheck != c.avgTimePerCheck <==> c.totalChecks == 0 && c.totalTime != 0) &&
      (c.totalChecks == 0 && c.totalTime > 0 ==> w.avgTimePerCheck == PosInf) &&
      (c.totalChecks == 0 && c.totalTime < 0 ==> w.avgTimePerCheck == NegInf)
  {
    var c := Stats(rows)[m];
    AvgTimePerCheckAgrees(c.totalTime, c.totalChecks);
  }

  /** The aggregates of a non-empty group whose times are all numbers: the
      count, the total time and (skipping NaN) the total checks, the mean
      time as total over count, a mean of checks that is NaN exactly when
      every check count is, and a finite time per check. */
  lemma AggregateSpec(rs: seq<StatRow>)
    requires |rs| > 0
    requires forall i :: 0 <= i < |rs| ==> rs[i].time.Fixed?
    ensures var st := Aggregate(rs);
      st.numFiles == |rs| &&
      st.totalTime == Sum(Numbers(Times(rs))) &&
      st.avgTime == Ratio(st.totalTime, st.numFiles) &&
      st.totalChecks == Sum(Numbers(Calls(rs))) &&
      (st.avgChecks.NotANumber? <==> forall i :: 0 <= i < |rs| ==> rs[i].calls.NaN?) &&
      st.avgTimePerCheck.Ratio?
  {
    AllNumbers(Times(rs));
    NoNumbers(Calls(rs));
  }

  /** Each method's statistics aggregate exactly its selected rows. */
  lemma StatsOfMethod(rows: seq<StatRow>, m: string)
    requires m in Stats(rows)
    ensures var g := Group(Selected(rows), m);
      Stats(rows)[m] == Aggregate(g) &&
      (forall r :: r in g <==> (r in rows && r.solver == m && WithinMinute(r) && CorrectSolve(r) &&
                                VariantCount(Seqs.Filter(rows, WithinMinute), Normalize(r.file)) >= MinVariants)) &&
      forall i :: 0 <= i < |g| ==> g[i].time.Fixed?
  {
    var sel := Selected(rows);
    var g := Group(sel, m);
    forall r ensures r in g <==> (r in rows && r.solver == m && WithinMinute(r) && CorrectSolve(r) &&
                                  VariantCount(Seqs.Filter(rows, WithinMinute), Normalize(r.file)) >= MinVariants) {
      SelectedMembership(rows, r);
    }
    forall i | 0 <= i < |g| ensures g[i].time.Fixed? {
      assert g[i] in g;
      SelectedMembership(rows, g[i]);
    }
  }

  lemma {:induction false} AllNumbers(col: seq<Number>)
    requires forall i :: 0 <= i < |col| ==> col[i].Fixed?
    ensures CountNumbers(col) == |col|
  {
    if |col| > 0 {
      AllNumbers(col[1..]);
    }
  }

  lemma {:induction false} NoNumbers(col: seq<Number>)
    ensures CountNumbers(col) == 0 <==> forall i :: 0 <= i < |col| ==> col[i].NaN?
  {
    if |col| > 0 {
      NoNumbers(col[1..]);
      assert forall i :: 1 <= i < |col| ==> col[i] == col[1..][i - 1];
    }
  }
}

=== FILE: strings.dfy ===
/** Character-level string operations of Python's `str` and C++'s `std::string`
    used by the scripts and the solver front end. Strings are `seq<char>`. */
module Strings {

  /** Python's `str.isspace`: the characters `str.strip()` and `\s` remove. */
  predicate IsPySpace(c: char)
  {
    IsCSpace(c)
    || ('\U{1C}' <= c <= '\U{1F}')
    || c == '\U{85}' || c == '\U{A0}' || c == '\U{1680}'
    || ('\U{2000}' <= c <= '\U{200A}')
    || c == '\U{2028}' || c == '\U{2029}' || c == '\U{202F}' || c == '\U{205F}' || c == '\U{3000}'
  }

  /** C's `isspace` in the "C" locale (also the `\s` class of `std::regex` on `char`). */
  predicate IsCSpace(c: char)
  {
    c == ' ' || c == '\t' || c == '\n' || c == '\U{0B}' || c == '\U{0C}' || c == '\r'
  }

  predicate IsDigit(c: char)
  {
    '0' <= c <= '9'
  }

  predicate IsHexDigit(c: char)
  {
    ('0' <= c <= '9') || ('a' <= c <= 'f') || ('A' <= c <= 'F')
  }

  predicate StartsWith(s: string, prefix: string)
  {
    |prefix| <= |s| && s[..|prefix|] == prefix
  }

  predicate EndsWith(s: string, suffix: string)
  {
    |suffix| <= |s| && s[|s| - |suffix|..] == suffix
  }

  /** Number of occurrences of the character `c` in `s`. */
  function CountChar(s: string, c: char): nat
  {
    if |s| == 0 then 0 else (if s[0] == c then 1 else 0) + CountChar(s[1..], c)
  }

  lemma {:induction false} CountCharAppend(a: string, b: string, c: char)
    ensures CountChar(a + b, c) == CountChar(a, c) + CountChar(b, c)
  {
    if |a| == 0 {
      assert a + b == b;
    } else {
      CountCharAppend(a[1..], b, c);
      assert (a + b)[1..] == a[1..] + b;
    }
  }

  lemma {:induction false} CountCharZero(s: string, c: char)
    ensures CountChar(s, c) == 0 <==> c !in s
  {
    if |s| > 0 {
      CountCharZero(s[1..], c);
      assert s == [s[0]] + s[1..];
    }
  }

  /** Python's `s.split(sep)` with a one-character separator: the pieces between
      separators, never an empty list (`"".split(",") == [""]`). */
  function Split(s: string, sep: char): (parts: seq<string>)
    ensures |parts| >= 1
    ensures forall i :: 0 <= i < |parts| ==> sep !in parts[i]
  {
    if |s| == 0 then [""]
    else
      var rest := Split(s[1..], sep);
      if s[0] == sep then [""] + rest
      else [[s[0]] + rest[0]] + rest[1..]
  }

  /** `sep.join(parts)` / repeated `a + "," + b`. */
  function Join(parts: seq<string>, sep: char): string
  {
    if |parts| == 0 then ""
    else if |parts| == 1 then parts[0]
    else parts[0] + [sep] + Join(parts[1..], sep)
  }

  /** Splitting `p + [sep] + t` cuts at the first separator when `p` has none. */
  lemma {:induction false} SplitAtFirst(p: string, t: string, sep: char)
    requires sep !in p
    ensures Split(p + [sep] + t, sep) == [p] + Split(t, sep)
  {
    if |p| == 0 {
      assert p + [sep] + t == [sep] + t;
      assert ([sep] + t)[1..] == t;
    } else {
      SplitAtFirst(p[1..], t, sep);
      var s := p + [sep] + t;
      assert s[0] == p[0] && s[1..] == p[1..] + [sep] + t;
      assert [p[0]] + p[1..] == p;
    }
  }

  /** A string with no separator splits into itself. */
  lemma {:induction false} SplitNoSep(p: string, sep: char)
    requires sep !in p
    ensures Split(p, sep) == [p]
  {
    if |p| > 0 {
      SplitNoSep(p[1..], sep);
      assert [p[0]] + p[1..] == p;
    }
  }

  /** Joining separator-free pieces and splitting again gives the pieces back. */
  lemma {:induction false} SplitJoin(parts: seq<string>, sep: char)
    requires |parts| >= 1
    requires forall i :: 0 <= i < |parts| ==> sep !in parts[i]
    ensures Split(Join(parts, sep), sep) == parts
  {
    if |parts| == 1 {
      SplitNoSep(parts[0], sep);
    } else {
      SplitJoin(parts[1..], sep);
      SplitAtFirst(parts[0], Join(parts[1..], sep), sep);
      assert [parts[0]] + parts[1..] == parts;
    }
  }

  /** Occurrences of `sep` in a join: one per gap plus those inside the pieces. */
  lemma {:induction false} JoinCount(parts: seq<string>, sep: char)
    requires |parts| >= 1
    ensures CountChar(Join(parts, sep), sep) == |parts| - 1 + SumCount(parts, sep)
  {
    if |parts| > 1 {
      JoinCount(parts[1..], sep);
      CountCharAppend(parts[0] + [sep], Join(parts[1..], sep), sep);
      CountCharAppend(parts[0], [sep], sep);
      assert CountChar([sep], sep) == 1;
    }
  }

  /** Total occurrences of `c` across a list of strings. */
  function SumCount(parts: seq<string>, c: char): nat
  {
    if |parts| == 0 then 0 else CountChar(parts[0], c) + SumCount(parts[1..], c)
  }

  /** Python's `s.replace(pat, "")`: one left-to-right pass deleting the
      non-overlapping occurrences of the pattern; an empty pattern deletes
      nothing. */
  function Remove(s: string, pat: string): (r: string)
    ensures |r| <= |s|
    decreases |s|
  {
    if |pat| == 0 || |s| < |pat| then s
    else if s[..|pat|] == pat then Remove(s[|pat|..], pat)
    else [s[0]] + Remove(s[1..], pat)
  }

  /** Python's `str.strip()`: drops leading and trailing whitespace. */
  function Strip(s: string): (r: string)
  {
    StripRight(StripLeft(s))
  }

  function StripLeft(s: string): (r: string)
    ensures |r| <= |s|
    ensures |r| > 0 ==> !IsPySpace(r[0])
  {
    if |s| > 0 && IsPySpace(s[0]) then StripLeft(s[1..]) else s
  }

  function StripRight(s: string): (r: string)
    ensures |r| <= |s|
    ensures |r| > 0 ==> !IsPySpace(r[|r| - 1])
  {
    if |s| > 0 && IsPySpace(s[|s| - 1]) then StripRight(s[..|s| - 1]) else s
  }

  /** Python's `s.strip(chars)`: drops leading and trailing characters of `chars`. */
  function StripChars(s: string, chars: set<char>): (r: string)
    ensures |r| <= |s|
    ensures |r| > 0 ==> r[0] !in chars && r[|r| - 1] !in chars
  {
    if |s| > 0 && s[0] in chars then StripChars(s[1..], chars)
    else if |s| > 0 && s[|s| - 1] in chars then StripChars(s[..|s| - 1], chars)
    else s
  }

  /** Decimal digits of a natural number, most significant first, as
      `std::to_string` and Python's `str` print them. */
  function NatToString(n: nat): (r: string)
    ensures |r| >= 1
    ensures forall i :: 0 <= i < |r| ==> IsDigit(r[i])
    decreases n
  {
    if n < 10 then [DigitChar(n)] else NatToString(n / 10) + [DigitChar(n % 10)]
  }

  function DigitChar(d: nat): (c: char)
    requires d < 10
    ensures IsDigit(c)
  {
    (('0' as int) + d) as char
  }

  /** `std::to_string(int)`: an optional minus sign and the decimal digits. */
  function IntToString(n: int): (r: string)
    ensures |r| >= 1
    ensures ',' !in r
  {
    if n < 0 then "-" + NatToString(-n) else NatToString(n)
  }

  /** Value of a non-empty run of decimal digits. */
  function DigitsValue(s: string): nat
    requires forall i :: 0 <= i < |s| ==> IsDigit(s[i])
  {
    if |s| == 0 then 0 else 10 * DigitsValue(s[..|s| - 1]) + DigitValue(s[|s| - 1])
  }

  function DigitValue(c: char): (d: nat)
    requires IsDigit(c)
    ensures d < 10 && DigitChar(d) == c
  {
    (c as int) - ('0' as int)
  }

  /** Reading printed digits back gives the number. */
  lemma {:induction false} DigitsRoundTrip(n: nat)
    ensures DigitsValue(NatToString(n)) == n
    decreases n
  {
    if n >= 10 {
      DigitsRoundTrip(n / 10);
      var s := NatToString(n);
      assert s[..|s| - 1] == NatToString(n / 10);
    }
  }
}

=== FILE: structcast.dfy ===
/** The structure cast analysis: the bitcasts between pointer types of a
    module, closed under transitivity, then narrowed to casts between
    pointers to structures and keyed by the structures themselves. Types are
    identities; what a pointer type points to and whether a type is a
    structure are given as functions. */
module StructCast {

  type Ty = nat

  /** A cast map: each type with the set of types it is cast to. */
  type CastMap = map<Ty, set<Ty>>

  /** Every pair of `m` is a pair of `big`. */
  ghost predicate Contains(big: CastMap, m: CastMap)
  {
    forall a :: a in m ==> a in big && m[a] <= big[a]
  }

  /** Closed under composition, except that a chain back to its start adds
      nothing: A to B and B to C with C other than A give A to C. */
  ghost predicate Closed(m: CastMap)
  {
    forall a, b, c :: a in m && b in m[a] && b in m && c in m[b] && c != a ==> c in m[a]
  }

  /** Every type some entry of `m` is cast to. */
  ghost function Targets(m: CastMap): set<Ty>
  {
    set a, b | a in m && b in m[a] :: b
  }

  /** The loop state of the closure: same keys as the input, every input
      pair kept, every target one of the input's targets, no pair from a
      type to itself that the input did not have, and nothing outside a
      given closed cast map that holds the input. */
  ghost predicate Grown(cm: CastMap, r: CastMap, bound: CastMap)
  {
    && r.Keys == cm.Keys
    && (forall a :: a in cm ==> cm[a] <= r[a] && r[a] <= Targets(cm))
    && (forall a :: a in r && a in r[a] ==> a in cm[a])
    && (Contains(bound, cm) && Closed(bound) ==> Contains(bound, r))
  }

  /** The pairs not yet present, over the input's keys and targets. */
  ghost function Missing(r: CastMap, u: set<Ty>): set<(Ty, Ty)>
  {
    set a, b | a in r && b in u && b !in r[a] :: (a, b)
  }

  /** One entry of a round: for each type the entry was cast to when the
      entry is reached, whatever that type is cast to, other than the entry
      itself, joins the entry; `changed` says whether anything joined. */
  method ProcessEntry(cur: CastMap, a: Ty, ghost cm: CastMap, ghost bound: CastMap) returns (r: CastMap, changed: bool)
    requires a in cur && Grown(cm, cur, bound)
    ensures Grown(cm, r, bound)
    ensures EntryDone(cur, a, r, changed)
  {
    r := cur;
    changed := false;
    var types := cur[a];
    while types != {}
      invariant types <= cur[a]
      invariant Grown(cm, r, bound) && a in r
      invariant forall b :: b in r && b != a ==> r[b] == cur[b]
      invariant cur[a] <= r[a]
      invariant changed ==> r[a] != cur[a]
      invariant !changed ==> r == cur
      invariant !changed ==> forall t :: t in cur[a] - types && t in cur ==> cur[t] - {a} <= cur[a]
      decreases |types|
    {
      var t :| t in types;
      if t in r {
        var add := r[t] - {a};
        if !(add <= r[a]) {
          JoinStep(cm, r, bound, a, t);
          r := r[a := r[a] + add];
          changed := true;
        }
      }
      types := types - {t};
    }
  }

  /** What processing entry `a` guarantees besides the loop state: only
      `a` may grow; `changed` says it did; and when it did not, every type
      `a` is cast to adds nothing to `a`. */
  ghost predicate EntryDone(cur: CastMap, a: Ty, r: CastMap, changed: bool)
  {
    && a in cur && r.Keys == cur.Keys
    && cur[a] <= r[a]
    && (forall b :: b in r && b != a ==> r[b] == cur[b])
    && (changed ==> r[a] != cur[a])
    && (!changed ==> r == cur && forall t :: t in cur[a] && t in cur ==> cur[t] - {a} <= cur[a])
  }

  /** Joining what `t` is cast to, less `a`, into `a` keeps the loop state
      when `t` is already among `a`'s targets. */
  lemma JoinStep(cm: CastMap, r: CastMap, bound: CastMap, a: Ty, t: Ty)
    requires a in r && t in r && t in r[a] && Grown(cm, r, bound)
    ensures Grown(cm, r[a := r[a] + (r[t] - {a})], bound)
  {
    var r' := r[a := r[a] + (r[t] - {a})];
    if Contains(bound, cm) && Closed(bound) {
      forall x | x in r' ensures x in bound && r'[x] <= bound[x] {
        if x == a {
          forall c | c in r[t] - {a} ensures c in bound[a] {
            assert t in bound[a] && t in bound && c in bound[t];
          }
        }
      }
    }
  }

  /** One pass of the `do` loop over every entry, in the map's order;
      `changed` is set when any entry grew. */
  method Round(cur: CastMap, ghost cm: CastMap, ghost bound: CastMap) returns (r: CastMap, changed: bool)
    requires Grown(cm, cur, bound)
    ensures Grown(cm, r, bound)
    ensures forall a :: a in cur ==> cur[a] <= r[a]
    ensures changed ==> r != cur
    ensures !changed ==> r == cur && Closed(cur)
  {
    r := cur;
    changed := false;
    var todo := cur.Keys;
    while todo != {}
      invariant todo <= cur.Keys
      invariant RoundState(cm, bound, cur, r, changed, todo)
      decreases |todo|
    {
      var a :| a in todo;
      var r', ch := ProcessEntry(r, a, cm, bound);
      RoundStep(cm, bound, cur, r, changed, todo, a, r', ch);
      r, changed := r', changed || ch;
      todo := todo - {a};
    }
    if !changed {
      ClosedEverywhere(cur, todo);
    }
  }

  lemma ClosedEverywhere(m: CastMap, todo: set<Ty>)
    requires todo == {} && ClosedAt(m, m.Keys - todo)
    ensures Closed(m)
  {
    assert m.Keys - todo == m.Keys;
  }

  /** The loop state of a round. */
  ghost predicate RoundState(cm: CastMap, bound: CastMap, cur: CastMap, r: CastMap, changed: bool, todo: set<Ty>)
  {
    && Grown(cm, r, bound) && r.Keys == cur.Keys
    && (forall a :: a in cur ==> cur[a] <= r[a])
    && (changed ==> r != cur)
    && (!changed ==> r == cur && ClosedAt(cur, cur.Keys - todo))
  }

  lemma RoundStep(cm: CastMap, bound: CastMap, cur: CastMap, r: CastMap, changed: bool, todo: set<Ty>,
                  a: Ty, r': CastMap, ch: bool)
    requires todo <= cur.Keys && a in todo && RoundState(cm, bound, cur, r, changed, todo)
    requires Grown(cm, r', bound) && EntryDone(r, a, r', ch)
    ensures RoundState(cm, bound, cur, r', changed || ch, todo - {a})
  {
    if !(changed || ch) {
      assert cur.Keys - (todo - {a}) == (cur.Keys - todo) + {a};
    } else if ch {
      assert r'[a] != cur[a];
    }
  }

  /** Closedness at the entries of `keys`. */
  ghost predicate ClosedAt(m: CastMap, keys: set<Ty>)
  {
    forall a, t, c :: a in keys && a in m && t in m[a] && t in m && c in m[t] && c != a ==> c in m[a]
  }

  /** `computeTransitiveClosure`: rounds until one changes nothing. The
      result holds every input pair, adds no pair from a type to itself,
      is closed, and lies inside every closed cast map holding the input,
      so it is the least such map. */
  method ComputeTransitiveClosure(cm: CastMap, ghost bound: CastMap) returns (r: CastMap)
    ensures r.Keys == cm.Keys
    ensures forall a :: a in cm ==> cm[a] <= r[a]
    ensures forall a :: a in r && a in r[a] ==> a in cm[a]
    ensures Closed(r)
    ensures Contains(bound, cm) && Closed(bound) ==> Contains(bound, r)
  {
    r := cm;
    var changed := true;
    while changed
      invariant Grown(cm, r, bound)
      invariant !changed ==> Closed(r)
      decreases Missing(r, Targets(cm)), changed
    {
      var next;
      ghost var before := r;
      next, changed := Round(r, cm, bound);
      if changed {
        MissingShrinks(cm, before, next, bound);
      }
      r := next;
    }
  }

  /** A round that grew some entry leaves fewer pairs missing. */
  lemma MissingShrinks(cm: CastMap, r: CastMap, r': CastMap, bound: CastMap)
    requires Grown(cm, r, bound) && Grown(cm, r', bound)
    requires forall a :: a in r ==> r[a] <= r'[a]
    requires r' != r
    ensures Missing(r', Targets(cm)) < Missing(r, Targets(cm))
  {
    var u := Targets(cm);
    assert Missing(r', u) <= Missing(r, u);
    var a :| a in r && r'[a] != r[a];
    var b :| b in r'[a] && b !in r[a];
    assert (a, b) in Missing(r, u);
  }

  /** The structures among the pointees of `s`. */
  function StructPointees(s: set<Ty>, pointee: Ty -> Ty, isStruct: Ty -> bool): (r: set<Ty>)
    ensures forall y :: y in r <==> exists d :: d in s && isStruct(pointee(d)) && y == pointee(d)
  {
    set d | d in s && isStruct(pointee(d)) :: pointee(d)
  }

  /** The pair `x` to `y` comes from an entry of `done` of the cast map
      whose key and a target both point to structures. */
  ghost predicate FromEntry(cm: CastMap, done: set<Ty>, pointee: Ty -> Ty, isStruct: Ty -> bool, x: Ty, y: Ty)
  {
    exists a :: a in done && a in cm && isStruct(pointee(a)) && pointee(a) == x && y in StructPointees(cm[a], pointee, isStruct)
  }

  /** The loop state of `extractStructs`. */
  ghost predicate Extracted(cm: CastMap, acc: CastMap, pointee: Ty -> Ty, isStruct: Ty -> bool, done: set<Ty>, r: CastMap)
  {
    && (forall x :: x in r <==> x in acc || exists a :: a in done && a in cm && isStruct(pointee(a)) && pointee(a) == x)
    && (forall x, y :: x in r && y in r[x] <==> (x in acc && y in acc[x]) || FromEntry(cm, done, pointee, isStruct, x, y))
  }

  lemma ExtractStep(cm: CastMap, acc: CastMap, pointee: Ty -> Ty, isStruct: Ty -> bool, todo: set<Ty>, r: CastMap, a: Ty)
    requires todo <= cm.Keys && a in todo && Extracted(cm, acc, pointee, isStruct, cm.Keys - todo, r)
    ensures isStruct(pointee(a)) ==> Extracted(cm, acc, pointee, isStruct, cm.Keys - (todo - {a}),
      r[pointee(a) := (if pointee(a) in r then r[pointee(a)] else {}) + StructPointees(cm[a], pointee, isStruct)])
    ensures !isStruct(pointee(a)) ==> Extracted(cm, acc, pointee, isStruct, cm.Keys - (todo - {a}), r)
  {
    var done := cm.Keys - todo;
    assert cm.Keys - (todo - {a}) == done + {a};
    if isStruct(pointee(a)) {
      var x0 := pointee(a);
      var r' := r[x0 := (if x0 in r then r[x0] else {}) + StructPointees(cm[a], pointee, isStruct)];
      forall x, y ensures x in r' && y in r'[x] <==> (x in acc && y in acc[x]) || FromEntry(cm, done + {a}, pointee, isStruct, x, y) {
        if x == x0 && y in StructPointees(cm[a], pointee, isStruct) {
          assert FromEntry(cm, done + {a}, pointee, isStruct, x, y);
        }
        if FromEntry(cm, done + {a}, pointee, isStruct, x, y) {
          var b :| b in done + {a} && b in cm && isStruct(pointee(b)) && pointee(b) == x && y in StructPointees(cm[b], pointee, isStruct);
          if b != a {
            assert FromEntry(cm, done, pointee, isStruct, x, y);
          }
        }
        if FromEntry(cm, done, pointee, isStruct, x, y) {
          assert FromEntry(cm, done + {a}, pointee, isStruct, x, y);
        }
      }
    } else {
      forall x, y ensures FromEntry(cm, done + {a}, pointee, isStruct, x, y) <==> FromEntry(cm, done, pointee, isStruct, x, y) {
        if FromEntry(cm, done + {a}, pointee, isStruct, x, y) {
          var b :| b in done + {a} && b in cm && isStruct(pointee(b)) && pointee(b) == x && y in StructPointees(cm[b], pointee, isStruct);
          assert b != a;
        }
      }
    }
  }

  /** `extractStructs`: for each entry whose key points to a structure, an
      entry for that structure is created if missing (possibly left empty)
      and gains every structure its targets point to. */
  method ExtractStructs(cm: CastMap, pointee: Ty -> Ty, isStruct: Ty -> bool, acc: CastMap) returns (r: CastMap)
    ensures forall x :: x in r <==> x in acc || exists a :: a in cm && isStruct(pointee(a)) && pointee(a) == x
    ensures forall x, y :: x in r && y in r[x] <==> (x in acc && y in acc[x]) || FromEntry(cm, cm.Keys, pointee, isStruct, x, y)
  {
    r := acc;
    var todo := cm.Keys;
    while todo != {}
      invariant todo <= cm.Keys
      invariant Extracted(cm, acc, pointee, isStruct, cm.Keys - todo, r)
      decreases |todo|
    {
      var a :| a in todo;
      ExtractStep(cm, acc, pointee, isStruct, todo, r, a);
      if isStruct(pointee(a)) {
        var lhs := pointee(a);
        var rhs := if lhs in r then r[lhs] else {};
        r := r[lhs := rhs + StructPointees(cm[a], pointee, isStruct)];
      }
      todo := todo - {a};
    }
    assert cm.Keys - todo == cm.Keys;
  }

  /** Every key and every target is a structure. */
  predicate StructsOnly(m: CastMap, isStruct: Ty -> bool)
  {
    forall x :: x in m ==> isStruct(x) && forall y :: y in m[x] ==> isStruct(y)
  }

  /** A chain of casts: each type is cast to the next. */
  ghost predicate Chain(cm: CastMap, s: seq<Ty>)
  {
    |s| >= 2 && forall i :: 0 <= i < |s| - 1 ==> s[i] in cm && s[i + 1] in cm[s[i]]
  }

  /** A closed map holding the casts holds the pair from the start of any
      chain of casts to its end, when the end is not the start. */
  lemma {:induction false} ChainInClosure(cm: CastMap, c: CastMap, s: seq<Ty>)
    requires Contains(c, cm) && Closed(c) && Chain(cm, s) && s[|s| - 1] != s[0]
    ensures s[0] in c && s[|s| - 1] in c[s[0]]
    decreases |s|
  {
    var k := |s| - 1;
    assert s[0] in cm && s[0] in c;
    if k > 1 && s[k - 1] != s[0] {
      var p := s[..k];
      assert forall i :: 0 <= i < |p| ==> p[i] == s[i];
      ChainInClosure(cm, c, p);
      assert s[k - 1] in cm && s[k] in cm[s[k - 1]];
    } else {
      assert s[k - 1] == s[0] by {
        if k == 1 {
        }
      }
      assert s[k] in cm[s[0]];
    }
  }

  /** What `extractStructs` into an empty map yields from `cm`. */
  ghost predicate StructPairs(cm: CastMap, pointee: Ty -> Ty, isStruct: Ty -> bool, r: CastMap)
  {
    && (forall x :: x in r <==> exists a :: a in cm && isStruct(pointee(a)) && pointee(a) == x)
    && (forall x, y :: x in r && y in r[x] <==> FromEntry(cm, cm.Keys, pointee, isStruct, x, y))
  }

  /** A pair of the closure between pointers to structures gives a pair of
      structures. */
  lemma StructPairOf(c: CastMap, pointee: Ty -> Ty, isStruct: Ty -> bool, r: CastMap, a: Ty, d: Ty)
    requires StructPairs(c, pointee, isStruct, r)
    requires a in c && d in c[a] && isStruct(pointee(a)) && isStruct(pointee(d))
    ensures pointee(a) in r && pointee(d) in r[pointee(a)]
  {
    assert pointee(d) in StructPointees(c[a], pointee, isStruct);
    assert FromEntry(c, c.Keys, pointee, isStruct, pointee(a), pointee(d));
  }

  /** A pair of structures comes from a pair of the closure, and so from a
      pair of any closed map that holds it. */
  lemma PairFromBound(c: CastMap, pointee: Ty -> Ty, isStruct: Ty -> bool, r: CastMap, bound: CastMap, x: Ty, y: Ty)
    requires StructPairs(c, pointee, isStruct, r) && Contains(bound, c)
    requires x in r && y in r[x]
    ensures exists a, d :: a in bound && d in bound[a] && pointee(a) == x && pointee(d) == y
  {
    assert FromEntry(c, c.Keys, pointee, isStruct, x, y);
    var a :| a in c && isStruct(pointee(a)) && pointee(a) == x && y in StructPointees(c[a], pointee, isStruct);
    var d :| d in c[a] && isStruct(pointee(d)) && y == pointee(d);
    assert a in bound && d in bound[a];
  }

  /** `buildCastMap` after the casts are collected: the closure, then the
      structure pairs of it into an empty map. Every key and target is a
      structure; the keys are the structures that cast sources point to;
      every chain of casts that does not return to its start and joins
      pointers to structures gives a pair; and every pair comes from a pair
      of any closed cast map that holds the casts, so there is no pair
      beyond the closure's. */
  method BuildCastMap(casts: CastMap, pointee: Ty -> Ty, isStruct: Ty -> bool, ghost bound: CastMap) returns (r: CastMap)
    ensures StructsOnly(r, isStruct)
    ensures forall x :: x in r <==> exists a :: a in casts && isStruct(pointee(a)) && pointee(a) == x
    ensures forall a, d :: a in casts && d in casts[a] && isStruct(pointee(a)) && isStruct(pointee(d)) ==>
      pointee(a) in r && pointee(d) in r[pointee(a)]
    ensures forall s :: Chain(casts, s) && s[|s| - 1] != s[0] && isStruct(pointee(s[0])) && isStruct(pointee(s[|s| - 1])) ==>
      pointee(s[0]) in r && pointee(s[|s| - 1]) in r[pointee(s[0])]
    ensures Contains(bound, casts) && Closed(bound) ==>
      forall x, y :: x in r && y in r[x] ==>
        exists a, d :: a in bound && d in bound[a] && pointee(a) == x && pointee(d) == y
  {
    var closed := ComputeTransitiveClosure(casts, bound);
    r := ExtractStructs(closed, pointee, isStruct, map[]);
    assert StructPairs(closed, pointee, isStruct, r);
    assert Contains(closed, casts);
    CastPairsKept(casts, closed, pointee, isStruct, r);
    if Contains(bound, casts) && Closed(bound) {
      PairsFromBound(closed, pointee, isStruct, r, bound);
    }
  }

  /** Every cast between pointers to structures, direct or through a chain,
      leaves its pair of structures in the map. */
  lemma CastPairsKept(casts: CastMap, closed: CastMap, pointee: Ty -> Ty, isStruct: Ty -> bool, r: CastMap)
    requires StructPairs(closed, pointee, isStruct, r) && Contains(closed, casts) && Closed(closed)
    ensures forall a, d :: a in casts && d in casts[a] && isStruct(pointee(a)) && isStruct(pointee(d)) ==>
      pointee(a) in r && pointee(d) in r[pointee(a)]
    ensures forall s :: Chain(casts, s) && s[|s| - 1] != s[0] && isStruct(pointee(s[0])) && isStruct(pointee(s[|s| - 1])) ==>
      pointee(s[0]) in r && pointee(s[|s| - 1]) in r[pointee(s[0])]
  {
    forall a, d | a in casts && d in casts[a] && isStruct(pointee(a)) && isStruct(pointee(d))
      ensures pointee(a) in r && pointee(d) in r[pointee(a)]
    {
      StructPairOf(closed, pointee, isStruct, r, a, d);
    }
    forall s | Chain(casts, s) && s[|s| - 1] != s[0] && isStruct(pointee(s[0])) && isStruct(pointee(s[|s| - 1]))
      ensures pointee(s[0]) in r && pointee(s[|s| - 1]) in r[pointee(s[0])]
    {
      ChainInClosure(casts, closed, s);
      StructPairOf(closed, pointee, isStruct, r, s[0], s[|s| - 1]);
    }
  }

  /** Every pair of the map comes from a pair of the bound. */
  lemma PairsFromBound(closed: CastMap, pointee: Ty -> Ty, isStruct: Ty -> bool, r: CastMap, bound: CastMap)
    requires StructPairs(closed, pointee, isStruct, r) && Contains(bound, closed)
    ensures forall x, y :: x in r && y in r[x] ==>
      exists a, d :: a in bound && d in bound[a] && pointee(a) == x && pointee(d) == y
  {
    forall x, y | x in r && y in r[x]
      ensures exists a, d :: a in bound && d in bound[a] && pointee(a) == x && pointee(d) == y
    {
      PairFromBound(closed, pointee, isStruct, r, bound, x, y);
    }
  }
}

=== FILE: sygus.dfy ===
/** The front end of the SyGuS invariant-problem reader: `tokenize` splits
    the text into top-level S-expressions and atoms, `extractLogic` and
    `extractInvName` read the `set-logic` and `synth-inv` commands from the
    tokens. Strings are sequences of `char`; `std::isspace` is the C-locale
    set of six blank characters; the two regular expressions are spelled
    out as the scanners they amount to. */
module SyGuS {
  import opened Wrappers

  /** `std::isspace` in the C locale: space, tab, newline, vertical tab,
      form feed, carriage return. */
  predicate IsSpace(c: char)
  {
    c == ' ' || c == '\t' || c == '\n' || c == '\r' || c as int == 11 || c as int == 12
  }

  /** The loop state of `tokenize`. */
  datatype Tokenizer = Tokenizer(inString: bool, depth: int, current: string, tokens: seq<string>)

  const Start := Tokenizer(false, 0, "", [])

  /** One iteration of the loop: a quote toggles string mode and is kept;
      inside a string everything is kept; an opening parenthesis at depth 0
      first ends the pending atom; a closing one that returns to depth 0
      ends the expression; blank at depth 0 ends the pending token and is
      dropped, blank inside parentheses is kept, and blank at a negative
      depth (after an unmatched `)`) is dropped without ending anything. */
  function Feed(t: Tokenizer, c: char): Tokenizer
  {
    if c == '"' then t.(inString := !t.inString, current := t.current + [c])
    else if t.inString then t.(current := t.current + [c])
    else if c == '(' then
      if t.depth == 0 && t.current != "" then t.(tokens := t.tokens + [t.current], current := [c], depth := t.depth + 1)
      else t.(current := t.current + [c], depth := t.depth + 1)
    else if c == ')' then
      if t.depth - 1 == 0 then t.(tokens := t.tokens + [t.current + [c]], current := "", depth := 0)
      else t.(current := t.current + [c], depth := t.depth - 1)
    else if IsSpace(c) then
      if t.depth == 0 && t.current != "" then t.(tokens := t.tokens + [t.current], current := "")
      else if t.depth > 0 then t.(current := t.current + [c])
      else t
    else t.(current := t.current + [c])
  }

  /** The loop over the input, character by character. */
  function FeedAll(t: Tokenizer, s: string): Tokenizer
  {
    if |s| == 0 then t else Feed(FeedAll(t, s[..|s| - 1]), s[|s| - 1])
  }

  /** A pending token is emitted at the end. */
  function Finish(t: Tokenizer): seq<string>
  {
    if t.current != "" then t.tokens + [t.current] else t.tokens
  }

  /** `tokenize`. */
  function Tokenize(input: string): seq<string>
  {
    Finish(FeedAll(Start, input))
  }

  /** Whether the scan is inside a string literal, and the parenthesis
      depth, after reading `s`: the bookkeeping of `tokenize` alone. */
  datatype Mode = Mode(inString: bool, depth: int)

  function ModeAfter(s: string): Mode
  {
    if |s| == 0 then Mode(false, 0) else ModeStep(ModeAfter(s[..|s| - 1]), s[|s| - 1])
  }

  function ModeStep(m: Mode, c: char): Mode
  {
    if c == '"' then Mode(!m.inString, m.depth)
    else if m.inString then m
    else if c == '(' then Mode(false, m.depth + 1)
    else if c == ')' then Mode(false, m.depth - 1)
    else m
  }

  /** A character is dropped when it is blank, outside any string and at
      depth 0 or below. */
  predicate Dropped(m: Mode, c: char)
  {
    c != '"' && !m.inString && IsSpace(c) && m.depth <= 0
  }

  /** The input without its dropped characters. */
  function Kept(s: string): string
  {
    if |s| == 0 then ""
    else
      var init := s[..|s| - 1];
      Kept(init) + (if Dropped(ModeAfter(init), s[|s| - 1]) then "" else [s[|s| - 1]])
  }

  function Concat(ts: seq<string>): string
  {
    if |ts| == 0 then "" else Concat(ts[..|ts| - 1]) + ts[|ts| - 1]
  }

  predicate NoEmptyToken(ts: seq<string>)
  {
    forall i :: 0 <= i < |ts| ==> ts[i] != ""
  }

  /** What the loop keeps: the tokens and the pending text spell out the
      kept characters so far, no token is empty, and the mode is the
      scan's. */
  predicate Tracks(t: Tokenizer, s: string)
  {
    Concat(t.tokens) + t.current == Kept(s)
    && NoEmptyToken(t.tokens)
    && t.inString == ModeAfter(s).inString && t.depth == ModeAfter(s).depth
  }

  lemma ConcatSnoc(ts: seq<string>, x: string)
    ensures Concat(ts + [x]) == Concat(ts) + x
  {
    assert (ts + [x])[..|ts|] == ts;
  }

  /** One character keeps the loop state in step with the scan. */
  lemma FeedTracks(t: Tokenizer, s: string, c: char)
    requires Tracks(t, s)
    ensures Tracks(Feed(t, c), s + [c])
  {
    ScanStep(s, c);
    var kept := if Dropped(ModeAfter(s), c) then "" else [c];
    var r := Feed(t, c);
    if c == '"' || t.inString || !(c == '(' || c == ')' || IsSpace(c)) {
      assert r.tokens == t.tokens && r.current == t.current + kept;
    } else if c == '(' {
      if t.depth == 0 && t.current != "" {
        ConcatSnoc(t.tokens, t.current);
        assert r.current == kept;
      } else {
        assert r.tokens == t.tokens && r.current == t.current + kept;
      }
    } else if c == ')' {
      if t.depth - 1 == 0 {
        ConcatSnoc(t.tokens, t.current + [c]);
        assert r.current == "" && kept == [c];
      } else {
        assert r.tokens == t.tokens && r.current == t.current + kept;
      }
    } else {
      if t.depth == 0 && t.current != "" {
        ConcatSnoc(t.tokens, t.current);
        assert r.current == "" && kept == "";
      } else {
        assert r.tokens == t.tokens && r.current == t.current + kept;
      }
    }
  }

  /** Reading one more character extends the scan by one step. */
  lemma ScanStep(s: string, c: char)
    ensures ModeAfter(s + [c]) == ModeStep(ModeAfter(s), c)
    ensures Kept(s + [c]) == Kept(s) + (if Dropped(ModeAfter(s), c) then "" else [c])
  {
    var s' := s + [c];
    assert s'[..|s'| - 1] == s && s'[|s'| - 1] == c;
  }

  lemma {:induction false} FeedAllTracks(s: string)
    ensures Tracks(FeedAll(Start, s), s)
  {
    if |s| > 0 {
      var init := s[..|s| - 1];
      FeedAllTracks(init);
      FeedTracks(FeedAll(Start, init), init, s[|s| - 1]);
      assert init + [s[|s| - 1]] == s;
    }
  }

  /** No token is empty, and the tokens spell out the input without the
      blanks that lie outside strings and parentheses: every other
      character, in particular everything inside parentheses or string
      literals, is kept in order. */
  lemma TokenizeKeeps(input: string)
    ensures NoEmptyToken(Tokenize(input))
    ensures Concat(Tokenize(input)) == Kept(input)
  {
    FeedAllTracks(input);
    FinishKeeps(FeedAll(Start, input), input);
  }

  /** Emitting the pending token keeps what the loop state tracks. */
  lemma FinishKeeps(t: Tokenizer, s: string)
    requires Tracks(t, s)
    ensures NoEmptyToken(Finish(t))
    ensures Concat(Finish(t)) == Kept(s)
  {
    ConcatSnoc(t.tokens, t.current);
    if t.current == "" {
      assert Concat(t.tokens) + t.current == Concat(t.tokens);
    }
  }

  /** Feeding a string runs the loop on each part in turn. */
  lemma {:induction false} FeedAllAppend(t: Tokenizer, x: string, y: string)
    ensures FeedAll(t, x + y) == FeedAll(FeedAll(t, x), y)
  {
    if |y| > 0 {
      var xy := x + y;
      assert xy[..|xy| - 1] == x + y[..|y| - 1] && xy[|xy| - 1] == y[|y| - 1];
      FeedAllAppend(t, x, y[..|y| - 1]);
    } else {
      assert x + y == x;
    }
  }

  /** The loop only appends to the tokens it was given. */
  lemma {:induction false} FeedAllShift(t: Tokenizer, pre: seq<string>, s: string)
    ensures FeedAll(t.(tokens := pre + t.tokens), s) == FeedAll(t, s).(tokens := pre + FeedAll(t, s).tokens)
  {
    if |s| > 0 {
      FeedAllShift(t, pre, s[..|s| - 1]);
      var u := FeedAll(t, s[..|s| - 1]);
      assert forall x :: pre + (u.tokens + [x]) == (pre + u.tokens) + [x];
    }
  }

  /** A blank outside strings and parentheses separates: the tokens of the
      whole are the tokens of the part before it followed by the tokens of
      the part after it. */
  lemma SeparatedByBlank(a: string, c: char, b: string)
    requires IsSpace(c) && ModeAfter(a) == Mode(false, 0)
    ensures Tokenize(a + [c] + b) == Tokenize(a) + Tokenize(b)
  {
    FeedAllTracks(a);
    var ta := FeedAll(Start, a);
    var pre := Finish(ta);
    var mid := Feed(ta, c);
    assert mid == Start.(tokens := pre + []) by {
      assert ta.depth == 0 && !ta.inString;
    }
    assert FeedAll(Start, a + [c]) == mid by {
      assert (a + [c])[..|a|] == a;
    }
    FeedAllAppend(Start, a + [c], b);
    FeedAllShift(Start, pre, b);
    var u := FeedAll(Start, b);
    assert FeedAll(Start, a + [c] + b) == u.(tokens := pre + u.tokens);
    assert Finish(u.(tokens := pre + u.tokens)) == pre + Finish(u);
  }

  /** `token.find(prefix) == 0`. */
  predicate StartsWith(s: string, prefix: string)
  {
    |prefix| <= |s| && s[..|prefix|] == prefix
  }

  /** The length of the longest run from position `i` whose characters
      satisfy `p`. */
  function RunLength(s: string, i: nat, p: char -> bool): (n: nat)
    requires i <= |s|
    ensures i + n <= |s|
    ensures forall k :: i <= k < i + n ==> p(s[k])
    ensures i + n < |s| ==> !p(s[i + n])
    decreases |s| - i
  {
    if i < |s| && p(s[i]) then 1 + RunLength(s, i + 1, p) else 0
  }

  predicate IsUpper(c: char)
  {
    'A' <= c <= 'Z'
  }

  /** `[a-zA-Z0-9_-]`. */
  predicate IsNameChar(c: char)
  {
    'a' <= c <= 'z' || 'A' <= c <= 'Z' || '0' <= c <= '9' || c == '_' || c == '-'
  }

  /** `\(set-logic\s+([A-Z]+)\)` matched at position `p`: the blanks and the
      capitals are each a maximal run, since the character after either run
      could not continue the pattern otherwise. */
  function LogicAt(s: string, p: nat): Option<string>
  {
    if p > |s| || !StartsWith(s[p..], "(set-logic") then None
    else
      var q := p + 10;
      var w := RunLength(s, q, IsSpace);
      var u := RunLength(s, q + w, IsUpper);
      if w > 0 && u > 0 && q + w + u < |s| && s[q + w + u] == ')' then Some(s[q + w..q + w + u]) else None
  }

  /** `\(synth-inv\s+([a-zA-Z0-9_-]+)` matched at position `p`; the name
      is the maximal run of name characters. */
  function InvNameAt(s: string, p: nat): (r: Option<string>)
    ensures r.Some? ==> NameLike(r.value)
  {
    if p > |s| || !StartsWith(s[p..], "(synth-inv") then None
    else
      var q := p + 10;
      var w := RunLength(s, q, IsSpace);
      var u := RunLength(s, q + w, IsNameChar);
      if w > 0 && u > 0 then Some(s[q + w..q + w + u]) else None
  }

  /** `std::regex_search`: the leftmost position where the pattern matches. */
  function Search(s: string, p: nat, at: (string, nat) -> Option<string>): (r: Option<string>)
    requires p <= |s|
    ensures r.Some? ==> exists q :: p <= q <= |s| && at(s, q) == r && forall q' :: p <= q' < q ==> at(s, q').None?
    ensures r.None? ==> forall q :: p <= q <= |s| ==> at(s, q).None?
    decreases |s| - p
  {
    if at(s, p).Some? then at(s, p)
    else if p == |s| then None
    else Search(s, p + 1, at)
  }

  /** A token the extraction loop accepts: it starts with the command's
      prefix and the pattern is found in it. */
  predicate Matches(token: string, prefix: string, at: (string, nat) -> Option<string>)
  {
    StartsWith(token, prefix) && Search(token, 0, at).Some?
  }

  /** Token `i` is the first one the extraction loop accepts. */
  predicate FirstAccepted(tokens: seq<string>, prefix: string, at: (string, nat) -> Option<string>, i: int)
  {
    0 <= i < |tokens| && Matches(tokens[i], prefix, at) && forall j :: 0 <= j < i ==> !Matches(tokens[j], prefix, at)
  }

  /** The first token that starts with `prefix` and in which the pattern
      is found gives the result; a token that starts with the prefix but
      does not match is passed over. */
  function FirstMatch(tokens: seq<string>, prefix: string, at: (string, nat) -> Option<string>): (r: Option<string>)
    ensures r.Some? ==> exists i :: FirstAccepted(tokens, prefix, at, i) && Search(tokens[i], 0, at) == r
    ensures r.None? <==> forall i :: 0 <= i < |tokens| ==> !Matches(tokens[i], prefix, at)
    ensures forall i :: FirstAccepted(tokens, prefix, at, i) ==> r == Search(tokens[i], 0, at)
  {
    if |tokens| == 0 then None
    else if Matches(tokens[0], prefix, at) then Search(tokens[0], 0, at)
    else
      var r := FirstMatch(tokens[1..], prefix, at);
      assert forall i :: 1 <= i < |tokens| ==> tokens[i] == tokens[1..][i - 1];
      assert forall i :: 0 <= i < |tokens[1..]| ==> tokens[1..][i] == tokens[i + 1];
      r
  }

  const DefaultLogic := "LIA"

  /** `extractLogic`: the logic named by the first `set-logic` command that
      fits the pattern, else `LIA`. */
  function ExtractLogic(tokens: seq<string>): (logic: string)
    ensures forall i :: FirstAccepted(tokens, "(set-logic", LogicAt, i) ==> logic == Search(tokens[i], 0, LogicAt).value
    ensures (forall i :: 0 <= i < |tokens| ==> !Matches(tokens[i], "(set-logic", LogicAt)) ==> logic == DefaultLogic
    ensures (forall i :: 0 <= i < |tokens| ==> !StartsWith(tokens[i], "(set-logic")) ==> logic == DefaultLogic
  {
    match FirstMatch(tokens, "(set-logic", LogicAt)
    case Some(l) => l
    case None => DefaultLogic
  }

  /** `extractInvName`: the name in the first `synth-inv` command that fits
      the pattern; the exception when there is none is the error case. */
  function ExtractInvName(tokens: seq<string>): (r: Result<string, string>)
    ensures r.Err? <==> forall i :: 0 <= i < |tokens| ==> !Matches(tokens[i], "(synth-inv", InvNameAt)
    ensures forall i :: FirstAccepted(tokens, "(synth-inv", InvNameAt, i) ==> r == Ok(Search(tokens[i], 0, InvNameAt).value)
    ensures r.Ok? ==> NameLike(r.value)
  {
    match FirstMatch(tokens, "(synth-inv", InvNameAt)
    case Some(n) =>
      InvNameWellFormed(tokens);
      Ok(n)
    case None => Err("Invariant function name not found")
  }

  /** A non-empty run of name characters. */
  predicate NameLike(n: string)
  {
    n != "" && forall k :: 0 <= k < |n| ==> IsNameChar(n[k])
  }

  lemma InvNameWellFormed(tokens: seq<string>)
    ensures var r := FirstMatch(tokens, "(synth-inv", InvNameAt); r.Some? ==> NameLike(r.value)
  {
    var r := FirstMatch(tokens, "(synth-inv", InvNameAt);
    if r.Some? {
      var i :| 0 <= i < |tokens| && Matches(tokens[i], "(synth-inv", InvNameAt) && Search(tokens[i], 0, InvNameAt) == r;
      var q :| 0 <= q <= |tokens[i]| && InvNameAt(tokens[i], q) == r;
    }
  }

  /** A well-formed command gives back what it names. */
  lemma LogicOfCommand(logic: string, rest: seq<string>)
    requires logic != "" && forall k :: 0 <= k < |logic| ==> IsUpper(logic[k])
    ensures ExtractLogic(["(set-logic " + logic + ")"] + rest) == logic
  {
    var t := "(set-logic " + logic + ")";
    assert StartsWith(t, "(set-logic");
    assert t[0..] == t;
    assert RunLength(t, 10, IsSpace) == 1 by {
      assert t[10] == ' ' && !IsSpace(t[11]);
    }
    RunOf(t, 11, logic, IsUpper);
    assert LogicAt(t, 0) == Some(logic) by {
      assert t[11..11 + |logic|] == logic;
    }
    assert FirstAccepted(["(set-logic " + logic + ")"] + rest, "(set-logic", LogicAt, 0);
  }

  /** A `synth-inv` command whose name is followed by anything that cannot
      continue a name gives back that name. */
  lemma InvNameOfCommand(name: string, tail: string, rest: seq<string>)
    requires NameLike(name)
    requires tail == "" || !IsNameChar(tail[0])
    ensures ExtractInvName(["(synth-inv " + name + tail] + rest) == Ok(name)
  {
    var t := "(synth-inv " + name + tail;
    assert StartsWith(t, "(synth-inv");
    assert t[0..] == t;
    assert RunLength(t, 10, IsSpace) == 1 by {
      assert t[10] == ' ' && !IsSpace(t[11]);
    }
    assert 11 + |name| < |t| ==> t[11 + |name|] == tail[0];
    RunOf(t, 11, name, IsNameChar);
    assert InvNameAt(t, 0) == Some(name) by {
      assert t[11..11 + |name|] == name;
    }
    assert FirstAccepted(["(synth-inv " + name + tail] + rest, "(synth-inv", InvNameAt, 0);
  }

  /** The maximal run of `p` starting where `w` sits in `t`. */
  lemma RunOf(t: string, i: nat, w: string, p: char -> bool)
    requires i + |w| <= |t| && t[i..i + |w|] == w
    requires forall k :: 0 <= k < |w| ==> p(w[k])
    requires i + |w| < |t| ==> !p(t[i + |w|])
    ensures RunLength(t, i, p) == |w|
    decreases |w|
  {
    if |w| > 0 {
      assert t[i] == w[0];
      assert t[i + 1..i + 1 + |w[1..]|] == w[1..];
      RunOf(t, i + 1, w[1..], p);
    }
  }

  /** The first well-formed command wins. */
  lemma FirstLogicWins()
    ensures ExtractLogic(["(set-logic ALL)", "(set-logic LIA)"]) == "ALL"
  {
    assert "(set-logic " + "ALL" + ")" == "(set-logic ALL)";
    LogicOfCommand("ALL", ["(set-logic LIA)"]);
    assert ["(set-logic ALL)"] + ["(set-logic LIA)"] == ["(set-logic ALL)", "(set-logic LIA)"];
  }

  /** A logic in lower case does not fit the pattern, so the default
      applies. */
  lemma LowerCaseLogic()
    ensures ExtractLogic(["(set-logic lia)"]) == DefaultLogic
  {
    var t := "(set-logic lia)";
    LowerCaseNoMatch(t);
    SearchSkips(t, 0, |t|, LogicAt);
    assert !Matches([t][0], "(set-logic", LogicAt);
  }

  lemma LowerCaseNoMatch(t: string)
    requires t == "(set-logic lia)"
    ensures forall q :: 0 <= q <= |t| ==> LogicAt(t, q).None?
  {
    assert LogicAt(t, 0).None? by {
      assert t[0..] == t;
      assert RunLength(t, 10, IsSpace) == 1;
      assert RunLength(t, 11, IsUpper) == 0;
    }
    forall q | 1 <= q <= |t| ensures LogicAt(t, q).None? {
      assert q < |t| ==> t[q..][0] == t[q] != '(';
    }
  }

  /** The search passes over positions where the pattern does not match. */
  lemma {:induction false} SearchSkips(s: string, p: nat, q: nat, at: (string, nat) -> Option<string>)
    requires p <= q <= |s|
    requires forall k :: p <= k < q ==> at(s, k).None?
    ensures Search(s, p, at) == Search(s, q, at)
    decreases q - p
  {
    if p < q {
      SearchSkips(s, p + 1, q, at);
    }
  }

  lemma InvNameExample()
    ensures ExtractInvName(["(synth-inv f x)", "(synth-inv g y)"]) == Ok("f")
  {
    assert "(synth-inv " + "f" + " x)" == "(synth-inv f x)";
    InvNameOfCommand("f", " x)", ["(synth-inv g y)"]);
    assert ["(synth-inv f x)"] + ["(synth-inv g y)"] == ["(synth-inv f x)", "(synth-inv g y)"];
  }
}

=== FILE: table.dfy ===
/** The results table the benchmark scripts read and rewrite: each row is the
    dictionary `csv.DictReader` yields, keyed by the header's column names. */
module Table {
  import opened Wrappers
  import opened Strings

  /** One CSV row: column name to cell text. */
  type Row = map<string, string>

  /** Python's `KeyError`, raised by `row[key]` on a missing column. */
  datatype KeyError = KeyError(key: string)

  /** `row[key]`, failing with `KeyError` when the column is absent. */
  function Get(row: Row, key: string): Result<string, KeyError>
  {
    if key in row then Ok(row[key]) else Err(KeyError(key))
  }

  /** What a filtering script's `main` leaves on disk. */
  datatype Output =
    | Unchanged
      /** `write_csv`: a header line naming `fieldnames`, then `rows`, in `path`. */
    | Written(path: string, fieldnames: set<string>, rows: seq<Row>)

  /** The tail of `main` shared by the two filter scripts: when the filter kept
      fewer rows than it read, the kept rows go to `<path>_new.csv` under the
      first row's columns; otherwise nothing is written. */
  function Rewrite(path: string, data: seq<Row>, kept: seq<Row>): (o: Output)
    requires |kept| <= |data|
  {
    if |kept| < |data| then Written(path + "_new.csv", data[0].Keys, kept) else Unchanged
  }

  /** The number of pairs `zip(keys, fields)` makes. */
  function ZipLength(keys: seq<string>, fields: seq<string>): nat
  {
    if |keys| < |fields| then |keys| else |fields|
  }

  /** What `dict(zip(keys, fields))` holds: a column for every key that has
      a field, and under each key the field of its last pairing. */
  predicate Zipped(r: Row, keys: seq<string>, fields: seq<string>)
  {
    var n := ZipLength(keys, fields);
    && r.Keys == (set j | 0 <= j < n :: keys[j])
    && forall j :: 0 <= j < n && keys[j] !in keys[j + 1..n] ==> r[keys[j]] == fields[j]
  }

  /** `dict(zip(keys, fields))`: keys paired with fields up to the shorter
      list; a repeated key keeps its last field. */
  function RowOf(keys: seq<string>, fields: seq<string>): (r: Row)
    ensures Zipped(r, keys, fields)
  {
    if |keys| == 0 || |fields| == 0 then map[]
    else
      var rest := RowOf(keys[1..], fields[1..]);
      RowOfCons(keys, fields, rest);
      map[keys[0] := fields[0]] + rest
  }

  /** Pairing the first key in front of the pairs of the tails. */
  lemma RowOfCons(keys: seq<string>, fields: seq<string>, rest: Row)
    requires |keys| > 0 && |fields| > 0 && Zipped(rest, keys[1..], fields[1..])
    ensures Zipped(map[keys[0] := fields[0]] + rest, keys, fields)
  {
    var n := ZipLength(keys, fields);
    var r := map[keys[0] := fields[0]] + rest;
    assert ZipLength(keys[1..], fields[1..]) == n - 1;
    assert forall j :: 1 <= j < n ==> keys[j] == keys[1..][j - 1];
    assert rest.Keys == set j | 1 <= j < n :: keys[j] by {
      forall k | k in rest.Keys ensures exists j :: 1 <= j < n && keys[j] == k {
        var j :| 0 <= j < n - 1 && keys[1..][j] == k;
        assert keys[j + 1] == k;
      }
    }
    forall j | 0 <= j < n && keys[j] !in keys[j + 1..n] ensures r[keys[j]] == fields[j] {
      if j == 0 {
        assert keys[0] !in rest.Keys by {
          forall i | 1 <= i < n ensures keys[i] != keys[0] {
            assert keys[i] == keys[1..n][i - 1];
          }
        }
      } else {
        assert keys[1..][j - 1] == keys[j];
        assert keys[1..][j..n - 1] == keys[j + 1..n];
      }
    }
  }

  /** With distinct keys and a field for each, every key maps to its own field. */
  lemma {:induction false} RowOfDistinct(keys: seq<string>, fields: seq<string>, i: nat)
    requires |fields| == |keys| && i < |keys|
    requires forall a, b :: 0 <= a < b < |keys| ==> keys[a] != keys[b]
    ensures RowOf(keys, fields)[keys[i]] == fields[i]
  {
    if i > 0 {
      RowOfDistinct(keys[1..], fields[1..], i - 1);
    } else if |keys| > 1 {
      assert keys[0] !in RowOf(keys[1..], fields[1..]) by {
        assert forall j :: 0 <= j < |keys[1..]| ==> keys[1..][j] != keys[0];
      }
    }
  }

  /** `csv.DictReader` over lines the writer never quotes: the first line's
      comma-separated names key every later line's comma-separated fields,
      so each later line gives one row holding the columns that line has a
      field for, each with its field. */
  function ReadDict(lines: seq<string>): (rows: seq<Row>)
    ensures |lines| == 0 ==> rows == []
    ensures |lines| > 0 ==> |rows| == |lines| - 1
    ensures |lines| > 0 ==> forall i :: 0 <= i < |rows| ==>
      Zipped(rows[i], Split(lines[0], ','), Split(lines[i + 1], ','))
  {
    if |lines| == 0 then []
    else
      var keys := Split(lines[0], ',');
      seq(|lines| - 1, i requires 0 <= i < |lines| - 1 => RowOf(keys, Split(lines[i + 1], ',')))
  }

  /** Row `i` of the table is the header zipped with line `i + 1`. */
  lemma ReadDictRow(lines: seq<string>, i: nat)
    requires i + 1 < |lines|
    ensures ReadDict(lines)[i] == RowOf(Split(lines[0], ','), Split(lines[i + 1], ','))
  {
    ZippedUnique(ReadDict(lines)[i], RowOf(Split(lines[0], ','), Split(lines[i + 1], ',')),
                 Split(lines[0], ','), Split(lines[i + 1], ','));
  }

  /** `dict(zip(keys, fields))` is determined by the two lists. */
  lemma ZippedUnique(r1: Row, r2: Row, keys: seq<string>, fields: seq<string>)
    requires Zipped(r1, keys, fields) && Zipped(r2, keys, fields)
    ensures r1 == r2
  {
    var n := ZipLength(keys, fields);
    forall k | k in r1 ensures r2[k] == r1[k] {
      var j0 :| 0 <= j0 < n && keys[j0] == k;
      var j := LastOccurrence(keys, n, k, j0);
    }
  }

  /** The last of the first `n` keys equal to `k`, given one of them. */
  lemma {:induction false} LastOccurrence(keys: seq<string>, n: nat, k: string, j0: nat) returns (j: nat)
    requires n <= |keys| && j0 < n && keys[j0] == k
    ensures j < n && keys[j] == k && k !in keys[j + 1..n]
    decreases n
  {
    if keys[n - 1] == k {
      j := n - 1;
    } else {
      j := LastOccurrence(keys, n - 1, k, j0);
      assert keys[j + 1..n] == keys[j + 1..n - 1] + [keys[n - 1]];
    }
  }
}

=== FILE: worklist.dfy ===
/** The deduplicating FIFO worklist of the global DSA pass: a queue of
    pending elements and the set of the same elements, so that an element
    already waiting is not queued a second time. */
module WorkList {

  /** An element, by identity (the pass queues call sites). */
  type Elem = nat

  datatype WorkList = WorkList(queue: seq<Elem>, pending: set<Elem>)

  /** No element is queued twice. */
  predicate Distinct(s: seq<Elem>)
  {
    forall i, j :: 0 <= i < j < |s| ==> s[i] != s[j]
  }

  /** The set holds exactly the queued elements, each queued once. */
  ghost predicate Valid(w: WorkList)
  {
    Distinct(w.queue) && (forall x :: x in w.pending <==> x in w.queue)
  }

  function Create(): (w: WorkList)
    ensures Valid(w) && Empty(w)
  {
    WorkList([], {})
  }

  predicate Empty(w: WorkList)
  {
    |w.queue| == 0
  }

  function Size(w: WorkList): nat
  {
    |w.queue|
  }

  /** `enqueue`: the element goes to the back unless it is already
      pending. */
  function Enqueue(w: WorkList, e: Elem): (r: WorkList)
    requires Valid(w)
    ensures Valid(r)
    ensures e in w.pending ==> r == w
    ensures e !in w.pending ==> r.queue == w.queue + [e] && r.pending == w.pending + {e}
  {
    if e in w.pending then w else WorkList(w.queue + [e], w.pending + {e})
  }

  /** `dequeue`: the front element comes out and stops being pending, so it
      may be queued again. The queue must not be empty. */
  function Dequeue(w: WorkList): (r: (Elem, WorkList))
    requires Valid(w) && !Empty(w)
    ensures Valid(r.1)
    ensures r.0 == w.queue[0] && r.1.queue == w.queue[1..]
    ensures r.0 !in r.1.pending && r.1.pending == w.pending - {r.0}
  {
    var e := w.queue[0];
    assert forall x :: x in w.queue[1..] ==> x != e by {
      forall x | x in w.queue[1..] ensures x != e {
        var i :| 0 <= i < |w.queue[1..]| && w.queue[1..][i] == x;
        assert w.queue[i + 1] == x;
      }
    }
    (e, WorkList(w.queue[1..], w.pending - {e}))
  }

  /** The elements of a queue. */
  function Elems(s: seq<Elem>): set<Elem>
  {
    set x | x in s
  }

  /** The distinct elements of a duplicate-free queue number its length. */
  lemma {:induction false} DistinctCount(s: seq<Elem>)
    requires Distinct(s)
    ensures |Elems(s)| == |s|
  {
    if |s| > 0 {
      var tail := s[1..];
      assert Distinct(tail) by {
        forall i, j | 0 <= i < j < |tail| ensures tail[i] != tail[j] {
          assert tail[i] == s[i + 1] && tail[j] == s[j + 1];
        }
      }
      DistinctCount(tail);
      assert Elems(s) == {s[0]} + Elems(tail) by {
        forall x ensures x in Elems(s) <==> x == s[0] || x in Elems(tail) {
          assert x in s <==> x == s[0] || x in tail by {
            assert s == [s[0]] + tail;
          }
        }
      }
      assert s[0] !in Elems(tail) by {
        forall i | 0 <= i < |tail| ensures tail[i] != s[0] {
          assert tail[i] == s[i + 1];
        }
      }
    }
  }

  /** `size` is the number of distinct pending elements. */
  lemma SizeIsPendingCount(w: WorkList)
    requires Valid(w)
    ensures Size(w) == |w.pending|
  {
    DistinctCount(w.queue);
    assert w.pending == Elems(w.queue);
  }

  /** First in, first out: an element enqueued behind a non-empty queue
      does not overtake its front, and a lone element comes straight back. */
  lemma FirstInFirstOut(w: WorkList, e: Elem)
    requires Valid(w)
    ensures !Empty(w) ==> Dequeue(Enqueue(w, e)).0 == Dequeue(w).0
    ensures Empty(w) ==> Dequeue(Enqueue(w, e)).0 == e && Empty(Dequeue(Enqueue(w, e)).1)
  {
  }

  /** A dequeued element may be queued again: it then sits at the back. */
  lemma Requeue(w: WorkList)
    requires Valid(w) && !Empty(w)
    ensures var (e, rest) := Dequeue(w);
      Enqueue(rest, e).queue == w.queue[1..] + [w.queue[0]]
  {
  }

  /** Enqueuing a list in order: the queue gains, in first-arrival order,
      the elements not already pending, each once. */
  function EnqueueAll(w: WorkList, xs: seq<Elem>): (r: WorkList)
    requires Valid(w)
    ensures Valid(r)
    ensures w.queue <= r.queue
    ensures forall x :: x in r.pending <==> x in w.pending || x in xs
    decreases |xs|
  {
    if |xs| == 0 then w
    else
      var r := EnqueueAll(Enqueue(w, xs[0]), xs[1..]);
      assert forall x :: x in xs <==> x == xs[0] || x in xs[1..] by {
        assert xs == [xs[0]] + xs[1..];
      }
      r
  }
}

=== FILE: wrappers.dfy ===
/** Failure-carrying result types shared by every module of the model. */
module Wrappers {

  /** A value that may be absent (a C++ null pointer, a Python `None`). */
  datatype Option<+T> = None | Some(value: T)

  /** Either a value or the error the source would raise instead. */
  datatype Result<+T, +E> = Ok(value: T) | Err(error: E)
}

=== FILE: zutils.dfy ===
/** `zUtils::shift_count_lt32`: the number of bits needed to hold a shift
    amount below a bit width `x`, for widths up to 32. The input is a C++
    `int`; here it is any integer. */
module ZUtils {

  import opened Powers

  /** The chain of thresholds as the source writes it. */
  function ShiftCountLt32(x: int): (s: nat)
    ensures s <= 5
    ensures x <= 1 ==> s == 0
    ensures x > 16 ==> s == 5
  {
    if x <= 1 then 0
    else if x <= 2 then 1
    else if x <= 4 then 2
    else if x <= 8 then 3
    else if x <= 16 then 4
    else 5
  }

  /** The least `s` with `x <= 2^s`: the ceiling of the binary logarithm,
      0 for `x <= 1`. */
  function CeilLog2(x: int): (s: nat)
    decreases if x < 1 then 0 else x
  {
    if x <= 1 then 0 else 1 + CeilLog2((x + 1) / 2)
  }

  /** `CeilLog2` is the least exponent whose power of two reaches `x`. */
  lemma {:induction false} CeilLog2Least(x: int)
    ensures x <= Pow2(CeilLog2(x))
    ensures x > 1 ==> Pow2(CeilLog2(x) - 1) < x
    decreases if x < 1 then 0 else x
  {
    if x > 1 {
      CeilLog2Least((x + 1) / 2);
    }
  }

  /** For widths from 2 to 16 the result is the ceiling of the binary
      logarithm, that is the least `s` with `x <= 2^s`; past 16 it is
      capped at 5, and below 2 it is 0. */
  lemma ShiftCountIsCappedLog(x: int)
    ensures ShiftCountLt32(x) == if CeilLog2(x) < 5 then CeilLog2(x) else 5
    ensures 2 <= x <= 16 ==> x <= Pow2(ShiftCountLt32(x)) && Pow2(ShiftCountLt32(x) - 1) < x
  {
    if x > 16 {
      assert Pow2(4) == 16;
      CeilLog2AtLeast(x, 4);
    } else if x > 1 {
      CeilLog2Least(x);
      assert CeilLog2(x) <= 4 by {
        CeilLog2Monotone(x, 16);
        assert CeilLog2(16) == 4;
      }
      assert Pow2(1) == 2 && Pow2(2) == 4 && Pow2(3) == 8 && Pow2(4) == 16;
    }
  }

  /** Past `2^k` the logarithm is above `k`. */
  lemma {:induction false} CeilLog2AtLeast(x: int, k: nat)
    requires x > Pow2(k)
    ensures CeilLog2(x) > k
  {
    CeilLog2Least(x);
    if CeilLog2(x) <= k {
      Pow2Monotone(CeilLog2(x), k);
    }
  }

  lemma {:induction false} CeilLog2Monotone(x: int, y: int)
    requires x <= y
    ensures CeilLog2(x) <= CeilLog2(y)
    decreases if y < 1 then 0 else y
  {
    if x > 1 {
      CeilLog2Monotone((x + 1) / 2, (y + 1) / 2);
    }
  }

  /** The result never decreases as the width grows. */
  lemma ShiftCountMonotone(x: int, y: int)
    requires x <= y
    ensures ShiftCountLt32(x) <= ShiftCountLt32(y)
  {
  }
}
